=== FILE: README.md ===
# SSL certificate crawler and dashboards: a Dafny model

This project models the core logic of a system that collects the TLS certificates of Pakistani (`.pk`) domains and shows them on dashboards:

- **Crawler work queues.** The three versions of the domain crawler (`main-v1.py`, `main-v2.py`, `main-v3.py`) keep a MongoDB collection of per-domain tasks. Each collection is a sequence of `Task` records in insertion (`_id`) order, with the domain unique. Each database operation is a pure transition on that sequence:
  - seeding from CSV;
  - the atomic claim;
  - the success and failure updates with back-off;
  - heartbeats, the stale-work reclaimer or recovery, and the completion test.

  Worker threads become arbitrary sequences of these atomic transitions. Lemmas state the queue invariants over every such sequence.
- **The certificate dashboards.** These are the arslan backend (`certificates/models.py`, `controllers.py`, `views.py`), the antigravity variant of its models, and the dashboard overview (`overview/models.py`, `filter_query.py`, `Date_helper.py`). Their models cover:
  - the Mongo filter documents the query builders produce (a small JSON tree);
  - the serialisation of certificate documents;
  - the country, issuer, grade, status and vulnerability derivations;
  - pagination;
  - the shaping of aggregation results into responses;
  - CSV export;
  - month arithmetic.

  The database runs the filters and returns the counts, so they reach the model as inputs.
- **The dataset scripts.**
  - `tranco-pk-domains.py` validates, normalises and merges `.pk` domains from ranking files.
  - `pk-domains-analysis-v2.py` collects `.pk` common names and removes a leading wildcard.
  - `extract-domains-1.py` sends certificates in batches to an external tool, pairs its output lines with the batch and writes the common names with a running index.

Values the code takes from outside arrive as parameters: the current time, file contents, what the external tool printed, parsed dates, and database query results. Python integers are unbounded, like Dafny's, so no wrap-around is modelled. String handling follows Python's `strip`, `lower`, `split` and slicing on ASCII text (module `PyStr`).

Module layout, one module per source component:

- `Wrappers`, `PyStr`, `Ordering`, `JsonTree`: shared vocabulary.
- `CrawlerV1`, `CrawlerV2`, `CrawlerV3`: the crawler queues.
- `CertModels`, `CertListing`, `HashPatterns`, `Calendar`: the arslan backend models.
- `CertAntigravity`: the antigravity models.
- `Controllers`, `Views`: the arslan controllers and views.
- `Overview`, `FilterQuery`, `DateHelper`: the dashboard overview.
- `Tranco`, `PkAnalysis`, `ExtractCn`: the dataset scripts.

## Model

| member | source | states |
|---|---|---|
| CertAntigravity.FullLints | arslan-dashboard/antigravity/backend/certificates/models.py:317 | the details are the zlint section's whole `lints` map |
| CertAntigravity.SerializeEarly | arslan-dashboard/antigravity/backend/certificates/models.py:255-318 | this variant's details are always present and hold the whole `lints` map; domain and country are derived as in the later variant |
| CertAntigravity.SameDerivations | arslan-dashboard/antigravity/backend/certificates/models.py:255-318 | apart from the zlint details, the two variants serialise a document alike |
| CertAntigravity.DetailsWithinFullLints | arslan-dashboard/antigravity/backend/certificates/models.py:317 | the later variant's details are exactly this variant's error and warning entries, unchanged |
| CertAntigravity.SerializeAll | arslan-dashboard/antigravity/backend/certificates/models.py:452-460 | one serialised row per cursor document, in cursor order |
| CertAntigravity.KeepCountry | arslan-dashboard/antigravity/backend/certificates/models.py:456-458 | the kept rows are exactly the rows of that country, as many as there are positions holding such a row |
| CertAntigravity.KeepCountryAppend | arslan-dashboard/antigravity/backend/certificates/models.py:456-458 | the filter keeps the cursor order: the kept rows of a concatenation are those of its first part followed by those of its second |
| CertAntigravity.RawCountry | arslan-dashboard/antigravity/backend/certificates/models.py:466 | the recount reads the country of the stored `domain` text, a missing field as `""` |
| CertAntigravity.RawCount | arslan-dashboard/antigravity/backend/certificates/models.py:463-467 | the recount is the number of matching documents whose stored domain names the country |
| CertAntigravity.SkipLimit | arslan-dashboard/antigravity/backend/certificates/models.py:449-450 | the page is the run of documents from the skip on, at most the limit's magnitude of them, all of them for limit 0; a negative skip raises |
| CertAntigravity.SkipLimitPositive | arslan-dashboard/antigravity/backend/certificates/models.py:449-450 | for a page from 1 and a positive size the page is the slice from `(page - 1) * size` of that size |
| CertAntigravity.ListingOf | arslan-dashboard/antigravity/backend/certificates/models.py:469-477 | the listing carries its rows and total and at least one page |
| CertAntigravity.CountryListing | arslan-dashboard/antigravity/backend/certificates/models.py:456-477 | with a country, the page's rows are narrowed to that country after pagination while the total recounts every matching document of the country; without one, the page and the match count are answered as they are |
| CertAntigravity.VulnerableListing | arslan-dashboard/antigravity/backend/certificates/models.py:417-443 | only flagged certificates are counted and paginated; it raises exactly on a negative skip or a zero page size |
| CertAntigravity.GetAllEarly | arslan-dashboard/antigravity/backend/certificates/models.py:321-478 | with `has_vulnerabilities` the flagged path answers; otherwise the page's rows are filtered by country after pagination, while the total counts every match of the country; it raises exactly on a negative skip or a zero page size |
| CertAntigravity.VulnerableIgnoresOtherFilters | arslan-dashboard/antigravity/backend/certificates/models.py:417-443 | with `has_vulnerabilities` set the answer ignores every other filter |
| CertAntigravity.PkSuffix | arslan-dashboard/antigravity/backend/certificates/models.py:56-69 | a domain ending in `.pk` is Pakistani |
| CertAntigravity.CountriesOfExamples | arslan-dashboard/antigravity/backend/certificates/models.py:56-69 | a dotless domain is `Unknown` and a `.pk` domain Pakistani, both in the recount and in the serialised row |
| CertAntigravity.KeepOne | arslan-dashboard/antigravity/backend/certificates/models.py:456-458 | one row is kept exactly when its country matches |
| CertAntigravity.ExamplePages | arslan-dashboard/antigravity/backend/certificates/models.py:445-478 | with one row per page and an unknown domain before a Pakistani one, page 1 is empty yet reports 1 page |
| CertAntigravity.CountryMatchBeyondLastPage | arslan-dashboard/antigravity/backend/certificates/models.py:445-478 | the Pakistani certificate shows only on page 2, beyond the single page the answer reports |
| CertAntigravity.GetAllCountryFirst | arslan-dashboard/antigravity/backend/certificates/models.py:445-478 | the corrected listing filters by country before paginating, and counts the same rows it paginates |
| CertAntigravity.EveryMatchOnSomePage | arslan-dashboard/antigravity/backend/certificates/models.py:445-478 | in the corrected listing every certificate of the country shows on some page within the reported page count |
| CertAntigravity.PageCountWithinTotalPages | arslan-dashboard/antigravity/backend/certificates/models.py:475 | the exact page count never exceeds `max(1, ceil(total / size))` |
| CertListing.FloorDiv | arslan-dashboard/backend/certificates/models.py:504 | Python's `//` rounds towards minus infinity for either sign of divisor |
| CertListing.TotalPages | arslan-dashboard/backend/certificates/models.py:504 | the page count raises exactly for a page size of 0, is at least 1, is 1 for no records, and otherwise fits the records on its last page |
| CertListing.EmptyListing | arslan-dashboard/backend/certificates/models.py:510-518 | the early empty answer reports no certificates, total 0 and 0 pages |
| CertListing.Paged | arslan-dashboard/backend/certificates/models.py:497-506 | a page carries the rows and total it was given and the page count of `TotalPages`, and raises exactly for a page size of 0 |
| CertListing.BucketDays | arslan-dashboard/backend/certificates/models.py:458-465 | exactly the four named validity buckets have a day range, each non-empty |
| CertListing.BucketListing | arslan-dashboard/backend/certificates/models.py:455-518 | the bucket path answers the aggregation's page and count, or the empty answer when the aggregation raised or came back empty |
| CertListing.CountryTlds | arslan-dashboard/backend/certificates/models.py:553 | the TLDs selected for a country are exactly the table keys mapped to it |
| CertListing.Filter | arslan-dashboard/backend/certificates/models.py:553 | the comprehension keeps exactly the keys mapped to the country |
| CertListing.OrderCovers | arslan-dashboard/backend/certificates/models.py:10-40 | the dict's iteration order lists exactly the table's keys |
| CertListing.CountryRegex | arslan-dashboard/backend/certificates/models.py:550-583 | no regex, and so the empty answer, exactly for a country no TLD maps to |
| CertListing.CountryRegexAgrees | arslan-dashboard/backend/certificates/models.py:550-572 | the database-side country regex matches a domain exactly when the serialised country of that domain is the country asked for |
| CertListing.CountryMatchesRegex | arslan-dashboard/backend/certificates/models.py:556-568 | a domain whose derived country is the one asked for matches the regex |
| CertListing.RegexMatchesCountry | arslan-dashboard/backend/certificates/models.py:556-568 | a domain the regex matches has the country asked for |
| CertListing.MatchingTld | arslan-dashboard/backend/certificates/models.py:556-568 | a match comes from one alternative: a table key of that country that ends the lower-cased domain after a dot |
| CertListing.DotlessTld | arslan-dashboard/backend/certificates/models.py:558-564 | a suffix that matches a dotted key also matches a dotless key of the same country |
| CertListing.LastLabelDecides | arslan-dashboard/backend/certificates/models.py:66-68 | a domain ending in a dot and a dotless table key has that key's country |
| CertListing.LastLabelIs | arslan-dashboard/backend/certificates/models.py:66-68 | a last label that is a table key gives that key's country |
| CertListing.Ranked | arslan-dashboard/backend/certificates/models.py:991-1001 | one entry per aggregation row, in order, with its issuer, count, the shared maximum and the colour of its position |
| CertListing.CaDistribution | arslan-dashboard/backend/certificates/models.py:929-1018 | no certificates give no entries; otherwise one entry per ranked issuer, plus a last `Others` entry with the remainder exactly when the ranked counts fall short of the total; every entry carries the first count as its maximum, or 1 when there are no rows |
| CertListing.CaCountsCoverTotal | arslan-dashboard/backend/certificates/models.py:1003-1015 | when the ranked counts do not exceed the total, the entries' counts add up to the total |
| CertListing.RankedSum | arslan-dashboard/backend/certificates/models.py:991-1004 | the ranked entries add up to the aggregation's counts |
| CertListing.AddIfPositive | arslan-dashboard/backend/certificates/models.py:1477-1488 | an entry is appended exactly when its count is positive |
| CertListing.AddKeepsOrder | arslan-dashboard/backend/certificates/models.py:1476-1542 | appending a later topic keeps the entries in topic order |
| CertListing.ExpiryPartShape | arslan-dashboard/backend/certificates/models.py:1477-1503 | the expiry entries come in order, and the 3-to-7-day entry, with the difference as its count, is present exactly when the seven-day count exceeds the two-day count |
| CertListing.SecurityPartShape | arslan-dashboard/backend/certificates/models.py:1505-1542 | the security and expired entries follow the expiry entries, in topic order |
| CertListing.NotificationListShape | arslan-dashboard/backend/certificates/models.py:1476-1542 | every listed count is positive, no topic appears twice, and the 3-to-7-day entry is present exactly when the seven-day count exceeds the two-day count |
| CertListing.GetNotifications | arslan-dashboard/backend/certificates/models.py:1404-1548 | no aggregation row gives an empty answer; otherwise the list is built from the five facet counts; unread and total counts equal the list's length |
| CertListing.ExpiringTotalAdd | arslan-dashboard/backend/certificates/models.py:1477-1503 | appending an entry adds its count to the expiry total exactly when its topic is an expiry topic |
| CertListing.SecurityPartNotExpiring | arslan-dashboard/backend/certificates/models.py:1505-1542 | the security and expired entries add nothing to the expiry total |
| CertListing.ExpiringCountsCoverSevenDays | arslan-dashboard/backend/certificates/models.py:1477-1503 | the two expiry entries together count the larger of the seven-day and two-day counts, with no certificate counted twice |
| CertListing.MonthsFrom | arslan-dashboard/backend/certificates/models.py:1380-1399 | the loop visits each month from the start to the end month once, in order, one month apart |
| CertListing.TimelineKeyInjective | arslan-dashboard/backend/certificates/models.py:1369-1384 | different months have different lookup keys |
| CertListing.IssuanceTimeline | arslan-dashboard/backend/certificates/models.py:1267-1401 | the timeline has one point per requested month, ending with the current month, each a valid month one after the previous |
| CertModels.Lookup | arslan-dashboard/backend/certificates/models.py:10-40 | a table lookup answers exactly for the table's keys, with the country stored for that key |
| CertModels.GetTldCountry | arslan-dashboard/backend/certificates/models.py:56-69 | an empty or dotless domain is `Unknown`; every other answer is `Unknown` or a country of the table |
| CertModels.LabelsCountry | arslan-dashboard/backend/certificates/models.py:60-69 | fewer than two labels give `Unknown`; otherwise the answer is `Unknown` or a country of the table |
| CertModels.TldCountryIgnoresCase | arslan-dashboard/backend/certificates/models.py:60 | the country of a domain does not depend on letter case |
| CertModels.OnlyDottedKey | arslan-dashboard/backend/certificates/models.py:10-40 | `co.uk` is the only table key that contains a dot |
| CertModels.TwoLabelLookupRedundant | arslan-dashboard/backend/certificates/models.py:62-68 | the two-label lookup never changes the answer: the country equals the last label's country |
| CertModels.LabelsAgree | arslan-dashboard/backend/certificates/models.py:62-68 | on labels without dots, the two-label lookup agrees with the last label's lookup |
| CertModels.DottedKeySuffix | arslan-dashboard/backend/certificates/models.py:15 | a two-label key ends in `uk` and names the same country as `uk` |
| CertModels.GetStatus | arslan-dashboard/backend/certificates/models.py:72-86 | `EXPIRED` exactly for a parsed end date before now, `EXPIRING_SOON` exactly within the next 31 days; unparsable dates and dates without a UTC offset count as `VALID` |
| CertModels.Lints | arslan-dashboard/backend/certificates/models.py:91-94 | the lints are examined exactly when the zlint section is truthy and has a `lints` key |
| CertModels.WithResult | arslan-dashboard/backend/certificates/models.py:95-96 | a lint name is selected exactly when its entry is a dict with the given result |
| CertModels.CountVulnerabilities | arslan-dashboard/backend/certificates/models.py:112-121 | no lints give zero counts; otherwise the counts are the numbers of `error` and `warn` lints |
| CertModels.GradeFromZlint | arslan-dashboard/backend/certificates/models.py:89-109 | `A` exactly when there are no lints; otherwise F, C or B for 3+, 2 or 1 errors, and B+, A- or A+ for 3+, 1-2 or 0 warnings when there are no errors |
| CertModels.FormatVulnerabilities | arslan-dashboard/backend/certificates/models.py:124-131 | the vulnerability label reads back as the error count with `Critical`, else the warning count with `Warning`, else `0 Found` |
| CertModels.LabelReadsBack | arslan-dashboard/backend/certificates/models.py:127-131 | the label of any counts reads back as the count that decided it, with its word |
| CertModels.PhraseReadsBack | arslan-dashboard/backend/certificates/models.py:128 | `f"{n} {word}"` reads back as n and the word |
| CertModels.GradeAgreesWithLabel | arslan-dashboard/backend/certificates/models.py:89-131 | when lints are present, the grade is F, C or B exactly when there are errors, and A+ exactly when the label is `0 Found` |
| CertModels.NothingFoundLabel | arslan-dashboard/backend/certificates/models.py:131 | `0 Found` reads back as zero and `Found` |
| CertModels.First | arslan-dashboard/backend/certificates/models.py:266-269 | `v[0]` of a non-empty list is its first item, and of a non-empty string its first character |
| CertModels.DomainOf | arslan-dashboard/backend/certificates/models.py:265-268 | the domain is the document's own if truthy, else the first common name, else `Unknown` |
| CertModels.KeyLength | arslan-dashboard/backend/certificates/models.py:273-278 | the key length is the RSA length if present, else the ECDSA length, else 0 |
| CertModels.HashName | arslan-dashboard/backend/certificates/models.py:285 | the hash part has no dash and is the whole name when the name has none |
| CertModels.EncryptionType | arslan-dashboard/backend/certificates/models.py:280-287 | without a key length it is the algorithm; otherwise algorithm and length, followed by the hash name exactly when the signature name mentions SHA |
| CertModels.ValidationLevel | arslan-dashboard/backend/certificates/models.py:289-297 | no policies give DV; otherwise EV exactly when the policy text mentions extended validation, and OV exactly when it mentions organization validation but not EV |
| CertModels.ZlintDetails | arslan-dashboard/backend/certificates/models.py:299-307 | details are empty unless errors or warnings are flagged; then they hold exactly the error and warn lints with their entries |
| CertModels.DetailsMatchCounts | arslan-dashboard/backend/certificates/models.py:299-307 | when the section is flagged, there is one detail entry per counted error and warning |
| CertModels.CountryOf | arslan-dashboard/backend/certificates/models.py:325 | the country is derived from the serialised domain; a non-text domain is read as `Unknown` (see Left out) |
| CertModels.Serialize | arslan-dashboard/backend/certificates/models.py:255-328 | the serialised certificate's domain, its country and its zlint details follow the derivations above |
| CertModels.Details | arslan-dashboard/backend/certificates/models.py:327 | the zlint details are `None` exactly when empty |
| CertModels.DateClause | arslan-dashboard/backend/certificates/models.py:156-170 | a date clause exists exactly when both dates are given and both parse, and it selects exactly the certificates whose stored end date is text within the two dates |
| CertModels.StatusClause | arslan-dashboard/backend/certificates/models.py:190-219 | a status has a clause exactly when its upper-cased name is VALID, EXPIRED, EXPIRING_SOON or WEAK; VALID selects end dates after 30 days from now, EXPIRED those up to now, EXPIRING_SOON those in between, WEAK an RSA key under 2048 bits |
| CertModels.LevelClause | arslan-dashboard/backend/certificates/models.py:224-241 | a level has a clause exactly when its upper-cased name is EV, OV or DV; EV selects certificates with policies, OV those with a subject organisation, DV those without |
| CertModels.Known | arslan-dashboard/backend/certificates/models.py:190-219 | the collected clauses are exactly the clauses of the names that have one, and none exactly when no name has one |
| CertModels.AnyOf | arslan-dashboard/backend/certificates/models.py:220-221 | one `$or` clause exactly when there are any clauses, and it selects what some clause selects |
| CertModels.IssuerClause | arslan-dashboard/backend/certificates/models.py:178-184 | the issuer clause selects exactly the certificates whose issuer organisation is a given issuer, or a list holding one, directly or one list further down |
| CertModels.StatusPart | arslan-dashboard/backend/certificates/models.py:190-221 | the status part selects what some given status selects, and anything when no given status is known |
| CertModels.LevelPart | arslan-dashboard/backend/certificates/models.py:224-244 | the level part selects what some given level selects, and anything when no given level is known |
| CertModels.Clauses | arslan-dashboard/backend/certificates/models.py:152-243 | every collected clause is non-empty, and together they select exactly the certificates ending within a parsed date range, naming a given issuer, and selected by some known status and some known level that were given |
| CertModels.Combine | arslan-dashboard/backend/certificates/models.py:246-252 | no clauses give `{}`, one clause is itself, two or more are joined under `$and`; the result selects exactly what every clause selects |
| CertModels.BuildFilterQuery | arslan-dashboard/backend/certificates/models.py:134-252 | the filter selects exactly the certificates the date, issuer, status and level conditions describe, and is `{}` exactly when no date clause applies, no issuers are given, and no status or level name is known |
| CertModels.UnknownStatusesAddNothing | arslan-dashboard/backend/certificates/models.py:190-221 | status names that none of the four branches recognises add no clause to the filter |
| CertModels.UnknownLevelsAddNothing | arslan-dashboard/backend/certificates/models.py:224-244 | level names that no branch recognises add no clause to the filter |
| CertModels.IgnoredArguments | arslan-dashboard/backend/certificates/models.py:172-188 | countries and grades never affect the filter, and neither do unknown status or level names |
| Controllers.ToCacheKey | arslan-dashboard/backend/certificates/controllers.py:21-26 | the key holds exactly the fields that are set, non-empty when they are lists, each with its value |
| Controllers.Effective | arslan-dashboard/backend/certificates/controllers.py:21-26 | a missing list and an empty one both count as unset; a non-empty list is kept as given |
| Controllers.HasFilters | arslan-dashboard/backend/certificates/controllers.py:28-37 | filters are active exactly when some field is a non-empty text or list |
| Controllers.EmptyKeyNoFilters | arslan-dashboard/backend/certificates/controllers.py:21-37 | an empty cache key means no filter is active |
| Controllers.KeyWithoutFilters | arslan-dashboard/backend/certificates/controllers.py:21-37 | the converse fails: an empty start date is kept in the key although no filter is active |
| Controllers.Namespace | arslan-dashboard/backend/certificates/controllers.py:117 | page 1 has its own cache namespace, every other page shares one |
| Controllers.BaseFilter | arslan-dashboard/backend/certificates/controllers.py:124-135 | a base filter is built exactly when global filters are given and active, from their fields |
| Controllers.KeyDeterminesFields | arslan-dashboard/backend/certificates/controllers.py:21-26 | equal cache keys mean equal dates and equal lists, once a missing list and an empty one are read alike |
| Controllers.ListEntry | arslan-dashboard/backend/certificates/controllers.py:21-26 | two list fields with the same key entry agree once a missing list and an empty one are read alike |
| Controllers.FilterReadsEffectiveLists | arslan-dashboard/backend/certificates/controllers.py:126-135 | the filter builder does not tell a missing list from an empty one |
| Controllers.SameKeySameBaseFilter | arslan-dashboard/backend/certificates/controllers.py:112-135 | requests that share a cache key share a base filter, so a cached answer is the one the request would compute |
| Controllers.CacheAside | arslan-dashboard/backend/certificates/controllers.py:119-158 | a cached answer Python reads as true is returned with the cache unchanged; otherwise the computed answer is returned and stored under the key, and no other key changes |
| Controllers.CacheAsideRepeats | arslan-dashboard/backend/certificates/controllers.py:119-158 | a second request with the same key is served from the cache unless the first answer reads as false |
| Controllers.GlobalParams | arslan-dashboard/backend/certificates/controllers.py:113 | without global filters the key has no global part; otherwise it is their cache key |
| Controllers.GetCertificates | arslan-dashboard/backend/certificates/controllers.py:78-158 | the answer is the cached one under the page's namespace and key when it reads as true; otherwise the model's answer for the base filter, which is then stored |
| Controllers.FutureRisk | arslan-dashboard/backend/certificates/controllers.py:304-313 | risk is High exactly for more than 5 critical or more than 20 expiring, Medium exactly for more than 2 or more than 10 otherwise, with confidence 92, 78 or 65 |
| Controllers.RiskMonotone | arslan-dashboard/backend/certificates/controllers.py:304-313 | more critical or expiring certificates never lower the risk or its confidence |
| ExtractCn.Wrap | ssl-certificates-crawler/domain-based-crawler/datasets/rapid-7/python-scripts/extract-domains-1.py:37-41 | a wrapped body starts with the BEGIN line |
| ExtractCn.FormatPem | ssl-certificates-crawler/domain-based-crawler/datasets/rapid-7/python-scripts/extract-domains-1.py:33-42 | the result always contains the BEGIN line: stripped text that has it is kept, any other text is wrapped |
| ExtractCn.FormatPemIdempotent | ssl-certificates-crawler/domain-based-crawler/datasets/rapid-7/python-scripts/extract-domains-1.py:33-42 | formatting an already formatted certificate changes nothing |
| ExtractCn.PyIn | ssl-certificates-crawler/domain-based-crawler/datasets/rapid-7/python-scripts/extract-domains-1.py:18-20 | `in` tests dict keys, list elements and substrings, and raises on anything else |
| ExtractCn.PyIndex | ssl-certificates-crawler/domain-based-crawler/datasets/rapid-7/python-scripts/extract-domains-1.py:19-21 | indexing by a string succeeds exactly for a dict holding the key |
| ExtractCn.NameOf | ssl-certificates-crawler/domain-based-crawler/datasets/rapid-7/python-scripts/extract-domains-1.py:21-27 | a non-empty list gives its first element, a string itself, anything else the empty name |
| ExtractCn.ExtractCommonName | ssl-certificates-crawler/domain-based-crawler/datasets/rapid-7/python-scripts/extract-domains-1.py:10-31 | text that is not JSON raises the parse error; a scalar document raises the extraction error; a non-empty name comes from a `parsed.subject.common_name` path |
| ExtractCn.CommonNameOfDicts | ssl-certificates-crawler/domain-based-crawler/datasets/rapid-7/python-scripts/extract-domains-1.py:18-25 | along a path of dicts the extractor returns the name the `common_name` value gives |
| ExtractCn.NoParsedGivesEmpty | ssl-certificates-crawler/domain-based-crawler/datasets/rapid-7/python-scripts/extract-domains-1.py:18-27 | a document without `parsed` yields the empty name |
| ExtractCn.ListSubjectRaises | ssl-certificates-crawler/domain-based-crawler/datasets/rapid-7/python-scripts/extract-domains-1.py:19-21 | a `parsed` list holding the string `subject` makes the lookup raise |
| ExtractCn.CertDoc | ssl-certificates-crawler/domain-based-crawler/datasets/rapid-7/python-scripts/extract-domains-1.py:18-23 | a certificate document has its name along the `parsed.subject.common_name` path |
| ExtractCn.CertDocRoundTrip | ssl-certificates-crawler/domain-based-crawler/datasets/rapid-7/python-scripts/extract-domains-1.py:18-23 | the name put into a certificate document is extracted back |
| ExtractCn.ErrorText | ssl-certificates-crawler/domain-based-crawler/datasets/rapid-7/python-scripts/extract-domains-1.py:98 | an exception's shortened text is never empty |
| ExtractCn.AllFail | ssl-certificates-crawler/domain-based-crawler/datasets/rapid-7/python-scripts/extract-domains-1.py:75-98 | a failed batch gives one error result per certificate, in order, with no name |
| ExtractCn.OutputLines | ssl-certificates-crawler/domain-based-crawler/datasets/rapid-7/python-scripts/extract-domains-1.py:81 | the split of the output has at least one line, even for empty output |
| ExtractCn.PairOutcome | ssl-certificates-crawler/domain-based-crawler/datasets/rapid-7/python-scripts/extract-domains-1.py:84-91 | a result keeps its certificate's line and fingerprint; it has an error exactly when it has no name; a blank line gives `Empty JSON output` |
| ExtractCn.Named | ssl-certificates-crawler/domain-based-crawler/datasets/rapid-7/python-scripts/extract-domains-1.py:85-89 | a returned name that is truthy is a success, any other an error; a raise stays a raise |
| ExtractCn.ZipOutcomes | ssl-certificates-crawler/domain-based-crawler/datasets/rapid-7/python-scripts/extract-domains-1.py:83-91 | results are paired up to the shorter of certificates and lines, and stop at the first extraction that raises |
| ExtractCn.ProcessBatch | ssl-certificates-crawler/domain-based-crawler/datasets/rapid-7/python-scripts/extract-domains-1.py:44-106 | a timeout, a crash or a non-zero exit gives one error per certificate; a well-formed run gives one result per certificate |
| ExtractCn.ZipAligned | ssl-certificates-crawler/domain-based-crawler/datasets/rapid-7/python-scripts/extract-domains-1.py:83-91 | enough lines and no raise give one aligned result per certificate |
| ExtractCn.EmptyOutputDropsCerts | ssl-certificates-crawler/domain-based-crawler/datasets/rapid-7/python-scripts/extract-domains-1.py:81-83 | empty output gives a two-certificate batch one result only |
| ExtractCn.ParseFailureRepeatsCerts | ssl-certificates-crawler/domain-based-crawler/datasets/rapid-7/python-scripts/extract-domains-1.py:83-98 | when the second line does not parse, the first certificate is reported twice, once named and once as a batch error, giving three results for two certificates |
| ExtractCn.ParseFailureOnSecondLine | ssl-certificates-crawler/domain-based-crawler/datasets/rapid-7/python-scripts/extract-domains-1.py:83-98 | the same with two one-character lines |
| ExtractCn.RaiseAfterOne | ssl-certificates-crawler/domain-based-crawler/datasets/rapid-7/python-scripts/extract-domains-1.py:83-98 | one result and then a raise give that result followed by a batch error for every certificate |
| ExtractCn.PairOfName | ssl-certificates-crawler/domain-based-crawler/datasets/rapid-7/python-scripts/extract-domains-1.py:84-87 | a non-blank line with a truthy name gives that name and no error |
| ExtractCn.PairUnparsed | ssl-certificates-crawler/domain-based-crawler/datasets/rapid-7/python-scripts/extract-domains-1.py:84-85 | a non-blank line that is not JSON raises the parse error |
| ExtractCn.ProcessBatchOnRaise | ssl-certificates-crawler/domain-based-crawler/datasets/rapid-7/python-scripts/extract-domains-1.py:96-98 | a raise during pairing appends a batch error for every certificate to the results so far |
| ExtractCn.FixedOutcome | ssl-certificates-crawler/domain-based-crawler/datasets/rapid-7/python-scripts/extract-domains-1.py:83-91 | the corrected result for a certificate keeps its line and fingerprint and is its own line's result when that succeeds |
| ExtractCn.ProcessBatchFixed | ssl-certificates-crawler/domain-based-crawler/datasets/rapid-7/python-scripts/extract-domains-1.py:44-106 | the corrected batch step gives exactly one result per certificate, in order |
| ExtractCn.FixedAgreesWhenWellFormed | ssl-certificates-crawler/domain-based-crawler/datasets/rapid-7/python-scripts/extract-domains-1.py:44-106 | wherever the original gives one result per certificate, the corrected step gives the same results |
| ExtractCn.LineCert | ssl-certificates-crawler/domain-based-crawler/datasets/rapid-7/python-scripts/extract-domains-1.py:177-191 | a line gives a certificate exactly when it is non-blank and has a comma, split at the first comma, numbered by its line |
| ExtractCn.LineKinds | ssl-certificates-crawler/domain-based-crawler/datasets/rapid-7/python-scripts/extract-domains-1.py:177-191 | a line is blank, malformed, or one certificate |
| ExtractCn.Certs | ssl-certificates-crawler/domain-based-crawler/datasets/rapid-7/python-scripts/extract-domains-1.py:175-191 | the certificates are at most one per line |
| ExtractCn.NonBlank | ssl-certificates-crawler/domain-based-crawler/datasets/rapid-7/python-scripts/extract-domains-1.py:177-180 | the non-blank lines are at most all lines |
| ExtractCn.EveryLineCounted | ssl-certificates-crawler/domain-based-crawler/datasets/rapid-7/python-scripts/extract-domains-1.py:175-191 | every non-blank line is a certificate or a malformed line |
| ExtractCn.OneResultEach | ssl-certificates-crawler/domain-based-crawler/datasets/rapid-7/python-scripts/extract-domains-1.py:194-228 | with one result per certificate, there are as many results as certificates |
| ExtractCn.Written | ssl-certificates-crawler/domain-based-crawler/datasets/rapid-7/python-scripts/extract-domains-1.py:197-201 | one name is written per result with a truthy name, and every name written is truthy |
| ExtractCn.WrittenIsCollected | ssl-certificates-crawler/domain-based-crawler/datasets/rapid-7/python-scripts/extract-domains-1.py:197-201 | the names written are the truthy names of the results collected in result order |
| ExtractCn.WrittenMembers | ssl-certificates-crawler/domain-based-crawler/datasets/rapid-7/python-scripts/extract-domains-1.py:197-201 | a name is written exactly when some result carries it as its truthy name |
| ExtractCn.WrittenAppend | ssl-certificates-crawler/domain-based-crawler/datasets/rapid-7/python-scripts/extract-domains-1.py:197-201 | the names of two runs of results are written one after the other |
| ExtractCn.NumberFrom | ssl-certificates-crawler/domain-based-crawler/datasets/rapid-7/python-scripts/extract-domains-1.py:199-200 | written names are numbered consecutively |
| ExtractCn.Emit | ssl-certificates-crawler/domain-based-crawler/datasets/rapid-7/python-scripts/extract-domains-1.py:197-204 | each truthy name is written under the next index and counts as a success; every other result counts as a failure |
| ExtractCn.Limit | ssl-certificates-crawler/domain-based-crawler/datasets/rapid-7/python-scripts/extract-domains-1.py:194 | a batch size below 1 sends every certificate alone |
| ExtractCn.Flush | ssl-certificates-crawler/domain-based-crawler/datasets/rapid-7/python-scripts/extract-domains-1.py:194-206 | sending a batch keeps the written rows and counts consistent with the batches sent |
| ExtractCn.BlankLine | ssl-certificates-crawler/domain-based-crawler/datasets/rapid-7/python-scripts/extract-domains-1.py:179-180 | a blank line changes nothing |
| ExtractCn.MalformedLine | ssl-certificates-crawler/domain-based-crawler/datasets/rapid-7/python-scripts/extract-domains-1.py:185-188 | a non-blank line without a comma is one more failure |
| ExtractCn.CertLine | ssl-certificates-crawler/domain-based-crawler/datasets/rapid-7/python-scripts/extract-domains-1.py:190-191 | a line with a comma adds its certificate to the batch being filled |
| ExtractCn.ReadLine | ssl-certificates-crawler/domain-based-crawler/datasets/rapid-7/python-scripts/extract-domains-1.py:175-215 | each line keeps the loop's bookkeeping consistent |
| ExtractCn.ReadCert | ssl-certificates-crawler/domain-based-crawler/datasets/rapid-7/python-scripts/extract-domains-1.py:191-206 | a certificate joins the batch, and a full batch is sent |
| ExtractCn.ReadAll | ssl-certificates-crawler/domain-based-crawler/datasets/rapid-7/python-scripts/extract-domains-1.py:175-215 | after all lines, the full batches sent and the partial one hold every certificate in order |
| ExtractCn.ProcessCsv | ssl-certificates-crawler/domain-based-crawler/datasets/rapid-7/python-scripts/extract-domains-1.py:122-228 | the batches hold every certificate in order, all full but the last; the rows are the truthy names numbered from 1; successes and failures add up to malformed lines plus results, and to the non-blank lines when every batch yields one result per certificate |
| ExtractCn.FixedStepOneResultEach | ssl-certificates-crawler/domain-based-crawler/datasets/rapid-7/python-scripts/extract-domains-1.py:44-106 | the corrected batch step yields one result per certificate for any tool run, which is the condition under which every non-blank line is counted exactly once |
| HashPatterns.HashPattern | arslan-dashboard/backend/certificates/views.py:573-582 | every pattern is anchored with `^`; a name outside the table gets `^` plus the name without hyphens |
| HashPatterns.Sha2Pattern | arslan-dashboard/backend/certificates/views.py:574-581 | the SHA-2 table entries agree with the default rule |
| HashPatterns.Md5Pattern | arslan-dashboard/backend/certificates/views.py:574-581 | the MD5 table entry agrees with the default rule |
| HashPatterns.Sha1Pattern | arslan-dashboard/backend/certificates/views.py:574-581 | SHA-1 is the one entry that goes beyond the default rule: it also matches the hyphenated spelling |
| Ordering.LessTotal | ssl-certificates-crawler/domain-based-crawler/datasets/tranco/python-scripts/tranco-pk-domains.py:115 | the string order used by `sorted` is total |
| Ordering.LessTransitive | ssl-certificates-crawler/domain-based-crawler/datasets/tranco/python-scripts/tranco-pk-domains.py:115 | the string order is transitive |
| Ordering.LessAsymmetric | ssl-certificates-crawler/domain-based-crawler/datasets/tranco/python-scripts/tranco-pk-domains.py:115 | the string order is asymmetric |
| Ordering.SortSet | ssl-certificates-crawler/domain-based-crawler/datasets/tranco/python-scripts/tranco-pk-domains.py:115 | `sorted` of a set lists every element once, in strictly increasing order |
| Ordering.SortedUnique | ssl-certificates-crawler/domain-based-crawler/datasets/tranco/python-scripts/tranco-pk-domains.py:115 | two strictly sorted lists with the same elements are equal, so the sorted output is determined by the set |
| Ordering.Numbered | ssl-certificates-crawler/domain-based-crawler/datasets/tranco/python-scripts/tranco-pk-domains.py:123-124 | `enumerate(..., start=1)` numbers the names from 1, in order |
| Ordering.SortedNumbered | ssl-certificates-crawler/domain-based-crawler/datasets/tranco/python-scripts/tranco-pk-domains.py:115-124 | the output rows are the set's elements, once each, in increasing order, numbered from 1 |
| Overview.StatusFilter | dashboard/backend/overview/models.py:20-37 | the active/expired/expiring-soon counters drop the caller's end-date condition, put the status condition in its place, and leave every other key unchanged |
| Overview.FlagFilter | dashboard/backend/overview/models.py:57-72 | the warnings/errors/fatals counters add their one flag set to true and leave every other key unchanged |
| Overview.StatusFilterOfSameStatus | dashboard/backend/overview/models.py:20-37 | narrowing a filter to the status it already carries changes nothing |
| Overview.GetSummary | dashboard/backend/overview/models.py:75-108 | with a known status only that column is counted and the other two are 0; otherwise all three are counted; total and lint counts always use the base filter |
| Overview.SummaryStatusColumnIsTotal | dashboard/backend/overview/models.py:75-108 | under a status filter the one column counted equals the total |
| Overview.ExtractStatus | dashboard/backend/overview/models.py:197-208 | status is active when no end date is stored, unknown exactly when the end date is not text or fails to parse, expired exactly when it lies before now |
| Overview.ExpiringSoonWindow | dashboard/backend/overview/models.py:205-206 | expiring soon holds exactly when the end date lies in the next 31 days (`timedelta.days` rounds down) |
| Overview.ClampPage | dashboard/backend/overview/models.py:242 | the page is at least 1 and positive pages are kept |
| Overview.ClampPageSize | dashboard/backend/overview/models.py:243 | the page size lies in 1..200 and sizes already in range are kept |
| Overview.PageCount | dashboard/backend/overview/models.py:267 | the page count is 0 exactly for no records; otherwise the last page is partly or wholly filled |
| Overview.Slice | dashboard/backend/overview/models.py:327-328 | a slice holds the elements from start on, cut back at the end of the list |
| Overview.GetCertificates | dashboard/backend/overview/models.py:235-269 | the page reports clamped page values, the filter's count and the matching page count, and one structured result per returned row |
| Overview.Skip | dashboard/backend/overview/models.py:249 | the skip count is (page - 1) * page_size |
| Overview.ExtractWarnings | dashboard/backend/overview/models.py:271-297 | a lint is kept exactly when `lints` is a dict and its result is `warn`; kept entries lose `result` and keep every other key |
| Overview.WithWarnings | dashboard/backend/overview/models.py:317-322 | one entry per position holding a certificate with at least one warning |
| Overview.WithWarningsMembers | dashboard/backend/overview/models.py:317-322 | the listing holds exactly the extracted warnings of the certificates that have some |
| Overview.WithWarningsAppend | dashboard/backend/overview/models.py:313-322 | the listing keeps cursor order: a concatenation lists its first part's certificates, then its second's |
| Overview.GetCertificateWarnings | dashboard/backend/overview/models.py:299-337 | the total counts certificates with warnings, and the page is the slice of that filtered list |
| Overview.WarningOnItsPage | dashboard/backend/overview/models.py:299-337 | each certificate with warnings appears on page `j / size + 1`, which is within the reported page count |
| Overview.ItemOnItsPage | dashboard/backend/overview/models.py:325-335 | in any list, item j lies on page `j / size + 1`, within the page count |
| Overview.Paginate | dashboard/backend/overview/models.py:305-337 | the page and its size are clamped, the total and page count are those of the whole list, and the results are the slice from `(page - 1) * size` |
| Overview.ItemOnPaginated | dashboard/backend/overview/models.py:325-335 | in the clamped pagination of any list, item j is shown on page `j / size + 1`, within the page count |
| PkAnalysis.LaxerThanTranco | ssl-certificates-crawler/domain-based-crawler/datasets/pk-domains-sir/python-scripts/pk-domains-analysis-v2.py:8-13 | every domain the Tranco validator accepts is accepted by this one |
| PkAnalysis.HyphenAccepted | ssl-certificates-crawler/domain-based-crawler/datasets/pk-domains-sir/python-scripts/pk-domains-analysis-v2.py:8-13 | the converse fails: `-a.pk` passes here and not in the Tranco validator |
| PkAnalysis.Clean | ssl-certificates-crawler/domain-based-crawler/datasets/pk-domains-sir/python-scripts/pk-domains-analysis-v2.py:17-33 | the result is stripped and no longer than the input; text without a leading star is only stripped and lower-cased |
| PkAnalysis.CleanWildcard | ssl-certificates-crawler/domain-based-crawler/datasets/pk-domains-sir/python-scripts/pk-domains-analysis-v2.py:17-33 | a star and any number of dots in front of a normalised domain are removed, and nothing else |
| PkAnalysis.CleanStarred | ssl-certificates-crawler/domain-based-crawler/datasets/pk-domains-sir/python-scripts/pk-domains-analysis-v2.py:28-31 | on normalised starred text, cleaning drops the star and the dots after it |
| PkAnalysis.LStripDots | ssl-certificates-crawler/domain-based-crawler/datasets/pk-domains-sir/python-scripts/pk-domains-analysis-v2.py:30 | `lstrip('.')` removes exactly the leading dots |
| PkAnalysis.Candidate | ssl-certificates-crawler/domain-based-crawler/datasets/pk-domains-sir/python-scripts/pk-domains-analysis-v2.py:124-130 | a cell offers a candidate exactly when it passes the check, and the candidate is stripped |
| PkAnalysis.BareWildcardKept | ssl-certificates-crawler/domain-based-crawler/datasets/pk-domains-sir/python-scripts/pk-domains-analysis-v2.py:128-130 | `*.pk` passes the check and is cleaned to `pk`, which does not end in `.pk` |
| PkAnalysis.BareWildcardValid | ssl-certificates-crawler/domain-based-crawler/datasets/pk-domains-sir/python-scripts/pk-domains-analysis-v2.py:8-13 | `*.pk`, with one or more dots, passes the check |
| PkAnalysis.CandidateOfValid | ssl-certificates-crawler/domain-based-crawler/datasets/pk-domains-sir/python-scripts/pk-domains-analysis-v2.py:128-130 | a valid cell's candidate is its cleaned text |
| PkAnalysis.ValidOfNormal | ssl-certificates-crawler/domain-based-crawler/datasets/pk-domains-sir/python-scripts/pk-domains-analysis-v2.py:8-13 | normalised text passes exactly when it ends with `.pk` |
| PkAnalysis.CandidateFixed | ssl-certificates-crawler/domain-based-crawler/datasets/pk-domains-sir/python-scripts/pk-domains-analysis-v2.py:128-130 | the corrected candidate is kept only when it still ends with `.pk` after cleaning |
| PkAnalysis.Pick | ssl-certificates-crawler/domain-based-crawler/datasets/pk-domains-sir/python-scripts/pk-domains-analysis-v2.py:124-130 | the candidate taken from a cell comes from a valid cell and is stripped; it is the script's candidate, or with `recheck` the corrected one |
| PkAnalysis.PickFixed | ssl-certificates-crawler/domain-based-crawler/datasets/pk-domains-sir/python-scripts/pk-domains-analysis-v2.py:128-130 | a cell yields a domain in the corrected pipeline exactly when it yields it as written and the domain ends with `.pk` |
| PkAnalysis.DetectFormat | ssl-certificates-crawler/domain-based-crawler/datasets/pk-domains-sir/python-scripts/pk-domains-analysis-v2.py:37-60 | a file with a header uses a column name (the one given, else `domain`); any other outcome, failure included, uses a column index (the one given, else 1) |
| PkAnalysis.DetectFormatStable | ssl-certificates-crawler/domain-based-crawler/datasets/pk-domains-sir/python-scripts/pk-domains-analysis-v2.py:37-60 | detecting again with the chosen column changes nothing |
| PkAnalysis.LabelIndex | ssl-certificates-crawler/domain-based-crawler/datasets/pk-domains-sir/python-scripts/pk-domains-analysis-v2.py:108 | the found label is the first one equal to the key, and none matches when nothing is found |
| PkAnalysis.ColumnCells | ssl-certificates-crawler/domain-based-crawler/datasets/pk-domains-sir/python-scripts/pk-domains-analysis-v2.py:107-116 | the column's cells exist exactly when its label is present, one per row |
| PkAnalysis.SourceColumn | ssl-certificates-crawler/domain-based-crawler/datasets/pk-domains-sir/python-scripts/pk-domains-analysis-v2.py:75-121 | cells are read only from a present, readable file |
| PkAnalysis.Candidates | ssl-certificates-crawler/domain-based-crawler/datasets/pk-domains-sir/python-scripts/pk-domains-analysis-v2.py:124-130 | one candidate per cell, in order: the script's own, or the corrected one with `recheck` |
| PkAnalysis.Offers | ssl-certificates-crawler/domain-based-crawler/datasets/pk-domains-sir/python-scripts/pk-domains-analysis-v2.py:75-121 | an absent or unreadable file, or one without the column, offers nothing; otherwise one candidate per cell of the column |
| PkAnalysis.CountSome | ssl-certificates-crawler/domain-based-crawler/datasets/pk-domains-sir/python-scripts/pk-domains-analysis-v2.py:124-144 | the cells offering a candidate are at most all the cells |
| PkAnalysis.Dedup | ssl-certificates-crawler/domain-based-crawler/datasets/pk-domains-sir/python-scripts/pk-domains-analysis-v2.py:124-144 | the new domains are exactly the offered ones not already known; each counts once as a success, every other offer as a duplicate |
| PkAnalysis.ExtractFromCsv | ssl-certificates-crawler/domain-based-crawler/datasets/pk-domains-sir/python-scripts/pk-domains-analysis-v2.py:64-157 | a missing file gives nothing, an unreadable one one failure, a file without the column one failure per row; otherwise successes and duplicates add up to the offers, and the new domains are exactly the offered ones not already known |
| PkAnalysis.OfferedIsPk | ssl-certificates-crawler/domain-based-crawler/datasets/pk-domains-sir/python-scripts/pk-domains-analysis-v2.py:124-134 | every candidate the corrected pipeline offers is a stripped `.pk` domain |
| PkAnalysis.OfferedFixed | ssl-certificates-crawler/domain-based-crawler/datasets/pk-domains-sir/python-scripts/pk-domains-analysis-v2.py:124-134 | a file offers a domain in the corrected pipeline exactly when it offers it as written and the domain ends with `.pk` |
| PkAnalysis.BareWildcardColumn | ssl-certificates-crawler/domain-based-crawler/datasets/pk-domains-sir/python-scripts/pk-domains-analysis-v2.py:97-116 | a headed file with the `domain` column holding `*.pk` yields that one cell |
| PkAnalysis.BareWildcardOffered | ssl-certificates-crawler/domain-based-crawler/datasets/pk-domains-sir/python-scripts/pk-domains-analysis-v2.py:124-141 | as written that file offers `pk`, which is collected and saved; the corrected pipeline does not offer it |
| PkAnalysis.FromSomeIsPk | ssl-certificates-crawler/domain-based-crawler/datasets/pk-domains-sir/python-scripts/pk-domains-analysis-v2.py:259-270 | every domain the corrected pipeline collects is a stripped `.pk` domain |
| PkAnalysis.FromSomeStripped | ssl-certificates-crawler/domain-based-crawler/datasets/pk-domains-sir/python-scripts/pk-domains-analysis-v2.py:259-270 | every collected domain is stripped, as written or corrected |
| PkAnalysis.FromFirstFixed | ssl-certificates-crawler/domain-based-crawler/datasets/pk-domains-sir/python-scripts/pk-domains-analysis-v2.py:259-270 | the corrected run collects exactly the domains of the run as written that end with `.pk` |
| PkAnalysis.Gather | ssl-certificates-crawler/domain-based-crawler/datasets/pk-domains-sir/python-scripts/pk-domains-analysis-v2.py:259-270 | the total successes are the number of distinct domains found, which are exactly those some file offers, all stripped; only with `recheck` are they all `.pk` domains |
| PkAnalysis.Run | ssl-certificates-crawler/domain-based-crawler/datasets/pk-domains-sir/python-scripts/pk-domains-analysis-v2.py:259-277 | a non-empty result is saved sorted and numbered from 1, one row per domain, and holds exactly the domains some file offers; an empty one is not saved; with `recheck` every saved domain ends with `.pk` |
| Calendar.DaysIn | arslan-dashboard/backend/certificates/models.py:428-431 | a month has 28 to 31 days: February 29 exactly in leap years, 30 exactly for April, June, September and November |
| Calendar.MonthRange | arslan-dashboard/backend/certificates/models.py:428-431 | `monthrange` answers exactly for months 1 to 12, with 28 to 31 days |
| Calendar.MonthOf | arslan-dashboard/backend/certificates/models.py:891-894 | the month a month index names is valid |
| Calendar.MonthIndexRoundTrip | arslan-dashboard/backend/certificates/models.py:891-894 | month indices name months one to one |
| Calendar.NextMonth | arslan-dashboard/backend/certificates/models.py:891-894 | the month after (y, m) is one month index later; December rolls over to January of the next year |
| Calendar.NextMonthIsSuccessor | arslan-dashboard/backend/certificates/models.py:891-894 | stepping a month agrees with adding one to the index, whatever the month |
| DateHelper.MonthKey | dashboard/backend/SSL_Dashboard/Date_helper.py:5-6 | the `%Y-%m` label is seven characters, four digits, a hyphen and two digits |
| DateHelper.ParseMonthKey | dashboard/backend/SSL_Dashboard/Date_helper.py:5-6 | reading a label back gives a year below 10000 and a two-digit month |
| DateHelper.MonthKeyRoundTrip | dashboard/backend/SSL_Dashboard/Date_helper.py:5-6 | reading the label back gives the datetime's year and month |
| DateHelper.EndOfMonth | dashboard/backend/SSL_Dashboard/Date_helper.py:14-18 | the end of the month is midnight of the first day of the next month; December 9999 has none |
| DateHelper.MonthWindow | dashboard/backend/SSL_Dashboard/Date_helper.py:5-6 | a datetime lies between the month's first instant and its end exactly when it has the same year and month |
| DateHelper.EndAfterStart | dashboard/backend/SSL_Dashboard/Date_helper.py:14-18 | the end of the month comes strictly after its first instant |
| FilterQuery.Acc | dashboard/backend/SSL_Dashboard/filter_query.py:11-12 | a missing accumulator starts as `{}`; a given one is used as is |
| FilterQuery.StatusCondition | dashboard/backend/SSL_Dashboard/filter_query.py:14-19 | `active` holds exactly for end dates not before now, `expired` exactly for those before now, `expiring_soon` for those from now to 30 days on |
| FilterQuery.ActiveExpiredComplementary | dashboard/backend/SSL_Dashboard/filter_query.py:14-17 | every end date satisfies exactly one of `active` and `expired` |
| FilterQuery.ExpiringSoonIsActive | dashboard/backend/SSL_Dashboard/filter_query.py:14-19 | an end date expiring soon is active |
| FilterQuery.FilterStatus | dashboard/backend/SSL_Dashboard/filter_query.py:8-21 | a known status sets the end-date condition and touches no other key; any other value leaves the filter as it was |
| FilterQuery.SetIfGiven | dashboard/backend/SSL_Dashboard/filter_query.py:24-51 | a truthy argument sets its key to the value, touching no other key; anything else leaves the filter as it was |
| FilterQuery.FilterIssuer | dashboard/backend/SSL_Dashboard/filter_query.py:24-31 | a truthy issuer sets the issuer organisation key only; otherwise nothing changes |
| FilterQuery.FilterCountry | dashboard/backend/SSL_Dashboard/filter_query.py:33-40 | a truthy country sets the subject country key only; otherwise nothing changes |
| FilterQuery.FilterValidationLevel | dashboard/backend/SSL_Dashboard/filter_query.py:42-51 | a truthy level sets the validation level key only; otherwise nothing changes |
| FilterQuery.BuildBaseFilter | dashboard/backend/SSL_Dashboard/filter_query.py:54-63 | the filter holds exactly one key per known status or truthy argument, each with its condition or value |
| FilterQuery.NoArgumentsNoFilter | dashboard/backend/SSL_Dashboard/filter_query.py:54-63 | with no argument the filter is empty and matches everything |
| Tranco.ValidName | ssl-certificates-crawler/domain-based-crawler/datasets/tranco/python-scripts/tranco-pk-domains.py:23-44 | a name that passes every check is longer than `.pk` |
| Tranco.ValidIffStem | ssl-certificates-crawler/domain-based-crawler/datasets/tranco/python-scripts/tranco-pk-domains.py:23-44 | normalised text passes exactly when it is a non-empty stem of letters, digits, dots and hyphens, not starting or ending with a dot or hyphen, followed by `.pk` |
| Tranco.StemMakesValidDomain | ssl-certificates-crawler/domain-based-crawler/datasets/tranco/python-scripts/tranco-pk-domains.py:10-44 | a well-formed stem followed by `.pk` is unchanged by strip and lower and is valid |
| Tranco.RejectedShapes | ssl-certificates-crawler/domain-based-crawler/datasets/tranco/python-scripts/tranco-pk-domains.py:28-42 | `.pk` alone, a leading hyphen and an underscore are rejected |
| Tranco.Picked | ssl-certificates-crawler/domain-based-crawler/datasets/tranco/python-scripts/tranco-pk-domains.py:62-72 | rows with fewer than two columns contribute nothing |
| Tranco.PickedNormal | ssl-certificates-crawler/domain-based-crawler/datasets/tranco/python-scripts/tranco-pk-domains.py:62-72 | every contributed domain is valid and already stripped and lower-cased |
| Tranco.PickedIsNormal | ssl-certificates-crawler/domain-based-crawler/datasets/tranco/python-scripts/tranco-pk-domains.py:68-72 | lower-casing a stripped valid domain keeps it valid and in normal form |
| Tranco.WellFormedRowKept | ssl-certificates-crawler/domain-based-crawler/datasets/tranco/python-scripts/tranco-pk-domains.py:62-72 | a row whose second column is a well-formed `.pk` domain contributes it unchanged |
| Tranco.PickAll | ssl-certificates-crawler/domain-based-crawler/datasets/tranco/python-scripts/tranco-pk-domains.py:62-72 | one contribution per row, in order |
| Tranco.ExtractFromFile | ssl-certificates-crawler/domain-based-crawler/datasets/tranco/python-scripts/tranco-pk-domains.py:46-81 | the file's set is exactly the domains its rows contribute; an unreadable file gives the empty set |
| Tranco.InSomeNormal | ssl-certificates-crawler/domain-based-crawler/datasets/tranco/python-scripts/tranco-pk-domains.py:102-106 | every domain of the union is valid and in normal form |
| Tranco.Combine | ssl-certificates-crawler/domain-based-crawler/datasets/tranco/python-scripts/tranco-pk-domains.py:102-124 | the output lists exactly the domains some file contributes, each once, in increasing order, numbered from 1 |
| CrawlerV1.Released | ssl-certificates-crawler/domain-based-crawler/src/main-v1.py:314-318 | dropping the lease clears worker, start time and heartbeat and keeps domain, status and attempts |
| CrawlerV1.Backoff | ssl-certificates-crawler/domain-based-crawler/src/main-v1.py:297-298 | the retry delay lies between the initial 10 s and the 20 s cap; below the cap it is 10·2^attempts, and it is the cap only once 10·2^attempts reaches it |
| CrawlerV1.BackoffDoubles | ssl-certificates-crawler/domain-based-crawler/src/main-v1.py:297-298 | one more failure doubles the delay until the cap is reached |
| CrawlerV1.BackoffMonotone | ssl-certificates-crawler/domain-based-crawler/src/main-v1.py:297-298 | more attempts never shorten the delay |
| CrawlerV1.Find | ssl-certificates-crawler/domain-based-crawler/src/main-v1.py:314-316 | the task found by `_id` carries the domain, and none is found exactly when no task has it |
| CrawlerV1.UpdateTask | ssl-certificates-crawler/domain-based-crawler/src/main-v1.py:314-318 | an update by `_id` changes that one task and leaves every other task as it was |
| CrawlerV1.FirstEligible | ssl-certificates-crawler/domain-based-crawler/src/main-v1.py:301-311 | the first pending task whose retry time has come, in `_id` order; none exactly when no task qualifies |
| CrawlerV1.Claim | ssl-certificates-crawler/domain-based-crawler/src/main-v1.py:301-311 | a claim takes the oldest eligible task, leases it to the worker with start and heartbeat set to now, and changes nothing when no task is eligible |
| CrawlerV1.MarkDone | ssl-certificates-crawler/domain-based-crawler/src/main-v1.py:314-318 | the task becomes done at `now` with the fingerprint and no error, its start and heartbeat cleared, whatever state it was in; its next-attempt, failure and insertion times kept; other tasks unchanged |
| CrawlerV1.MarkFailed | ssl-certificates-crawler/domain-based-crawler/src/main-v1.py:321-339 | one more attempt and the error recorded; at 3 attempts the task fails for good with its failure time `now`; otherwise it is pending again with next attempt at `now` plus the backoff for the new count; start and heartbeat cleared, done time and fingerprint kept, others unchanged |
| CrawlerV1.Heartbeat | ssl-certificates-crawler/domain-based-crawler/src/main-v1.py:342-348 | the heartbeat moves only when the worker still holds the lease; nothing else changes |
| CrawlerV1.Reclaim | ssl-certificates-crawler/domain-based-crawler/src/main-v1.py:417-446 | every in-progress task with a heartbeat older than 60 s loses its worker, start time and heartbeat and counts one more attempt, then goes back to pending due now, or fails at 3 with `failed_at` now; its other fields and every other task are unchanged |
| CrawlerV1.Upsert | ssl-certificates-crawler/domain-based-crawler/src/main-v1.py:179-190 | the `$setOnInsert` upsert adds a fresh pending task only when the domain is not queued yet |
| CrawlerV1.RowDomain | ssl-certificates-crawler/domain-based-crawler/src/main-v1.py:169-178 | a row names its only cell or its second one, stripped and lower-cased; empty rows and blank names give nothing |
| CrawlerV1.NormalizedLower | ssl-certificates-crawler/domain-based-crawler/src/main-v1.py:178 | a stripped non-empty name stays stripped and non-empty once lower-cased |
| CrawlerV1.RowDomains | ssl-certificates-crawler/domain-based-crawler/src/main-v1.py:168-191 | one normalized domain for each row that names a domain |
| CrawlerV1.RowDomainsInOrder | ssl-certificates-crawler/domain-based-crawler/src/main-v1.py:168-178 | the domains are exactly the normalized domains of the naming rows, in row order |
| CrawlerV1.UpsertAll | ssl-certificates-crawler/domain-based-crawler/src/main-v1.py:178-197 | the `$setOnInsert` upserts keep every queued task as it is and add only fresh pending tasks of listed domains |
| CrawlerV1.ImportCsv | ssl-certificates-crawler/domain-based-crawler/src/main-v1.py:138-198 | a populated collection or an empty file is left alone; otherwise the import only appends fresh pending tasks |
| CrawlerV1.DataRows | ssl-certificates-crawler/domain-based-crawler/src/main-v1.py:155-166 | the first row is data exactly when its first cell reads as an integer, otherwise it is skipped as a header |
| CrawlerV1.CountStatus | ssl-certificates-crawler/domain-based-crawler/src/main-v1.py:488-489 | the count is zero exactly when no task has the status |
| CrawlerV1.CompleteIffAllFinished | ssl-certificates-crawler/domain-based-crawler/src/main-v1.py:488-494 | the main loop stops exactly when every task is done or failed |
| CrawlerV1.CompleteMeansNothingToClaim | ssl-certificates-crawler/domain-based-crawler/src/main-v1.py:301-311 | once the run is complete no claim succeeds |
| CrawlerV1.SaveCertificate | ssl-certificates-crawler/domain-based-crawler/src/main-v1.py:351-366 | the upsert on (fingerprint, domain) stores the record; a fingerprint already stored under another domain hits the unique index and nothing changes |
| CrawlerV1.SaveCertificateIdempotent | ssl-certificates-crawler/domain-based-crawler/src/main-v1.py:351-366 | saving the same certificate again changes nothing |
| CrawlerV1.UpsertFacts | ssl-certificates-crawler/domain-based-crawler/src/main-v1.py:179-190 | one upsert keeps domains unique and keeps every task already queued |
| CrawlerV1.UpsertAllQueues | ssl-certificates-crawler/domain-based-crawler/src/main-v1.py:168-197 | the bulk upserts keep the queued tasks, add each missing domain once as a fresh pending task, and never duplicate one |
| CrawlerV1.UpsertAllPresent | ssl-certificates-crawler/domain-based-crawler/src/main-v1.py:179-190 | upserting domains that are all queued changes nothing |
| CrawlerV1.UpsertAllIdempotent | ssl-certificates-crawler/domain-based-crawler/src/main-v1.py:168-197 | re-running the upserts never adds a second task for a domain |
| CrawlerV1.ImportQueuesRowDomains | ssl-certificates-crawler/domain-based-crawler/src/main-v1.py:138-198 | seeding an empty collection queues exactly the domains the rows name, each once, pending, with no attempts, claimable at once |
| CrawlerV1.UpsertAllEmpty | ssl-certificates-crawler/domain-based-crawler/src/main-v1.py:168-197 | upserts never shrink the queue and a non-empty list leaves it non-empty |
| CrawlerV1.ImportCsvIdempotent | ssl-certificates-crawler/domain-based-crawler/src/main-v1.py:143-145 | importing the same file again, at any later time, changes nothing |
| CrawlerV1.ClaimKeepsInv | ssl-certificates-crawler/domain-based-crawler/src/main-v1.py:301-311 | a claim keeps the queue invariant |
| CrawlerV1.MarkDoneKeepsInv | ssl-certificates-crawler/domain-based-crawler/src/main-v1.py:314-318 | marking done keeps the queue invariant |
| CrawlerV1.MarkFailedKeepsInv | ssl-certificates-crawler/domain-based-crawler/src/main-v1.py:321-339 | marking failed keeps the queue invariant |
| CrawlerV1.HeartbeatKeepsInv | ssl-certificates-crawler/domain-based-crawler/src/main-v1.py:342-348 | a heartbeat keeps the queue invariant |
| CrawlerV1.ReclaimKeepsInv | ssl-certificates-crawler/domain-based-crawler/src/main-v1.py:417-446 | a reclaim pass keeps the queue invariant |
| CrawlerV1.ImportKeepsInv | ssl-certificates-crawler/domain-based-crawler/src/main-v1.py:138-198 | an import keeps the queue invariant |
| CrawlerV1.StepKeepsInv | ssl-certificates-crawler/domain-based-crawler/src/main-v1.py:301-446 | every transition keeps domains unique and normalized, leases matching the status, and queued tasks below 3 attempts |
| CrawlerV1.Apply | ssl-certificates-crawler/domain-based-crawler/src/main-v1.py:301-446 | no transition removes a task or changes a task's domain, and only an import adds tasks |
| CrawlerV1.Run | ssl-certificates-crawler/domain-based-crawler/src/main-v1.py:369-452 | any interleaving of workers, heartbeats, reclaims and imports keeps the queue invariant |
| CrawlerV1.LateFailureReopensDoneTask | ssl-certificates-crawler/domain-based-crawler/src/main-v1.py:321-339 | a worker whose lease was reclaimed reports its failure by `_id` alone and sends a task another worker finished back to pending |
| CrawlerV1.MarkDoneLeased | ssl-certificates-crawler/domain-based-crawler/src/main-v1.py:342-346 | with the heartbeat's `_id` + `worker_id` match, only the lease holder's success lands |
| CrawlerV1.MarkFailedLeased | ssl-certificates-crawler/domain-based-crawler/src/main-v1.py:321-346 | with the same match, only the lease holder's failure lands |
| CrawlerV1.LeasedClaimKeepsFinished | ssl-certificates-crawler/domain-based-crawler/src/main-v1.py:301-311 | a claim never touches a done or failed task |
| CrawlerV1.LeasedDoneKeepsFinished | ssl-certificates-crawler/domain-based-crawler/src/main-v1.py:314-318 | a lease-checked success never touches a finished task |
| CrawlerV1.LeasedFailKeepsFinished | ssl-certificates-crawler/domain-based-crawler/src/main-v1.py:321-339 | a lease-checked failure never touches a finished task |
| CrawlerV1.LeasedHeartbeatKeepsFinished | ssl-certificates-crawler/domain-based-crawler/src/main-v1.py:342-348 | a heartbeat never touches a finished task |
| CrawlerV1.LeasedReclaimKeepsFinished | ssl-certificates-crawler/domain-based-crawler/src/main-v1.py:417-446 | a reclaim pass never touches a finished task |
| CrawlerV1.LeasedImportKeepsFinished | ssl-certificates-crawler/domain-based-crawler/src/main-v1.py:138-198 | an import never touches a finished task |
| CrawlerV1.LeasedStepKeepsFinished | ssl-certificates-crawler/domain-based-crawler/src/main-v1.py:301-446 | with the lease check, every transition keeps the invariant and leaves finished tasks as they are |
| CrawlerV1.RunLeased | ssl-certificates-crawler/domain-based-crawler/src/main-v1.py:369-452 | any run with the lease check keeps the invariant and never shrinks the queue |
| CrawlerV1.LeasedRunKeepsFinished | ssl-certificates-crawler/domain-based-crawler/src/main-v1.py:369-452 | with the lease check a done or failed task stays exactly as it is for the rest of any run |
| CrawlerV2.Find | ssl-certificates-crawler/domain-based-crawler/src/main-v2.py:324-327 | the task matched by domain carries it, and none is matched exactly when no task has it |
| CrawlerV2.ClaimsBeforeTransitive | ssl-certificates-crawler/domain-based-crawler/src/main-v2.py:311 | the claim order, by attempt count and then domain, is transitive |
| CrawlerV2.ClaimsBeforeTotal | ssl-certificates-crawler/domain-based-crawler/src/main-v2.py:311 | any two tasks with different domains are ordered one way or the other |
| CrawlerV2.Best | ssl-certificates-crawler/domain-based-crawler/src/main-v2.py:299-313 | the task picked is claimable and comes before every other claimable task in (attempt count, domain) order; none exactly when nothing is claimable |
| CrawlerV2.Claim | ssl-certificates-crawler/domain-based-crawler/src/main-v2.py:296-321 | a claim takes that task, sets it processing under the worker, counts one more attempt, and changes nothing when nothing is pending below 3 attempts |
| CrawlerV2.RetryDelay | ssl-certificates-crawler/domain-based-crawler/src/main-v2.py:27 | no pause on the first attempt, the listed 5/10/15 s pause otherwise, and an index error past the end of the list |
| CrawlerV2.ClaimedDelayInBounds | ssl-certificates-crawler/domain-based-crawler/src/main-v2.py:296-321 | a claimed task's attempt count lies between 1 and 3, so the delay lookup never fails |
| CrawlerV2.UpdateHeld | ssl-certificates-crawler/domain-based-crawler/src/main-v2.py:324-339 | an update filtered on domain and worker applies to the held task only; every other task is unchanged |
| CrawlerV2.MarkCompleted | ssl-certificates-crawler/domain-based-crawler/src/main-v2.py:324-339 | the held task becomes completed with no error; a task the worker no longer holds is untouched |
| CrawlerV2.MarkFailed | ssl-certificates-crawler/domain-based-crawler/src/main-v2.py:342-374 | with the count the claim returned, a task at 3 attempts fails for good and keeps its worker id; otherwise it is pending again with no worker; the error is recorded |
| CrawlerV2.RecoverStale | ssl-certificates-crawler/domain-based-crawler/src/main-v2.py:203-228 | every processing task not updated for 300 s goes back to pending with no worker and keeps its attempt count; the rest are unchanged |
| CrawlerV2.CsvDomains | ssl-certificates-crawler/domain-based-crawler/src/main-v2.py:155-170 | one stripped non-blank domain for each row whose `domains` cell names one; other rows are dropped |
| CrawlerV2.CsvDomainsInOrder | ssl-certificates-crawler/domain-based-crawler/src/main-v2.py:155-170 | the domains are exactly the stripped cells of the naming rows, in row order |
| CrawlerV2.InsertAll | ssl-certificates-crawler/domain-based-crawler/src/main-v2.py:179-190 | the stored tasks stay as they are; the inserted count is the number of fresh pending tasks added, each for a listed domain |
| CrawlerV2.LoadDomains | ssl-certificates-crawler/domain-based-crawler/src/main-v2.py:150-200 | the load succeeds exactly when the file names a domain; the stored tasks stay and the inserted ones follow |
| CrawlerV2.Initialize | ssl-certificates-crawler/domain-based-crawler/src/main-v2.py:131-147 | a populated collection is recovered, succeeding with nothing inserted; an empty one is seeded, succeeding exactly when the file names a domain; no task is removed or renamed |
| CrawlerV2.GrowsTrans | ssl-certificates-crawler/domain-based-crawler/src/main-v2.py:184-195 | the queue only grows, keeping every task, across successive inserts |
| CrawlerV2.InsertOne | ssl-certificates-crawler/domain-based-crawler/src/main-v2.py:186-192 | one insert skips a domain already queued (duplicate key) and appends a new one as a fresh pending task |
| CrawlerV2.QueuedCons | ssl-certificates-crawler/domain-based-crawler/src/main-v2.py:184-195 | one insert followed by the rest queues the whole list and counts what was added |
| CrawlerV2.InsertAllQueues | ssl-certificates-crawler/domain-based-crawler/src/main-v2.py:184-195 | inserting a list queues every domain once, keeps the tasks already there, and counts the inserted ones |
| CrawlerV2.LoadDomainsQueues | ssl-certificates-crawler/domain-based-crawler/src/main-v2.py:150-200 | seeding fails when the file names no domain; otherwise it queues every named domain once and reports how many tasks it added |
| CrawlerV2.SaveCertificate | ssl-certificates-crawler/domain-based-crawler/src/main-v2.py:282-293 | the parsed output with `domain` added is stored under the domain; a duplicate counts as success and changes nothing |
| CrawlerV2.SaveCertificateIdempotent | ssl-certificates-crawler/domain-based-crawler/src/main-v2.py:282-293 | saving a domain's certificate again succeeds and changes nothing |
| CrawlerV2.CountStatus | ssl-certificates-crawler/domain-based-crawler/src/main-v2.py:458-488 | the count is zero exactly when no task has the status |
| CrawlerV2.ProgressStats | ssl-certificates-crawler/domain-based-crawler/src/main-v2.py:458-488 | the total is the size of the collection and the sum of the four counts |
| CrawlerV2.StatusPartition | ssl-certificates-crawler/domain-based-crawler/src/main-v2.py:458-488 | every task has exactly one of the four statuses |
| CrawlerV2.CompleteIffAllFinished | ssl-certificates-crawler/domain-based-crawler/src/main-v2.py:523-532 | the run is complete exactly when every task is completed or failed |
| CrawlerV2.Apply | ssl-certificates-crawler/domain-based-crawler/src/main-v2.py:131-147 | no transition shrinks the queue |
| CrawlerV2.ClaimKeepsInv | ssl-certificates-crawler/domain-based-crawler/src/main-v2.py:296-321 | a claim keeps the invariant |
| CrawlerV2.InitKeepsInv | ssl-certificates-crawler/domain-based-crawler/src/main-v2.py:131-147 | startup, seeding or recovery, keeps the invariant |
| CrawlerV2.StepKeepsInv | ssl-certificates-crawler/domain-based-crawler/src/main-v2.py:131-147 | every transition keeps domains unique, leases matching the status, and the attempt count at most 3 |
| CrawlerV2.Run | ssl-certificates-crawler/domain-based-crawler/src/main-v2.py:404-457 | any run keeps the invariant and never shrinks the queue |
| CrawlerV2.RecoveryStrandsExhaustedTask | ssl-certificates-crawler/domain-based-crawler/src/main-v2.py:203-228 | a task caught processing on its third attempt is recovered as pending with count 3, which the claim filter never picks, so the run never completes |
| CrawlerV2.StuckForever | ssl-certificates-crawler/domain-based-crawler/src/main-v2.py:299-303 | a pending task with no retries left stays exactly as it is whatever happens next, and completion never holds again |
| CrawlerV2.StuckStep | ssl-certificates-crawler/domain-based-crawler/src/main-v2.py:299-303 | no single transition touches a stuck task |
| CrawlerV2.RecoverStaleFixed | ssl-certificates-crawler/domain-based-crawler/src/main-v2.py:203-228 | recovery as evidently intended: a stale task with no retries left fails for good; any other goes back to pending |
| CrawlerV2.ClaimEmptyOnlyWhenDrained | ssl-certificates-crawler/domain-based-crawler/src/main-v2.py:299-303 | when every pending task is claimable, a claim comes back empty only when nothing is pending |
| CrawlerV2.RecoverFixedKeepsClaimable | ssl-certificates-crawler/domain-based-crawler/src/main-v2.py:203-228 | the corrected recovery leaves every pending task claimable |
| CrawlerV2.WorkerStepsKeepClaimable | ssl-certificates-crawler/domain-based-crawler/src/main-v2.py:296-374 | claims and outcome reports keep every pending task claimable when a failing worker reports the count its claim returned |
| CrawlerV3.Find | ssl-certificates-crawler/domain-based-crawler/src/main-v3.py:240-241 | the task updated by `_id` carries the domain, and none is found exactly when no task has it |
| CrawlerV3.UpdateTask | ssl-certificates-crawler/domain-based-crawler/src/main-v3.py:240-241 | an update by `_id` replaces that task whatever its state and leaves every other task as it was |
| CrawlerV3.Best | ssl-certificates-crawler/domain-based-crawler/src/main-v3.py:207-218 | the task picked is pending with the fewest attempts, the first such in collection order; none exactly when nothing is pending |
| CrawlerV3.Claim | ssl-certificates-crawler/domain-based-crawler/src/main-v3.py:206-221 | a claim sets that task processing under the worker with fresh start and heartbeat times and keeps its count; nothing changes when nothing is pending |
| CrawlerV3.Heartbeat | ssl-certificates-crawler/domain-based-crawler/src/main-v3.py:235-241 | the heartbeat by `_id` lands whatever the task's state and changes nothing else |
| CrawlerV3.RetryDelay | ssl-certificates-crawler/domain-based-crawler/src/main-v3.py:275-279 | the delay is `RETRY_DELAYS[attempts - 1]`, or the last delay once the list runs out; always one of 5, 10, 15 |
| CrawlerV3.Finish | ssl-certificates-crawler/domain-based-crawler/src/main-v3.py:240-300 | success completes the task at `now` with no error; a failure (including an empty parsed output with no error, recorded as no error) counts the attempt, records the error as given and puts it back to pending below 3 attempts, or fails it for good at `now` keeping its worker id; other tasks unchanged |
| CrawlerV3.SaveCertificate | ssl-certificates-crawler/domain-based-crawler/src/main-v3.py:240-246 | the parsed output with `domain` and `scanned_at` added is stored under the domain when none is stored; a duplicate is ignored and changes nothing; other domains unchanged |
| CrawlerV3.SaveCertificateKeepsFirst | ssl-certificates-crawler/domain-based-crawler/src/main-v3.py:240-246 | a second save for a domain leaves the first certificate in place |
| CrawlerV3.Doctor | ssl-certificates-crawler/domain-based-crawler/src/main-v3.py:303-318 | every processing task with a heartbeat older than 60 s goes back to pending with no worker and the watchdog error, its count kept; the rest unchanged |
| CrawlerV3.CountStatus | ssl-certificates-crawler/domain-based-crawler/src/main-v3.py:333-338 | the count is zero exactly when no task has the status |
| CrawlerV3.CompleteIffAllFinished | ssl-certificates-crawler/domain-based-crawler/src/main-v3.py:339-342 | the dashboard ends the run exactly when every task is completed or failed, and then no claim succeeds |
| CrawlerV3.DomainColumn | ssl-certificates-crawler/domain-based-crawler/src/main-v3.py:100-105 | the first header whose stripped lower-cased name is `domain`, `domains` or `websites url`; none exactly when no header qualifies |
| CrawlerV3.Marks | ssl-certificates-crawler/domain-based-crawler/src/main-v3.py:101-102 | which header columns are recognised, one flag per column |
| CrawlerV3.ColumnDomains | ssl-certificates-crawler/domain-based-crawler/src/main-v3.py:113-122 | one stripped domain for each non-blank cell of the domain column; a row without the column aborts the read |
| CrawlerV3.ColumnDomainsCons | ssl-certificates-crawler/domain-based-crawler/src/main-v3.py:113-122 | reading a column is reading its first cell then the rest |
| CrawlerV3.ColumnDomainsInOrder | ssl-certificates-crawler/domain-based-crawler/src/main-v3.py:113-122 | when every row has the column, the domains are exactly the stripped non-blank cells, in row order |
| CrawlerV3.PresentCons | ssl-certificates-crawler/domain-based-crawler/src/main-v3.py:113-114 | every row has the column exactly when the first does and every later one does |
| CrawlerV3.KeptCons | ssl-certificates-crawler/domain-based-crawler/src/main-v3.py:114-115 | a kept cell in front of kept cells keeps them all kept |
| CrawlerV3.Seed | ssl-certificates-crawler/domain-based-crawler/src/main-v3.py:127-132 | inserting the domains either loads the table or stops start-up with a crash; the stored tasks stay, at most one task per listed domain is added, and a crash means some domain was rejected |
| CrawlerV3.InsertMany | ssl-certificates-crawler/domain-based-crawler/src/main-v3.py:127-132 | the stored tasks stay; each listed domain is either inserted as a fresh pending task or counted as a rejected duplicate |
| CrawlerV3.LoadCsvIfEmpty | ssl-certificates-crawler/domain-based-crawler/src/main-v3.py:90-132 | a populated table is skipped; an empty one stops with a fatal error exactly when the file has no header, no domain column or an unreadable row; a crash leaves fewer tasks than the file names |
| CrawlerV3.GrowsTrans | ssl-certificates-crawler/domain-based-crawler/src/main-v3.py:129 | the table only grows, keeping every task, across successive inserts |
| CrawlerV3.InsertedCons | ssl-certificates-crawler/domain-based-crawler/src/main-v3.py:129 | one document inserted or rejected, then the rest, inserts the whole list |
| CrawlerV3.InsertOne | ssl-certificates-crawler/domain-based-crawler/src/main-v3.py:129 | one document: a domain already there is rejected, a new one appended as a fresh pending task |
| CrawlerV3.InsertManyTable | ssl-certificates-crawler/domain-based-crawler/src/main-v3.py:129 | `insert_many(ordered=False)` keeps what was there and adds each missing domain once |
| CrawlerV3.InsertManyRejects | ssl-certificates-crawler/domain-based-crawler/src/main-v3.py:129-132 | `insert_many` rejects some document exactly when a domain clashes with the table or an earlier document |
| CrawlerV3.DuplicateSplit | ssl-certificates-crawler/domain-based-crawler/src/main-v3.py:129 | a list has a repeat exactly when its head reappears or its tail has one |
| CrawlerV3.DuplicateDomainCrashesStartup | ssl-certificates-crawler/domain-based-crawler/src/main-v3.py:127-132 | seeding an empty collection crashes start-up exactly when the file names some domain twice, although every domain is in by then |
| CrawlerV3.SeedEmpty | ssl-certificates-crawler/domain-based-crawler/src/main-v3.py:127-132 | seeding an empty collection queues each listed domain once, pending with no attempts |
| CrawlerV3.TwoRowsSameDomainCrash | ssl-certificates-crawler/domain-based-crawler/src/main-v3.py:90-132 | a recognised column naming the same domain on two rows crashes start-up |
| CrawlerV3.TwoCellsRead | ssl-certificates-crawler/domain-based-crawler/src/main-v3.py:113-115 | two rows holding the same stripped domain read as that domain twice |
| CrawlerV3.CapitalisedHeaderRecognised | ssl-certificates-crawler/domain-based-crawler/src/main-v3.py:102 | the header `Domain` is recognised |
| CrawlerV3.LoadCsvIfEmptyFixed | ssl-certificates-crawler/domain-based-crawler/src/main-v3.py:90-132 | seeding as evidently intended: duplicate domains are skipped, every domain is queued once, pending with no attempts, and start-up goes on |
| CrawlerV3.SeedFixed | ssl-certificates-crawler/domain-based-crawler/src/main-v3.py:127-132 | inserting with duplicates skipped keeps the table, adds exactly the missing domains as fresh pending tasks, and keeps domains unique |
| CrawlerV3.Apply | ssl-certificates-crawler/domain-based-crawler/src/main-v3.py:205-318 | no transition adds or removes a task |
| CrawlerV3.ClaimedCountBelowMax | ssl-certificates-crawler/domain-based-crawler/src/main-v3.py:206-221 | every claim hands out a task with fewer than 3 attempts |
| CrawlerV3.StepKeepsInv | ssl-certificates-crawler/domain-based-crawler/src/main-v3.py:205-318 | every transition keeps domains unique, leases matching the status, and attempt counts at most 3 |
| CrawlerV3.Run | ssl-certificates-crawler/domain-based-crawler/src/main-v3.py:205-318 | any interleaving of claims, heartbeats, outcomes and watchdog passes keeps the invariant and the table size |
| CrawlerV3.DoctorKeepsCount | ssl-certificates-crawler/domain-based-crawler/src/main-v3.py:205-318 | over any run of claims, heartbeats and watchdog passes no attempt count changes, so a task whose worker freezes every time never reaches 3 attempts |
| CrawlerV3.StepKeepsCounts | ssl-certificates-crawler/domain-based-crawler/src/main-v3.py:205-318 | one claim, heartbeat or watchdog pass changes no attempt count |
| Views.Flag | arslan-dashboard/backend/certificates/views.py:59 | a flag is set exactly when the parameter is present and reads `true` in any capitalisation |
| Views.FlagIgnoresCase | arslan-dashboard/backend/certificates/views.py:59 | a flag does not depend on the capitalisation of its value |
| Views.KeepStripped | arslan-dashboard/backend/certificates/views.py:90 | only stripped, non-blank pieces are kept, in order |
| Views.MultiSelect | arslan-dashboard/backend/certificates/views.py:90-93 | a missing or empty parameter gives `None`; otherwise the list of stripped non-blank items |
| Views.KeepStrippedKeeps | arslan-dashboard/backend/certificates/views.py:90 | pieces that are already stripped and non-blank are all kept |
| Views.MultiSelectRoundTrip | arslan-dashboard/backend/certificates/views.py:90-93 | a selection joined with commas reads back as the same selection |
| Views.GlobalFilters | arslan-dashboard/backend/certificates/views.py:95-105 | the view passes on the parsed parameters, without grades |
| Views.GlobalFiltersAgree | arslan-dashboard/backend/certificates/views.py:95-105 | the view passes global filters on exactly when the controller counts one of them as active, and then a base filter is built |
| Views.VulnerableCerts | arslan-dashboard/backend/certificates/views.py:357-360 | exactly the page's certificates with an error or a warning are kept, as many as there are positions holding one |
| Views.VulnerableCertsAppend | arslan-dashboard/backend/certificates/views.py:357-360 | the vulnerable filter keeps page order: a concatenation keeps those of its first part, then those of its second |
| Views.Critical | arslan-dashboard/backend/certificates/views.py:363 | the critical count is the number of positions whose certificate has an error |
| Views.WarningOnly | arslan-dashboard/backend/certificates/views.py:364 | the warning-only count is the number of positions whose certificate has a warning and no error |
| Views.VulnSummary | arslan-dashboard/backend/certificates/views.py:348-375 | the summary total is the number of vulnerable certificates, split into critical and warning-only |
| Views.SummaryPartition | arslan-dashboard/backend/certificates/views.py:363-364 | every vulnerable certificate is critical or warning-only, never both |
| Views.ReplaceChar | arslan-dashboard/backend/certificates/views.py:433 | `replace` of one character keeps the length and swaps exactly that character |
| Views.FileName | arslan-dashboard/backend/certificates/views.py:424-439 | the stem follows the first filter given: the lower-cased status, `weak_hash`, `self_signed`, the algorithm with `-` turned to `_` and cut to 20 characters, the issuer with spaces turned to `_` and quotes dropped and cut to 20 characters, the lower-cased country, each followed by `_certificates`; plain `certificates` exactly when no filter is given |
| Views.SearchStep | arslan-dashboard/backend/certificates/views.py:485-490 | a search sets the `$or` slot and changes nothing else |
| Views.IssuerStep | arslan-dashboard/backend/certificates/views.py:492-515 | `others` in any capitalisation adds the top-issuer exclusion under `$and`; any other issuer is matched as a pattern |
| Views.StatusWindow | arslan-dashboard/backend/certificates/views.py:514-521 | a status sets a validity window exactly when its upper-cased name is EXPIRED, EXPIRING_SOON or VALID |
| Views.SizesExclusive | arslan-dashboard/backend/certificates/views.py:531-534 | no first word asks for both the RSA and the ECDSA length |
| Views.SizeStep | arslan-dashboard/backend/certificates/views.py:528-536 | a second word `int()` reads is written as the RSA length for `RSA` and the ECDSA length for `ECDSA` or `EC`, in any capitalisation; otherwise neither length is written, and nothing else changes |
| Views.EncryptionStep | arslan-dashboard/backend/certificates/views.py:523-536 | no words leave the query as it is; otherwise the first word of `split()` is the key algorithm, and the size slots are written only as the size step says; no other slot changes |
| Views.EncryptionSameKeyInfo | arslan-dashboard/backend/certificates/views.py:523-536 | what the key filter writes depends only on the key slots it starts from |
| Views.Put | arslan-dashboard/backend/certificates/views.py:514-521 | a window is written at its key and nothing else changes |
| Views.MonthWindow | arslan-dashboard/backend/certificates/views.py:538-542 | a month's window, from its first to its last second, exists exactly for months 1 to 12 |
| Views.MonthStep | arslan-dashboard/backend/certificates/views.py:538-553 | a month filter fails exactly for an asked month outside 1..12, and otherwise writes the month's window |
| Views.WeakHashStep | arslan-dashboard/backend/certificates/views.py:556-562 | the weak-hash alternatives are written only when `$or` is still free |
| Views.Bucket | arslan-dashboard/backend/certificates/views.py:585-592 | exactly the four named buckets have a day range |
| Views.BucketsPartition | arslan-dashboard/backend/certificates/views.py:585-596 | the buckets split lengths below 9999 days: each lies in exactly one bucket, and longer or negative lengths in none |
| Views.BucketStep | arslan-dashboard/backend/certificates/views.py:585-596 | a known bucket writes its length range and nothing else changes |
| Views.DaysWindow | arslan-dashboard/backend/certificates/views.py:599-604 | a given number of days whose target date leaves years 1..9999 raises (`OverflowError`); otherwise an expiry window exists exactly when a number of days is given |
| Views.SearchAndIssuer | arslan-dashboard/backend/certificates/views.py:485-515 | search and issuer write neither the expiry slot nor the signature slot nor any key slot, and the `$or` slot is set exactly when a search is given, to the pattern over common name and domain |
| Views.FirstSteps | arslan-dashboard/backend/certificates/views.py:485-536 | after search, issuer, status and key type, the expiry slot holds the status window, the `$or` slot the search, and the key slots what the key filter alone writes |
| Views.FlagSteps | arslan-dashboard/backend/certificates/views.py:544-570 | the flag steps keep the expiry window and the key slots, fill a free `$or` with the weak-hash clause, and set the exact signature algorithm |
| Views.LastSteps | arslan-dashboard/backend/certificates/views.py:572-604 | the day window overrides the expiry slot and the hash type the signature slot; the key slots are kept |
| Views.ExportQuery | arslan-dashboard/backend/certificates/views.py:481-604 | building the query fails exactly when an asked expiry or issue month lies outside 1..12, or when `expiring_days` puts the target date outside years 1..9999 |
| Views.KeyInfoSurvives | arslan-dashboard/backend/certificates/views.py:523-604 | no later filter touches the key slots: the built query holds exactly what the key filter writes there |
| Views.ExpiryPriority | arslan-dashboard/backend/certificates/views.py:517-604 | the expiry condition comes from the last filter that writes it: the day window over the expiring month over the status |
| Views.SignaturePriority | arslan-dashboard/backend/certificates/views.py:567-582 | the hash type's pattern overrides the exact signature algorithm |
| Views.WeakHashNeedsNoSearch | arslan-dashboard/backend/certificates/views.py:485-562 | a search takes the `$or` slot first, so weak hash applies only without a search |
| Views.CsvLine | arslan-dashboard/backend/certificates/views.py:628-635 | every written line ends with CR LF |
| Views.CsvRoundTrip | arslan-dashboard/backend/certificates/views.py:628-635 | every line the writer emits reads back as the cells it was given |
| Views.HeaderReadsBack | arslan-dashboard/backend/certificates/views.py:475-478 | the header line reads back as the nine column names |
| Views.RowsReadBack | arslan-dashboard/backend/certificates/views.py:609-626 | each data line reads back as its row |
| Views.Cells | arslan-dashboard/backend/certificates/views.py:616-626 | nine cells per certificate, the grade read from the given key or `N/A` |
| Views.RowAsWritten | arslan-dashboard/backend/certificates/views.py:616-626 | the row as written has nine cells |
| Views.GradeColumnAlwaysMissing | arslan-dashboard/backend/certificates/views.py:620 | no serialised certificate has `sslGrade`, so the grade column as written is `N/A` on every row |
| Views.Row | arslan-dashboard/backend/certificates/views.py:616-626 | the corrected row has nine cells |
| Views.GradeColumnShowsGrade | arslan-dashboard/backend/certificates/views.py:620 | the corrected row shows the certificate's grade |
| Views.Kept | arslan-dashboard/backend/certificates/views.py:612-614 | exactly the certificates of the asked country are kept, as many as there are positions holding one |
| Views.KeptCons | arslan-dashboard/backend/certificates/views.py:612-614 | the filter decides the first certificate, then the rest |
| Views.KeptAppend | arslan-dashboard/backend/certificates/views.py:609-614 | the country filter keeps database order: a concatenation keeps those of its first part, then those of its second |
| Views.SerializeAll | arslan-dashboard/backend/certificates/views.py:609-611 | one serialised certificate per found document, in order |
| Views.Rows | arslan-dashboard/backend/certificates/views.py:616-626 | one row as written per kept certificate, in order |
| Views.RowsFixed | arslan-dashboard/backend/certificates/views.py:616-626 | one corrected row per kept certificate, in order |
| Views.Lines | arslan-dashboard/backend/certificates/views.py:616-626 | one written line per row |
| Views.ExportOf | arslan-dashboard/backend/certificates/views.py:474-626 | the export starts with the header; a failed query ends it after the header, otherwise one line follows per kept certificate |
| Views.ExportOfFixed | arslan-dashboard/backend/certificates/views.py:474-626 | the corrected export has the same shape: header first, one line per kept certificate |
| Views.GenerateCsv | arslan-dashboard/backend/certificates/views.py:466-626 | the header comes first; the export fails after the header exactly when building the query fails: an out-of-range month or an out-of-range day count |
| Views.DaysOverflowStopsExport | arslan-dashboard/backend/certificates/views.py:599-600 | an `expiring_days` whose target date leaves years 1..9999 ends the streamed export right after its header, whatever the other filters |
| Views.ExportReadsBack | arslan-dashboard/backend/certificates/views.py:474-626 | every line of the export as written reads back: the header first, then each kept certificate's row, its grade read from `sslGrade`, in database order |
| Views.ExportGradeAlwaysMissing | arslan-dashboard/backend/certificates/views.py:609-626 | when the serialiser writes only its own keys, every data line of the export as written reads back as nine cells with `N/A` in the grade column |
| Views.LineGradeMissing | arslan-dashboard/backend/certificates/views.py:620 | a line holding a serialised certificate's row as written has `N/A` as its grade |
| Views.KeptAreSerialized | arslan-dashboard/backend/certificates/views.py:609-614 | every kept certificate is the serialiser's output for a found document |
| Views.ExportFixedReadsBack | arslan-dashboard/backend/certificates/views.py:474-626 | every line of the corrected export reads back, and each data line shows its certificate's grade |
| Views.Disposition | arslan-dashboard/backend/certificates/views.py:462 | the download is named `attachment; filename="….csv"` |

## Left out

- Network I/O: fetching certificates over TLS (`connect_to_domain`, `fetch_certificate_from_host`, `get_pem_from_domain`). A fetch is an input that yields PEM text or an error.
- Threads, thread pools, signal handlers, sleeps and the rescue threads. Concurrency is modelled as arbitrary sequences of the atomic transitions.
- CrawlerV1.Reclaim and CrawlerV3.Doctor: the reclaimer (main-v1.py:425-439) and the watchdog (main-v3.py:308-316) first list the stale tasks and then update each by `_id` alone; the model applies each pass as one atomic step, so a heartbeat, success or failure that lands between the listing and the update, which the source would overwrite, is not modelled.
- The wall clock. `datetime.now` and `time.time` become integer or ISO-text parameters.
- Parsing dates and certificate validity times. The parsed instants are inputs, because the parser is foreign code.
- The zcertificate tool and `json.loads`. A batch's run arrives as its outcome: output lines, a failure or a timeout. The parser is a function parameter. The order of the tool's output lines under `-workers 4` is taken as given.
- Temporary files, CSV reading and writing, and log and console output. Files arrive as their rows, and outputs are the row sequences written.
- pandas chunked reading in the pk analysis. A file is the one frame pandas would read. The CSV sniffer's verdict on headers is an input.
- `compare_with_existing_pk_urls` in the pk analysis. It is a reporting step over already-computed sets.
- Unicode case mapping. Lower-casing and upper-casing cover ASCII only.
- The exact text of exception messages. Only the facts stated about `ErrorText` are modelled.
- Executing Mongo queries and aggregation pipelines (`count_documents`, trends, distributions). The model builds the filter documents, and the counts and rows come back as inputs.
- The key order of dicts and JSON objects. Objects are maps.
- Floating-point arithmetic: percentages, `round`, health scores, rates and ETAs. Colour choices and percentage strings derived from them are left out too.
- The remaining `get_*` aggregations of `overview/models.py` that only pass pipeline results through.
- Parsing integers from query strings in the views. Page and size values arrive as integers.
- The list view's call that passes keyword arguments the controller does not accept. It raises `TypeError` in Python, and the model calls the controller with the arguments it accepts.
- The Redis cache, Django settings, URL routing and database configuration. None of these holds logic of the core.
- Overview.GetCertificates: only the page values, the counts and one result per returned row are stated, not every field of each row.
- CertModels.Serialize: the contract states the domain, the country and the zlint details. The remaining fields are copies of document fields and are not restated.
- CertListing.IssuanceTimeline: states the month points. The counts looked up for each month are inputs and are not restated.
- Tranco.ExtractFromFile: a file that fails part way through keeps, in the source, the domains it had already added. The model treats a file that cannot be read as contributing nothing.
- Overview.ExtractWarnings: a lint entry that is not a dict would make `.get` raise in the source. It is read as an empty dict and dropped.
- Overview.IsWarn: same as above, a lint entry that is not a dict is read as an empty dict rather than raising.
- CertAntigravity.RawCountry: a stored domain that is truthy but not text makes `.lower()` raise in the recount; the model reads it as `Unknown`, as it reads a falsy one.
- CertModels.Lints: a `lints` value that is present but not a dict (`null`, a list, a number) makes `.values()` raise `AttributeError` in `get_grade_from_zlint`, `count_vulnerabilities` and `get_zlint_details`; the model reads it as an empty lint map, so the grade is `A+` and the counts are zero where the service would answer with an error.
- CertModels.GradeFromZlint: inherits the reading above; `{"lints": null}` grades as `A+` in the model where the source raises.
- CertModels.CountryOf: a stored domain that is truthy but not text makes `.lower()` raise in `get_tld_country`; the model reads its country as `Unknown`.
- Overview.SummaryStatusColumnIsTotal: the base filter and each status counter read the clock separately (`_now_iso` and `_soon_iso` in dashboard/backend/SSL_Dashboard/Date_helper.py:8-12, called again by `filter_status`); the model gives every read one instant, so in the service the column can differ from the total by the certificates whose end date falls between two reads. Overview.StatusFilterOfSameStatus rests on the same single instant.
- CertModels.GetStatus: the parser is an input; an end date without a UTC offset gives a naive datetime whose subtraction from the aware clock raises, reported as `VALID`, and the model gets this only from a parser that yields `None` for such text, which its contract does not check.
- Overview.ExtractStatus: the parser is an input; a stored end time without an offset gives a naive datetime whose comparison with the aware clock raises, reported as `unknown`, and the model gets this only from a parser that yields `None` for such text, which its contract does not check.
- CrawlerV1.MarkFailed: the worker reads the task again (ssl-certificates-crawler/domain-based-crawler/src/main-v1.py:397) and updates it in a separate call; the model does both in one step, so a reclaim that lands between the read and the update, and is then overwritten with a count read before it, is not modelled.
- PkAnalysis.ExtractFromCsv: when reading raises part way through a file, the source keeps the domains and counters of the chunks already read and adds one failure; the model reads such a file as unreadable, one failure and no domains.
- PyStr.IntValue: Python's `int()` also accepts the decimal digits of other scripts (Arabic-Indic, full-width and so on); the model reads ASCII digits only, so such text reads as no number.

## Findings

| source | as written | input that shows it | evidently intended | confidence | as-written member | corrected member |
|---|---|---|---|---|---|---|
| ssl-certificates-crawler/domain-based-crawler/src/main-v2.py:203-228 | recovery puts a stale task back to pending with its attempt count unchanged, and the claim filter only takes tasks with fewer than 3 attempts | a task claimed for the third time whose worker stops heartbeating | a stale task with no retries left is marked failed, so the run can complete | not executed | CrawlerV2.RecoveryStrandsExhaustedTask | CrawlerV2.RecoverFixedKeepsClaimable |
| ssl-certificates-crawler/domain-based-crawler/src/main-v1.py:321-339 | the failure update matches on `_id` alone | worker A's lease is reclaimed, worker B finishes the task, then A reports a failure | only the current lease holder's outcome is applied | not executed | CrawlerV1.LateFailureReopensDoneTask | CrawlerV1.LeasedRunKeepsFinished |
| ssl-certificates-crawler/domain-based-crawler/src/main-v3.py:127-132 | an unordered `insert_many` of the CSV rows raises `BulkWriteError` on a repeated domain, and only `DuplicateKeyError` is caught | a CSV naming the same domain on two rows, loaded into an empty collection | duplicate rows are skipped and start-up goes on | not executed | CrawlerV3.DuplicateDomainCrashesStartup | CrawlerV3.LoadCsvIfEmptyFixed |
| ssl-certificates-crawler/domain-based-crawler/datasets/rapid-7/python-scripts/extract-domains-1.py:81-83 | results are paired with `zip`, so an output shorter than the batch drops certificates | a batch of two certificates for which the tool prints nothing | each certificate gets exactly one result | not executed | ExtractCn.EmptyOutputDropsCerts | ExtractCn.ProcessBatchFixed |
| ssl-certificates-crawler/domain-based-crawler/datasets/rapid-7/python-scripts/extract-domains-1.py:83-98 | a parse failure part way through appends an error for every certificate after the results already collected | two certificates whose second output line is not JSON | each certificate gets exactly one result | not executed | ExtractCn.ParseFailureRepeatsCerts | ExtractCn.FixedAgreesWhenWellFormed |
| ssl-certificates-crawler/domain-based-crawler/datasets/pk-domains-sir/python-scripts/pk-domains-analysis-v2.py:128-130 | the wildcard is stripped after the `.pk` check | a headed file whose `domain` column holds `*.pk`: `pk` is collected and saved | only domains that still end in `.pk` after cleaning are kept | not executed | PkAnalysis.BareWildcardOffered | PkAnalysis.FromFirstFixed |
| arslan-dashboard/antigravity/backend/certificates/models.py:445-478 | the country filter is applied to the page rows after pagination, while the total counts another set of rows | a Pakistani certificate that sorts onto page 2 when the page size is 1 | filter by country first, then count and paginate the same rows | not executed | CertAntigravity.CountryMatchBeyondLastPage | CertAntigravity.EveryMatchOnSomePage |
| arslan-dashboard/backend/certificates/views.py:620 | the CSV export reads the key `sslGrade`, which the serialiser never produces (it writes `grade`) | any export of serialised certificates | the grade column shows the certificate's grade | not executed | Views.ExportGradeAlwaysMissing | Views.ExportFixedReadsBack |

=== FILE: calendar.dfy ===
/** Gregorian calendar arithmetic as Python's `datetime` and `calendar`
    modules do it, shared by the dashboards' month windows and timelines.
    A month is named by its year and its number 1..12. */
module Calendar {

  import opened Wrappers

  /** The year range of Python's `datetime`. */
  const MIN_YEAR: int := 1
  const MAX_YEAR: int := 9999

  predicate IsLeap(y: int)
  {
    y % 4 == 0 && (y % 100 != 0 || y % 400 == 0)
  }

  predicate ValidMonth(m: int)
  {
    1 <= m <= 12
  }

  /** The number of days of month `m` of year `y`. */
  function DaysIn(y: int, m: int): (r: int)
    requires ValidMonth(m)
    ensures 28 <= r <= 31
    ensures m == 2 ==> (r == 29 <==> IsLeap(y))
    ensures m != 2 ==> (r == 30 <==> m == 4 || m == 6 || m == 9 || m == 11)
  {
    if m == 2 then (if IsLeap(y) then 29 else 28)
    else if m == 4 || m == 6 || m == 9 || m == 11 then 30
    else 31
  }

  /** The last day of `calendar.monthrange(y, m)`, which rejects a month
      outside 1..12 with an error (any year is accepted). */
  function MonthRange(y: int, m: int): (r: Option<int>)
    ensures r.Some? <==> ValidMonth(m)
    ensures r.Some? ==> 28 <= r.value <= 31
  {
    if ValidMonth(m) then Some(DaysIn(y, m)) else None
  }

  /** Months counted from year 0: consecutive months have consecutive indices. */
  function MonthIndex(y: int, m: int): int
  {
    y * 12 + (m - 1)
  }

  /** The month with a given index. */
  function MonthOf(i: int): (r: (int, int))
    ensures ValidMonth(r.1)
  {
    (i / 12, i % 12 + 1)
  }

  /** Month indices name months one to one. */
  lemma MonthIndexRoundTrip(y: int, m: int)
    requires ValidMonth(m)
    ensures MonthOf(MonthIndex(y, m)) == (y, m)
  {
  }

  /** The month after `(y, m)`: December rolls over to January of the next year. */
  function NextMonth(y: int, m: int): (r: (int, int))
    requires ValidMonth(m)
    ensures ValidMonth(r.1)
    ensures MonthIndex(r.0, r.1) == MonthIndex(y, m) + 1
  {
    if m == 12 then (y + 1, 1) else (y, m + 1)
  }

  /** `NextMonth` steps exactly one month index forward, whatever the month. */
  lemma NextMonthIsSuccessor(y: int, m: int)
    requires ValidMonth(m)
    ensures NextMonth(y, m) == MonthOf(MonthIndex(y, m) + 1)
  {
    var n := NextMonth(y, m);
    MonthIndexRoundTrip(n.0, n.1);
  }
}

=== FILE: cert_antigravity.dfy ===
/** The earlier variant of the dashboard backend's certificate model. Its
    TLD table, status, grade, vulnerability counts, filter builder,
    "Others" bucket and notification list are the ones of `CertModels` and
    `CertListing`, line for line. It differs in two places: the serialised
    `zlintDetails` is the whole `lints` map, and `get_all` applies the
    country filter to the rows of a page after pagination. */
module CertAntigravity {

  import opened Wrappers
  import opened PyStr
  import opened JsonTree
  import opened CertModels
  import opened CertListing
  import opened Counting
  import Overview

  // ---------------------------------------------------------------- serialisation

  /** The full `lints` map of a document's zlint section. */
  function FullLints(doc: Doc): (r: Doc)
    ensures Lints(Get(doc, "zlint", Obj(map[]))).Some? ==> r == Lints(Get(doc, "zlint", Obj(map[]))).value
  {
    Fields(Get(Fields(Get(doc, "zlint", Obj(map[]))), "lints", Obj(map[])))
  }

  /** `serialize_certificate` of this variant: every derived field as in the
      later one, and `zlintDetails` the whole `lints` map. */
  function SerializeEarly(doc: Doc, parse: string -> Option<int>, now: int, repr: Json -> string): (r: Serialized)
    ensures r.zlintDetails == Some(FullLints(doc))
    ensures r.domain == DomainOf(doc) && r.country == CountryOf(r.domain)
  {
    Serialize(doc, parse, now, repr).(zlintDetails := Some(FullLints(doc)))
  }

  /** Apart from `zlintDetails` the two variants serialise alike. */
  lemma SameDerivations(doc: Doc, parse: string -> Option<int>, now: int, repr: Json -> string)
    ensures SerializeEarly(doc, parse, now, repr).(zlintDetails := None) == Serialize(doc, parse, now, repr).(zlintDetails := None)
  {
  }

  /** The later variant's details are the error and warning entries of this
      variant's: the same entries, restricted to those two results. */
  lemma DetailsWithinFullLints(doc: Doc, parse: string -> Option<int>, now: int, repr: Json -> string)
    ensures var later := Serialize(doc, parse, now, repr).zlintDetails;
      var early := SerializeEarly(doc, parse, now, repr).zlintDetails.value;
      later.Some? ==>
        && later.value.Keys == WithResult(early, "error") + WithResult(early, "warn")
        && forall k :: k in later.value ==> k in early && later.value[k] == early[k]
  {
  }

  // ---------------------------------------------------------------- get_all

  /** The serialised rows of a cursor, in its order. `ser` is
      `serialize_certificate` with the clock and the parsers fixed:
      `d => SerializeEarly(d, parse, now, repr)`. */
  function SerializeAll(docs: seq<Doc>, ser: Doc -> Serialized): (r: seq<Serialized>)
    ensures |r| == |docs|
    ensures forall i :: 0 <= i < |docs| ==> r[i] == ser(docs[i])
  {
    seq(|docs|, i requires 0 <= i < |docs| => ser(docs[i]))
  }

  predicate HasCountry(x: Serialized, country: string)
  {
    x.country == country
  }

  /** The rows whose country is `country`, in their order. */
  function KeepCountry(rows: seq<Serialized>, country: string): (r: seq<Serialized>)
    ensures |r| == |Where(rows, x => HasCountry(x, country))|
    ensures forall x :: x in r <==> x in rows && x.country == country
  {
    if |rows| == 0 then []
    else
      var rest := KeepCountry(rows[1..], country);
      assert forall x :: x in rows <==> x == rows[0] || x in rows[1..];
      WhereCons(rows, x => HasCountry(x, country));
      if rows[0].country == country then [rows[0]] + rest else rest
  }

  /** Filtering keeps the rows' order: the rows of a concatenation are
      the rows of its first part followed by those of its second. */
  lemma {:induction false} KeepCountryAppend(a: seq<Serialized>, b: seq<Serialized>, country: string)
    ensures KeepCountry(a + b, country) == KeepCountry(a, country) + KeepCountry(b, country)
  {
    if |a| > 0 {
      assert (a + b)[0] == a[0] && (a + b)[1..] == a[1..] + b;
      KeepCountryAppend(a[1..], b, country);
      if a[0].country == country {
        assert KeepCountry(a + b, country) == [a[0]] + KeepCountry(a[1..] + b, country);
        assert KeepCountry(a, country) == [a[0]] + KeepCountry(a[1..], country);
      }
    } else {
      assert a + b == b;
    }
  }

  /** The country the stored `domain` field names, as the recount reads it:
      a missing field is `""`. A field that is not text would make
      `.lower()` raise; it is read as unknown. */
  function RawCountry(d: Doc): (r: string)
    ensures Get(d, "domain", Str("")).Str? ==> r == GetTldCountry(Get(d, "domain", Str("")).s)
    ensures !Get(d, "domain", Str("")).Str? ==> r == UNKNOWN
  {
    match Get(d, "domain", Str(""))
    case Str(s) => GetTldCountry(s)
    case _ => UNKNOWN
  }

  /** `sum(1 for d in all_docs if get_tld_country(d.get('domain', '')) == country)` */
  function RawCount(docs: seq<Doc>, country: string): (r: nat)
    ensures r == |Where(docs, d => RawCountry(d) == country)|
  {
    if |docs| == 0 then 0
    else
      WhereSnoc(docs, d => RawCountry(d) == country);
      RawCount(docs[..|docs| - 1], country) + (if RawCountry(docs[|docs| - 1]) == country then 1 else 0)
  }

  /** pymongo's `skip(n).limit(m)` over the documents a query finds: a
      negative skip raises, a limit of 0 is no limit, and a negative limit
      returns a single batch of at most its magnitude. */
  function SkipLimit<T>(docs: seq<T>, skip: int, limit: int): (r: Option<seq<T>>)
    ensures r.Some? <==> skip >= 0
    ensures r.Some? ==> forall i :: 0 <= i < |r.value| ==> skip + i < |docs| && r.value[i] == docs[skip + i]
    ensures r.Some? && skip <= |docs| ==>
      |r.value| == if limit == 0 || |docs| - skip <= Abs(limit) then |docs| - skip else Abs(limit)
    ensures r.Some? && skip > |docs| ==> r.value == []
  {
    if skip < 0 then None
    else if limit == 0 then Some(if skip <= |docs| then docs[skip..] else [])
    else Some(Overview.Slice(docs, skip, skip + Abs(limit)))
  }

  /** With a positive page size the page is the slice `[skip, skip + size)`. */
  lemma SkipLimitPositive<T>(docs: seq<T>, page: int, pageSize: int)
    requires page >= 1 && pageSize >= 1
    ensures var skip := Overview.Skip(page, pageSize);
      SkipLimit(docs, (page - 1) * pageSize, pageSize) == Some(Overview.Slice(docs, skip, skip + pageSize))
  {
  }

  function Abs(n: int): nat
  {
    if n < 0 then -n else n
  }

  /** A listing of this variant: `max(1, ceil(total / page_size))` pages. */
  function ListingOf(page: int, pageSize: int, total: nat, rows: seq<Serialized>): (r: Listing)
    requires pageSize != 0
    ensures r.certificates == rows && r.pagination.total == total
    ensures Some(r.pagination.totalPages) == TotalPages(total, pageSize)
    ensures r.pagination.totalPages >= 1
  {
    Listing(rows, Pagination(page, pageSize, total, TotalPages(total, pageSize).value))
  }

  /** The `has_vulnerabilities` path: only the certificates flagged with
      errors, skipped and limited as pymongo does; every other filter of the
      call is dropped. A negative skip raises, and so does the page count
      for a zero page size. */
  function VulnerableListing(page: int, pageSize: int, flagged: seq<Doc>,
                             ser: Doc -> Serialized): (r: Option<Listing>)
    ensures r.Some? <==> pageSize != 0 && (page - 1) * pageSize >= 0
    ensures r.Some? ==> r.value.pagination.total == |flagged|
    ensures r.Some? ==>
      r.value.certificates == SerializeAll(SkipLimit(flagged, (page - 1) * pageSize, pageSize).value, ser)
    ensures page >= 1 && pageSize >= 1 ==>
      var skip := Overview.Skip(page, pageSize);
      r.Some? && r.value.certificates == SerializeAll(Overview.Slice(flagged, skip, skip + pageSize), ser)
  {
    var found := SkipLimit(flagged, (page - 1) * pageSize, pageSize);
    if page >= 1 && pageSize >= 1 then
      SkipLimitPositive(flagged, page, pageSize);
      Some(ListingOf(page, pageSize, |flagged|, SerializeAll(found.value, ser)))
    else if found.None? || pageSize == 0 then None
    else Some(ListingOf(page, pageSize, |flagged|, SerializeAll(found.value, ser)))
  }

  /** `get_all` as written: `matching` is what the query finds, in the
      cursor's order, and `flagged` what the error flag alone finds. With a
      country, the rows of the page are filtered after pagination, while
      the total recounts every match by its stored domain. */
  function GetAllEarly(page: int, pageSize: int, country: Option<string>, hasVulnerabilities: bool,
                       matching: seq<Doc>, flagged: seq<Doc>,
                       ser: Doc -> Serialized): (r: Option<Listing>)
    ensures r.Some? <==> pageSize != 0 && (page - 1) * pageSize >= 0
    ensures hasVulnerabilities ==> r == VulnerableListing(page, pageSize, flagged, ser)
    ensures r.Some? && !hasVulnerabilities ==>
      var rows := SerializeAll(SkipLimit(matching, (page - 1) * pageSize, pageSize).value, ser);
      && r.value.certificates == (if Present(country) then KeepCountry(rows, country.value) else rows)
      && r.value.pagination.total == (if Present(country) then RawCount(matching, country.value) else |matching|)
      && r.value.pagination.totalPages >= 1
    ensures page >= 1 && pageSize >= 1 && !hasVulnerabilities ==>
      var skip := Overview.Skip(page, pageSize);
      var rows := SerializeAll(Overview.Slice(matching, skip, skip + pageSize), ser);
      r.Some? && r.value.certificates == (if Present(country) then KeepCountry(rows, country.value) else rows)
  {
    if hasVulnerabilities then VulnerableListing(page, pageSize, flagged, ser)
    else
      var found := SkipLimit(matching, (page - 1) * pageSize, pageSize);
      if page >= 1 && pageSize >= 1 then
        SkipLimitPositive(matching, page, pageSize);
        Some(CountryListing(page, pageSize, country, matching, SerializeAll(found.value, ser)))
      else if found.None? || pageSize == 0 then None
      else Some(CountryListing(page, pageSize, country, matching, SerializeAll(found.value, ser)))
  }

  /** The answer for the rows of a page: with a country, the rows are
      filtered and the total is the recount of every match. */
  function CountryListing(page: int, pageSize: int, country: Option<string>, matching: seq<Doc>,
                          rows: seq<Serialized>): (r: Listing)
    requires pageSize != 0
    ensures r.certificates == (if Present(country) then KeepCountry(rows, country.value) else rows)
    ensures r.pagination.total == (if Present(country) then RawCount(matching, country.value) else |matching|)
    ensures r.pagination.totalPages >= 1
  {
    if Present(country) then ListingOf(page, pageSize, RawCount(matching, country.value), KeepCountry(rows, country.value))
    else ListingOf(page, pageSize, |matching|, rows)
  }

  /** With `has_vulnerabilities` set the answer depends on nothing but the
      page, its size and the flagged certificates. */
  lemma VulnerableIgnoresOtherFilters(page: int, pageSize: int, c1: Option<string>, c2: Option<string>,
                                      m1: seq<Doc>, m2: seq<Doc>, flagged: seq<Doc>, ser: Doc -> Serialized)
    ensures GetAllEarly(page, pageSize, c1, true, m1, flagged, ser)
         == GetAllEarly(page, pageSize, c2, true, m2, flagged, ser)
  {
  }

  /** A document whose domain has no dot: its country is unknown. */
  function Undotted(): Doc
  {
    map["domain" := Str("x")]
  }

  /** A document of a Pakistani domain. */
  function PkDomain(): Doc
  {
    map["domain" := Str("a.pk")]
  }

  /** A domain ending in `.pk` is Pakistani. */
  lemma PkSuffix(d: string)
    requires EndsWith(Lower(d), ".pk")
    ensures GetTldCountry(d) == "Pakistan"
  {
    TwoLabelLookupRedundant(d);
    LastLabelDecides(d, "pk");
  }

  lemma CountriesOfExamples(parse: string -> Option<int>, now: int, repr: Json -> string)
    ensures RawCountry(Undotted()) == UNKNOWN && RawCountry(PkDomain()) == "Pakistan"
    ensures SerializeEarly(Undotted(), parse, now, repr).country == UNKNOWN
    ensures SerializeEarly(PkDomain(), parse, now, repr).country == "Pakistan"
  {
    assert Lower("a.pk")[1..] == ".pk";
    PkSuffix("a.pk");
    assert Lower("x") == "x";
  }

  /** Filtering one row keeps it exactly when its country matches. */
  lemma KeepOne(x: Serialized, country: string)
    ensures KeepCountry([x], country) == if x.country == country then [x] else []
  {
    assert [x][1..] == [];
  }

  /** Page 1 and page 2 of the two example documents, for any
      serialisation that gives them the countries their domains name. */
  lemma ExamplePages(ser: Doc -> Serialized)
    requires ser(Undotted()).country == UNKNOWN && ser(PkDomain()).country == "Pakistan"
    ensures var docs := [Undotted(), PkDomain()];
      var p1 := GetAllEarly(1, 1, Some("Pakistan"), false, docs, [], ser).value;
      var p2 := GetAllEarly(2, 1, Some("Pakistan"), false, docs, [], ser).value;
      && p1.certificates == [] && p1.pagination.total == 1 && p1.pagination.totalPages == 1
      && |p2.certificates| == 1
  {
    var docs := [Undotted(), PkDomain()];
    assert RawCountry(Undotted()) == UNKNOWN && RawCountry(PkDomain()) == "Pakistan" by {
      CountriesOfExamples(s => None, 0, j => "");
    }
    assert RawCount(docs, "Pakistan") == 1 by {
      assert docs[..1] == [Undotted()];
      assert [Undotted()][..0] == [];
    }
    assert Overview.Slice(docs, 0, 1) == [Undotted()];
    assert Overview.Slice(docs, 1, 2) == [PkDomain()];
    var r1 := SerializeAll([Undotted()], ser);
    var r2 := SerializeAll([PkDomain()], ser);
    KeepOne(r1[0], "Pakistan");
    KeepOne(r2[0], "Pakistan");
  }

  /** The post-pagination country filter loses matches: with one row per
      page, an unknown domain first and a Pakistani one second, page 1 shows
      nothing and reports one page in all, and the match only shows on page
      2, past the last page the answer names. */
  lemma CountryMatchBeyondLastPage(parse: string -> Option<int>, now: int, repr: Json -> string)
    ensures var docs := [Undotted(), PkDomain()];
      var ser := d => SerializeEarly(d, parse, now, repr);
      var p1 := GetAllEarly(1, 1, Some("Pakistan"), false, docs, [], ser).value;
      var p2 := GetAllEarly(2, 1, Some("Pakistan"), false, docs, [], ser).value;
      && p1.certificates == [] && p1.pagination.total == 1 && p1.pagination.totalPages == 1
      && |p2.certificates| == 1
  {
    CountriesOfExamples(parse, now, repr);
    ExamplePages(d => SerializeEarly(d, parse, now, repr));
  }

  /** The corrected `get_all` with a country: the matches are filtered
      first and then paginated, and the total counts the same rows. */
  function GetAllCountryFirst(page: int, pageSize: int, country: string, matching: seq<Doc>, ser: Doc -> Serialized): (r: Option<Listing>)
    ensures r.Some? <==> page >= 1 && pageSize >= 1
    ensures r.Some? ==>
      var shown := KeepCountry(SerializeAll(matching, ser), country);
      && r.value.pagination.total == |shown|
      && r.value.certificates
         == Overview.Slice(shown, Overview.Skip(page, pageSize), Overview.Skip(page, pageSize) + pageSize)
  {
    if page < 1 || pageSize < 1 then None
    else
      var shown := KeepCountry(SerializeAll(matching, ser), country);
      var skip := Overview.Skip(page, pageSize);
      Some(ListingOf(page, pageSize, |shown|, Overview.Slice(shown, skip, skip + pageSize)))
  }

  /** Every certificate of the country shows on a page no later than the
      last page the answer names. */
  lemma EveryMatchOnSomePage(pageSize: int, country: string, matching: seq<Doc>, ser: Doc -> Serialized, x: Serialized)
    requires pageSize >= 1
    requires x in SerializeAll(matching, ser) && x.country == country
    ensures exists p :: (1 <= p <= GetAllCountryFirst(1, pageSize, country, matching, ser).value.pagination.totalPages
      && x in GetAllCountryFirst(p, pageSize, country, matching, ser).value.certificates)
  {
    var shown := KeepCountry(SerializeAll(matching, ser), country);
    var j :| 0 <= j < |shown| && shown[j] == x;
    var p := j / pageSize + 1;
    Overview.ItemOnItsPage(shown, pageSize, j);
    PageCountWithinTotalPages(|shown|, pageSize);
    var page := GetAllCountryFirst(p, pageSize, country, matching, ser).value.certificates;
    assert page[j - (p - 1) * pageSize] == x;
  }

  /** `ceil(total / size)` never exceeds `max(1, ceil(total / size))`. */
  lemma PageCountWithinTotalPages(total: nat, size: int)
    requires size >= 1
    ensures Overview.PageCount(total, size) <= TotalPages(total, size).value
  {
  }
}

=== FILE: cert_listing.dfy ===
/** The list-shaped answers of the dashboard backend's certificate model:
    the pagination of `get_all` with its early returns and the country
    clause it derives from the TLD table, the certificate-authority
    distribution with its "Others" bucket, the notification list and the
    months of the issuance timeline. Database counts and aggregation
    results are inputs. */
module CertListing {

  import opened Wrappers
  import opened PyStr
  import opened JsonTree
  import opened Calendar
  import opened CertModels

  // ---------------------------------------------------------------- pagination

  /** Python's `a // b` for a non-zero divisor: rounded towards minus infinity. */
  function FloorDiv(a: int, b: int): (r: int)
    requires b != 0
    ensures b > 0 ==> r * b <= a < (r + 1) * b
    ensures b < 0 ==> r * b >= a > (r + 1) * b
  {
    if b > 0 then a / b else (-a) / (-b)
  }

  /** `max(1, (total + page_size - 1) // page_size)`; a page size of zero raises. */
  function TotalPages(total: nat, pageSize: int): (r: Option<nat>)
    ensures r.Some? <==> pageSize != 0
    ensures r.Some? ==> r.value >= 1
    ensures pageSize > 0 && total == 0 ==> r == Some(1)
    ensures pageSize > 0 && total > 0 ==> (r.value - 1) * pageSize < total <= r.value * pageSize
  {
    if pageSize == 0 then None
    else
      var q := FloorDiv(total + pageSize - 1, pageSize);
      Some(if q < 1 then 1 else q)
  }

  datatype Pagination = Pagination(page: int, pageSize: int, total: nat, totalPages: nat)
  datatype Listing = Listing(certificates: seq<Serialized>, pagination: Pagination)

  /** The empty answer of the early returns: total and page count both 0. */
  function EmptyListing(page: int, pageSize: int): (r: Listing)
    ensures r.certificates == [] && r.pagination.total == 0 && r.pagination.totalPages == 0
  {
    Listing([], Pagination(page, pageSize, 0, 0))
  }

  /** A page of results with its count; `None` where the page count raises. */
  function Paged(page: int, pageSize: int, total: nat, rows: seq<Serialized>): (r: Option<Listing>)
    ensures r.Some? <==> pageSize != 0
    ensures r.Some? ==> r.value.certificates == rows && r.value.pagination.total == total
    ensures r.Some? ==> Some(r.value.pagination.totalPages) == TotalPages(total, pageSize)
  {
    match TotalPages(total, pageSize)
    case None => None
    case Some(n) => Some(Listing(rows, Pagination(page, pageSize, total, n)))
  }

  /** The validity bucket's range in days. */
  function BucketDays(bucket: string): (r: Option<(int, int)>)
    ensures r.Some? <==> bucket in {"0-90", "90-365", "365-730", "730+"}
    ensures r.Some? ==> 0 <= r.value.0 < r.value.1
  {
    if bucket == "0-90" then Some((0, 90))
    else if bucket == "90-365" then Some((90, 365))
    else if bucket == "365-730" then Some((365, 730))
    else if bucket == "730+" then Some((730, 100000))
    else None
  }

  /** The validity-bucket path of `get_all`: `agg` is the page of documents
      and the count the aggregation returned, `None` when it raised or came
      back empty. Any error inside, a zero page size included, is caught and
      gives the empty answer. */
  function BucketListing(page: int, pageSize: int, agg: Option<(seq<Serialized>, nat)>): (r: Listing)
    ensures agg.None? || pageSize == 0 ==> r == EmptyListing(page, pageSize)
    ensures agg.Some? && pageSize != 0 ==> Some(r) == Paged(page, pageSize, agg.value.1, agg.value.0)
  {
    match agg
    case None => EmptyListing(page, pageSize)
    case Some((rows, total)) =>
      match Paged(page, pageSize, total, rows)
      case None => EmptyListing(page, pageSize)
      case Some(l) => l
  }

  /** The TLDs that map to `country`, in table order. */
  function CountryTlds(country: string): (r: seq<string>)
    ensures forall t :: t in r <==> t in TLD_TO_COUNTRY && TLD_TO_COUNTRY[t] == country
  {
    OrderCovers();
    Filter(TLD_ORDER, country)
  }

  function Filter(tlds: seq<string>, country: string): (r: seq<string>)
    requires forall i :: 0 <= i < |tlds| ==> tlds[i] in TLD_TO_COUNTRY
    ensures forall t :: t in r <==> t in tlds && TLD_TO_COUNTRY[t] == country
  {
    if |tlds| == 0 then []
    else
      var rest := Filter(tlds[1..], country);
      assert forall t :: t in tlds <==> t == tlds[0] || t in tlds[1..];
      if TLD_TO_COUNTRY[tlds[0]] == country then [tlds[0]] + rest else rest
  }

  /** The iteration order lists every key of the table. */
  lemma OrderCovers()
    ensures forall i :: 0 <= i < |TLD_ORDER| ==> TLD_ORDER[i] in TLD_TO_COUNTRY
    ensures forall t :: t in TLD_TO_COUNTRY ==> t in TLD_ORDER
  {
  }

  /** One alternative of the country regex: `.*\.` and the TLD, its dot escaped, then `$`. */
  function TldPattern(tld: string): string
  {
    ".*\\." + Escaped(tld) + "$"
  }

  function Escaped(s: string): (r: string)
  {
    if |s| == 0 then "" else (if s[0] == '.' then "\\." else [s[0]]) + Escaped(s[1..])
  }

  /** The country clause of `get_all`: the alternatives joined with `|`, or
      `None` for a country no TLD maps to, which ends the call with the
      empty answer. */
  function CountryRegex(country: string): (r: Option<string>)
    ensures r.None? <==> country !in TLD_TO_COUNTRY.Values
  {
    var tlds := CountryTlds(country);
    if |tlds| == 0 then None
    else
      assert tlds[0] in TLD_TO_COUNTRY;
      Some(Join(seq(|tlds|, i requires 0 <= i < |tlds| => TldPattern(tlds[i])), '|'))
  }

  /** What the case-insensitive regex matches: the domain ends with a dot
      and one of the country's TLDs. */
  predicate RegexMatches(domain: string, country: string)
  {
    exists t :: t in CountryTlds(country) && EndsWith(Lower(domain), "." + t)
  }

  /** The database-side country filter agrees with the country the
      serialised certificate shows for the same domain text. */
  lemma CountryRegexAgrees(domain: string, country: string)
    requires country != UNKNOWN
    ensures RegexMatches(domain, country) <==> GetTldCountry(domain) == country
  {
    if GetTldCountry(domain) == country {
      CountryMatchesRegex(domain, country);
    }
    if RegexMatches(domain, country) {
      RegexMatchesCountry(domain, country);
    }
  }

  lemma CountryMatchesRegex(domain: string, country: string)
    requires country != UNKNOWN
    requires GetTldCountry(domain) == country
    ensures RegexMatches(domain, country)
  {
    TwoLabelLookupRedundant(domain);
    var s := Lower(domain);
    var parts := Split(s, '.');
    var last := parts[|parts| - 1];
    JoinSplit(s, '.');
    JoinEndsWithLast(parts, '.');
    assert last in CountryTlds(country);
    assert EndsWith(s, "." + last);
  }

  lemma RegexMatchesCountry(domain: string, country: string)
    requires RegexMatches(domain, country)
    ensures GetTldCountry(domain) == country
  {
    TwoLabelLookupRedundant(domain);
    var t := MatchingTld(domain, country);
    var u := DotlessTld(Lower(domain), t);
    LastLabelDecides(domain, u);
  }

  /** The alternative of the regex that matched. */
  lemma MatchingTld(domain: string, country: string) returns (t: string)
    requires RegexMatches(domain, country)
    ensures t in TLD_TO_COUNTRY && TLD_TO_COUNTRY[t] == country && EndsWith(Lower(domain), "." + t)
  {
    t :| t in CountryTlds(country) && EndsWith(Lower(domain), "." + t);
  }

  /** A suffix that matches a table key also matches a dotless key of the
      same country: `co.uk` gives way to `uk`. */
  lemma DotlessTld(s: string, t: string) returns (u: string)
    requires t in TLD_TO_COUNTRY && EndsWith(s, "." + t)
    ensures u in TLD_TO_COUNTRY && '.' !in u && TLD_TO_COUNTRY[u] == TLD_TO_COUNTRY[t] && EndsWith(s, "." + u)
  {
    if '.' in t {
      OnlyDottedKey(t);
      CoUkEndsWithUk(s);
      u := "uk";
    } else {
      u := t;
    }
  }

  /** A domain ending in a dot and a dotless table key has that key's country. */
  lemma LastLabelDecides(domain: string, tld: string)
    requires tld in TLD_TO_COUNTRY && '.' !in tld
    requires EndsWith(Lower(domain), "." + tld)
    ensures LastLabelCountry(domain) == TLD_TO_COUNTRY[tld]
  {
    var parts := Split(Lower(domain), '.');
    LastLabelOfSuffix(Lower(domain), tld);
    assert domain != "" by {
      assert |Lower(domain)| == |domain|;
    }
    LastLabelIs(parts, tld);
  }

  lemma LastLabelIs(parts: seq<string>, tld: string)
    requires tld in TLD_TO_COUNTRY
    requires |parts| >= 2 && parts[|parts| - 1] == tld
    ensures LastLabel(parts) == TLD_TO_COUNTRY[tld]
  {
  }

  lemma CoUkEndsWithUk(s: string)
    requires EndsWith(s, ".co.uk")
    ensures EndsWith(s, ".uk")
  {
    assert s[|s| - 3..] == s[|s| - 6..][3..];
  }

  /** A join of at least two pieces ends with the separator and the last piece. */
  lemma {:induction false} JoinEndsWithLast(pieces: seq<string>, sep: char)
    requires |pieces| >= 2
    ensures EndsWith(Join(pieces, sep), [sep] + pieces[|pieces| - 1])
    decreases |pieces|
  {
    if |pieces| > 2 {
      JoinEndsWithLast(pieces[1..], sep);
    }
  }

  /** Text that ends with a dot and a dotless label has that label last. */
  lemma LastLabelOfSuffix(s: string, t: string)
    requires '.' !in t
    requires EndsWith(s, "." + t)
    ensures |Split(s, '.')| >= 2 && Split(s, '.')[|Split(s, '.')| - 1] == t
  {
    var p := s[..|s| - |t| - 1];
    assert s == p + ['.'] + t by {
      assert s[|s| - |t| - 1..] == "." + t;
    }
    SplitLast(p, '.', t);
  }

  // ---------------------------------------------------------------- CA distribution

  const OTHERS_COLOR := "#6b7280"

  /** The colour palette, cycled through by rank. */
  const COLORS: seq<string> := [
    "#10b981", "#3b82f6", "#8b5cf6", "#f59e0b", "#ef4444", "#06b6d4", "#14b8a6", "#6366f1",
    "#ec4899", "#84cc16", "#f97316", "#a855f7", "#22c55e", "#0ea5e9", "#d946ef", "#eab308", "#6b7280"]

  datatype CaEntry = CaEntry(id: string, name: Json, count: nat, maxCount: nat, color: string, isOthers: bool)

  function Sum(counts: seq<(Json, nat)>): (r: nat)
  {
    if |counts| == 0 then 0 else Sum(counts[..|counts| - 1]) + counts[|counts| - 1].1
  }

  function EntrySum(entries: seq<CaEntry>): (r: nat)
  {
    if |entries| == 0 then 0 else EntrySum(entries[..|entries| - 1]) + entries[|entries| - 1].count
  }

  /** The ranked entries, one per aggregation row (issuer, count). */
  function Ranked(results: seq<(Json, nat)>, maxCount: nat): (r: seq<CaEntry>)
    ensures |r| == |results|
    ensures forall i :: 0 <= i < |r| ==>
      r[i] == CaEntry("ca-" + NatToString(i), results[i].0, results[i].1, maxCount, COLORS[i % |COLORS|], false)
  {
    seq(|results|, i requires 0 <= i < |results| =>
      CaEntry("ca-" + NatToString(i), results[i].0, results[i].1, maxCount, COLORS[i % |COLORS|], false))
  }

  /** `get_ca_distribution`: `total` is the filtered certificate count and
      `results` the top issuers by count; what they leave over becomes an
      "Others" entry. */
  function CaDistribution(total: nat, results: seq<(Json, nat)>): (r: seq<CaEntry>)
    ensures total == 0 ==> r == []
    ensures total > 0 ==> |r| == |results| + (if Sum(results) < total then 1 else 0)
    ensures (exists i :: 0 <= i < |r| && r[i].isOthers) <==> total > 0 && Sum(results) < total
    ensures forall i :: 0 <= i < |r| && r[i].isOthers ==> i == |r| - 1 && r[i].count == total - Sum(results)
    ensures forall i :: 0 <= i < |r| ==> r[i].maxCount == if |results| > 0 then results[0].1 else 1
  {
    if total == 0 then []
    else
      var maxCount := if |results| > 0 then results[0].1 else 1;
      var ranked := Ranked(results, maxCount);
      var others := total - Sum(results);
      if others > 0 then
        var r := ranked + [CaEntry("ca-others", Str("Others"), others, maxCount, OTHERS_COLOR, true)];
        assert r[|r| - 1].isOthers;
        r
      else
        assert forall i :: 0 <= i < |ranked| ==> !ranked[i].isOthers;
        ranked
  }

  /** The entries account for every certificate counted, when the ranked
      counts do not exceed the total. */
  lemma CaCountsCoverTotal(total: nat, results: seq<(Json, nat)>)
    requires total > 0 && Sum(results) <= total
    ensures EntrySum(CaDistribution(total, results)) == total
  {
    var maxCount := if |results| > 0 then results[0].1 else 1;
    var ranked := Ranked(results, maxCount);
    RankedSum(results, maxCount);
    var r := CaDistribution(total, results);
    if Sum(results) < total {
      assert r[..|r| - 1] == ranked;
    }
  }

  lemma {:induction false} RankedSum(results: seq<(Json, nat)>, maxCount: nat)
    ensures EntrySum(Ranked(results, maxCount)) == Sum(results)
    decreases |results|
  {
    if |results| > 0 {
      var front := results[..|results| - 1];
      RankedSum(front, maxCount);
      var r := Ranked(results, maxCount);
      assert r[..|r| - 1] == Ranked(front, maxCount);
    }
  }

  // ---------------------------------------------------------------- notifications

  /** What a notification is about; each has its own id, type and category. */
  datatype Topic = Expiring2Days | Expiring7Days | Vulnerable | WeakEncryption | NewlyExpired
  {
    function Id(): string
    {
      match this
      case Expiring2Days => "expiring-2-days"
      case Expiring7Days => "expiring-7-days"
      case Vulnerable => "vulnerabilities"
      case WeakEncryption => "weak-encryption"
      case NewlyExpired => "newly-expired"
    }

    function Category(): string
    {
      match this
      case Expiring2Days => "expiring"
      case Expiring7Days => "expiring"
      case Vulnerable => "security"
      case WeakEncryption => "security"
      case NewlyExpired => "expired"
    }

    /** The title after its count. */
    function Tail(): string
    {
      match this
      case Expiring2Days => " expiring in 1-2 days"
      case Expiring7Days => " expiring in 3-7 days"
      case Vulnerable => " with vulnerabilities"
      case WeakEncryption => " with weak encryption"
      case NewlyExpired => " expired recently"
    }

    /** The topics of the "expiring" category. */
    predicate Expiring()
    {
      this == Expiring2Days || this == Expiring7Days
    }

    /** The position of the topic in the list. */
    function Rank(): nat
    {
      match this
      case Expiring2Days => 0
      case Expiring7Days => 1
      case Vulnerable => 2
      case WeakEncryption => 3
      case NewlyExpired => 4
    }
  }

  /** One notification; its title is derived from the topic and the count. */
  datatype Notification = Notification(topic: Topic, count: nat)
  {
    /** `f'{n} certificate{"s" if n > 1 else ""} ...'` */
    function Title(): string
    {
      NatToString(count) + " certificate" + (if count > 1 then "s" else "") + topic.Tail()
    }
  }
  datatype Notifications = Notifications(list: seq<Notification>, unreadCount: nat, totalCount: nat)

  /** `get_count`: a facet that is missing or empty counts 0. */
  function FacetCount(facet: map<string, nat>, key: string): nat
  {
    if key in facet then facet[key] else 0
  }

  /** The entry of a topic, appended when its count is positive. */
  function AddIfPositive(list: seq<Notification>, topic: Topic, n: int): (r: seq<Notification>)
    ensures n > 0 ==> r == list + [Notification(topic, n)]
    ensures n <= 0 ==> r == list
  {
    if n > 0 then list + [Notification(topic, n)] else list
  }

  /** The notification list for the five counts, in the code's order. */
  function NotificationList(e2: nat, e7: nat, vulnerabilities: nat, weak: nat, expired: nat): (r: seq<Notification>)
  {
    SecurityPart(ExpiryPart(e2, e7), vulnerabilities, weak, expired)
  }

  /** The first two entries: the 1-2-day count, then the 3-7-day count
      when the seven-day count exceeds the two-day count. */
  function ExpiryPart(e2: nat, e7: nat): (r: seq<Notification>)
  {
    var l1 := AddIfPositive([], Expiring2Days, e2);
    if e7 > e2 then AddIfPositive(l1, Expiring7Days, e7 - e2) else l1
  }

  /** The last three entries, appended to `list`. */
  function SecurityPart(list: seq<Notification>, vulnerabilities: nat, weak: nat, expired: nat): (r: seq<Notification>)
  {
    var l3 := AddIfPositive(list, Vulnerable, vulnerabilities);
    var l4 := AddIfPositive(l3, WeakEncryption, weak);
    AddIfPositive(l4, NewlyExpired, expired)
  }

  /** Topics appear in rank order, so none twice. */
  predicate RankOrdered(list: seq<Notification>)
  {
    forall i, j :: 0 <= i < j < |list| ==> list[i].topic.Rank() < list[j].topic.Rank()
  }

  /** Every topic of the list ranks below `k`, and every count is positive. */
  predicate Below(list: seq<Notification>, k: nat)
  {
    forall i :: 0 <= i < |list| ==> list[i].topic.Rank() < k && list[i].count > 0
  }

  lemma AddKeepsOrder(list: seq<Notification>, topic: Topic, n: int)
    requires RankOrdered(list) && Below(list, topic.Rank())
    ensures RankOrdered(AddIfPositive(list, topic, n)) && Below(AddIfPositive(list, topic, n), topic.Rank() + 1)
  {
  }

  lemma ExpiryPartShape(e2: nat, e7: nat)
    ensures var r := ExpiryPart(e2, e7);
      RankOrdered(r) && Below(r, 2)
      && (e7 > e2 <==> exists i :: 0 <= i < |r| && r[i].topic == Expiring7Days && r[i].count == e7 - e2)
      && (forall i :: 0 <= i < |r| && r[i].topic == Expiring7Days ==> e7 > e2)
  {
    var l1 := AddIfPositive([], Expiring2Days, e2);
    AddKeepsOrder([], Expiring2Days, e2);
    if e7 > e2 {
      AddKeepsOrder(l1, Expiring7Days, e7 - e2);
      assert ExpiryPart(e2, e7)[|l1|].topic == Expiring7Days;
    }
  }

  lemma SecurityPartShape(list: seq<Notification>, vulnerabilities: nat, weak: nat, expired: nat)
    requires RankOrdered(list) && Below(list, 2)
    ensures var r := SecurityPart(list, vulnerabilities, weak, expired);
      RankOrdered(r) && Below(r, 5) && |list| <= |r| && r[..|list|] == list
      && (forall i :: |list| <= i < |r| ==> r[i].topic.Rank() >= 2)
  {
    var l3 := AddIfPositive(list, Vulnerable, vulnerabilities);
    var l4 := AddIfPositive(l3, WeakEncryption, weak);
    AddKeepsOrder(list, Vulnerable, vulnerabilities);
    AddKeepsOrder(l3, WeakEncryption, weak);
    AddKeepsOrder(l4, NewlyExpired, expired);
  }

  /** The shape of the list: every count positive, no topic twice, and the
      3-7-day entry present exactly when the seven-day count exceeds the
      two-day count, with the difference as its count. */
  lemma NotificationListShape(e2: nat, e7: nat, vulnerabilities: nat, weak: nat, expired: nat)
    ensures var r := NotificationList(e2, e7, vulnerabilities, weak, expired);
      && (forall i :: 0 <= i < |r| ==> r[i].count > 0)
      && (forall i, j :: 0 <= i < j < |r| ==> r[i].topic != r[j].topic)
      && (e7 > e2 <==> exists i :: 0 <= i < |r| && r[i].topic == Expiring7Days && r[i].count == e7 - e2)
  {
    var l2 := ExpiryPart(e2, e7);
    var r := NotificationList(e2, e7, vulnerabilities, weak, expired);
    ExpiryPartShape(e2, e7);
    SecurityPartShape(l2, vulnerabilities, weak, expired);
    assert forall i :: 0 <= i < |l2| ==> r[i] == l2[i];
    assert forall i, j :: 0 <= i < j < |r| ==> r[i].topic.Rank() < r[j].topic.Rank();
  }

  /** `get_notifications`: `facet` is the one aggregation row, `None` when
      the aggregation returned nothing. */
  function GetNotifications(facet: Option<map<string, nat>>): (r: Notifications)
    ensures facet.None? ==> r == Notifications([], 0, 0)
    ensures r.unreadCount == r.totalCount == |r.list|
    ensures facet.Some? ==> r.list == NotificationList(
      FacetCount(facet.value, "expiring_2_days"), FacetCount(facet.value, "expiring_7_days"),
      FacetCount(facet.value, "vulnerabilities"), FacetCount(facet.value, "weak_encryption"),
      FacetCount(facet.value, "newly_expired"))
  {
    match facet
    case None => Notifications([], 0, 0)
    case Some(f) =>
      var list := NotificationList(
        FacetCount(f, "expiring_2_days"), FacetCount(f, "expiring_7_days"), FacetCount(f, "vulnerabilities"),
        FacetCount(f, "weak_encryption"), FacetCount(f, "newly_expired"));
      Notifications(list, |list|, |list|)
  }

  /** The sum of the counts of the expiry notifications. */
  function ExpiringTotal(list: seq<Notification>): nat
  {
    if |list| == 0 then 0
    else ExpiringTotal(list[..|list| - 1]) + (if list[|list| - 1].topic.Expiring() then list[|list| - 1].count else 0)
  }

  lemma ExpiringTotalAdd(list: seq<Notification>, topic: Topic, n: int)
    ensures ExpiringTotal(AddIfPositive(list, topic, n))
         == ExpiringTotal(list) + (if n > 0 && topic.Expiring() then n else 0)
  {
    var r := AddIfPositive(list, topic, n);
    if n > 0 {
      assert r[..|r| - 1] == list;
    }
  }

  /** The security entries add nothing to the expiry total. */
  lemma SecurityPartNotExpiring(list: seq<Notification>, vulnerabilities: nat, weak: nat, expired: nat)
    ensures ExpiringTotal(SecurityPart(list, vulnerabilities, weak, expired)) == ExpiringTotal(list)
  {
    var l3 := AddIfPositive(list, Vulnerable, vulnerabilities);
    var l4 := AddIfPositive(l3, WeakEncryption, weak);
    ExpiringTotalAdd(list, Vulnerable, vulnerabilities);
    ExpiringTotalAdd(l3, WeakEncryption, weak);
    ExpiringTotalAdd(l4, NewlyExpired, expired);
  }

  /** The two expiry notifications together count every certificate
      expiring within seven days, none of them twice. */
  lemma ExpiringCountsCoverSevenDays(e2: nat, e7: nat, vulnerabilities: nat, weak: nat, expired: nat)
    ensures ExpiringTotal(NotificationList(e2, e7, vulnerabilities, weak, expired)) == if e7 > e2 then e7 else e2
  {
    var l1 := AddIfPositive([], Expiring2Days, e2);
    ExpiringTotalAdd([], Expiring2Days, e2);
    if e7 > e2 { ExpiringTotalAdd(l1, Expiring7Days, e7 - e2); }
    SecurityPartNotExpiring(ExpiryPart(e2, e7), vulnerabilities, weak, expired);
  }

  // ---------------------------------------------------------------- issuance timeline

  const MONTH_NAMES: seq<string> := ["Jan", "Feb", "Mar", "Apr", "May", "Jun", "Jul", "Aug", "Sep", "Oct", "Nov", "Dec"]

  /** The months from `(y, m)` up to `(endY, endM)`, stepping one month at
      a time as the loop of `get_issuance_timeline` does. */
  function MonthsFrom(y: int, m: int, endY: int, endM: int): (r: seq<(int, int)>)
    requires ValidMonth(m)
    ensures |r| == if MonthIndex(endY, endM) >= MonthIndex(y, m) then MonthIndex(endY, endM) - MonthIndex(y, m) + 1 else 0
    ensures forall i :: 0 <= i < |r| ==> r[i] == MonthOf(MonthIndex(y, m) + i)
    decreases MonthIndex(endY, endM) - MonthIndex(y, m)
  {
    if MonthIndex(y, m) > MonthIndex(endY, endM) then []
    else
      var n := NextMonth(y, m);
      var rest := MonthsFrom(n.0, n.1, endY, endM);
      MonthIndexRoundTrip(y, m);
      [(y, m)] + rest
  }

  /** The lookup key of a month: year and month without padding. */
  function TimelineKey(y: nat, m: nat): string
  {
    NatToString(y) + "-" + NatToString(m)
  }

  /** Different months have different keys, so the counts looked up are
      the month's own. */
  lemma TimelineKeyInjective(y1: nat, m1: nat, y2: nat, m2: nat)
    requires TimelineKey(y1, m1) == TimelineKey(y2, m2)
    ensures y1 == y2 && m1 == m2
  {
    var a1 := NatToString(y1);
    var a2 := NatToString(y2);
    var s := TimelineKey(y1, m1);
    assert '-' !in a1 by { assert forall i :: 0 <= i < |a1| ==> IsDigit(a1[i]); }
    assert '-' !in a2 by { assert forall i :: 0 <= i < |a2| ==> IsDigit(a2[i]); }
    IndexOfAfterFree(a1, '-', NatToString(m1));
    IndexOfAfterFree(a2, '-', NatToString(m2));
    assert s[..|a1|] == a1 && s[..|a2|] == a2;
    assert s[|a1| + 1..] == NatToString(m1) && s[|a2| + 1..] == NatToString(m2);
    NatToStringRoundTrip(y1);
    NatToStringRoundTrip(y2);
    NatToStringRoundTrip(m1);
    NatToStringRoundTrip(m2);
  }

  datatype TimelinePoint = TimelinePoint(monthLabel: string, year: int, month: int, issued: nat, expiring: nat)

  /** `"Mon 'YY"`: the month's short name and the year's digits after the first two. */
  function MonthLabel(y: int, m: int): string
    requires ValidMonth(m)
  {
    var ys := IntToString(y);
    MONTH_NAMES[m - 1] + " '" + (if |ys| >= 2 then ys[2..] else "")
  }

  /** `get_issuance_timeline`: the last `months` months up to the current
      one, each with the counts the two aggregations gave for it. */
  function IssuanceTimeline(nowY: nat, nowM: int, months: int, issued: map<string, nat>, expiring: map<string, nat>): (r: seq<TimelinePoint>)
    requires ValidMonth(nowM)
    ensures |r| == if months > 0 then months else 0
    ensures forall i :: 0 <= i < |r| ==> ValidMonth(r[i].month)
    ensures forall i :: 0 <= i < |r| ==> MonthIndex(r[i].year, r[i].month) == MonthIndex(nowY, nowM) - |r| + 1 + i
  {
    var start := MonthOf(MonthIndex(nowY, nowM) - (months - 1));
    MonthIndexRoundTrip(start.0, start.1);
    var ms := MonthsFrom(start.0, start.1, nowY, nowM);
    seq(|ms|, i requires 0 <= i < |ms| =>
      var y := ms[i].0;
      var m := ms[i].1;
      var key := if y >= 0 then TimelineKey(y, m) else "";
      TimelinePoint(MonthLabel(y, m), y, m,
                    if key in issued then issued[key] else 0,
                    if key in expiring then expiring[key] else 0))
  }
}

=== FILE: cert_models.dfy ===
/** The certificate model of the dashboard backend: the derivations done on
    one certificate document (country from the domain's top-level domain,
    expiry status, zlint grade and vulnerability counts, the fields of the
    serialised certificate) and the global filter document. The clock and
    `datetime` parsing are parameters; `str()` of a list or dict is the
    `repr` parameter. */
module CertModels {

  import opened Wrappers
  import opened PyStr
  import opened JsonTree
  import opened Ordering
  import MongoMatch

  const DAY: int := 86400
  const SOON_DAYS: int := 30
  const UNKNOWN := "Unknown"

  // ---------------------------------------------------------------- country

  /** `TLD_TO_COUNTRY` */
  const TLD_TO_COUNTRY: map<string, string> := map[
    "pk" := "Pakistan", "us" := "United States", "com" := "United States",
    "uk" := "United Kingdom", "co.uk" := "United Kingdom", "de" := "Germany",
    "fr" := "France", "jp" := "Japan", "ca" := "Canada", "au" := "Australia",
    "nl" := "Netherlands", "in" := "India", "cn" := "China", "br" := "Brazil",
    "kr" := "South Korea", "sg" := "Singapore", "ie" := "Ireland", "se" := "Sweden",
    "ch" := "Switzerland", "it" := "Italy", "es" := "Spain", "ru" := "Russia",
    "mx" := "Mexico", "za" := "South Africa", "nz" := "New Zealand",
    "org" := "International", "net" := "International", "io" := "International",
    "dev" := "International"]

  /** The keys of `TLD_TO_COUNTRY` in the order the dict iterates them. */
  const TLD_ORDER: seq<string> := [
    "pk", "us", "com", "uk", "co.uk", "de", "fr", "jp", "ca", "au", "nl", "in", "cn", "br",
    "kr", "sg", "ie", "se", "ch", "it", "es", "ru", "mx", "za", "nz", "org", "net", "io", "dev"]

  /** `TLD_TO_COUNTRY.get(key)` */
  function Lookup(key: string): (r: Option<string>)
    ensures r.Some? <==> key in TLD_TO_COUNTRY
    ensures r.Some? ==> r.value == TLD_TO_COUNTRY[key]
  {
    if key in TLD_TO_COUNTRY then Some(TLD_TO_COUNTRY[key]) else None
  }

  /** `get_tld_country`: the country of the two-label suffix if the table
      has it, else of the last label, matched case-insensitively. */
  function GetTldCountry(domain: string): (r: string)
    ensures domain == "" ==> r == UNKNOWN
    ensures '.' !in Lower(domain) ==> r == UNKNOWN
    ensures r == UNKNOWN || r in TLD_TO_COUNTRY.Values
  {
    if domain == "" then UNKNOWN else LabelsCountry(Split(Lower(domain), '.'))
  }

  /** The lookup on the labels of a lower-cased domain. */
  function LabelsCountry(parts: seq<string>): (r: string)
    ensures |parts| < 2 ==> r == UNKNOWN
    ensures r == UNKNOWN || r in TLD_TO_COUNTRY.Values
  {
    if |parts| >= 2 then
      match Lookup(parts[|parts| - 2] + "." + parts[|parts| - 1])
      case Some(c) => c
      case None => Lookup(parts[|parts| - 1]).UnwrapOr(UNKNOWN)
    else UNKNOWN
  }

  /** A reference definition: the country of the last label alone. */
  function LastLabelCountry(domain: string): (r: string)
  {
    if domain == "" then UNKNOWN else LastLabel(Split(Lower(domain), '.'))
  }

  function LastLabel(parts: seq<string>): (r: string)
  {
    if |parts| >= 2 then Lookup(parts[|parts| - 1]).UnwrapOr(UNKNOWN) else UNKNOWN
  }

  /** The lookup ignores letter case. */
  lemma TldCountryIgnoresCase(domain: string)
    ensures GetTldCountry(Lower(domain)) == GetTldCountry(domain)
  {
    LowerIdempotent(domain);
  }

  /** `co.uk` is the only dotted key of the table. */
  lemma OnlyDottedKey(key: string)
    requires key in TLD_TO_COUNTRY
    requires '.' in key
    ensures key == "co.uk"
  {
  }

  /** The two-label lookup never changes the answer: its one dotted key,
      `co.uk`, names the same country as `uk`. */
  lemma TwoLabelLookupRedundant(domain: string)
    ensures GetTldCountry(domain) == LastLabelCountry(domain)
  {
    if domain != "" {
      LabelsAgree(Split(Lower(domain), '.'));
    }
  }

  /** On labels without dots, the two-label lookup agrees with the last label's. */
  lemma LabelsAgree(parts: seq<string>)
    requires forall i :: 0 <= i < |parts| ==> '.' !in parts[i]
    ensures LabelsCountry(parts) == LastLabel(parts)
  {
    if |parts| >= 2 {
      var a := parts[|parts| - 2];
      var b := parts[|parts| - 1];
      if a + "." + b in TLD_TO_COUNTRY {
        DottedKeySuffix(a, b);
      }
    }
  }

  /** A dotted key made of two labels ends in the label `uk`. */
  lemma DottedKeySuffix(a: string, b: string)
    requires '.' !in a && '.' !in b
    requires a + "." + b in TLD_TO_COUNTRY
    ensures b == "uk"
    ensures TLD_TO_COUNTRY[a + "." + b] == TLD_TO_COUNTRY[b]
  {
    var two := a + "." + b;
    assert two[|a|] == '.';
    OnlyDottedKey(two);
    IndexOfAfterFree(a, '.', b);
    IndexOfAfterFree("co", '.', "uk");
    assert "co.uk" == "co" + "." + "uk";
    assert b == two[|a| + 1..];
  }

  // ---------------------------------------------------------------- expiry status

  datatype Expiry = Valid | Expired | ExpiringSoon

  /** `get_status`: `parse` is `datetime.fromisoformat` after `Z` becomes
      `+00:00`, as seconds since the epoch; it is `None` for text that
      `fromisoformat` rejects and for text that carries no UTC offset, since
      subtracting the aware clock from a naive datetime raises as well. A
      raise, or a value that is not text, gives `VALID`. `timedelta.days`
      rounds towards minus infinity. */
  function GetStatus(validityEnd: Json, parse: string -> Option<int>, now: int): (r: Expiry)
    ensures r == Expired <==> validityEnd.Str? && parse(validityEnd.s).Some? && parse(validityEnd.s).value < now
    ensures r == ExpiringSoon <==>
      validityEnd.Str? && parse(validityEnd.s).Some? && now <= parse(validityEnd.s).value < now + (SOON_DAYS + 1) * DAY
  {
    match validityEnd
    case Str(s) =>
      (match parse(s)
       case None => Valid
       case Some(end) =>
         var days := (end - now) / DAY;
         if days < 0 then Expired else if days <= SOON_DAYS then ExpiringSoon else Valid)
    case _ => Valid
  }

  // ---------------------------------------------------------------- zlint

  /** The lint results of a zlint section, when `get_grade_from_zlint`
      looks at them at all: a truthy section with a `lints` key. */
  function Lints(zlint: Json): (r: Option<Doc>)
    ensures r.Some? <==> Truthy(zlint) && "lints" in Fields(zlint)
  {
    if !Truthy(zlint) || "lints" !in Fields(zlint) then None
    else Some(Fields(Fields(zlint)["lints"]))
  }

  /** A lint entry that is a dict whose `result` is `res`. */
  predicate ResultIs(v: Json, res: string)
  {
    v.Obj? && "result" in v.fields && v.fields["result"] == Str(res)
  }

  /** The names of the lints with result `res`. */
  function WithResult(lints: Doc, res: string): (r: set<string>)
    ensures forall k :: k in r <==> k in lints && ResultIs(lints[k], res)
  {
    set k | k in lints && ResultIs(lints[k], res)
  }

  datatype Counts = Counts(errors: nat, warnings: nat)

  /** `count_vulnerabilities` */
  function CountVulnerabilities(zlint: Json): (r: Counts)
    ensures Lints(zlint).None? ==> r == Counts(0, 0)
    ensures Lints(zlint).Some? ==>
      r.errors == |WithResult(Lints(zlint).value, "error")|
      && r.warnings == |WithResult(Lints(zlint).value, "warn")|
  {
    match Lints(zlint)
    case None => Counts(0, 0)
    case Some(lints) => Counts(|WithResult(lints, "error")|, |WithResult(lints, "warn")|)
  }

  datatype Grade = APlus | A | AMinus | BPlus | B | C | F

  /** `get_grade_from_zlint`: `A` without lints, else a ladder on the error
      count and then on the warning count. */
  function GradeFromZlint(zlint: Json): (r: Grade)
    ensures Lints(zlint).None? <==> r == A
    ensures var c := CountVulnerabilities(zlint);
      Lints(zlint).Some? ==>
        && (r == F <==> c.errors >= 3)
        && (r == C <==> c.errors == 2)
        && (r == B <==> c.errors == 1)
        && (r == BPlus <==> c.errors == 0 && c.warnings >= 3)
        && (r == AMinus <==> c.errors == 0 && 1 <= c.warnings <= 2)
        && (r == APlus <==> c.errors == 0 && c.warnings == 0)
  {
    match Lints(zlint)
    case None => A
    case Some(lints) =>
      var errors := |WithResult(lints, "error")|;
      var warnings := |WithResult(lints, "warn")|;
      if errors >= 3 then F
      else if errors >= 2 then C
      else if errors >= 1 then B
      else if warnings >= 3 then BPlus
      else if warnings >= 1 then AMinus
      else APlus
  }

  /** `format_vulnerabilities`: the error count as critical, else the
      warning count, else `0 Found`. */
  function FormatVulnerabilities(zlint: Json): (r: string)
    ensures var c := CountVulnerabilities(zlint);
      ReadLabel(r) ==
        if c.errors > 0 then Some((c.errors, "Critical"))
        else if c.warnings > 0 then Some((c.warnings, "Warning"))
        else Some((0, "Found"))
  {
    LabelReadsBack(CountVulnerabilities(zlint));
    Label(CountVulnerabilities(zlint))
  }

  /** The label of a count; `str(0)` is "0", so nothing found reads "0 Found". */
  function Label(c: Counts): (r: string)
  {
    if c.errors > 0 then Phrase(c.errors, "Critical")
    else if c.warnings > 0 then Phrase(c.warnings, "Warning")
    else Phrase(0, "Found")
  }

  /** `f"{n} {word}"` */
  function Phrase(n: nat, word: string): (r: string)
  {
    NatToString(n) + [' '] + word
  }

  /** Reads a vulnerability label back into its number and its word. */
  function ReadLabel(s: string): (r: Option<(nat, string)>)
  {
    var parts := SplitOnce(s, ' ');
    if |parts| == 2 && |parts[0]| > 0 && (forall i :: 0 <= i < |parts[0]| ==> IsDigit(parts[0][i])) then
      Some((DigitsValue(parts[0]), parts[1]))
    else None
  }

  /** The label states the count that decided it: the errors if any, else
      the warnings. */
  lemma LabelReadsBack(c: Counts)
    ensures ReadLabel(Label(c)) ==
      if c.errors > 0 then Some((c.errors, "Critical"))
      else if c.warnings > 0 then Some((c.warnings, "Warning"))
      else Some((0, "Found"))
  {
    var n := if c.errors > 0 then c.errors else if c.warnings > 0 then c.warnings else 0;
    var word := if c.errors > 0 then "Critical" else if c.warnings > 0 then "Warning" else "Found";
    PhraseReadsBack(n, word);
  }

  /** A phrase reads back as its number and word. */
  lemma PhraseReadsBack(n: nat, word: string)
    ensures ReadLabel(Phrase(n, word)) == Some((n, word))
  {
    var digits := NatToString(n);
    NatToStringRoundTrip(n);
    assert ' ' !in digits by {
      assert forall i :: 0 <= i < |digits| ==> IsDigit(digits[i]);
    }
    IndexOfAfterFree(digits, ' ', word);
    var s := digits + [' '] + word;
    assert s[..|digits|] == digits && s[|digits| + 1..] == word;
    assert SplitOnce(s, ' ') == [digits, word];
  }

  /** With lints present the grade is a failing one exactly when the label
      is critical, and `A+` exactly when nothing was found. */
  lemma GradeAgreesWithLabel(zlint: Json)
    requires Lints(zlint).Some?
    ensures var g := GradeFromZlint(zlint);
      && ((g == F || g == C || g == B) <==> CountVulnerabilities(zlint).errors > 0)
      && (g == APlus <==> FormatVulnerabilities(zlint) == Phrase(0, "Found"))
  {
    var c := CountVulnerabilities(zlint);
    if c.errors > 0 || c.warnings > 0 {
      NothingFoundLabel();
    }
  }

  lemma NothingFoundLabel()
    ensures ReadLabel(Phrase(0, "Found")) == Some((0, "Found"))
  {
    PhraseReadsBack(0, "Found");
  }

  // ---------------------------------------------------------------- serialisation

  /** `v[0]` of a truthy list or string. */
  function First(v: Json): (r: Json)
    ensures v.Arr? && |v.items| > 0 ==> r == v.items[0]
    ensures v.Str? && |v.s| > 0 ==> r == Str([v.s[0]])
  {
    match v
    case Arr(items) => if |items| > 0 then items[0] else Null
    case Str(s) => if |s| > 0 then Str([s[0]]) else Null
    case _ => Null
  }

  /** The serialised domain: the document's own `domain` if truthy, else the
      first common name if there is one, else `Unknown`. */
  function DomainOf(doc: Doc): (r: Json)
    ensures Truthy(Get(doc, "domain", Str(""))) ==> r == doc["domain"]
    ensures !Truthy(Get(doc, "domain", Str(""))) ==>
      var cn := Get(Sub(Sub(doc, "parsed"), "subject"), "common_name", Null);
      (Truthy(cn) ==> r == First(cn)) && (!Truthy(cn) ==> r == Str(UNKNOWN))
  {
    var d := Get(doc, "domain", Str(""));
    if Truthy(d) then d
    else
      var cn := Get(Sub(Sub(doc, "parsed"), "subject"), "common_name", Null);
      if Truthy(cn) then First(cn) else Str(UNKNOWN)
  }

  /** The key length: RSA first, then ECDSA, else 0. */
  function KeyLength(keyInfo: Doc): (r: Json)
    ensures Truthy(Get(keyInfo, "rsa_public_key", Null)) ==> r == Get(Fields(keyInfo["rsa_public_key"]), "length", Num(0))
    ensures !Truthy(Get(keyInfo, "rsa_public_key", Null)) && Truthy(Get(keyInfo, "ecdsa_public_key", Null)) ==>
      r == Get(Fields(keyInfo["ecdsa_public_key"]), "length", Num(0))
    ensures !Truthy(Get(keyInfo, "rsa_public_key", Null)) && !Truthy(Get(keyInfo, "ecdsa_public_key", Null)) ==> r == Num(0)
  {
    var rsa := Get(keyInfo, "rsa_public_key", Null);
    var ecdsa := Get(keyInfo, "ecdsa_public_key", Null);
    if Truthy(rsa) then Get(Fields(rsa), "length", Num(0))
    else if Truthy(ecdsa) then Get(Fields(ecdsa), "length", Num(0))
    else Num(0)
  }

  /** `str(v)`: text as it is, integers in decimal, and `repr` for the rest. */
  function Show(v: Json, repr: Json -> string): string
  {
    match v
    case Str(s) => s
    case Num(n) => IntToString(n)
    case Bool(b) => if b then "True" else "False"
    case Null => "None"
    case _ => repr(v)
  }

  /** The hash part of a signature algorithm name: after its last dash. */
  function HashName(sig: string): (r: string)
    ensures '-' !in r
    ensures '-' !in sig ==> r == sig
  {
    var parts := Split(sig, '-');
    if '-' in sig then parts[|parts| - 1]
    else
      assert parts == [sig];
      sig
  }

  /** The encryption type: the algorithm alone without a key length,
      else algorithm and length, and the hash name for an SHA signature. */
  function EncryptionType(algo: Json, keyLength: Json, sig: Json, repr: Json -> string): (r: string)
    ensures !Truthy(keyLength) ==> r == Show(algo, repr)
    ensures Truthy(keyLength) ==>
      var base := Show(algo, repr) + " " + Show(keyLength, repr);
      && StartsWith(r, base)
      && (sig.Str? && sig.s != "" && Contains(Upper(sig.s), "SHA") ==> r == base + " " + HashName(sig.s))
      && (!(sig.Str? && sig.s != "" && Contains(Upper(sig.s), "SHA")) ==> r == base)
  {
    if Truthy(keyLength) then
      var base := Show(algo, repr) + " " + Show(keyLength, repr);
      if sig.Str? && sig.s != "" && Contains(Upper(sig.s), "SHA") then
        var r := base + " " + HashName(sig.s);
        assert r[..|base|] == base;
        r
      else base
    else Show(algo, repr)
  }

  datatype Level = EV | OV | DV

  /** The validation level: `EV` when the lower-cased policy text mentions
      extended validation, else `OV` for organization validation, else `DV`. */
  function ValidationLevel(policies: Json, repr: Json -> string): (r: Level)
    ensures !Truthy(policies) ==> r == DV
    ensures var t := Lower(Show(policies, repr));
      Truthy(policies) ==>
        && (r == EV <==> Contains(t, "extended-validation") || Contains(t, "ev-ssl"))
        && (r == OV <==> !(Contains(t, "extended-validation") || Contains(t, "ev-ssl"))
                         && (Contains(t, "organization-validation") || Contains(t, "ov-ssl")))
  {
    if !Truthy(policies) then DV
    else
      var t := Lower(Show(policies, repr));
      if Contains(t, "extended-validation") || Contains(t, "ev-ssl") then EV
      else if Contains(t, "organization-validation") || Contains(t, "ov-ssl") then OV
      else DV
  }

  /** The lints `zlintDetails` lists: only when the section flags errors or
      warnings, and then the error and warning lints with their entries. */
  function ZlintDetails(zlint: Json): (r: Doc)
    ensures var z := Fields(zlint);
      !Truthy(Get(z, "errors_present", Bool(false))) && !Truthy(Get(z, "warnings_present", Bool(false))) ==> r == map[]
    ensures var z := Fields(zlint);
      var lints := Fields(Get(z, "lints", Obj(map[])));
      Truthy(Get(z, "errors_present", Bool(false))) || Truthy(Get(z, "warnings_present", Bool(false))) ==>
        && r.Keys == WithResult(lints, "error") + WithResult(lints, "warn")
        && forall k :: k in r ==> r[k] == lints[k]
  {
    var z := Fields(zlint);
    if Truthy(Get(z, "errors_present", Bool(false))) || Truthy(Get(z, "warnings_present", Bool(false))) then
      var lints := Fields(Get(z, "lints", Obj(map[])));
      map k | k in lints && (ResultIs(lints[k], "error") || ResultIs(lints[k], "warn")) :: lints[k]
    else map[]
  }

  /** When the section is flagged and has its lints, the details hold one
      entry per counted error and warning. */
  lemma DetailsMatchCounts(zlint: Json)
    requires Lints(zlint).Some?
    requires var z := Fields(zlint);
      Truthy(Get(z, "errors_present", Bool(false))) || Truthy(Get(z, "warnings_present", Bool(false)))
    ensures |ZlintDetails(zlint)| == CountVulnerabilities(zlint).errors + CountVulnerabilities(zlint).warnings
  {
    var lints := Lints(zlint).value;
    var e := WithResult(lints, "error");
    var w := WithResult(lints, "warn");
    assert e * w == {};
    var d := ZlintDetails(zlint);
    assert d.Keys == e + w;
    assert |d| == |d.Keys|;
  }

  /** The serialised certificate, reduced to its derived fields; the
      others are copied out of the document unchanged. */
  datatype Serialized = Serialized(
    domain: Json, issuer: Json, status: Expiry, grade: Grade, encryptionType: string,
    keyLength: Json, vulnerabilities: string, counts: Counts, country: string,
    validationLevel: Level, zlintDetails: Option<Doc>)

  /** The country of a serialised domain; a domain that is not text is read as unknown. */
  function CountryOf(domain: Json): (r: string)
    ensures domain.Str? ==> r == GetTldCountry(domain.s)
  {
    if domain.Str? then GetTldCountry(domain.s) else UNKNOWN
  }

  /** `serialize_certificate` */
  function Serialize(doc: Doc, parse: string -> Option<int>, now: int, repr: Json -> string): (r: Serialized)
    ensures r.domain == DomainOf(doc)
    ensures r.country == CountryOf(r.domain)
    ensures r.zlintDetails == Details(Get(doc, "zlint", Obj(map[])))
  {
    var parsed := Sub(doc, "parsed");
    var keyInfo := Sub(parsed, "subject_key_info");
    var zlint := Get(doc, "zlint", Obj(map[]));
    var org := Get(Sub(parsed, "issuer"), "organization", Null);
    var domain := DomainOf(doc);
    var keyLength := KeyLength(keyInfo);
    var algo := Get(Sub(keyInfo, "key_algorithm"), "name", Str(UNKNOWN));
    var sig := Get(Sub(parsed, "signature_algorithm"), "name", Str(""));
    Serialized(
      domain,
      if Truthy(org) then First(org) else Str(UNKNOWN),
      GetStatus(Get(Sub(parsed, "validity"), "end", Str("")), parse, now),
      GradeFromZlint(zlint),
      EncryptionType(algo, keyLength, sig, repr),
      keyLength,
      FormatVulnerabilities(zlint),
      CountVulnerabilities(zlint),
      CountryOf(domain),
      ValidationLevel(Get(Sub(parsed, "extensions"), "certificate_policies", Arr([])), repr),
      Details(zlint))
  }

  /** `zlint_details if zlint_details else None` */
  function Details(zlint: Json): (r: Option<Doc>)
    ensures r.None? <==> |ZlintDetails(zlint)| == 0
    ensures r.Some? ==> r.value == ZlintDetails(zlint)
  {
    var details := ZlintDetails(zlint);
    if |details| > 0 then Some(details) else None
  }

  // ---------------------------------------------------------------- global filter

  const END := "parsed.validity.end"
  const ORG := "parsed.issuer.organization"

  /** A truthy optional string. */
  predicate Present(a: Option<string>)
  {
    a.Some? && a.value != ""
  }

  /** A truthy optional list. */
  predicate NonEmpty(xs: Option<seq<string>>)
  {
    xs.Some? && |xs.value| > 0
  }

  function Texts(xs: seq<string>): (r: seq<Json>)
    ensures |r| == |xs|
    ensures forall i :: 0 <= i < |xs| ==> r[i] == Str(xs[i])
  {
    seq(|xs|, i requires 0 <= i < |xs| => Str(xs[i]))
  }

  /** `{key: cond}` as one element of a list of clauses. */
  function On(key: string, cond: Json): Json
  {
    Obj(map[key := cond])
  }

  const ALGO := "parsed.subject_key_info.key_algorithm.name"
  const RSA_LENGTH := "parsed.subject_key_info.rsa_public_key.length"
  const POLICIES := "parsed.extensions.certificate_policies"
  const SUBJECT_ORG := "parsed.subject.organization"

  // What the clauses select, stated on a stored certificate's fields.

  /** The stored end date is text within `[lo, hi]`. */
  predicate EndWithin(rec: MongoMatch.Rec, lo: string, hi: string)
  {
    END in rec && rec[END].Str? && !Less(rec[END].s, lo) && !Less(hi, rec[END].s)
  }

  /** The stored end date is text and `lo < end <= hi`, with `lo` or `hi`
      left open when `None`. */
  predicate EndBetween(rec: MongoMatch.Rec, lo: Option<string>, hi: Option<string>)
  {
    && END in rec && rec[END].Str?
    && (lo.Some? ==> Less(lo.value, rec[END].s))
    && (hi.Some? ==> !Less(hi.value, rec[END].s))
  }

  /** The field holds `v` itself or as an element of an array. */
  predicate Holds(rec: MongoMatch.Rec, path: string, v: Json)
  {
    path in rec && (rec[path] == v || (rec[path].Arr? && v in rec[path].items))
  }

  /** What a known status name selects: `VALID` ends after 30 days,
      `EXPIRED` has ended, `EXPIRING_SOON` ends within 30 days, and `WEAK`
      is an RSA key shorter than 2048 bits. */
  predicate StatusSelects(name: string, rec: MongoMatch.Rec, now: string, in30: string)
  {
    if name == "VALID" then EndBetween(rec, Some(in30), None)
    else if name == "EXPIRED" then END in rec && rec[END].Str? && !Less(now, rec[END].s)
    else if name == "EXPIRING_SOON" then EndBetween(rec, Some(now), Some(in30))
    else if name == "WEAK" then
      Holds(rec, ALGO, Str("RSA")) && RSA_LENGTH in rec && rec[RSA_LENGTH].Num? && rec[RSA_LENGTH].n < 2048
    else false
  }

  /** What a known validation level selects: EV has certificate policies,
      OV a subject organisation, DV none. */
  predicate LevelSelects(name: string, rec: MongoMatch.Rec)
  {
    if name == "EV" then POLICIES in rec
    else if name == "OV" then SUBJECT_ORG in rec
    else if name == "DV" then SUBJECT_ORG !in rec
    else false
  }

  /** A text naming one of the issuers. */
  predicate NamesIssuer(v: Json, issuers: seq<string>)
  {
    v.Str? && v.s in issuers
  }

  /** The issuer organisation names one of the issuers: as text, as an
      element of a list, or inside a list one level further down. */
  predicate IssuerIn(rec: MongoMatch.Rec, issuers: seq<string>)
  {
    ORG in rec &&
      (|| NamesIssuer(rec[ORG], issuers)
       || (rec[ORG].Arr? && exists x :: (x in rec[ORG].items &&
             (NamesIssuer(x, issuers) || (x.Arr? && exists y :: y in x.items && NamesIssuer(y, issuers))))))
  }

  /** The date-range clause: both dates given and both parsed (`iso` is
      `fromisoformat` then `strftime`, `None` where it raises). It selects
      the certificates ending within the range. */
  function DateClause(start: Option<string>, end: Option<string>, iso: string -> Option<string>): (r: Option<Doc>)
    ensures r.Some? <==> Present(start) && Present(end) && iso(start.value).Some? && iso(end.value).Some?
    ensures r.Some? ==> |r.value| > 0
    ensures r.Some? ==> forall rec :: (MongoMatch.Matches(Obj(r.value), rec)
      <==> EndWithin(rec, iso(start.value).value, iso(end.value).value))
  {
    if Present(start) && Present(end) && iso(start.value).Some? && iso(end.value).Some? then
      var c := map["$and" := Arr([On(END, Obj(map["$gte" := Str(iso(start.value).value)])),
                                  On(END, Obj(map["$lte" := Str(iso(end.value).value)]))])];
      RangeSelects(iso(start.value).value, iso(end.value).value);
      Some(c)
    else None
  }

  lemma RangeSelects(lo: string, hi: string)
    ensures forall rec :: (MongoMatch.Matches(Obj(map["$and" := Arr([On(END, Obj(map["$gte" := Str(lo)])),
                                                                    On(END, Obj(map["$lte" := Str(hi)]))])]), rec)
      <==> EndWithin(rec, lo, hi))
  {
    NotOperator(END);
    forall rec: MongoMatch.Rec
      ensures MongoMatch.Matches(Obj(map["$and" := Arr([On(END, Obj(map["$gte" := Str(lo)])),
                                                       On(END, Obj(map["$lte" := Str(hi)]))])]), rec)
        <==> EndWithin(rec, lo, hi)
    {
      MongoMatch.MatchesBoth(END, "$gte", Str(lo), "$lte", Str(hi), rec);
    }
  }

  /** The clause of one status name, matched case-insensitively, and the
      certificates it selects. */
  function StatusClause(status: string, now: string, in30: string): (r: Option<Json>)
    ensures r.Some? <==> Upper(status) in {"VALID", "EXPIRED", "EXPIRING_SOON", "WEAK"}
    ensures r.Some? ==> forall rec :: MongoMatch.Matches(r.value, rec) <==> StatusSelects(Upper(status), rec, now, in30)
  {
    var s := Upper(status);
    ValidSelects(now, in30);
    ExpiredSelects(now, in30);
    ExpiringSoonSelects(now, in30);
    WeakSelects(now, in30);
    if s == "VALID" then Some(On(END, Obj(map["$gt" := Str(in30)])))
    else if s == "EXPIRED" then Some(On(END, Obj(map["$lte" := Str(now)])))
    else if s == "EXPIRING_SOON" then
      Some(Obj(map["$and" := Arr([On(END, Obj(map["$gt" := Str(now)])), On(END, Obj(map["$lte" := Str(in30)]))])]))
    else if s == "WEAK" then
      Some(Obj(map["$and" := Arr([On(ALGO, Str("RSA")), On(RSA_LENGTH, Obj(map["$lt" := Num(2048)]))])]))
    else None
  }

  lemma ValidSelects(now: string, in30: string)
    ensures forall rec :: (MongoMatch.Matches(On(END, Obj(map["$gt" := Str(in30)])), rec)
      <==> StatusSelects("VALID", rec, now, in30))
  {
    NotOperator(END);
    forall rec: MongoMatch.Rec
      ensures MongoMatch.Matches(On(END, Obj(map["$gt" := Str(in30)])), rec) <==> StatusSelects("VALID", rec, now, in30)
    {
      MongoMatch.MatchesCompare(END, "$gt", Str(in30), rec);
    }
  }

  lemma ExpiredSelects(now: string, in30: string)
    ensures forall rec :: (MongoMatch.Matches(On(END, Obj(map["$lte" := Str(now)])), rec)
      <==> StatusSelects("EXPIRED", rec, now, in30))
  {
    NotOperator(END);
    forall rec: MongoMatch.Rec
      ensures MongoMatch.Matches(On(END, Obj(map["$lte" := Str(now)])), rec) <==> StatusSelects("EXPIRED", rec, now, in30)
    {
      MongoMatch.MatchesCompare(END, "$lte", Str(now), rec);
    }
  }

  lemma ExpiringSoonSelects(now: string, in30: string)
    ensures forall rec :: (MongoMatch.Matches(Obj(map["$and" := Arr([On(END, Obj(map["$gt" := Str(now)])), On(END, Obj(map["$lte" := Str(in30)]))])]), rec)
      <==> StatusSelects("EXPIRING_SOON", rec, now, in30))
  {
    NotOperator(END);
    forall rec: MongoMatch.Rec
      ensures MongoMatch.Matches(Obj(map["$and" := Arr([On(END, Obj(map["$gt" := Str(now)])), On(END, Obj(map["$lte" := Str(in30)]))])]), rec) <==> StatusSelects("EXPIRING_SOON", rec, now, in30)
    {
      MongoMatch.MatchesBoth(END, "$gt", Str(now), "$lte", Str(in30), rec);
    }
  }

  lemma WeakSelects(now: string, in30: string)
    ensures forall rec :: (MongoMatch.Matches(Obj(map["$and" := Arr([On(ALGO, Str("RSA")), On(RSA_LENGTH, Obj(map["$lt" := Num(2048)]))])]), rec)
      <==> StatusSelects("WEAK", rec, now, in30))
  {
    NotOperator(ALGO);
    NotOperator(RSA_LENGTH);
    forall rec: MongoMatch.Rec
      ensures MongoMatch.Matches(Obj(map["$and" := Arr([On(ALGO, Str("RSA")), On(RSA_LENGTH, Obj(map["$lt" := Num(2048)]))])]), rec) <==> StatusSelects("WEAK", rec, now, in30)
    {
      MongoMatch.MatchesEqualsAndCompare(ALGO, "RSA", RSA_LENGTH, "$lt", Num(2048), rec);
    }
  }

  /** The clause of one validation level name, and the certificates it selects. */
  function LevelClause(level: string): (r: Option<Json>)
    ensures r.Some? <==> Upper(level) in {"EV", "OV", "DV"}
    ensures r.Some? ==> forall rec :: MongoMatch.Matches(r.value, rec) <==> LevelSelects(Upper(level), rec)
  {
    var s := Upper(level);
    EvSelects();
    OvSelects();
    DvSelects();
    if s == "EV" then Some(On(POLICIES, Obj(map["$exists" := Bool(true)])))
    else if s == "OV" then Some(On(SUBJECT_ORG, Obj(map["$exists" := Bool(true)])))
    else if s == "DV" then Some(On(SUBJECT_ORG, Obj(map["$exists" := Bool(false)])))
    else None
  }

  lemma EvSelects()
    ensures forall rec :: MongoMatch.Matches(On(POLICIES, Obj(map["$exists" := Bool(true)])), rec) <==> LevelSelects("EV", rec)
  {
    NotOperator(POLICIES);
    forall rec: MongoMatch.Rec
      ensures MongoMatch.Matches(On(POLICIES, Obj(map["$exists" := Bool(true)])), rec) <==> LevelSelects("EV", rec)
    {
      MongoMatch.MatchesExists(POLICIES, true, rec);
    }
  }

  lemma OvSelects()
    ensures forall rec :: MongoMatch.Matches(On(SUBJECT_ORG, Obj(map["$exists" := Bool(true)])), rec) <==> LevelSelects("OV", rec)
  {
    NotOperator(SUBJECT_ORG);
    forall rec: MongoMatch.Rec
      ensures MongoMatch.Matches(On(SUBJECT_ORG, Obj(map["$exists" := Bool(true)])), rec) <==> LevelSelects("OV", rec)
    {
      MongoMatch.MatchesExists(SUBJECT_ORG, true, rec);
    }
  }

  lemma DvSelects()
    ensures forall rec :: MongoMatch.Matches(On(SUBJECT_ORG, Obj(map["$exists" := Bool(false)])), rec) <==> LevelSelects("DV", rec)
  {
    NotOperator(SUBJECT_ORG);
    forall rec: MongoMatch.Rec
      ensures MongoMatch.Matches(On(SUBJECT_ORG, Obj(map["$exists" := Bool(false)])), rec) <==> LevelSelects("DV", rec)
    {
      MongoMatch.MatchesExists(SUBJECT_ORG, false, rec);
    }
  }

  /** A field path is never one of the logical operators. */
  lemma NotOperator(path: string)
    requires path in {END, ALGO, RSA_LENGTH, POLICIES, SUBJECT_ORG, ORG}
    ensures path != "$and" && path != "$or"
  {
    assert |path| > 4 && path[0] == 'p' by {
      if path == END { assert END[0] == 'p'; }
      else if path == ALGO { assert ALGO[0] == 'p'; }
      else if path == RSA_LENGTH { assert RSA_LENGTH[0] == 'p'; }
      else if path == POLICIES { assert POLICIES[0] == 'p'; }
      else if path == SUBJECT_ORG { assert SUBJECT_ORG[0] == 'p'; }
      else { assert ORG[0] == 'p'; }
    }
  }

  /** The clauses of the names that have one, in the order given. */
  function Known(names: seq<string>, clause: string -> Option<Json>): (r: seq<Json>)
    ensures |r| == 0 <==> forall i :: 0 <= i < |names| ==> clause(names[i]).None?
    ensures forall x :: x in r <==> exists i :: 0 <= i < |names| && clause(names[i]) == Some(x)
  {
    if |names| == 0 then []
    else
      var rest := Known(names[1..], clause);
      assert forall i :: 1 <= i < |names| ==> names[i] == names[1..][i - 1];
      assert forall i :: 0 <= i < |names| - 1 ==> names[1..][i] == names[i + 1];
      match clause(names[0])
      case Some(c) => [c] + rest
      case None => rest
  }

  /** `{'$or': clauses}` when there are any; it selects what some clause
      selects. */
  function AnyOf(clauses: seq<Json>): (r: seq<Doc>)
    ensures |r| == if |clauses| > 0 then 1 else 0
    ensures forall i :: 0 <= i < |r| ==> |r[i]| > 0
    ensures |r| == 1 ==> forall rec :: MongoMatch.Matches(Obj(r[0]), rec) <==> SomeMatch(clauses, rec)
  {
    AnyOfSelects(clauses);
    if |clauses| > 0 then [map["$or" := Arr(clauses)]] else []
  }

  lemma AnyOfSelects(clauses: seq<Json>)
    ensures forall rec :: MongoMatch.Matches(Obj(map["$or" := Arr(clauses)]), rec) <==> SomeMatch(clauses, rec)
  {
    forall rec: MongoMatch.Rec
      ensures MongoMatch.Matches(Obj(map["$or" := Arr(clauses)]), rec) <==> SomeMatch(clauses, rec)
    {
      MongoMatch.MatchesOr(clauses, rec);
    }
  }

  /** The issuer clause: the organisation, or an element of it, is one of
      the issuers. */
  function IssuerClause(issuers: seq<string>): (r: Doc)
    ensures |r| > 0
    ensures forall rec :: MongoMatch.Matches(Obj(r), rec) <==> IssuerIn(rec, issuers)
  {
    IssuerSelects(issuers);
    map["$or" := Arr([On(ORG, Obj(map["$elemMatch" := Obj(map["$in" := Arr(Texts(issuers))])])),
                      On(ORG, Obj(map["$in" := Arr(Texts(issuers))]))])]
  }

  /** A value is in the issuer list exactly when it names an issuer. */
  lemma InTexts(v: Json, issuers: seq<string>)
    ensures v in Texts(issuers) <==> NamesIssuer(v, issuers)
  {
    var t := Texts(issuers);
    if v in t {
      var i :| 0 <= i < |t| && t[i] == v;
    }
    if NamesIssuer(v, issuers) {
      var i :| 0 <= i < |issuers| && issuers[i] == v.s;
      assert t[i] == v;
    }
  }

  /** `$in` over the issuer list accepts a value naming an issuer or a list
      holding one. */
  lemma InListTexts(v: Json, issuers: seq<string>)
    ensures MongoMatch.InList(v, Texts(issuers))
      <==> NamesIssuer(v, issuers) || (v.Arr? && exists y :: y in v.items && NamesIssuer(y, issuers))
  {
    InTexts(v, issuers);
    forall y | y in Texts(issuers)
      ensures NamesIssuer(y, issuers)
    {
      InTexts(y, issuers);
    }
    forall y | NamesIssuer(y, issuers)
      ensures y in Texts(issuers)
    {
      InTexts(y, issuers);
    }
  }

  lemma IssuerSelects(issuers: seq<string>)
    ensures var list := Texts(issuers);
      var f := Obj(map["$or" := Arr([On(ORG, Obj(map["$elemMatch" := Obj(map["$in" := Arr(list)])])),
                                     On(ORG, Obj(map["$in" := Arr(list)]))])]);
      forall rec :: MongoMatch.Matches(f, rec) <==> IssuerIn(rec, issuers)
  {
    var list := Texts(issuers);
    var c1 := On(ORG, Obj(map["$elemMatch" := Obj(map["$in" := Arr(list)])]));
    var c2 := On(ORG, Obj(map["$in" := Arr(list)]));
    NotOperator(ORG);
    InTexts(Null, issuers);
    forall rec: MongoMatch.Rec
      ensures MongoMatch.Matches(Obj(map["$or" := Arr([c1, c2])]), rec) <==> IssuerIn(rec, issuers)
    {
      MongoMatch.MatchesOr([c1, c2], rec);
      assert [c1, c2][0] == c1 && [c1, c2][1] == c2;
      MongoMatch.MatchesElemIn(ORG, list, rec);
      MongoMatch.MatchesIn(ORG, list, rec);
      if ORG in rec {
        InListTexts(rec[ORG], issuers);
        if rec[ORG].Arr? {
          forall x | x in rec[ORG].items
            ensures MongoMatch.InList(x, list)
              <==> NamesIssuer(x, issuers) || (x.Arr? && exists y :: y in x.items && NamesIssuer(y, issuers))
          {
            InListTexts(x, issuers);
          }
        }
      }
    }
  }

  /** A status name that has a clause. */
  predicate KnownStatus(name: string)
  {
    Upper(name) in {"VALID", "EXPIRED", "EXPIRING_SOON", "WEAK"}
  }

  /** A level name that has a clause. */
  predicate KnownLevel(name: string)
  {
    Upper(name) in {"EV", "OV", "DV"}
  }

  /** Every clause of the list selects the certificate. */
  predicate AllMatch(docs: seq<Doc>, rec: MongoMatch.Rec)
  {
    forall i :: 0 <= i < |docs| ==> MongoMatch.Matches(Obj(docs[i]), rec)
  }

  lemma AllMatchAppend(a: seq<Doc>, b: seq<Doc>, rec: MongoMatch.Rec)
    ensures AllMatch(a + b, rec) <==> AllMatch(a, rec) && AllMatch(b, rec)
  {
    assert forall i :: 0 <= i < |a| ==> (a + b)[i] == a[i];
    assert forall i :: 0 <= i < |b| ==> (a + b)[|a| + i] == b[i];
  }

  /** Some clause of the list selects the certificate. */
  predicate SomeMatch(clauses: seq<Json>, rec: MongoMatch.Rec)
  {
    exists x :: x in clauses && MongoMatch.Matches(x, rec)
  }

  lemma AllMatchOne(c: Doc)
    ensures forall rec :: AllMatch([], rec)
    ensures forall rec :: AllMatch([c], rec) <==> MongoMatch.Matches(Obj(c), rec)
  {
    assert forall rec :: AllMatch([c], rec) ==> MongoMatch.Matches(Obj([c][0]), rec);
  }

  /** Both dates parse, and the certificate ends within them. */
  predicate DateSelected(start: Option<string>, end: Option<string>, iso: string -> Option<string>, rec: MongoMatch.Rec)
  {
    Present(start) && Present(end) && iso(start.value).Some? && iso(end.value).Some?
    ==> EndWithin(rec, iso(start.value).value, iso(end.value).value)
  }

  /** Some of the named statuses selects the certificate. */
  predicate AnyStatusSelects(names: seq<string>, now: string, in30: string, rec: MongoMatch.Rec)
  {
    exists i :: 0 <= i < |names| && StatusSelects(Upper(names[i]), rec, now, in30)
  }

  /** Some of the named levels selects the certificate. */
  predicate AnyLevelSelects(names: seq<string>, rec: MongoMatch.Rec)
  {
    exists i :: 0 <= i < |names| && LevelSelects(Upper(names[i]), rec)
  }

  /** When some given status name is known, one of them selects the certificate. */
  predicate StatusSelected(statuses: Option<seq<string>>, now: string, in30: string, rec: MongoMatch.Rec)
  {
    statuses.Some? && (exists i :: 0 <= i < |statuses.value| && KnownStatus(statuses.value[i]))
    ==> AnyStatusSelects(statuses.value, now, in30, rec)
  }

  /** When some given level name is known, one of them selects the certificate. */
  predicate LevelSelected(levels: Option<seq<string>>, rec: MongoMatch.Rec)
  {
    levels.Some? && (exists i :: 0 <= i < |levels.value| && KnownLevel(levels.value[i]))
    ==> AnyLevelSelects(levels.value, rec)
  }

  /** What the query selects: the certificates that end within the date
      range when both dates parse, that name one of the issuers when any
      are given, that some given status selects when a status name is
      known, and that some given level selects when a level name is known. */
  predicate Selected(start: Option<string>, end: Option<string>, issuers: Option<seq<string>>,
                     statuses: Option<seq<string>>, levels: Option<seq<string>>,
                     iso: string -> Option<string>, now: string, in30: string, rec: MongoMatch.Rec)
  {
    && DateSelected(start, end, iso, rec)
    && (NonEmpty(issuers) ==> IssuerIn(rec, issuers.value))
    && StatusSelected(statuses, now, in30, rec)
    && LevelSelected(levels, rec)
  }

  /** The date clause, if any, as a list. */
  function DatePart(start: Option<string>, end: Option<string>, iso: string -> Option<string>): (r: seq<Doc>)
    ensures forall i :: 0 <= i < |r| ==> |r[i]| > 0
    ensures forall rec :: AllMatch(r, rec) <==> DateSelected(start, end, iso, rec)
  {
    AllMatchOne(if DateClause(start, end, iso).Some? then DateClause(start, end, iso).value else map[]);
    if DateClause(start, end, iso).Some? then [DateClause(start, end, iso).value] else []
  }

  /** The issuer clause, if any issuers are given, as a list. */
  function IssuerPart(issuers: Option<seq<string>>): (r: seq<Doc>)
    ensures forall i :: 0 <= i < |r| ==> |r[i]| > 0
    ensures forall rec :: AllMatch(r, rec) <==> (NonEmpty(issuers) ==> IssuerIn(rec, issuers.value))
  {
    AllMatchOne(if NonEmpty(issuers) then IssuerClause(issuers.value) else map[]);
    if NonEmpty(issuers) then [IssuerClause(issuers.value)] else []
  }

  /** The `$or` of the known statuses' clauses, if any, as a list. */
  function StatusPart(statuses: Option<seq<string>>, now: string, in30: string): (r: seq<Doc>)
    ensures forall i :: 0 <= i < |r| ==> |r[i]| > 0
    ensures forall rec :: AllMatch(r, rec) <==> StatusSelected(statuses, now, in30, rec)
  {
    if NonEmpty(statuses) then
      var names := statuses.value;
      var known := Known(names, s => StatusClause(s, now, in30));
      StatusPartSelects(names, now, in30);
      AnyOf(known)
    else []
  }

  lemma StatusPartSelects(names: seq<string>, now: string, in30: string)
    ensures var known := Known(names, s => StatusClause(s, now, in30));
      && (|known| > 0 <==> exists i :: 0 <= i < |names| && KnownStatus(names[i]))
      && forall rec :: SomeMatch(known, rec) <==> AnyStatusSelects(names, now, in30, rec)
  {
    var clause := s => StatusClause(s, now, in30);
    var known := Known(names, clause);
    forall rec: MongoMatch.Rec
      ensures SomeMatch(known, rec) <==> AnyStatusSelects(names, now, in30, rec)
    {
      if exists i :: 0 <= i < |names| && StatusSelects(Upper(names[i]), rec, now, in30) {
        var i :| 0 <= i < |names| && StatusSelects(Upper(names[i]), rec, now, in30);
        assert clause(names[i]).Some?;
        assert clause(names[i]).value in known;
      }
    }
  }

  /** The `$or` of the known levels' clauses, if any, as a list. */
  function LevelPart(levels: Option<seq<string>>): (r: seq<Doc>)
    ensures forall i :: 0 <= i < |r| ==> |r[i]| > 0
    ensures forall rec :: AllMatch(r, rec) <==> LevelSelected(levels, rec)
  {
    if NonEmpty(levels) then
      LevelPartSelects(levels.value);
      AnyOf(Known(levels.value, LevelClause))
    else []
  }

  lemma LevelPartSelects(names: seq<string>)
    ensures var known := Known(names, LevelClause);
      && (|known| > 0 <==> exists i :: 0 <= i < |names| && KnownLevel(names[i]))
      && forall rec :: SomeMatch(known, rec) <==> AnyLevelSelects(names, rec)
  {
    var known := Known(names, LevelClause);
    forall rec: MongoMatch.Rec
      ensures SomeMatch(known, rec) <==> AnyLevelSelects(names, rec)
    {
      if exists i :: 0 <= i < |names| && LevelSelects(Upper(names[i]), rec) {
        var i :| 0 <= i < |names| && LevelSelects(Upper(names[i]), rec);
        assert LevelClause(names[i]).Some?;
        assert LevelClause(names[i]).value in known;
      }
    }
  }

  /** The clauses `build_filter_query` collects, in order: date range,
      issuers, statuses, levels. Countries and grades add nothing; together
      the clauses select what `Selected` describes. */
  function Clauses(start: Option<string>, end: Option<string>, countries: Option<seq<string>>,
                   issuers: Option<seq<string>>, grades: Option<seq<string>>, statuses: Option<seq<string>>,
                   levels: Option<seq<string>>, iso: string -> Option<string>, now: string, in30: string): (r: seq<Doc>)
    ensures forall i :: 0 <= i < |r| ==> |r[i]| > 0
    ensures forall rec :: AllMatch(r, rec) <==> Selected(start, end, issuers, statuses, levels, iso, now, in30, rec)
  {
    var date := DatePart(start, end, iso);
    var issuer := IssuerPart(issuers);
    var status := StatusPart(statuses, now, in30);
    var level := LevelPart(levels);
    PartsSelect(date, issuer, status, level);
    date + issuer + status + level
  }

  lemma PartsSelect(date: seq<Doc>, issuer: seq<Doc>, status: seq<Doc>, level: seq<Doc>)
    ensures forall rec :: (AllMatch(date + issuer + status + level, rec)
      <==> AllMatch(date, rec) && AllMatch(issuer, rec) && AllMatch(status, rec) && AllMatch(level, rec))
  {
    forall rec: MongoMatch.Rec
      ensures AllMatch(date + issuer + status + level, rec)
        <==> AllMatch(date, rec) && AllMatch(issuer, rec) && AllMatch(status, rec) && AllMatch(level, rec)
    {
      AllMatchAppend(date, issuer, rec);
      AllMatchAppend(date + issuer, status, rec);
      AllMatchAppend(date + issuer + status, level, rec);
    }
  }

  /** All clauses combined with AND: none is `{}`, one is itself; the
      result selects exactly what every clause selects. */
  function Combine(clauses: seq<Doc>): (r: Doc)
    requires forall i :: 0 <= i < |clauses| ==> |clauses[i]| > 0
    ensures r == map[] <==> |clauses| == 0
    ensures |clauses| == 1 ==> r == clauses[0]
    ensures |clauses| >= 2 ==> r.Keys == {"$and"}
    ensures forall rec :: MongoMatch.Matches(Obj(r), rec) <==> AllMatch(clauses, rec)
  {
    CombineSelects(clauses);
    if |clauses| == 0 then map[]
    else if |clauses| == 1 then clauses[0]
    else
      var m := map["$and" := Arr(seq(|clauses|, i requires 0 <= i < |clauses| => Obj(clauses[i])))];
      assert "$and" in m;
      m
  }

  lemma CombineSelects(clauses: seq<Doc>)
    ensures forall rec :: MongoMatch.Matches(Obj(map[]), rec)
    ensures |clauses| == 1 ==> forall rec :: MongoMatch.Matches(Obj(clauses[0]), rec) <==> AllMatch(clauses, rec)
    ensures forall rec :: (MongoMatch.Matches(Obj(map["$and" := Arr(seq(|clauses|, i requires 0 <= i < |clauses| => Obj(clauses[i])))]), rec)
      <==> AllMatch(clauses, rec))
  {
    var objs := seq(|clauses|, i requires 0 <= i < |clauses| => Obj(clauses[i]));
    forall rec: MongoMatch.Rec
      ensures MongoMatch.Matches(Obj(map[]), rec)
      ensures MongoMatch.Matches(Obj(map["$and" := Arr(objs)]), rec) <==> AllMatch(clauses, rec)
    {
      MongoMatch.MatchesEmpty(rec);
      MongoMatch.MatchesAnd(objs, rec);
      assert forall i :: 0 <= i < |clauses| ==> objs[i] == Obj(clauses[i]);
    }
  }

  /** `build_filter_query`: the filter selects exactly what `Selected`
      describes, and is `{}` exactly when no clause applies. */
  function BuildFilterQuery(start: Option<string>, end: Option<string>, countries: Option<seq<string>>,
                            issuers: Option<seq<string>>, grades: Option<seq<string>>, statuses: Option<seq<string>>,
                            levels: Option<seq<string>>, iso: string -> Option<string>, now: string, in30: string): (r: Doc)
    ensures r == map[] <==>
      DateClause(start, end, iso).None? && !NonEmpty(issuers)
      && (NonEmpty(statuses) ==> forall i :: 0 <= i < |statuses.value| ==> StatusClause(statuses.value[i], now, in30).None?)
      && (NonEmpty(levels) ==> forall i :: 0 <= i < |levels.value| ==> LevelClause(levels.value[i]).None?)
    ensures forall rec :: MongoMatch.Matches(Obj(r), rec) <==> Selected(start, end, issuers, statuses, levels, iso, now, in30, rec)
  {
    Combine(Clauses(start, end, countries, issuers, grades, statuses, levels, iso, now, in30))
  }

  /** Countries and grades never reach the filter, and status or level
      names that are not known add nothing. */
  lemma IgnoredArguments(start: Option<string>, end: Option<string>, countries: Option<seq<string>>,
                         issuers: Option<seq<string>>, grades: Option<seq<string>>, statuses: Option<seq<string>>,
                         levels: Option<seq<string>>, iso: string -> Option<string>, now: string, in30: string)
    requires statuses.Some? ==> forall i :: 0 <= i < |statuses.value| ==> StatusClause(statuses.value[i], now, in30).None?
    requires levels.Some? ==> forall i :: 0 <= i < |levels.value| ==> LevelClause(levels.value[i]).None?
    ensures BuildFilterQuery(start, end, countries, issuers, grades, statuses, levels, iso, now, in30)
         == BuildFilterQuery(start, end, None, issuers, None, None, None, iso, now, in30)
  {
    UnknownStatusesAddNothing(statuses, now, in30);
    UnknownLevelsAddNothing(levels);
    assert Clauses(start, end, countries, issuers, grades, statuses, levels, iso, now, in30)
        == Clauses(start, end, None, issuers, None, None, None, iso, now, in30);
  }

  lemma UnknownStatusesAddNothing(statuses: Option<seq<string>>, now: string, in30: string)
    requires statuses.Some? ==> forall i :: 0 <= i < |statuses.value| ==> StatusClause(statuses.value[i], now, in30).None?
    ensures StatusPart(statuses, now, in30) == []
  {
    if NonEmpty(statuses) {
      assert Known(statuses.value, s => StatusClause(s, now, in30)) == [];
    }
  }

  lemma UnknownLevelsAddNothing(levels: Option<seq<string>>)
    requires levels.Some? ==> forall i :: 0 <= i < |levels.value| ==> LevelClause(levels.value[i]).None?
    ensures LevelPart(levels) == []
  {
    if NonEmpty(levels) {
      assert Known(levels.value, LevelClause) == [];
    }
  }
}

=== FILE: controllers.dfy ===
/** The controller layer of the dashboard backend: the global filter
    parameters with their cache key and presence test, the cache-aside read
    of `get_certificates` with its namespace and base-filter gating, and the
    risk thresholds of `get_future_risk`. The cache is a map from namespace
    and parameters to the stored answer; the model call is a parameter. */
module Controllers {

  import opened Wrappers
  import opened JsonTree
  import opened CertModels

  // ---------------------------------------------------------------- global filter parameters

  /** `GlobalFilterParams`: every field defaults to `None`. */
  datatype GlobalFilterParams = GlobalFilterParams(
    startDate: Option<string>, endDate: Option<string>,
    countries: Option<seq<string>>, issuers: Option<seq<string>>, grades: Option<seq<string>>,
    statuses: Option<seq<string>>, validationLevels: Option<seq<string>>)

  /** The fields of `GlobalFilterParams`, in declaration order. */
  datatype Field = StartDate | EndDate | Countries | Issuers | Grades | Statuses | ValidationLevels
  {
    /** The field's name, the key `asdict` gives it. */
    function Name(): string
    {
      match this
      case StartDate => "start_date"
      case EndDate => "end_date"
      case Countries => "countries"
      case Issuers => "issuers"
      case Grades => "grades"
      case Statuses => "statuses"
      case ValidationLevels => "validation_levels"
    }
  }

  function OptText(a: Option<string>): Json
  {
    if a.Some? then Str(a.value) else Null
  }

  function OptList(xs: Option<seq<string>>): Json
  {
    if xs.Some? then Arr(Texts(xs.value)) else Null
  }

  /** `asdict(self)[f.Name()]` */
  function Value(g: GlobalFilterParams, f: Field): Json
  {
    match f
    case StartDate => OptText(g.startDate)
    case EndDate => OptText(g.endDate)
    case Countries => OptList(g.countries)
    case Issuers => OptList(g.issuers)
    case Grades => OptList(g.grades)
    case Statuses => OptList(g.statuses)
    case ValidationLevels => OptList(g.validationLevels)
  }

  /** A field the cache key keeps: not `None` and not an empty list. */
  predicate Kept(v: Json)
  {
    v != Null && v != Arr([])
  }

  /** `to_cache_key`: the fields that are set, empty lists left out, each
      under its field. */
  function ToCacheKey(g: GlobalFilterParams): (r: map<Field, Json>)
    ensures forall f :: f in r <==> Kept(Value(g, f))
    ensures forall f :: f in r ==> r[f] == Value(g, f)
  {
    map f: Field | Kept(Value(g, f)) :: Value(g, f)
  }

  /** `has_filters`: some field is truthy, a non-empty text or list. */
  function HasFilters(g: GlobalFilterParams): (r: bool)
    ensures r <==> exists f :: Truthy(Value(g, f))
  {
    assert Truthy(Value(g, StartDate)) <==> Present(g.startDate);
    assert Truthy(Value(g, EndDate)) <==> Present(g.endDate);
    assert Truthy(Value(g, Countries)) <==> NonEmpty(g.countries);
    assert Truthy(Value(g, Issuers)) <==> NonEmpty(g.issuers);
    assert Truthy(Value(g, Grades)) <==> NonEmpty(g.grades);
    assert Truthy(Value(g, Statuses)) <==> NonEmpty(g.statuses);
    assert Truthy(Value(g, ValidationLevels)) <==> NonEmpty(g.validationLevels);
    Present(g.startDate) || Present(g.endDate) || NonEmpty(g.countries) || NonEmpty(g.issuers)
    || NonEmpty(g.grades) || NonEmpty(g.statuses) || NonEmpty(g.validationLevels)
  }

  /** An empty cache key means no filter is active. */
  lemma EmptyKeyNoFilters(g: GlobalFilterParams)
    requires ToCacheKey(g) == map[]
    ensures !HasFilters(g)
  {
    forall f: Field
      ensures !Truthy(Value(g, f))
    {
      assert f !in ToCacheKey(g);
    }
  }

  /** The converse fails: an empty start date is kept in the key, yet no
      filter is active. */
  lemma KeyWithoutFilters()
    ensures var g := GlobalFilterParams(Some(""), None, None, None, None, None, None);
      ToCacheKey(g) == map[StartDate := Str("")] && !HasFilters(g)
  {
    var g := GlobalFilterParams(Some(""), None, None, None, None, None, None);
    assert ToCacheKey(g).Keys == {StartDate};
  }

  // ---------------------------------------------------------------- get_certificates

  /** The cache namespace: page 1 has its own, with a longer lifetime. */
  function Namespace(page: int): (r: string)
    ensures r == "certificates_page1" <==> page == 1
    ensures r == "certificates" <==> page != 1
  {
    if page == 1 then "certificates_page1" else "certificates"
  }

  /** The parameters that make the base filter, with the clock and the
      date parser `build_filter_query` needs. */
  datatype FilterContext = FilterContext(iso: string -> Option<string>, now: string, in30: string)

  /** The base filter: built only when global filters are given and one of
      them is active. */
  function BaseFilter(g: Option<GlobalFilterParams>, ctx: FilterContext): (r: Option<Doc>)
    ensures r.Some? <==> g.Some? && HasFilters(g.value)
    ensures r.Some? ==> r.value == BuildFilterQuery(g.value.startDate, g.value.endDate, g.value.countries,
      g.value.issuers, g.value.grades, g.value.statuses, g.value.validationLevels, ctx.iso, ctx.now, ctx.in30)
  {
    if g.Some? && HasFilters(g.value) then
      var f := g.value;
      Some(BuildFilterQuery(f.startDate, f.endDate, f.countries, f.issuers, f.grades, f.statuses,
                            f.validationLevels, ctx.iso, ctx.now, ctx.in30))
    else None
  }

  /** A list field as the filter builder reads it: `None` and `[]` alike. */
  function Effective(xs: Option<seq<string>>): (r: Option<seq<string>>)
    ensures r.None? <==> xs.None? || |xs.value| == 0
    ensures r.Some? ==> r == xs
  {
    if xs.Some? && |xs.value| > 0 then xs else None
  }

  /** The text fields decide the key's text entries, the non-empty lists its list entries. */
  lemma KeyDeterminesFields(g1: GlobalFilterParams, g2: GlobalFilterParams)
    requires ToCacheKey(g1) == ToCacheKey(g2)
    ensures g1.startDate == g2.startDate && g1.endDate == g2.endDate
    ensures Effective(g1.issuers) == Effective(g2.issuers)
    ensures Effective(g1.statuses) == Effective(g2.statuses)
    ensures Effective(g1.validationLevels) == Effective(g2.validationLevels)
    ensures NonEmpty(g1.countries) == NonEmpty(g2.countries) && NonEmpty(g1.grades) == NonEmpty(g2.grades)
  {
    var k := ToCacheKey(g1);
    ListEntry(g1.issuers, g2.issuers, Issuers in k, if Issuers in k then k[Issuers] else Null);
    ListEntry(g1.statuses, g2.statuses, Statuses in k, if Statuses in k then k[Statuses] else Null);
    ListEntry(g1.validationLevels, g2.validationLevels, ValidationLevels in k, if ValidationLevels in k then k[ValidationLevels] else Null);
    assert Countries in k <==> NonEmpty(g1.countries);
    assert Grades in k <==> NonEmpty(g1.grades);
    assert StartDate in k <==> g1.startDate.Some?;
    assert EndDate in k <==> g1.endDate.Some?;
  }

  /** Two list fields with the same key entry, `present` telling whether
      there is one, agree once `None` and `[]` are read alike. */
  lemma ListEntry(a: Option<seq<string>>, b: Option<seq<string>>, present: bool, entry: Json)
    requires present <==> Kept(OptList(a))
    requires present <==> Kept(OptList(b))
    requires present ==> entry == OptList(a) && entry == OptList(b)
    ensures Effective(a) == Effective(b)
  {
    if present {
      TextsInjective(a.value, b.value);
    }
  }

  lemma TextsInjective(xs: seq<string>, ys: seq<string>)
    requires Texts(xs) == Texts(ys)
    ensures xs == ys
  {
    assert |xs| == |ys|;
    forall i | 0 <= i < |xs|
      ensures xs[i] == ys[i]
    {
      assert Texts(xs)[i] == Texts(ys)[i];
    }
  }

  /** The filter builder does not see the difference between `None` and an
      empty list. */
  lemma FilterReadsEffectiveLists(g: GlobalFilterParams, ctx: FilterContext)
    ensures BuildFilterQuery(g.startDate, g.endDate, g.countries, g.issuers, g.grades, g.statuses,
                             g.validationLevels, ctx.iso, ctx.now, ctx.in30)
         == BuildFilterQuery(g.startDate, g.endDate, None, Effective(g.issuers), None,
                             Effective(g.statuses), Effective(g.validationLevels), ctx.iso, ctx.now, ctx.in30)
  {
  }

  /** Requests that share a cache key share a base filter, so the cached
      answer is the one the request would compute. */
  lemma SameKeySameBaseFilter(g1: GlobalFilterParams, g2: GlobalFilterParams, ctx: FilterContext)
    requires ToCacheKey(g1) == ToCacheKey(g2)
    ensures BaseFilter(Some(g1), ctx) == BaseFilter(Some(g2), ctx)
  {
    KeyDeterminesFields(g1, g2);
    FilterReadsEffectiveLists(g1, ctx);
    FilterReadsEffectiveLists(g2, ctx);
  }

  // ---------------------------------------------------------------- cache-aside

  /** A cache entry's key: the namespace, the call's own parameters and the
      global filter's key. Python merges the two parameter dicts into one;
      their names are disjoint, so the pair identifies the same entries. */
  datatype CacheKey = CacheKey(namespace: string, own: map<string, Json>, global: map<Field, Json>)

  /** `cache.get` then, on a miss, `cache.set`: a stored answer that Python
      reads as true is returned unchanged; anything else is replaced by the
      computed answer, which is returned. */
  function CacheAside(cache: map<CacheKey, Json>, key: CacheKey, computed: Json): (r: (Json, map<CacheKey, Json>))
    ensures key in cache && Truthy(cache[key]) ==> r == (cache[key], cache)
    ensures !(key in cache && Truthy(cache[key])) ==> r.0 == computed && r.1 == cache[key := computed]
    ensures key in r.1 && r.1[key] == r.0
    ensures forall k :: k != key ==> (k in r.1 <==> k in cache) && (k in cache ==> r.1[k] == cache[k])
  {
    if key in cache && Truthy(cache[key]) then (cache[key], cache)
    else (computed, cache[key := computed])
  }

  /** A second request with the same key is served from the cache, unless
      the first answer was one Python reads as false. */
  lemma CacheAsideRepeats(cache: map<CacheKey, Json>, key: CacheKey, first: Json, second: Json)
    ensures var (v, c) := CacheAside(cache, key, first);
      Truthy(v) ==> CacheAside(c, key, second) == (v, c)
  {
  }

  /** The global part of the cache parameters: empty without global filters. */
  function GlobalParams(g: Option<GlobalFilterParams>): (r: map<Field, Json>)
    ensures g.None? ==> r == map[]
    ensures g.Some? ==> r == ToCacheKey(g.value)
  {
    if g.Some? then ToCacheKey(g.value) else map[]
  }

  /** `get_certificates`: `own` holds the page, the page size and the other
      call parameters; `getAll` stands for the model call, given the base
      filter. Returns the answer and the cache after the call. */
  function GetCertificates(cache: map<CacheKey, Json>, page: int, own: map<string, Json>,
                           g: Option<GlobalFilterParams>, ctx: FilterContext,
                           getAll: Option<Doc> -> Json): (r: (Json, map<CacheKey, Json>))
    ensures var key := CacheKey(Namespace(page), own, GlobalParams(g));
      && (key in cache && Truthy(cache[key]) ==> r == (cache[key], cache))
      && (!(key in cache && Truthy(cache[key])) ==> r.0 == getAll(BaseFilter(g, ctx)) && r.1 == cache[key := r.0])
  {
    CacheAside(cache, CacheKey(Namespace(page), own, GlobalParams(g)), getAll(BaseFilter(g, ctx)))
  }

  // ---------------------------------------------------------------- future risk

  datatype RiskLevel = Low | Medium | High
  {
    function Rank(): nat
    {
      match this
      case Low => 0
      case Medium => 1
      case High => 2
    }
  }

  /** The risk level and its confidence from the critical and expiring counts. */
  function FutureRisk(critical: int, expiring: int): (r: (RiskLevel, nat))
    ensures r.0 == High <==> critical > 5 || expiring > 20
    ensures r.0 == Medium <==> !(critical > 5 || expiring > 20) && (critical > 2 || expiring > 10)
    ensures r.1 == (if r.0 == High then 92 else if r.0 == Medium then 78 else 65)
  {
    if critical > 5 || expiring > 20 then (High, 92)
    else if critical > 2 || expiring > 10 then (Medium, 78)
    else (Low, 65)
  }

  /** More critical or expiring certificates never lower the risk, nor the
      confidence reported with it. */
  lemma RiskMonotone(c1: int, e1: int, c2: int, e2: int)
    requires c1 <= c2 && e1 <= e2
    ensures FutureRisk(c1, e1).0.Rank() <= FutureRisk(c2, e2).0.Rank()
    ensures FutureRisk(c1, e1).1 <= FutureRisk(c2, e2).1
  {
  }
}

=== FILE: counting.dfy ===
/** Counting the elements of a sequence that satisfy a predicate, as the
    size of the set of their positions. The counters of the model state
    their results against this reference. */
module Counting {
  /** The positions of `s` whose element satisfies `p`. */
  function Where<T>(s: seq<T>, p: T -> bool): (r: set<nat>)
    ensures forall i: int :: i in r <==> 0 <= i < |s| && p(s[i])
  {
    set i: nat | i < |s| && p(s[i])
  }

  /** Removing the last element drops its position and nothing else. */
  lemma {:induction false} WhereSnoc<T>(s: seq<T>, p: T -> bool)
    requires |s| > 0
    ensures |Where(s, p)| == |Where(s[..|s| - 1], p)| + (if p(s[|s| - 1]) then 1 else 0)
  {
    var n := |s| - 1;
    var a := Where(s[..n], p);
    if p(s[n]) {
      assert Where(s, p) == a + {n};
    } else {
      assert Where(s, p) == a;
    }
  }

  /** Removing the first element drops its position and nothing else. */
  lemma {:induction false} WhereCons<T>(s: seq<T>, p: T -> bool)
    requires |s| > 0
    ensures |Where(s, p)| == |Where(s[1..], p)| + (if p(s[0]) then 1 else 0)
    decreases |s|
  {
    if |s| > 1 {
      var n := |s| - 1;
      WhereSnoc(s, p);
      WhereCons(s[..n], p);
      WhereSnoc(s[1..], p);
      assert s[..n][1..] == s[1..][..n - 1];
      assert s[..n][0] == s[0] && s[1..][n - 1] == s[n];
    } else {
      assert Where(s[1..], p) == {};
      assert Where(s, p) == if p(s[0]) then {0} else {};
    }
  }

  /** The images under `f` of the elements that satisfy `p`, in order:
      one per position whose element satisfies `p`. */
  function Collect<T, U>(s: seq<T>, p: T -> bool, f: T -> U): (r: seq<U>)
    ensures |r| == |Where(s, p)|
  {
    if |s| == 0 then []
    else
      WhereCons(s, p);
      (if p(s[0]) then [f(s[0])] else []) + Collect(s[1..], p, f)
  }

  /** Collecting decides the first element, then the rest. */
  lemma CollectCons<T, U>(s: seq<T>, x: T, rest: seq<T>, p: T -> bool, f: T -> U)
    requires s == [x] + rest
    ensures Collect(s, p, f) == (if p(x) then [f(x)] else []) + Collect(rest, p, f)
  {
    assert s[0] == x && s[1..] == rest;
  }

  /** Collecting keeps the order: a concatenation collects its first
      part, then its second. */
  lemma {:induction false} CollectAppend<T, U>(a: seq<T>, b: seq<T>, p: T -> bool, f: T -> U)
    ensures Collect(a + b, p, f) == Collect(a, p, f) + Collect(b, p, f)
  {
    if |a| > 0 {
      var head: seq<U> := if p(a[0]) then [f(a[0])] else [];
      assert a + b == [a[0]] + (a[1..] + b);
      CollectAppend(a[1..], b, p, f);
      CollectCons(a + b, a[0], a[1..] + b, p, f);
      CollectCons(a, a[0], a[1..], p, f);
      AppendAssoc(head, Collect(a[1..], p, f), Collect(b, p, f));
    } else {
      assert a + b == b;
    }
  }

  /** Collecting yields exactly the images of the elements that satisfy `p`. */
  lemma {:induction false} CollectMembers<T, U>(s: seq<T>, p: T -> bool, f: T -> U, y: U)
    ensures y in Collect(s, p, f) <==> exists j :: 0 <= j < |s| && p(s[j]) && y == f(s[j])
  {
    if |s| > 0 {
      CollectCons(s, s[0], s[1..], p, f);
      CollectMembers(s[1..], p, f, y);
      if exists j :: 1 <= j < |s| && p(s[j]) && y == f(s[j]) {
        var j :| 1 <= j < |s| && p(s[j]) && y == f(s[j]);
        assert s[1..][j - 1] == s[j];
      }
      if exists j :: 0 <= j < |s| - 1 && p(s[1..][j]) && y == f(s[1..][j]) {
        var j :| 0 <= j < |s| - 1 && p(s[1..][j]) && y == f(s[1..][j]);
        assert s[1..][j] == s[j + 1];
      }
    }
  }

  /** A non-empty sequence is its head followed by its tail. */
  lemma Cons<T>(s: seq<T>)
    requires |s| > 0
    ensures [s[0]] + s[1..] == s
  {
  }

  /** The elements of a non-empty sequence: its head and those of its tail. */
  lemma ElementsCons<T>(s: seq<T>)
    requires |s| > 0
    ensures (set x | x in s) == {s[0]} + (set x | x in s[1..])
  {
    Cons(s);
  }

  /** Putting an element that satisfies `p` in front of a sequence whose
      elements all satisfy it gives such a sequence again. */
  lemma AllCons<T>(x: T, rest: seq<T>, p: T -> bool)
    requires p(x) && forall i :: 0 <= i < |rest| ==> p(rest[i])
    ensures forall i :: 0 <= i < |[x] + rest| ==> p(([x] + rest)[i])
  {
  }

  /** Concatenation is associative; stated once so that proofs about long
      sums of sequences need not rediscover it. */
  lemma AppendAssoc<T>(x: seq<T>, y: seq<T>, z: seq<T>)
    ensures x + (y + z) == (x + y) + z
  {
  }
}

=== FILE: crawler_v1.dfy ===
/** The first version of the domain crawler's MongoDB work queue: the
    `staging` collection of per-domain tasks, the atomic claim, the outcome
    updates, the heartbeat, the reclaimer and the CSV seeding, each as a pure
    transition on the collection. The collection is a sequence in `_id`
    (insertion) order; `domain` is unique, as the collection's unique index
    demands. Times are integer seconds. */
module CrawlerV1 {

  import opened Wrappers
  import opened PyStr
  import opened Counting

  const MAX_ATTEMPTS: nat := 3
  const INITIAL_BACKOFF: nat := 10
  const MAX_BACKOFF: nat := 20
  const RECLAIM_TIMEOUT: nat := 60

  datatype Status = Pending | InProgress | Done | Failed

  /** A task still in the queue: waiting, or held by a worker. */
  predicate Active(st: Status)
  {
    st == Pending || st == InProgress
  }

  /** One `staging` document. `None` stands for a field that is null or unset. */
  datatype Task = Task(
    domain: string,
    status: Status,
    attempts: nat,
    lastError: Option<string>,
    nextAttemptAt: int,
    startTs: Option<int>,
    workerId: Option<string>,
    lastHeartbeat: Option<int>,
    insertedAt: int,
    fingerprint: Option<string>,
    doneAt: Option<int>,
    failedAt: Option<int>)

  type Staging = seq<Task>

  /** A task without its lease: the `$unset` of `worker_id`, `start_ts` and `last_heartbeat`. */
  function Released(t: Task): (r: Task)
    ensures r.workerId.None? && r.startTs.None? && r.lastHeartbeat.None?
    ensures r.domain == t.domain && r.status == t.status && r.attempts == t.attempts
  {
    t.(workerId := None, startTs := None, lastHeartbeat := None)
  }

  // ---------------------------------------------------------------- backoff

  function Pow2(n: nat): (r: nat)
    ensures r >= 1
  {
    if n == 0 then 1 else 2 * Pow2(n - 1)
  }

  /** The retry delay after `attempts` failures: exponential from the initial
      backoff, capped at the maximum. */
  function Backoff(attempts: nat): (r: nat)
    ensures INITIAL_BACKOFF <= r <= MAX_BACKOFF
    ensures r < MAX_BACKOFF ==> r == INITIAL_BACKOFF * Pow2(attempts)
    ensures r == MAX_BACKOFF ==> INITIAL_BACKOFF * Pow2(attempts) >= MAX_BACKOFF
  {
    if INITIAL_BACKOFF * Pow2(attempts) < MAX_BACKOFF then INITIAL_BACKOFF * Pow2(attempts) else MAX_BACKOFF
  }

  /** Each further failure doubles the delay until the cap is reached. */
  lemma BackoffDoubles(attempts: nat)
    ensures Backoff(attempts + 1) == if 2 * Backoff(attempts) < MAX_BACKOFF then 2 * Backoff(attempts) else MAX_BACKOFF
  {
  }

  lemma {:induction false} BackoffMonotone(a: nat, b: nat)
    requires a <= b
    ensures Backoff(a) <= Backoff(b)
    decreases b - a
  {
    if a < b {
      BackoffMonotone(a + 1, b);
      BackoffDoubles(a);
    }
  }

  // ---------------------------------------------------------------- lookup

  /** The position of the task for `domain`, the `_id` the worker holds. */
  function Find(s: Staging, domain: string): (r: Option<nat>)
    ensures r.Some? ==> r.value < |s| && s[r.value].domain == domain
    ensures r.None? <==> forall i :: 0 <= i < |s| ==> s[i].domain != domain
  {
    if |s| == 0 then None
    else if s[0].domain == domain then Some(0)
    else
      var k := Find(s[1..], domain);
      if k.None? then None else Some(k.value + 1)
  }

  predicate UniqueDomains(s: Staging)
  {
    forall i, j :: 0 <= i < j < |s| ==> s[i].domain != s[j].domain
  }

  /** Replaces the task of `domain` (if there is one) by `f` of it. */
  function UpdateTask(s: Staging, domain: string, f: Task -> Task): (r: Staging)
    ensures |r| == |s|
    ensures forall i :: 0 <= i < |s| && s[i].domain != domain ==> r[i] == s[i]
    ensures forall i :: 0 <= i < |s| && s[i].domain == domain && UniqueDomains(s) ==> r[i] == f(s[i])
  {
    match Find(s, domain)
    case None => s
    case Some(i) => s[i := f(s[i])]
  }

  // ---------------------------------------------------------------- claim

  predicate Eligible(t: Task, now: int)
  {
    t.status == Pending && t.nextAttemptAt <= now
  }

  function FirstEligible(s: Staging, now: int): (r: Option<nat>)
    ensures r.None? <==> forall i :: 0 <= i < |s| ==> !Eligible(s[i], now)
    ensures r.Some? ==> r.value < |s| && Eligible(s[r.value], now)
    ensures r.Some? ==> forall j :: 0 <= j < r.value ==> !Eligible(s[j], now)
  {
    if |s| == 0 then None
    else if Eligible(s[0], now) then Some(0)
    else
      var k := FirstEligible(s[1..], now);
      if k.None? then None else Some(k.value + 1)
  }

  datatype Claimed = Claimed(staging: Staging, task: Option<Task>)

  function Leased(t: Task, worker: string, now: int): Task
  {
    t.(status := InProgress, workerId := Some(worker), startTs := Some(now), lastHeartbeat := Some(now))
  }

  /** `claim_one_task`: atomically takes the oldest pending task whose retry
      time has come and leases it to `worker`; returns the updated task. */
  function Claim(s: Staging, worker: string, now: int): (r: Claimed)
    ensures |r.staging| == |s|
    ensures r.task.None? <==> forall i :: 0 <= i < |s| ==> !Eligible(s[i], now)
    ensures r.task.None? ==> r.staging == s
    ensures r.task.Some? ==> exists i :: 0 <= i < |s| && ClaimedAt(s, r, i, worker, now)
  {
    match FirstEligible(s, now)
    case None => Claimed(s, None)
    case Some(i) =>
      var t := Leased(s[i], worker, now);
      var r := Claimed(s[i := t], Some(t));
      assert ClaimedAt(s, r, i, worker, now);
      r
  }

  /** Task `i` was the oldest eligible one, it alone changed, and it is now
      leased to `worker` with its attempt count and retry history kept. */
  predicate ClaimedAt(s: Staging, r: Claimed, i: nat, worker: string, now: int)
    requires i < |s| && |r.staging| == |s|
  {
    && Eligible(s[i], now)
    && (forall j :: 0 <= j < i ==> !Eligible(s[j], now))
    && (forall j :: 0 <= j < |s| && j != i ==> r.staging[j] == s[j])
    && r.task == Some(r.staging[i])
    && r.staging[i].domain == s[i].domain
    && r.staging[i].status == InProgress
    && r.staging[i].workerId == Some(worker)
    && r.staging[i].startTs == Some(now)
    && r.staging[i].lastHeartbeat == Some(now)
    && r.staging[i].attempts == s[i].attempts
    && r.staging[i].lastError == s[i].lastError
  }

  // ---------------------------------------------------------------- outcomes

  function DoneTask(t: Task, fp: string, now: int): Task
  {
    Released(t).(status := Done, doneAt := Some(now), lastError := None, fingerprint := Some(fp))
  }

  /** `mark_task_done`: matched by `_id` only, so it applies whatever the task's current state. */
  function MarkDone(s: Staging, domain: string, fp: string, now: int): (r: Staging)
    requires UniqueDomains(s)
    ensures |r| == |s|
    ensures forall i :: 0 <= i < |s| ==> r[i].domain == s[i].domain
    ensures forall i :: 0 <= i < |s| && s[i].domain != domain ==> r[i] == s[i]
    ensures forall i :: 0 <= i < |s| && s[i].domain == domain ==>
      && r[i].status == Done && r[i].fingerprint == Some(fp) && r[i].lastError.None?
      && r[i].doneAt == Some(now)
      && r[i].workerId.None? && r[i].startTs.None? && r[i].lastHeartbeat.None?
      && r[i].attempts == s[i].attempts && r[i].domain == domain
      && r[i].nextAttemptAt == s[i].nextAttemptAt && r[i].failedAt == s[i].failedAt
      && r[i].insertedAt == s[i].insertedAt
  {
    UpdateTask(s, domain, t => DoneTask(t, fp, now))
  }

  /** The failure update for a task freshly re-read as `t`. */
  function FailedTask(t: Task, err: string, now: int): Task
  {
    var attempts := t.attempts + 1;
    if attempts >= MAX_ATTEMPTS then
      Released(t).(status := Failed, lastError := Some(err), attempts := attempts, failedAt := Some(now))
    else
      Released(t).(status := Pending, lastError := Some(err), nextAttemptAt := now + Backoff(attempts), attempts := attempts)
  }

  /** `mark_task_failed` on the freshly re-read task: one more attempt; the
      task fails for good at `MAX_ATTEMPTS`, otherwise it waits out the backoff. */
  function MarkFailed(s: Staging, domain: string, err: string, now: int): (r: Staging)
    requires UniqueDomains(s)
    ensures |r| == |s|
    ensures forall i :: 0 <= i < |s| ==> r[i].domain == s[i].domain
    ensures forall i :: 0 <= i < |s| && s[i].domain != domain ==> r[i] == s[i]
    ensures forall i :: 0 <= i < |s| && s[i].domain == domain ==>
      && r[i].domain == domain
      && r[i].attempts == s[i].attempts + 1
      && r[i].lastError == Some(err)
      && r[i].workerId.None? && r[i].startTs.None? && r[i].lastHeartbeat.None?
      && r[i].doneAt == s[i].doneAt && r[i].fingerprint == s[i].fingerprint
      && (r[i].status == Failed <==> s[i].attempts + 1 >= MAX_ATTEMPTS)
      && (r[i].status == Failed ==> r[i].failedAt == Some(now) && r[i].nextAttemptAt == s[i].nextAttemptAt)
      && (r[i].status != Failed ==>
            && r[i].status == Pending && r[i].failedAt == s[i].failedAt
            && r[i].nextAttemptAt == now + Backoff(s[i].attempts + 1)
            && now + INITIAL_BACKOFF <= r[i].nextAttemptAt <= now + MAX_BACKOFF)
  {
    UpdateTask(s, domain, t => FailedTask(t, err, now))
  }

  /** `heartbeat_updater`: refreshes the heartbeat only while `worker` still holds the lease. */
  function Heartbeat(s: Staging, domain: string, worker: string, now: int): (r: Staging)
    requires UniqueDomains(s)
    ensures |r| == |s|
    ensures forall i :: 0 <= i < |s| ==>
      r[i] == if s[i].domain == domain && s[i].workerId == Some(worker) then s[i].(lastHeartbeat := Some(now)) else s[i]
  {
    UpdateTask(s, domain, (t: Task) => if t.workerId == Some(worker) then t.(lastHeartbeat := Some(now)) else t)
  }

  // ---------------------------------------------------------------- reclaimer

  /** In progress with a heartbeat older than the reclaim timeout (a missing heartbeat never matches `$lt`). */
  predicate Stale(t: Task, now: int)
  {
    t.status == InProgress && t.lastHeartbeat.Some? && t.lastHeartbeat.value < now - RECLAIM_TIMEOUT
  }

  function ReclaimedTask(t: Task, now: int): Task
  {
    if !Stale(t, now) then t
    else if t.attempts + 1 >= MAX_ATTEMPTS then
      Released(t).(status := Failed, attempts := t.attempts + 1, failedAt := Some(now))
    else
      Released(t).(status := Pending, nextAttemptAt := now, attempts := t.attempts + 1)
  }

  /** `reclaimer_loop`, one pass: every stale task counts one more attempt and
      goes back to pending, or fails at `MAX_ATTEMPTS`. Tasks that are not
      stale, including every finished one, are left alone. */
  function Reclaim(s: Staging, now: int): (r: Staging)
    ensures |r| == |s|
    ensures forall i :: 0 <= i < |s| ==> r[i].domain == s[i].domain
    ensures forall i :: 0 <= i < |s| && !Stale(s[i], now) ==> r[i] == s[i]
    ensures forall i :: 0 <= i < |s| && Stale(s[i], now) ==>
      && r[i].domain == s[i].domain
      && r[i].attempts == s[i].attempts + 1
      && r[i].workerId.None? && r[i].lastHeartbeat.None? && r[i].startTs.None?
      && (r[i].status == Failed <==> s[i].attempts + 1 >= MAX_ATTEMPTS)
      && (r[i].status == Failed ==> r[i].failedAt == Some(now) && r[i].nextAttemptAt == s[i].nextAttemptAt)
      && (r[i].status != Failed ==>
            r[i].status == Pending && r[i].nextAttemptAt == now && r[i].failedAt == s[i].failedAt)
      && r[i].lastError == s[i].lastError && r[i].insertedAt == s[i].insertedAt
      && r[i].fingerprint == s[i].fingerprint && r[i].doneAt == s[i].doneAt
  {
    seq(|s|, i requires 0 <= i < |s| => ReclaimedTask(s[i], now))
  }

  // ---------------------------------------------------------------- seeding

  function NewTask(domain: string, now: int): Task
  {
    Task(domain, Pending, 0, None, now, None, None, None, now, None, None, None)
  }

  /** The upsert with `$setOnInsert`: adds a pending task unless the domain is already queued. */
  function Upsert(s: Staging, domain: string, now: int): (r: Staging)
    ensures Find(s, domain).Some? ==> r == s
    ensures Find(s, domain).None? ==> r == s + [NewTask(domain, now)]
  {
    if Find(s, domain).Some? then s else s + [NewTask(domain, now)]
  }

  /** The upserts of a list of domains, one after the other: the queued
      tasks stay as they are, and only fresh pending tasks of listed
      domains are added. */
  function UpsertAll(s: Staging, domains: seq<string>, now: int): (r: Staging)
    ensures |s| <= |r| && r[..|s|] == s
    ensures forall i :: |s| <= i < |r| ==> r[i] == NewTask(r[i].domain, now) && r[i].domain in domains
    decreases |domains|
  {
    if |domains| == 0 then s else UpsertAll(Upsert(s, domains[0], now), domains[1..], now)
  }

  /** The domain a CSV row names: the only cell, or the second one; stripped and lower-cased. */
  function RowDomain(row: seq<string>): (r: Option<string>)
    ensures r.Some? ==> |row| > 0 && r.value == Lower(Strip(if |row| == 1 then row[0] else row[1]))
    ensures r.Some? ==> Normalized(r.value)
    ensures r.None? <==> |row| == 0 || Strip(if |row| == 1 then row[0] else row[1]) == ""
  {
    if |row| == 0 then None
    else
      var domain := Strip(if |row| == 1 then row[0] else row[1]);
      if domain == "" then None
      else
        NormalizedLower(domain);
        StripIdempotent(if |row| == 1 then row[0] else row[1]);
        Some(Lower(domain))
  }

  lemma NormalizedLower(d: string)
    requires d != "" && Stripped(d)
    ensures Normalized(Lower(d))
  {
    LowerKeepsStripped(d);
    LowerIdempotent(d);
  }

  /** A row that names a domain. */
  predicate NamesDomain(row: seq<string>)
  {
    RowDomain(row).Some?
  }

  /** The domain a row names, `""` for one that names none. */
  function DomainOfRow(row: seq<string>): string
  {
    if RowDomain(row).Some? then RowDomain(row).value else ""
  }

  /** The domains the rows name, one per row that names one. */
  function RowDomains(rows: seq<seq<string>>): (r: seq<string>)
    ensures |r| == |Where(rows, NamesDomain)|
    ensures forall i :: 0 <= i < |r| ==> Normalized(r[i])
  {
    if |rows| == 0 then []
    else
      WhereCons(rows, NamesDomain);
      var rest := RowDomains(rows[1..]);
      if NamesDomain(rows[0]) then
        AllCons(DomainOfRow(rows[0]), rest, Normalized);
        [DomainOfRow(rows[0])] + rest
      else rest
  }

  /** The domains read are those of the naming rows, in file order. */
  lemma {:induction false} RowDomainsInOrder(rows: seq<seq<string>>)
    ensures RowDomains(rows) == Collect(rows, NamesDomain, DomainOfRow)
  {
    if |rows| > 0 {
      RowDomainsInOrder(rows[1..]);
      CollectCons(rows, rows[0], rows[1..], NamesDomain, DomainOfRow);
    }
  }

  /** What every queued domain looks like after seeding: non-empty, stripped, lower case. */
  predicate Normalized(d: string)
  {
    d != "" && Stripped(d) && Lower(d) == d
  }

  /** The rows the import reads: the first row too when its first cell reads as an integer. */
  function DataRows(rows: seq<seq<string>>): (r: seq<seq<string>>)
    requires |rows| > 0
    ensures r == rows || r == rows[1..]
    ensures r == rows <==> |rows[0]| > 0 && IsIntText(rows[0][0])
  {
    if |rows[0]| > 0 && IsIntText(rows[0][0]) then rows else rows[1..]
  }

  /** `import_csv_into_staging` without `drop_and_import`: skipped when the
      collection already has tasks or the file is empty; otherwise upserts
      one pending task per named domain. */
  function ImportCsv(s: Staging, rows: seq<seq<string>>, now: int): (r: Staging)
    ensures |s| > 0 || |rows| == 0 ==> r == s
    ensures |s| <= |r| && r[..|s|] == s
    ensures forall i :: |s| <= i < |r| ==> r[i] == NewTask(r[i].domain, now)
  {
    if |s| > 0 || |rows| == 0 then s else UpsertAll(s, RowDomains(DataRows(rows)), now)
  }

  // ---------------------------------------------------------------- completion

  function CountStatus(s: Staging, st: Status): (r: nat)
    ensures r <= |s|
    ensures r == 0 <==> forall i :: 0 <= i < |s| ==> s[i].status != st
  {
    if |s| == 0 then 0 else (if s[0].status == st then 1 else 0) + CountStatus(s[1..], st)
  }

  /** The main loop's exit test: no pending and no in-progress task. */
  predicate Complete(s: Staging)
  {
    CountStatus(s, Pending) == 0 && CountStatus(s, InProgress) == 0
  }

  /** The run is over exactly when every task is done or failed. */
  lemma CompleteIffAllFinished(s: Staging)
    ensures Complete(s) <==> forall i :: 0 <= i < |s| ==> s[i].status == Done || s[i].status == Failed
  {
  }

  /** Once the run is over, no claim can succeed. */
  lemma CompleteMeansNothingToClaim(s: Staging, worker: string, now: int)
    requires Complete(s)
    ensures Claim(s, worker, now).task.None?
  {
  }

  // ---------------------------------------------------------------- certificates

  /** One `certificates` document; the collection is keyed by fingerprint, which is unique. */
  datatype CertRecord = CertRecord(domain: string, retrievedAt: int, pem: string, meta: map<string, string>)

  /** `save_certificate_safe`: upsert on (fingerprint, domain); when the
      fingerprint is already stored under another domain the insert hits the
      unique index and the error is swallowed. */
  function SaveCertificate(certs: map<string, CertRecord>, domain: string, fp: string, pem: string,
                           meta: map<string, string>, now: int): (r: map<string, CertRecord>)
    ensures r.Keys == certs.Keys + {fp}
    ensures fp in certs && certs[fp].domain != domain ==> r == certs
    ensures fp !in certs || certs[fp].domain == domain ==> r[fp] == CertRecord(domain, now, pem, meta)
    ensures forall k :: k in certs && k != fp ==> r[k] == certs[k]
  {
    if fp in certs && certs[fp].domain != domain then certs
    else certs[fp := CertRecord(domain, now, pem, meta)]
  }

  /** Saving the same certificate again changes nothing. */
  lemma SaveCertificateIdempotent(certs: map<string, CertRecord>, domain: string, fp: string, pem: string,
                                  meta: map<string, string>, now: int)
    ensures var once := SaveCertificate(certs, domain, fp, pem, meta, now);
            SaveCertificate(once, domain, fp, pem, meta, now) == once
  {
  }

  // ---------------------------------------------------------------- seeding properties

  function Domains(s: Staging): set<string>
  {
    set i | 0 <= i < |s| :: s[i].domain
  }

  lemma FindIffIn(s: Staging, d: string)
    ensures Find(s, d).Some? <==> d in Domains(s)
  {
    if d in Domains(s) {
      var i :| 0 <= i < |s| && s[i].domain == d;
    }
  }

  lemma UpsertFacts(s: Staging, d: string, now: int)
    requires UniqueDomains(s)
    ensures var s1 := Upsert(s, d, now);
      && UniqueDomains(s1)
      && |s| <= |s1| && s1[..|s|] == s
      && Domains(s1) == Domains(s) + {d}
      && (forall i :: |s| <= i < |s1| ==> s1[i] == NewTask(d, now))
  {
    FindIffIn(s, d);
    if Find(s, d).None? {
      DomainsAppend(s, NewTask(d, now));
    }
  }

  /** Upserting a list of domains keeps the tasks already there, adds each
      missing domain once as a fresh pending task, and never duplicates one. */
  /** The inductive step: the first upsert, then the rest. */
  lemma UpsertAllStep(s: Staging, domains: seq<string>, now: int)
    requires |domains| > 0 && UniqueDomains(s)
    requires var r := UpsertAll(Upsert(s, domains[0], now), domains[1..], now);
      UniqueDomains(r) && Domains(r) == Domains(Upsert(s, domains[0], now)) + (set x | x in domains[1..])
    ensures var r := UpsertAll(s, domains, now);
      UniqueDomains(r) && Domains(r) == Domains(s) + (set x | x in domains)
  {
    assert UpsertAll(s, domains, now) == UpsertAll(Upsert(s, domains[0], now), domains[1..], now);
    UpsertFacts(s, domains[0], now);
    ElementsCons(domains);
  }

  lemma {:induction false} UpsertAllQueues(s: Staging, domains: seq<string>, now: int)
    requires UniqueDomains(s)
    ensures var r := UpsertAll(s, domains, now);
      && UniqueDomains(r)
      && |s| <= |r| && r[..|s|] == s
      && Domains(r) == Domains(s) + (set x | x in domains)
      && (forall i :: |s| <= i < |r| ==> r[i] == NewTask(r[i].domain, now))
    decreases |domains|
  {
    if |domains| > 0 {
      UpsertFacts(s, domains[0], now);
      UpsertAllQueues(Upsert(s, domains[0], now), domains[1..], now);
      UpsertAllStep(s, domains, now);
    }
  }

  lemma DomainsAppend(s: Staging, t: Task)
    ensures Domains(s + [t]) == Domains(s) + {t.domain}
  {
    var r := s + [t];
    assert r[|s|] == t;
    forall x | x in Domains(r)
      ensures x in Domains(s) + {t.domain}
    {
      var i :| 0 <= i < |r| && r[i].domain == x;
      if i < |s| {
        assert s[i].domain == x;
      }
    }
    forall x | x in Domains(s)
      ensures x in Domains(r)
    {
      var i :| 0 <= i < |s| && s[i].domain == x;
      assert r[i].domain == x;
    }
  }

  /** Upserting domains that are all queued already changes nothing. */
  lemma {:induction false} UpsertAllPresent(s: Staging, domains: seq<string>, now: int)
    requires forall i :: 0 <= i < |domains| ==> domains[i] in Domains(s)
    ensures UpsertAll(s, domains, now) == s
    decreases |domains|
  {
    if |domains| > 0 {
      FindIffIn(s, domains[0]);
      UpsertAllPresent(s, domains[1..], now);
    }
  }

  /** Re-running the same upserts never adds a second task for a domain. */
  lemma UpsertAllIdempotent(s: Staging, domains: seq<string>, now: int, later: int)
    requires UniqueDomains(s)
    ensures UpsertAll(UpsertAll(s, domains, now), domains, later) == UpsertAll(s, domains, now)
  {
    UpsertAllQueues(s, domains, now);
    var r := UpsertAll(s, domains, now);
    forall i | 0 <= i < |domains|
      ensures domains[i] in Domains(r)
    {
      assert domains[i] in (set x | x in domains);
    }
    UpsertAllPresent(r, domains, later);
  }

  /** Seeding an empty collection queues exactly the domains the rows name,
      each once, pending, with no attempts, claimable at once. */
  lemma ImportQueuesRowDomains(rows: seq<seq<string>>, now: int)
    requires |rows| > 0
    ensures var r := ImportCsv([], rows, now);
      var named := RowDomains(DataRows(rows));
      && UniqueDomains(r)
      && Domains(r) == (set x | x in named)
      && (forall i :: 0 <= i < |r| ==> r[i] == NewTask(r[i].domain, now) && Normalized(r[i].domain))
  {
    var named := RowDomains(DataRows(rows));
    UpsertAllQueues([], named, now);
    var r := ImportCsv([], rows, now);
    forall i | 0 <= i < |r|
      ensures Normalized(r[i].domain)
    {
      assert r[i].domain in Domains(r);
      assert r[i].domain in named;
      var j :| 0 <= j < |named| && named[j] == r[i].domain;
    }
  }

  lemma {:induction false} UpsertAllEmpty(s: Staging, domains: seq<string>, now: int)
    ensures |UpsertAll(s, domains, now)| >= |s|
    ensures |domains| > 0 ==> |UpsertAll(s, domains, now)| > 0
    decreases |domains|
  {
    if |domains| > 0 {
      UpsertAllEmpty(Upsert(s, domains[0], now), domains[1..], now);
    }
  }

  /** Importing the same file again, at any later time, changes nothing. */
  lemma ImportCsvIdempotent(s: Staging, rows: seq<seq<string>>, now: int, later: int)
    ensures ImportCsv(ImportCsv(s, rows, now), rows, later) == ImportCsv(s, rows, now)
  {
    if |s| == 0 && |rows| > 0 {
      UpsertAllEmpty(s, RowDomains(DataRows(rows)), now);
      UpsertAllEmpty(s, RowDomains(DataRows(rows)), later);
    }
  }

  // ---------------------------------------------------------------- runs

  /** No lease without an in-progress status, and every in-progress task has
      a complete lease. */
  predicate LeaseConsistent(t: Task)
  {
    && (t.status == InProgress <==> t.workerId.Some?)
    && (t.status == InProgress ==> t.startTs.Some? && t.lastHeartbeat.Some?)
    && (t.status != InProgress ==> t.startTs.None? && t.lastHeartbeat.None?)
  }

  /** What every reachable state of the queue satisfies. */
  predicate Inv(s: Staging)
  {
    && UniqueDomains(s)
    && forall i :: 0 <= i < |s| ==>
      && Normalized(s[i].domain)
      && LeaseConsistent(s[i])
      && (Active(s[i].status) ==> s[i].attempts < MAX_ATTEMPTS)
  }

  datatype Step =
    | ClaimStep(worker: string, now: int)
    | DoneStep(domain: string, fp: string, now: int)
    | FailStep(domain: string, err: string, now: int)
    | HeartbeatStep(domain: string, worker: string, now: int)
    | ReclaimStep(now: int)
    | ImportStep(rows: seq<seq<string>>, now: int)

  function Apply(s: Staging, step: Step): (r: Staging)
    requires UniqueDomains(s)
    ensures |s| <= |r|
    ensures forall i :: 0 <= i < |s| ==> r[i].domain == s[i].domain
    ensures !step.ImportStep? ==> |r| == |s|
  {
    match step
    case ClaimStep(w, now) => Claim(s, w, now).staging
    case DoneStep(d, fp, now) => MarkDone(s, d, fp, now)
    case FailStep(d, err, now) => MarkFailed(s, d, err, now)
    case HeartbeatStep(d, w, now) => Heartbeat(s, d, w, now)
    case ReclaimStep(now) => Reclaim(s, now)
    case ImportStep(rows, now) => ImportCsv(s, rows, now)
  }

  lemma SameDomainsUnique(s: Staging, r: Staging)
    requires UniqueDomains(s) && |r| == |s|
    requires forall i :: 0 <= i < |s| ==> r[i].domain == s[i].domain
    ensures UniqueDomains(r)
  {
  }

  lemma ClaimKeepsInv(s: Staging, w: string, now: int)
    requires Inv(s)
    ensures Inv(Claim(s, w, now).staging)
  {
    var c := Claim(s, w, now);
    if c.task.Some? {
      var i :| 0 <= i < |s| && ClaimedAt(s, c, i, w, now);
      SameDomainsUnique(s, c.staging);
    }
  }

  lemma MarkDoneKeepsInv(s: Staging, d: string, fp: string, now: int)
    requires Inv(s)
    ensures Inv(MarkDone(s, d, fp, now))
  {
    SameDomainsUnique(s, MarkDone(s, d, fp, now));
  }

  lemma MarkFailedKeepsInv(s: Staging, d: string, err: string, now: int)
    requires Inv(s)
    ensures Inv(MarkFailed(s, d, err, now))
  {
    SameDomainsUnique(s, MarkFailed(s, d, err, now));
  }

  lemma HeartbeatKeepsInv(s: Staging, d: string, w: string, now: int)
    requires Inv(s)
    ensures Inv(Heartbeat(s, d, w, now))
  {
    SameDomainsUnique(s, Heartbeat(s, d, w, now));
  }

  lemma ReclaimKeepsInv(s: Staging, now: int)
    requires Inv(s)
    ensures Inv(Reclaim(s, now))
  {
    SameDomainsUnique(s, Reclaim(s, now));
  }

  lemma ImportKeepsInv(s: Staging, rows: seq<seq<string>>, now: int)
    requires Inv(s)
    ensures Inv(ImportCsv(s, rows, now))
  {
    if |s| == 0 && |rows| > 0 {
      ImportQueuesRowDomains(rows, now);
      var r := ImportCsv(s, rows, now);
      assert UniqueDomains(r);
      forall i | 0 <= i < |r|
        ensures Normalized(r[i].domain) && LeaseConsistent(r[i]) && (Active(r[i].status) ==> r[i].attempts < MAX_ATTEMPTS)
      {
        assert r[i] == NewTask(r[i].domain, now);
      }
    } else {
      assert ImportCsv(s, rows, now) == s;
    }
  }

  /** Every transition keeps the queue invariant: domains stay unique and
      normalized, leases match the status, and a task still in the queue has
      fewer than `MAX_ATTEMPTS` attempts. */
  lemma StepKeepsInv(s: Staging, step: Step)
    requires Inv(s)
    ensures Inv(Apply(s, step))
  {
    match step
    case ClaimStep(w, now) => ClaimKeepsInv(s, w, now);
    case DoneStep(d, fp, now) => MarkDoneKeepsInv(s, d, fp, now);
    case FailStep(d, err, now) => MarkFailedKeepsInv(s, d, err, now);
    case HeartbeatStep(d, w, now) => HeartbeatKeepsInv(s, d, w, now);
    case ReclaimStep(now) => ReclaimKeepsInv(s, now);
    case ImportStep(rows, now) => ImportKeepsInv(s, rows, now);
  }

  function Run(s: Staging, steps: seq<Step>): (r: Staging)
    requires Inv(s)
    ensures Inv(r)
    decreases |steps|
  {
    if |steps| == 0 then s
    else
      StepKeepsInv(s, steps[0]);
      Run(Apply(s, steps[0]), steps[1..])
  }

  // ---------------------------------------------------------------- lease check

  /** A worker whose lease was reclaimed still reports its outcome by `_id`
      alone: here the first worker's late failure report sends a task another
      worker has meanwhile completed back to pending. */
  lemma LateFailureReopensDoneTask()
    ensures var s1 := Claim([NewTask("a.pk", 0)], "w1", 0).staging;
            var s2 := Reclaim(s1, 61);
            var s3 := Claim(s2, "w2", 61).staging;
            var s4 := MarkDone(s3, "a.pk", "fp", 62);
            var s5 := MarkFailed(s4, "a.pk", "timeout", 63);
            s4[0].status == Done && s5[0].status == Pending
  {
    var s0 := [NewTask("a.pk", 0)];
    var s1 := Claim(s0, "w1", 0).staging;
    assert s1[0].status == InProgress && s1[0].lastHeartbeat == Some(0);
    var s2 := Reclaim(s1, 61);
    assert Stale(s1[0], 61);
    assert s2[0].status == Pending && s2[0].attempts == 1 && s2[0].nextAttemptAt == 61;
    var s3 := Claim(s2, "w2", 61).staging;
    assert Eligible(s2[0], 61);
    assert s3[0].status == InProgress && s3[0].attempts == 1;
    var s4 := MarkDone(s3, "a.pk", "fp", 62);
    assert s4[0].status == Done && s4[0].attempts == 1;
  }

  /** The outcome updates with the lease check the heartbeat already has:
      they match on `_id` and `worker_id`, so only the lease holder's report lands. */
  function MarkDoneLeased(s: Staging, domain: string, worker: string, fp: string, now: int): (r: Staging)
    requires UniqueDomains(s)
    ensures |r| == |s|
    ensures forall i :: 0 <= i < |s| ==>
      r[i] == if s[i].domain == domain && s[i].workerId == Some(worker) then DoneTask(s[i], fp, now) else s[i]
  {
    UpdateTask(s, domain, (t: Task) => if t.workerId == Some(worker) then DoneTask(t, fp, now) else t)
  }

  function MarkFailedLeased(s: Staging, domain: string, worker: string, err: string, now: int): (r: Staging)
    requires UniqueDomains(s)
    ensures |r| == |s|
    ensures forall i :: 0 <= i < |s| ==>
      r[i] == if s[i].domain == domain && s[i].workerId == Some(worker) then FailedTask(s[i], err, now) else s[i]
  {
    UpdateTask(s, domain, (t: Task) => if t.workerId == Some(worker) then FailedTask(t, err, now) else t)
  }

  datatype LeasedStep =
    | LClaim(worker: string, now: int)
    | LDone(domain: string, worker: string, fp: string, now: int)
    | LFail(domain: string, worker: string, err: string, now: int)
    | LHeartbeat(domain: string, worker: string, now: int)
    | LReclaim(now: int)
    | LImport(rows: seq<seq<string>>, now: int)

  function ApplyLeased(s: Staging, step: LeasedStep): (r: Staging)
    requires UniqueDomains(s)
  {
    match step
    case LClaim(w, now) => Claim(s, w, now).staging
    case LDone(d, w, fp, now) => MarkDoneLeased(s, d, w, fp, now)
    case LFail(d, w, err, now) => MarkFailedLeased(s, d, w, err, now)
    case LHeartbeat(d, w, now) => Heartbeat(s, d, w, now)
    case LReclaim(now) => Reclaim(s, now)
    case LImport(rows, now) => ImportCsv(s, rows, now)
  }

  predicate Finished(st: Status)
  {
    st == Done || st == Failed
  }

  /** The invariant with the lease check in place: also no task, finished or
      not, ever counts more than `MAX_ATTEMPTS` attempts. */
  predicate LeasedInv(s: Staging)
  {
    Inv(s) && forall i :: 0 <= i < |s| ==> s[i].attempts <= MAX_ATTEMPTS
  }

  /** `r` keeps the leased invariant, keeps every task of `s` in place, and
      leaves every finished task exactly as it was. */
  predicate KeepsFinished(s: Staging, r: Staging)
  {
    && LeasedInv(r)
    && |s| <= |r|
    && forall i :: 0 <= i < |s| && Finished(s[i].status) ==> r[i] == s[i]
  }

  lemma LeasedClaimKeepsFinished(s: Staging, w: string, now: int)
    requires LeasedInv(s)
    ensures KeepsFinished(s, Claim(s, w, now).staging)
  {
    ClaimKeepsInv(s, w, now);
    var c := Claim(s, w, now);
    if c.task.Some? {
      var i :| 0 <= i < |s| && ClaimedAt(s, c, i, w, now);
    }
  }

  lemma LeasedDoneKeepsFinished(s: Staging, d: string, w: string, fp: string, now: int)
    requires LeasedInv(s)
    ensures KeepsFinished(s, MarkDoneLeased(s, d, w, fp, now))
  {
    SameDomainsUnique(s, MarkDoneLeased(s, d, w, fp, now));
  }

  lemma LeasedFailKeepsFinished(s: Staging, d: string, w: string, err: string, now: int)
    requires LeasedInv(s)
    ensures KeepsFinished(s, MarkFailedLeased(s, d, w, err, now))
  {
    SameDomainsUnique(s, MarkFailedLeased(s, d, w, err, now));
  }

  lemma LeasedHeartbeatKeepsFinished(s: Staging, d: string, w: string, now: int)
    requires LeasedInv(s)
    ensures KeepsFinished(s, Heartbeat(s, d, w, now))
  {
    HeartbeatKeepsInv(s, d, w, now);
  }

  lemma LeasedReclaimKeepsFinished(s: Staging, now: int)
    requires LeasedInv(s)
    ensures KeepsFinished(s, Reclaim(s, now))
  {
    ReclaimKeepsInv(s, now);
  }

  lemma LeasedImportKeepsFinished(s: Staging, rows: seq<seq<string>>, now: int)
    requires LeasedInv(s)
    ensures KeepsFinished(s, ImportCsv(s, rows, now))
  {
    ImportKeepsInv(s, rows, now);
    if |s| == 0 && |rows| > 0 {
      ImportQueuesRowDomains(rows, now);
    }
  }

  /** With the lease check, every transition keeps the invariant and leaves
      every done or failed task exactly as it was. */
  lemma LeasedStepKeepsFinished(s: Staging, step: LeasedStep)
    requires LeasedInv(s)
    ensures KeepsFinished(s, ApplyLeased(s, step))
  {
    match step
    case LClaim(w, now) => LeasedClaimKeepsFinished(s, w, now);
    case LDone(d, w, fp, now) => LeasedDoneKeepsFinished(s, d, w, fp, now);
    case LFail(d, w, err, now) => LeasedFailKeepsFinished(s, d, w, err, now);
    case LHeartbeat(d, w, now) => LeasedHeartbeatKeepsFinished(s, d, w, now);
    case LReclaim(now) => LeasedReclaimKeepsFinished(s, now);
    case LImport(rows, now) => LeasedImportKeepsFinished(s, rows, now);
  }

  function RunLeased(s: Staging, steps: seq<LeasedStep>): (r: Staging)
    requires LeasedInv(s)
    ensures LeasedInv(r)
    ensures |s| <= |r|
    decreases |steps|
  {
    if |steps| == 0 then s
    else
      LeasedStepKeepsFinished(s, steps[0]);
      RunLeased(ApplyLeased(s, steps[0]), steps[1..])
  }

  /** With the lease check, a done or failed task stays exactly as it is for
      the rest of any run. */
  lemma {:induction false} LeasedRunKeepsFinished(s: Staging, steps: seq<LeasedStep>, i: nat)
    requires LeasedInv(s)
    requires i < |s| && Finished(s[i].status)
    ensures RunLeased(s, steps)[i] == s[i]
    decreases |steps|
  {
    if |steps| > 0 {
      LeasedStepKeepsFinished(s, steps[0]);
      LeasedRunKeepsFinished(ApplyLeased(s, steps[0]), steps[1..], i);
    }
  }
}

=== FILE: crawler_v2.dfy ===
/** The second version of the crawler's work queue: the
    `domain_processing_status` collection, claimed in (attempt count, domain)
    order with the attempt counted at claim time, outcome updates guarded by
    the worker id, startup recovery of stale work, CSV seeding, and the
    `certificates` collection keyed by domain. The collection is a sequence in
    insertion order; `domain` is unique by index. Times are integer seconds. */
module CrawlerV2 {

  import opened Wrappers
  import opened PyStr
  import opened JsonTree
  import Ordering
  import opened Counting

  const MAX_RETRIES: nat := 3
  const RETRY_DELAYS: seq<nat> := [5, 10, 15]
  const STALE_THRESHOLD: nat := 300

  datatype Status = Pending | Processing | Completed | Failed

  type WorkerId = int

  datatype Task = Task(
    domain: string,
    status: Status,
    attemptCount: nat,
    workerId: Option<WorkerId>,
    errorMessage: Option<string>,
    startedAt: Option<int>,
    completedAt: Option<int>,
    lastUpdated: int)

  type Table = seq<Task>

  predicate UniqueDomains(s: Table)
  {
    forall i, j :: 0 <= i < j < |s| ==> s[i].domain != s[j].domain
  }

  function Find(s: Table, domain: string): (r: Option<nat>)
    ensures r.Some? ==> r.value < |s| && s[r.value].domain == domain
    ensures r.None? <==> forall i :: 0 <= i < |s| ==> s[i].domain != domain
  {
    if |s| == 0 then None
    else if s[0].domain == domain then Some(0)
    else
      var k := Find(s[1..], domain);
      if k.None? then None else Some(k.value + 1)
  }

  // ---------------------------------------------------------------- claim

  /** The claim filter: pending with retries left. */
  predicate Claimable(t: Task)
  {
    t.status == Pending && t.attemptCount < MAX_RETRIES
  }

  /** The claim's sort order: fewer attempts first, then by domain. */
  predicate ClaimsBefore(a: Task, b: Task)
  {
    a.attemptCount < b.attemptCount || (a.attemptCount == b.attemptCount && Ordering.Less(a.domain, b.domain))
  }

  lemma ClaimsBeforeTransitive(a: Task, b: Task, c: Task)
    requires ClaimsBefore(a, b) && ClaimsBefore(b, c)
    ensures ClaimsBefore(a, c)
  {
    if a.attemptCount == b.attemptCount == c.attemptCount {
      Ordering.LessTransitive(a.domain, b.domain, c.domain);
    }
  }

  lemma ClaimsBeforeTotal(a: Task, b: Task)
    requires a.domain != b.domain
    ensures ClaimsBefore(a, b) || ClaimsBefore(b, a)
  {
    Ordering.LessTotal(a.domain, b.domain);
  }

  lemma FirstOfAll(s: Table, b: nat)
    requires 1 <= b < |s| && Claimable(s[0]) && ClaimsBefore(s[0], s[b])
    requires forall j :: 1 <= j < |s| && j != b && Claimable(s[j]) ==> ClaimsBefore(s[b], s[j])
    ensures forall j :: 1 <= j < |s| && Claimable(s[j]) ==> ClaimsBefore(s[0], s[j])
  {
    forall j | 1 <= j < |s| && Claimable(s[j]) && j != b
      ensures ClaimsBefore(s[0], s[j])
    {
      ClaimsBeforeTransitive(s[0], s[b], s[j]);
    }
  }

  /** The task `find_one_and_update` picks: the first claimable one in sort order. */
  function Best(s: Table): (r: Option<nat>)
    requires UniqueDomains(s)
    ensures r.None? <==> forall j :: 0 <= j < |s| ==> !Claimable(s[j])
    ensures r.Some? ==> r.value < |s| && Claimable(s[r.value])
    ensures r.Some? ==> forall j :: 0 <= j < |s| && j != r.value && Claimable(s[j]) ==> ClaimsBefore(s[r.value], s[j])
  {
    if |s| == 0 then None
    else
      var k := Best(s[1..]);
      if !Claimable(s[0]) then (if k.None? then None else Some(k.value + 1))
      else if k.None? then Some(0)
      else if ClaimsBefore(s[0], s[k.value + 1]) then
        FirstOfAll(s, k.value + 1);
        Some(0)
      else
        ClaimsBeforeTotal(s[0], s[k.value + 1]);
        Some(k.value + 1)
  }

  datatype Claimed = Claimed(status: Table, task: Option<Task>)

  /** `claim_work`: atomically takes the first claimable task in (attempt
      count, domain) order, leases it to `worker` and counts the attempt;
      returns the task as updated. */
  function Claim(s: Table, worker: WorkerId, now: int): (r: Claimed)
    requires UniqueDomains(s)
    ensures |r.status| == |s|
    ensures r.task.None? <==> forall j :: 0 <= j < |s| ==> !Claimable(s[j])
    ensures r.task.None? ==> r.status == s
    ensures r.task.Some? ==> exists i :: 0 <= i < |s| && ClaimedAt(s, r, i, worker, now)
  {
    match Best(s)
    case None => Claimed(s, None)
    case Some(i) =>
      var t := s[i].(status := Processing, workerId := Some(worker), startedAt := Some(now),
                     lastUpdated := now, attemptCount := s[i].attemptCount + 1);
      var r := Claimed(s[i := t], Some(t));
      assert ClaimedAt(s, r, i, worker, now);
      r
  }

  /** Task `i` came first among the claimable ones, it alone changed, it is
      now processing for `worker`, and its attempt count went up by one. */
  predicate ClaimedAt(s: Table, r: Claimed, i: nat, worker: WorkerId, now: int)
    requires i < |s| && |r.status| == |s|
  {
    && Claimable(s[i])
    && (forall j :: 0 <= j < |s| && j != i && Claimable(s[j]) ==> ClaimsBefore(s[i], s[j]))
    && (forall j :: 0 <= j < |s| && j != i ==> r.status[j] == s[j])
    && r.task == Some(r.status[i])
    && r.status[i].domain == s[i].domain
    && r.status[i].status == Processing
    && r.status[i].workerId == Some(worker)
    && r.status[i].attemptCount == s[i].attemptCount + 1
    && r.status[i].lastUpdated == now
  }

  /** The pause before a retry: none on the first attempt, otherwise
      `RETRY_DELAYS[attempt_count - 1]`, which fails past the list's end. */
  function RetryDelay(attemptCount: nat): (r: Result<nat, string>)
    ensures attemptCount <= 1 ==> r == Success(0)
    ensures 1 < attemptCount <= |RETRY_DELAYS| ==> r == Success(RETRY_DELAYS[attemptCount - 1])
    ensures r.Failure? <==> attemptCount > |RETRY_DELAYS|
  {
    if attemptCount <= 1 then Success(0)
    else if attemptCount - 1 < |RETRY_DELAYS| then Success(RETRY_DELAYS[attemptCount - 1])
    else Failure("IndexError: list index out of range")
  }

  /** A claimed task's count is between 1 and `MAX_RETRIES`, so the retry
      delay lookup never runs off the end of `RETRY_DELAYS`. */
  lemma ClaimedDelayInBounds(s: Table, worker: WorkerId, now: int)
    requires UniqueDomains(s)
    ensures var r := Claim(s, worker, now);
      r.task.Some? ==> 1 <= r.task.value.attemptCount <= MAX_RETRIES && RetryDelay(r.task.value.attemptCount).Success?
  {
    var r := Claim(s, worker, now);
    if r.task.Some? {
      var i :| 0 <= i < |s| && ClaimedAt(s, r, i, worker, now);
    }
  }

  // ---------------------------------------------------------------- outcomes

  /** Applies `f` to the task of `domain` when `worker` holds it (the filter
      `{domain, worker_id}`). */
  function UpdateHeld(s: Table, domain: string, worker: WorkerId, f: Task -> Task): (r: Table)
    requires UniqueDomains(s)
    ensures |r| == |s|
    ensures forall i :: 0 <= i < |s| ==>
      r[i] == if s[i].domain == domain && s[i].workerId == Some(worker) then f(s[i]) else s[i]
  {
    match Find(s, domain)
    case None => s
    case Some(i) => if s[i].workerId == Some(worker) then s[i := f(s[i])] else s
  }

  /** `mark_completed` */
  function MarkCompleted(s: Table, domain: string, worker: WorkerId, now: int): (r: Table)
    requires UniqueDomains(s)
    ensures |r| == |s|
    ensures forall i :: 0 <= i < |s| && !(s[i].domain == domain && s[i].workerId == Some(worker)) ==> r[i] == s[i]
    ensures forall i :: 0 <= i < |s| && s[i].domain == domain && s[i].workerId == Some(worker) ==>
      && r[i].status == Completed && r[i].errorMessage.None? && r[i].completedAt == Some(now)
      && r[i].attemptCount == s[i].attemptCount && r[i].workerId == s[i].workerId && r[i].domain == domain
  {
    UpdateHeld(s, domain, worker, (t: Task) =>
      t.(status := Completed, completedAt := Some(now), lastUpdated := now, errorMessage := None))
  }

  function FailedTask(t: Task, err: string, attemptCount: nat, now: int): Task
  {
    if attemptCount >= MAX_RETRIES then
      t.(status := Failed, completedAt := Some(now), lastUpdated := now, errorMessage := Some(err))
    else
      t.(status := Pending, workerId := None, lastUpdated := now, errorMessage := Some(err))
  }

  /** `mark_failed`: with the attempt count the worker's claim returned, a
      task out of retries fails for good (keeping its worker id), any other
      goes back to pending without a worker. */
  function MarkFailed(s: Table, domain: string, worker: WorkerId, err: string, attemptCount: nat, now: int): (r: Table)
    requires UniqueDomains(s)
    ensures |r| == |s|
    ensures forall i :: 0 <= i < |s| && !(s[i].domain == domain && s[i].workerId == Some(worker)) ==> r[i] == s[i]
    ensures forall i :: 0 <= i < |s| && s[i].domain == domain && s[i].workerId == Some(worker) ==>
      && r[i].domain == domain && r[i].attemptCount == s[i].attemptCount && r[i].errorMessage == Some(err)
      && (r[i].status == Failed <==> attemptCount >= MAX_RETRIES)
      && (r[i].status == Failed ==> r[i].workerId == Some(worker))
      && (r[i].status != Failed ==> r[i].status == Pending && r[i].workerId.None?)
  {
    UpdateHeld(s, domain, worker, (t: Task) => FailedTask(t, err, attemptCount, now))
  }

  // ---------------------------------------------------------------- startup

  predicate Stale(t: Task, now: int)
  {
    t.status == Processing && t.lastUpdated < now - STALE_THRESHOLD
  }

  /** `recover_stale_work`: every stale processing task goes back to pending
      without a worker; its attempt count is kept. */
  function RecoverStale(s: Table, now: int): (r: Table)
    ensures |r| == |s|
    ensures forall i :: 0 <= i < |s| && !Stale(s[i], now) ==> r[i] == s[i]
    ensures forall i :: 0 <= i < |s| && Stale(s[i], now) ==>
      && r[i].status == Pending && r[i].workerId.None?
      && r[i].attemptCount == s[i].attemptCount && r[i].domain == s[i].domain
  {
    seq(|s|, i requires 0 <= i < |s| =>
      if Stale(s[i], now) then s[i].(status := Pending, workerId := None) else s[i])
  }

  function NewTask(domain: string, now: int): Task
  {
    Task(domain, Pending, 0, None, None, None, None, now)
  }

  /** A cell that names a domain: present and not blank once stripped. */
  predicate NamesDomain(cell: Option<string>)
  {
    cell.Some? && Strip(cell.value) != ""
  }

  /** The stripped cell, `""` for a missing one. */
  function CellDomain(cell: Option<string>): string
  {
    if cell.Some? then Strip(cell.value) else ""
  }

  /** The domains read are the stripped naming cells, in file order. */
  lemma {:induction false} CsvDomainsInOrder(cells: seq<Option<string>>)
    ensures CsvDomains(cells) == Collect(cells, NamesDomain, CellDomain)
  {
    if |cells| > 0 {
      CsvDomainsInOrder(cells[1..]);
      CollectCons(cells, cells[0], cells[1..], NamesDomain, CellDomain);
    }
  }

  /** The domains of the CSV's `domains` column, stripped, blanks dropped
      (`None` is a row without that column). */
  function CsvDomains(cells: seq<Option<string>>): (r: seq<string>)
    ensures forall i :: 0 <= i < |r| ==> r[i] != "" && Stripped(r[i])
    ensures |r| == |Where(cells, NamesDomain)|
  {
    if |cells| == 0 then []
    else
      WhereCons(cells, NamesDomain);
      var rest := CsvDomains(cells[1..]);
      if NamesDomain(cells[0]) then
        var d := CellDomain(cells[0]);
        assert d != "" && Stripped(d);
        [d] + rest
      else rest
  }

  /** One `insert_one`: a domain already queued raises `DuplicateKeyError`
      and is skipped, a new one is appended as a pending task. */
  function InsertDomain(s: Table, d: string, now: int): Table
  {
    if Find(s, d).Some? then s else s + [NewTask(d, now)]
  }

  /** The inserts one by one, a duplicate domain skipped; returns the new
      collection and how many inserts succeeded. */
  function InsertAll(s: Table, domains: seq<string>, now: int): (r: (Table, nat))
    ensures |s| <= |r.0| && r.0[..|s|] == s
    ensures |r.0| == |s| + r.1
    ensures forall i :: |s| <= i < |r.0| ==> r.0[i] == NewTask(r.0[i].domain, now) && r.0[i].domain in domains
    decreases |domains|
  {
    if |domains| == 0 then (s, 0)
    else
      var s1 := InsertDomain(s, domains[0], now);
      var n := if Find(s, domains[0]).Some? then 0 else 1;
      var rest := InsertAll(s1, domains[1..], now);
      (rest.0, rest.1 + n)
  }

  datatype Loaded = Loaded(status: Table, ok: bool, inserted: nat)

  /** `load_domains_from_csv`: false when the file names no domain. */
  function LoadDomains(s: Table, cells: seq<Option<string>>, now: int): (r: Loaded)
    ensures r.ok <==> |CsvDomains(cells)| > 0
    ensures |r.status| == |s| + r.inserted && r.status[..|s|] == s
  {
    var domains := CsvDomains(cells);
    if |domains| == 0 then Loaded(s, false, 0)
    else
      var ins := InsertAll(s, domains, now);
      Loaded(ins.0, true, ins.1)
  }

  /** `check_and_initialize_status_table`: recover a populated collection, seed an empty one. */
  function Initialize(s: Table, cells: seq<Option<string>>, now: int): (r: Loaded)
    ensures |s| > 0 ==> r.ok && r.inserted == 0 && |r.status| == |s|
    ensures |s| == 0 ==> (r.ok <==> |CsvDomains(cells)| > 0) && |r.status| == r.inserted
    ensures |s| <= |r.status| && forall i :: 0 <= i < |s| ==> r.status[i].domain == s[i].domain
  {
    if |s| > 0 then Loaded(RecoverStale(s, now), true, 0) else LoadDomains(s, cells, now)
  }

  function Domains(s: Table): set<string>
  {
    set i | 0 <= i < |s| :: s[i].domain
  }

  lemma FindIffIn(s: Table, d: string)
    ensures Find(s, d).Some? <==> d in Domains(s)
  {
    if d in Domains(s) {
      var i :| 0 <= i < |s| && s[i].domain == d;
    }
  }

  lemma DomainsAppend(s: Table, t: Task)
    ensures Domains(s + [t]) == Domains(s) + {t.domain}
  {
    var r := s + [t];
    assert r[|s|] == t;
    forall x | x in Domains(r)
      ensures x in Domains(s) + {t.domain}
    {
      var i :| 0 <= i < |r| && r[i].domain == x;
      if i < |s| {
        assert s[i].domain == x;
      }
    }
    forall x | x in Domains(s)
      ensures x in Domains(r)
    {
      var i :| 0 <= i < |s| && s[i].domain == x;
      assert r[i].domain == x;
    }
  }

  /** `r` keeps `s` as its prefix and adds only fresh pending tasks. */
  predicate Grows(s: Table, r: Table, now: int)
  {
    |s| <= |r| && r[..|s|] == s && forall i :: |s| <= i < |r| ==> r[i] == NewTask(r[i].domain, now)
  }

  lemma GrowsTrans(s: Table, s1: Table, r: Table, now: int)
    requires Grows(s, s1, now) && Grows(s1, r, now)
    ensures Grows(s, r, now)
  {
    assert r[..|s|] == r[..|s1|][..|s|];
    forall i | |s| <= i < |r|
      ensures r[i] == NewTask(r[i].domain, now)
    {
      if i < |s1| {
        assert r[i] == r[..|s1|][i] == s1[i];
      }
    }
  }

  /** One insert: a domain already queued is skipped, a new one is appended. */
  lemma InsertOne(s: Table, d: string, now: int)
    requires UniqueDomains(s)
    ensures var s1 := InsertDomain(s, d, now);
      && UniqueDomains(s1)
      && Grows(s, s1, now)
      && |s1| - |s| == (if Find(s, d).Some? then 0 else 1)
      && Domains(s1) == Domains(s) + {d}
  {
    FindIffIn(s, d);
    if Find(s, d).None? {
      DomainsAppend(s, NewTask(d, now));
      var s1 := s + [NewTask(d, now)];
      assert s1[..|s|] == s;
    } else {
      assert s[..|s|] == s;
    }
  }

  /** What inserting `domains` into `s` promises of the result `r`: it keeps
      what was there, adds each new domain once as a fresh pending task, and
      counts exactly the tasks it added. */
  predicate Queued(s: Table, domains: seq<string>, r: (Table, nat), now: int)
  {
    && UniqueDomains(r.0)
    && Grows(s, r.0, now)
    && r.1 == |r.0| - |s|
    && Domains(r.0) == Domains(s) + (set x | x in domains)
  }

  /** One insert followed by the rest. */
  lemma QueuedCons(s: Table, s1: Table, d: string, rest: seq<string>, r: (Table, nat), now: int)
    requires Grows(s, s1, now) && Domains(s1) == Domains(s) + {d}
    requires Queued(s1, rest, r, now)
    ensures Queued(s, [d] + rest, (r.0, r.1 + (|s1| - |s|)), now)
  {
    GrowsTrans(s, s1, r.0, now);
    assert (set x | x in [d] + rest) == {d} + (set x | x in rest);
  }

  /** One step of `InsertAll`: the first domain, then the rest. */
  lemma InsertAllCons(s: Table, domains: seq<string>, now: int, s1: Table, rest: (Table, nat))
    requires |domains| > 0 && s1 == InsertDomain(s, domains[0], now) && rest == InsertAll(s1, domains[1..], now)
    ensures InsertAll(s, domains, now).0 == rest.0
    ensures InsertAll(s, domains, now).1 == rest.1 + (|s1| - |s|)
  {
  }

  /** The inductive step: queuing the rest after the first insert queues the lot. */
  lemma InsertAllStep(s: Table, domains: seq<string>, now: int)
    requires |domains| > 0 && UniqueDomains(s)
    requires var s1 := InsertDomain(s, domains[0], now);
      Queued(s1, domains[1..], InsertAll(s1, domains[1..], now), now)
    ensures Queued(s, domains, InsertAll(s, domains, now), now)
  {
    var d := domains[0];
    var s1 := InsertDomain(s, d, now);
    var rest := InsertAll(s1, domains[1..], now);
    InsertOne(s, d, now);
    QueuedCons(s, s1, d, domains[1..], rest, now);
    Cons(domains);
    InsertAllCons(s, domains, now, s1, rest);
  }

  lemma {:induction false} InsertAllQueues(s: Table, domains: seq<string>, now: int)
    requires UniqueDomains(s)
    ensures Queued(s, domains, InsertAll(s, domains, now), now)
    decreases |domains|
  {
    if |domains| > 0 {
      InsertOne(s, domains[0], now);
      InsertAllQueues(InsertDomain(s, domains[0], now), domains[1..], now);
      InsertAllStep(s, domains, now);
    } else {
      assert s[..|s|] == s;
    }
  }

  /** Seeding reports success exactly when the file names a domain, queues
      every named domain once, and reports how many tasks it added. */
  lemma LoadDomainsQueues(s: Table, cells: seq<Option<string>>, now: int)
    requires UniqueDomains(s)
    ensures var r := LoadDomains(s, cells, now);
      && (r.ok <==> |CsvDomains(cells)| > 0)
      && UniqueDomains(r.status)
      && Domains(r.status) == Domains(s) + (set x | x in CsvDomains(cells))
      && r.inserted == |r.status| - |s|
      && r.status[..|s|] == s
  {
    InsertAllQueues(s, CsvDomains(cells), now);
  }

  // ---------------------------------------------------------------- certificates

  datatype Saved = Saved(certs: map<string, Json>, ok: bool, error: Option<string>)

  /** `save_certificate_to_mongodb`: the parsed output with `domain` added,
      inserted under the collection's unique domain index; a duplicate counts
      as success, and output that is not a dict cannot take the key. */
  function SaveCertificate(certs: map<string, Json>, parsed: Json, domain: string): (r: Saved)
    ensures r.ok <==> parsed.Obj?
    ensures r.ok ==> domain in r.certs && r.error.None?
    ensures domain in certs || !r.ok ==> r.certs == certs
    ensures domain !in certs && r.ok ==> r.certs == certs[domain := Obj(parsed.fields[("domain") := Str(domain)])]
  {
    if !parsed.Obj? then Saved(certs, false, Some("Error inserting into MongoDB: item assignment"))
    else if domain in certs then Saved(certs, true, None)
    else Saved(certs[domain := Obj(parsed.fields["domain" := Str(domain)])], true, None)
  }

  /** Saving a domain's certificate again always succeeds and changes nothing. */
  lemma SaveCertificateIdempotent(certs: map<string, Json>, parsed: Json, domain: string)
    requires parsed.Obj?
    ensures var once := SaveCertificate(certs, parsed, domain);
      SaveCertificate(once.certs, parsed, domain) == Saved(once.certs, true, None)
  {
  }

  // ---------------------------------------------------------------- progress

  function CountStatus(s: Table, st: Status): (r: nat)
    ensures r <= |s|
    ensures r == 0 <==> forall i :: 0 <= i < |s| ==> s[i].status != st
  {
    if |s| == 0 then 0 else (if s[0].status == st then 1 else 0) + CountStatus(s[1..], st)
  }

  datatype Stats = Stats(total: nat, pending: nat, processing: nat, completed: nat, failed: nat)

  /** `get_progress_stats`: the count per status and their sum. */
  function ProgressStats(s: Table): (r: Stats)
    ensures r.total == |s|
    ensures r.total == r.pending + r.processing + r.completed + r.failed
  {
    StatusPartition(s);
    Stats(CountStatus(s, Pending) + CountStatus(s, Processing) + CountStatus(s, Completed) + CountStatus(s, Failed),
          CountStatus(s, Pending), CountStatus(s, Processing), CountStatus(s, Completed), CountStatus(s, Failed))
  }

  /** Every task has exactly one of the four statuses, so the counts add up to the size. */
  lemma {:induction false} StatusPartition(s: Table)
    ensures CountStatus(s, Pending) + CountStatus(s, Processing) + CountStatus(s, Completed) + CountStatus(s, Failed) == |s|
  {
    if |s| > 0 {
      StatusPartition(s[1..]);
    }
  }

  /** `check_completion` */
  predicate Complete(s: Table)
  {
    var st := ProgressStats(s);
    st.pending + st.processing == 0
  }

  lemma CompleteIffAllFinished(s: Table)
    ensures Complete(s) <==> forall i :: 0 <= i < |s| ==> s[i].status == Completed || s[i].status == Failed
  {
  }

  // ---------------------------------------------------------------- runs

  /** What every reachable state satisfies: unique domains, no attempt count
      above `MAX_RETRIES`, no worker on a pending task, a worker on every
      processing one. */
  predicate Inv(s: Table)
  {
    && UniqueDomains(s)
    && forall i :: 0 <= i < |s| ==>
      && s[i].attemptCount <= MAX_RETRIES
      && (s[i].status == Pending ==> s[i].workerId.None?)
      && (s[i].status == Processing ==> s[i].workerId.Some?)
  }

  datatype Step =
    | ClaimStep(worker: WorkerId, now: int)
    | CompleteStep(domain: string, worker: WorkerId, now: int)
    | FailStep(domain: string, worker: WorkerId, err: string, attemptCount: nat, now: int)
    | InitStep(cells: seq<Option<string>>, now: int)

  function Apply(s: Table, step: Step): (r: Table)
    requires UniqueDomains(s)
    ensures |s| <= |r|
  {
    match step
    case ClaimStep(w, now) => Claim(s, w, now).status
    case CompleteStep(d, w, now) => MarkCompleted(s, d, w, now)
    case FailStep(d, w, err, c, now) => MarkFailed(s, d, w, err, c, now)
    case InitStep(cells, now) => Initialize(s, cells, now).status
  }

  lemma SameDomainsUnique(s: Table, r: Table)
    requires UniqueDomains(s) && |r| == |s|
    requires forall i :: 0 <= i < |s| ==> r[i].domain == s[i].domain
    ensures UniqueDomains(r)
  {
  }

  lemma ClaimKeepsInv(s: Table, w: WorkerId, now: int)
    requires Inv(s)
    ensures Inv(Claim(s, w, now).status)
  {
    var c := Claim(s, w, now);
    if c.task.Some? {
      var i :| 0 <= i < |s| && ClaimedAt(s, c, i, w, now);
      SameDomainsUnique(s, c.status);
    }
  }

  lemma InitKeepsInv(s: Table, cells: seq<Option<string>>, now: int)
    requires Inv(s)
    ensures Inv(Initialize(s, cells, now).status)
  {
    if |s| > 0 {
      SameDomainsUnique(s, RecoverStale(s, now));
    } else {
      LoadDomainsQueues(s, cells, now);
      InsertAllQueues(s, CsvDomains(cells), now);
    }
  }

  /** Every transition keeps the invariant; in particular the attempt count never passes `MAX_RETRIES`. */
  lemma StepKeepsInv(s: Table, step: Step)
    requires Inv(s)
    ensures Inv(Apply(s, step))
  {
    match step
    case ClaimStep(w, now) => ClaimKeepsInv(s, w, now);
    case CompleteStep(d, w, now) => SameDomainsUnique(s, MarkCompleted(s, d, w, now));
    case FailStep(d, w, err, c, now) => SameDomainsUnique(s, MarkFailed(s, d, w, err, c, now));
    case InitStep(cells, now) => InitKeepsInv(s, cells, now);
  }

  function Run(s: Table, steps: seq<Step>): (r: Table)
    requires Inv(s)
    ensures Inv(r)
    ensures |s| <= |r|
    decreases |steps|
  {
    if |steps| == 0 then s
    else
      StepKeepsInv(s, steps[0]);
      Run(Apply(s, steps[0]), steps[1..])
  }

  // ---------------------------------------------------------------- exhausted work after recovery

  /** A pending task that has used up its retries and has no worker. */
  predicate Stuck(t: Task)
  {
    t.status == Pending && t.attemptCount >= MAX_RETRIES && t.workerId.None?
  }

  /** Recovery at startup sends a task caught processing on its last attempt
      back to pending with its count at `MAX_RETRIES`: the claim filter never
      picks it again, yet it keeps the run from completing. */
  lemma RecoveryStrandsExhaustedTask()
    ensures var s := [Task("a.pk", Processing, MAX_RETRIES, Some(7), None, Some(0), None, 0)];
      var r := RecoverStale(s, 400);
      && Stuck(r[0])
      && Claim(r, 1, 400).task.None?
      && !Complete(r)
  {
    var s := [Task("a.pk", Processing, MAX_RETRIES, Some(7), None, Some(0), None, 0)];
    assert Stale(s[0], 400);
    var r := RecoverStale(s, 400);
    assert r[0].status == Pending;
  }

  /** A stuck task stays exactly as it is whatever happens next, so `check_completion` never holds again. */
  lemma {:induction false} StuckForever(s: Table, steps: seq<Step>, i: nat)
    requires Inv(s) && i < |s| && Stuck(s[i])
    ensures Run(s, steps)[i] == s[i]
    ensures !Complete(Run(s, steps))
    decreases |steps|
  {
    if |steps| > 0 {
      var r := Apply(s, steps[0]);
      StepKeepsInv(s, steps[0]);
      StuckStep(s, steps[0], i);
      StuckForever(r, steps[1..], i);
    } else {
      assert s[i].status == Pending;
    }
  }

  lemma StuckStep(s: Table, step: Step, i: nat)
    requires Inv(s) && i < |s| && Stuck(s[i])
    ensures i < |Apply(s, step)| && Apply(s, step)[i] == s[i]
  {
    match step
    case ClaimStep(w, now) =>
      var c := Claim(s, w, now);
      if c.task.Some? {
        var k :| 0 <= k < |s| && ClaimedAt(s, c, k, w, now);
      }
    case CompleteStep(d, w, now) =>
    case FailStep(d, w, err, c, now) =>
    case InitStep(cells, now) =>
  }

  /** Recovery as evidently intended: a stale task with no retries left fails
      for good instead of going back to pending. */
  function RecoverStaleFixed(s: Table, now: int): (r: Table)
    ensures |r| == |s|
    ensures forall i :: 0 <= i < |s| && !Stale(s[i], now) ==> r[i] == s[i]
    ensures forall i :: 0 <= i < |s| && Stale(s[i], now) ==>
      && r[i].domain == s[i].domain && r[i].attemptCount == s[i].attemptCount && r[i].workerId.None?
      && (r[i].status == Failed <==> s[i].attemptCount >= MAX_RETRIES)
      && (r[i].status != Failed ==> r[i].status == Pending)
  {
    seq(|s|, i requires 0 <= i < |s| =>
      if !Stale(s[i], now) then s[i]
      else if s[i].attemptCount >= MAX_RETRIES then s[i].(status := Failed, workerId := None, completedAt := Some(now))
      else s[i].(status := Pending, workerId := None))
  }

  /** Every pending task still has a retry left. */
  predicate PendingClaimable(s: Table)
  {
    forall i :: 0 <= i < |s| && s[i].status == Pending ==> s[i].attemptCount < MAX_RETRIES
  }

  /** When every pending task is claimable, a claim comes back empty only
      when nothing is pending: the workers drain the queue. */
  lemma ClaimEmptyOnlyWhenDrained(s: Table, w: WorkerId, now: int)
    requires UniqueDomains(s) && PendingClaimable(s)
    ensures Claim(s, w, now).task.None? <==> CountStatus(s, Pending) == 0
  {
  }

  /** The corrected recovery leaves every pending task claimable. */
  lemma RecoverFixedKeepsClaimable(s: Table, now: int)
    requires PendingClaimable(s)
    ensures PendingClaimable(RecoverStaleFixed(s, now))
  {
  }

  /** The worker operations keep every pending task claimable too, given that
      a failing worker reports the count its claim returned (the count stored
      while it holds the task). */
  lemma WorkerStepsKeepClaimable(s: Table, step: Step)
    requires Inv(s) && PendingClaimable(s)
    requires step.FailStep? ==>
      (forall i :: 0 <= i < |s| && s[i].domain == step.domain && s[i].workerId == Some(step.worker) ==>
        s[i].attemptCount == step.attemptCount)
    requires !step.InitStep?
    ensures PendingClaimable(Apply(s, step))
  {
    match step
    case ClaimStep(w, now) =>
      var c := Claim(s, w, now);
      if c.task.Some? {
        var k :| 0 <= k < |s| && ClaimedAt(s, c, k, w, now);
      }
    case CompleteStep(d, w, now) =>
    case FailStep(d, w, err, c, now) =>
  }
}

=== FILE: crawler_v3.dfy ===
/** The third version of the crawler's work queue: the `domain_status`
    collection, claimed by lowest attempt count without counting the attempt,
    outcomes written by `_id`, failures counted by the worker, the watchdog
    ("doctor") that resets frozen work, and seeding from a CSV with a
    recognised domain column. The collection is a sequence in insertion
    order; equal attempt counts are claimed in that order. Times are integer
    seconds. */
module CrawlerV3 {

  import opened Wrappers
  import opened PyStr
  import opened Counting
  import JsonTree

  const RETRY_ENABLED: bool := true
  const MAX_RETRIES: nat := 3
  const RETRY_DELAYS: seq<nat> := [5, 10, 15]
  const STALE_THRESHOLD: nat := 60
  const WATCHDOG_RESET: string := "Watchdog Reset"

  datatype Status = Pending | Processing | Completed | Failed

  datatype Task = Task(
    domain: string,
    status: Status,
    attemptCount: nat,
    workerId: Option<string>,
    startedAt: Option<int>,
    lastHeartbeat: Option<int>,
    lastError: Option<string>,
    error: Option<string>,
    completedAt: Option<int>,
    failedAt: Option<int>)

  type Table = seq<Task>

  predicate UniqueDomains(s: Table)
  {
    forall i, j :: 0 <= i < j < |s| ==> s[i].domain != s[j].domain
  }

  function Find(s: Table, domain: string): (r: Option<nat>)
    ensures r.Some? ==> r.value < |s| && s[r.value].domain == domain
    ensures r.None? <==> forall i :: 0 <= i < |s| ==> s[i].domain != domain
  {
    if |s| == 0 then None
    else if s[0].domain == domain then Some(0)
    else
      var k := Find(s[1..], domain);
      if k.None? then None else Some(k.value + 1)
  }

  /** Replaces the task of `domain` by `f` of it: an update by `_id`, whatever the task's state. */
  function UpdateTask(s: Table, domain: string, f: Task -> Task): (r: Table)
    requires UniqueDomains(s)
    ensures |r| == |s|
    ensures forall i :: 0 <= i < |s| ==> r[i] == if s[i].domain == domain then f(s[i]) else s[i]
  {
    match Find(s, domain)
    case None => s
    case Some(i) => s[i := f(s[i])]
  }

  // ---------------------------------------------------------------- claim

  /** The first pending task with the fewest attempts. */
  function Best(s: Table): (r: Option<nat>)
    ensures r.None? <==> forall j :: 0 <= j < |s| ==> s[j].status != Pending
    ensures r.Some? ==> r.value < |s| && s[r.value].status == Pending
    ensures r.Some? ==> forall j :: 0 <= j < |s| && s[j].status == Pending ==> s[r.value].attemptCount <= s[j].attemptCount
    ensures r.Some? ==> forall j :: 0 <= j < r.value && s[j].status == Pending ==> s[r.value].attemptCount < s[j].attemptCount
  {
    if |s| == 0 then None
    else
      var k := Best(s[1..]);
      if s[0].status != Pending then (if k.None? then None else Some(k.value + 1))
      else if k.None? || s[0].attemptCount <= s[k.value + 1].attemptCount then Some(0)
      else Some(k.value + 1)
  }

  datatype Claimed = Claimed(table: Table, task: Option<Task>)

  /** The worker's claim: the pending task with the fewest attempts becomes
      processing for `worker` with fresh start and heartbeat times; its
      attempt count is left alone. */
  function Claim(s: Table, worker: string, now: int): (r: Claimed)
    ensures |r.table| == |s|
    ensures r.task.None? <==> forall j :: 0 <= j < |s| ==> s[j].status != Pending
    ensures r.task.None? ==> r.table == s
    ensures r.task.Some? ==> exists i :: 0 <= i < |s| && ClaimedAt(s, r, i, worker, now)
  {
    match Best(s)
    case None => Claimed(s, None)
    case Some(i) =>
      var t := s[i].(status := Processing, workerId := Some(worker), startedAt := Some(now), lastHeartbeat := Some(now));
      var r := Claimed(s[i := t], Some(t));
      assert ClaimedAt(s, r, i, worker, now);
      r
  }

  predicate ClaimedAt(s: Table, r: Claimed, i: nat, worker: string, now: int)
    requires i < |s| && |r.table| == |s|
  {
    && s[i].status == Pending
    && (forall j :: 0 <= j < |s| && s[j].status == Pending ==> s[i].attemptCount <= s[j].attemptCount)
    && (forall j :: 0 <= j < |s| && j != i ==> r.table[j] == s[j])
    && r.task == Some(r.table[i])
    && r.table[i].domain == s[i].domain
    && r.table[i].status == Processing
    && r.table[i].workerId == Some(worker)
    && r.table[i].lastHeartbeat == Some(now)
    && r.table[i].attemptCount == s[i].attemptCount
  }

  /** The worker's heartbeat, by `_id`: it lands whatever the task's state. */
  function Heartbeat(s: Table, domain: string, now: int): (r: Table)
    requires UniqueDomains(s)
    ensures |r| == |s|
    ensures forall i :: 0 <= i < |s| ==>
      r[i] == if s[i].domain == domain then s[i].(lastHeartbeat := Some(now)) else s[i]
  {
    UpdateTask(s, domain, (t: Task) => t.(lastHeartbeat := Some(now)))
  }

  // ---------------------------------------------------------------- outcomes

  /** How a worker's turn ended. A turn succeeds only with no error and a
      parsed output that is truthy; an empty or null parsed output with no
      error takes the failure path with `message` `None`, which is then what
      `last_error` records. */
  datatype Outcome = Success | Error(message: Option<string>)

  /** The pause before putting a failed task back: `RETRY_DELAYS[attempts - 1]`,
      the last delay once the list runs out. */
  function RetryDelay(attempts: nat): (r: nat)
    requires attempts >= 1
    ensures r in RETRY_DELAYS
    ensures attempts <= |RETRY_DELAYS| ==> r == RETRY_DELAYS[attempts - 1]
    ensures attempts > |RETRY_DELAYS| ==> r == RETRY_DELAYS[|RETRY_DELAYS| - 1]
  {
    var index := attempts - 1;
    if index < |RETRY_DELAYS| then RETRY_DELAYS[index] else RETRY_DELAYS[|RETRY_DELAYS| - 1]
  }

  /** Whether a failure on the worker's `attempts`-th try is retried. */
  predicate ShouldRetry(attempts: nat)
  {
    RETRY_ENABLED && attempts < MAX_RETRIES
  }

  function FinishedTask(t: Task, outcome: Outcome, claimedCount: nat, now: int): Task
  {
    match outcome
    case Success => t.(status := Completed, completedAt := Some(now), error := None)
    case Error(e) =>
      var attempts := claimedCount + 1;
      if ShouldRetry(attempts) then
        t.(status := Pending, attemptCount := attempts, lastError := e, workerId := None)
      else
        t.(status := Failed, attemptCount := attempts, lastError := e, failedAt := Some(now))
  }

  /** The end of the worker's turn with the task it claimed with count
      `claimedCount`: success completes it; a failure counts the attempt and
      either puts the task back without a worker or fails it for good. */
  function Finish(s: Table, domain: string, outcome: Outcome, claimedCount: nat, now: int): (r: Table)
    requires UniqueDomains(s)
    ensures |r| == |s|
    ensures forall i :: 0 <= i < |s| && s[i].domain != domain ==> r[i] == s[i]
    ensures forall i :: 0 <= i < |s| && s[i].domain == domain ==>
      && r[i].domain == domain
      && (outcome.Success? ==>
            && r[i].status == Completed && r[i].attemptCount == s[i].attemptCount
            && r[i].completedAt == Some(now) && r[i].error.None?
            && r[i].workerId == s[i].workerId && r[i].lastError == s[i].lastError && r[i].failedAt == s[i].failedAt)
      && (outcome.Error? ==>
            && r[i].attemptCount == claimedCount + 1 && r[i].lastError == outcome.message
            && r[i].completedAt == s[i].completedAt && r[i].error == s[i].error)
      && (outcome.Error? && claimedCount + 1 < MAX_RETRIES ==>
            r[i].status == Pending && r[i].workerId.None? && r[i].failedAt == s[i].failedAt)
      && (outcome.Error? && claimedCount + 1 >= MAX_RETRIES ==>
            r[i].status == Failed && r[i].failedAt == Some(now) && r[i].workerId == s[i].workerId)
  {
    UpdateTask(s, domain, (t: Task) => FinishedTask(t, outcome, claimedCount, now))
  }

  // ---------------------------------------------------------------- certificates

  /** The success path's `insert_one` into the certificates collection: the
      parsed certificate with `domain` and `scanned_at` set, stored under
      the collection's unique `domain` index. A domain already stored makes
      the insert raise `DuplicateKeyError`, which is ignored: the stored
      certificate stays. */
  function SaveCertificate(certs: map<string, JsonTree.Doc>, parsed: JsonTree.Doc, domain: string, now: int)
    : (r: map<string, JsonTree.Doc>)
    ensures r.Keys == certs.Keys + {domain}
    ensures domain in certs ==> r == certs
    ensures domain !in certs ==>
      && r[domain].Keys == parsed.Keys + {"domain", "scanned_at"}
      && r[domain]["domain"] == JsonTree.Str(domain) && r[domain]["scanned_at"] == JsonTree.Num(now)
      && forall k :: k in parsed && k != "domain" && k != "scanned_at" ==> r[domain][k] == parsed[k]
    ensures forall d :: d in certs ==> r[d] == certs[d]
  {
    if domain in certs then certs
    else certs[domain := parsed["domain" := JsonTree.Str(domain)]["scanned_at" := JsonTree.Num(now)]]
  }

  /** A later scan of a saved domain, whatever it parsed, changes nothing. */
  lemma SaveCertificateKeepsFirst(certs: map<string, JsonTree.Doc>, parsed: JsonTree.Doc, again: JsonTree.Doc,
                                  domain: string, now: int, later: int)
    ensures var r := SaveCertificate(certs, parsed, domain, now);
      SaveCertificate(r, again, domain, later) == r
  {
  }

  // ---------------------------------------------------------------- watchdog

  predicate Frozen(t: Task, now: int)
  {
    t.status == Processing && t.lastHeartbeat.Some? && t.lastHeartbeat.value < now - STALE_THRESHOLD
  }

  /** `doctor_thread`, one pass: every frozen task goes back to pending
      without a worker, its attempt count kept. */
  function Doctor(s: Table, now: int): (r: Table)
    ensures |r| == |s|
    ensures forall i :: 0 <= i < |s| && !Frozen(s[i], now) ==> r[i] == s[i]
    ensures forall i :: 0 <= i < |s| && Frozen(s[i], now) ==>
      && r[i].status == Pending && r[i].workerId.None? && r[i].lastError == Some(WATCHDOG_RESET)
      && r[i].attemptCount == s[i].attemptCount && r[i].domain == s[i].domain
  {
    seq(|s|, i requires 0 <= i < |s| =>
      if Frozen(s[i], now) then s[i].(status := Pending, workerId := None, lastError := Some(WATCHDOG_RESET)) else s[i])
  }

  // ---------------------------------------------------------------- completion

  function CountStatus(s: Table, st: Status): (r: nat)
    ensures r <= |s|
    ensures r == 0 <==> forall i :: 0 <= i < |s| ==> s[i].status != st
  {
    if |s| == 0 then 0 else (if s[0].status == st then 1 else 0) + CountStatus(s[1..], st)
  }

  /** The dashboard's exit test. */
  predicate Complete(s: Table)
  {
    CountStatus(s, Pending) == 0 && CountStatus(s, Processing) == 0
  }

  /** The run ends exactly when every task is completed or failed; then no claim succeeds. */
  lemma CompleteIffAllFinished(s: Table, worker: string, now: int)
    ensures Complete(s) <==> forall i :: 0 <= i < |s| ==> s[i].status == Completed || s[i].status == Failed
    ensures Complete(s) ==> Claim(s, worker, now).task.None?
  {
  }

  // ---------------------------------------------------------------- seeding

  /** The header names a column whose stripped, lower-cased name is one of these. */
  predicate IsDomainColumn(name: string)
  {
    var n := Lower(Strip(name));
    n == "domain" || n == "domains" || n == "websites url"
  }

  /** The first recognised column of the header, if any. */
  function DomainColumn(header: seq<string>): (r: Option<nat>)
    ensures r.None? <==> forall i {:trigger IsDomainColumn(header[i])} :: 0 <= i < |header| ==> !IsDomainColumn(header[i])
    ensures r.Some? ==> r.value < |header| && IsDomainColumn(header[r.value])
    ensures r.Some? ==> forall i {:trigger IsDomainColumn(header[i])} :: 0 <= i < r.value ==> !IsDomainColumn(header[i])
  {
    var marks := Marks(header);
    FirstFrom(marks, 0)
  }

  /** Which columns of the header are recognised. */
  function Marks(header: seq<string>): (r: seq<bool>)
    ensures |r| == |header|
    ensures forall i :: 0 <= i < |header| ==> r[i] == IsDomainColumn(header[i])
  {
    seq(|header|, i requires 0 <= i < |header| => IsDomainColumn(header[i]))
  }

  /** The first marked position at or after `j`. */
  function FirstFrom(marks: seq<bool>, j: nat): (r: Option<nat>)
    requires j <= |marks|
    ensures r.None? <==> forall i :: j <= i < |marks| ==> !marks[i]
    ensures r.Some? ==> j <= r.value < |marks| && marks[r.value]
    ensures r.Some? ==> forall i :: j <= i < r.value ==> !marks[i]
    decreases |marks| - j
  {
    if j == |marks| then None
    else if marks[j] then Some(j)
    else FirstFrom(marks, j + 1)
  }

  predicate AllPresent(cells: seq<Option<string>>)
  {
    forall i :: 0 <= i < |cells| ==> cells[i].Some?
  }

  /** A domain as the seeding keeps it: stripped and not blank. */
  predicate KeptDomain(d: string)
  {
    d != "" && Stripped(d)
  }

  predicate AllKept(ds: seq<string>)
  {
    forall i :: 0 <= i < |ds| ==> KeptDomain(ds[i])
  }

  /** A cell that names a domain: present and not blank once stripped. */
  predicate NamesDomain(cell: Option<string>)
  {
    cell.Some? && Strip(cell.value) != ""
  }

  /** The stripped cell, `""` for a missing one. */
  function CellDomain(cell: Option<string>): string
  {
    if cell.Some? then Strip(cell.value) else ""
  }

  /** The stripped non-blank cells of the domain column; a short row
      (the cell is `None`) aborts the read. */
  function ColumnDomains(cells: seq<Option<string>>): (r: Option<seq<string>>)
    ensures r.Some? <==> AllPresent(cells)
    ensures r.Some? ==> AllKept(r.value)
    ensures r.Some? ==> |r.value| == |Where(cells, NamesDomain)|
  {
    if |cells| == 0 then Some([])
    else
      PresentCons(cells);
      if cells[0].None? then None
      else
        var rest := ColumnDomains(cells[1..]);
        WhereCons(cells, NamesDomain);
        if rest.None? then None
        else
          var c := Strip(cells[0].value);
          if c == "" then rest
          else
            KeptCons(c, rest.value);
            Some([c] + rest.value)
  }

  /** A full read gives the stripped naming cells, in file order. */
  lemma {:induction false} ColumnDomainsInOrder(cells: seq<Option<string>>)
    requires AllPresent(cells)
    ensures ColumnDomains(cells) == Some(Collect(cells, NamesDomain, CellDomain))
  {
    if |cells| > 0 {
      PresentCons(cells);
      ColumnDomainsInOrder(cells[1..]);
      CollectCons(cells, cells[0], cells[1..], NamesDomain, CellDomain);
      ColumnDomainsCons(cells);
    }
  }

  /** A full read decides the first cell, then reads the rest. */
  lemma ColumnDomainsCons(cells: seq<Option<string>>)
    requires |cells| > 0 && cells[0].Some? && ColumnDomains(cells[1..]).Some?
    ensures ColumnDomains(cells) ==
      Some((if NamesDomain(cells[0]) then [CellDomain(cells[0])] else []) + ColumnDomains(cells[1..]).value)
  {
    var rest := ColumnDomains(cells[1..]).value;
    var c := Strip(cells[0].value);
    if c == "" {
      assert ColumnDomains(cells) == Some(rest);
      assert !NamesDomain(cells[0]);
      assert [] + rest == rest;
    } else {
      assert ColumnDomains(cells) == Some([c] + rest);
      assert NamesDomain(cells[0]) && CellDomain(cells[0]) == c;
    }
  }

  lemma PresentCons(cells: seq<Option<string>>)
    requires |cells| > 0
    ensures AllPresent(cells) <==> cells[0].Some? && AllPresent(cells[1..])
  {
    if cells[0].Some? && AllPresent(cells[1..]) {
      forall i | 1 <= i < |cells|
        ensures cells[i].Some?
      {
        assert cells[i] == cells[1..][i - 1];
      }
    }
  }

  lemma KeptCons(c: string, rest: seq<string>)
    requires KeptDomain(c) && AllKept(rest)
    ensures AllKept([c] + rest)
  {
    var r := [c] + rest;
    forall i | 0 <= i < |r|
      ensures KeptDomain(r[i])
    {
      if i > 0 {
        assert r[i] == rest[i - 1];
      }
    }
  }

  function NewTask(domain: string): Task
  {
    Task(domain, Pending, 0, None, None, None, None, None, None, None)
  }

  /** `insert_many(..., ordered=False)`: every document whose domain is not
      yet there goes in; the number of rejected duplicates comes back too. */
  function InsertMany(s: Table, domains: seq<string>): (r: (Table, nat))
    ensures |s| <= |r.0| && r.0[..|s|] == s
    ensures |r.0| - |s| + r.1 == |domains|
    ensures forall i :: |s| <= i < |r.0| ==> r.0[i] == NewTask(r.0[i].domain) && r.0[i].domain in domains
    decreases |domains|
  {
    if |domains| == 0 then (s, 0)
    else if Find(s, domains[0]).Some? then
      var rest := InsertMany(s, domains[1..]);
      (rest.0, rest.1 + 1)
    else InsertMany(s + [NewTask(domains[0])], domains[1..])
  }

  datatype Seeded =
    | Skipped
    | Fatal(reason: string)
    | Loaded(table: Table)
    | Crashed(table: Table, reason: string)

  /** `load_csv_if_empty`: `header` is the CSV's field names (`None` for an
      empty file) and `cells` the domain column of each row. A duplicate
      domain makes `insert_many` raise a bulk write error, which the handler
      for a single duplicate key does not catch: the documents are in, but
      start-up stops. */
  function LoadCsvIfEmpty(s: Table, header: Option<seq<string>>, cells: seq<Option<string>>): (r: Seeded)
    ensures r.Skipped? <==> |s| > 0
    ensures r.Fatal? <==> |s| == 0 && (header.None? || DomainColumn(header.value).None? || ColumnDomains(cells).None?)
    ensures r.Loaded? || r.Crashed? ==> ColumnDomains(cells).Some? && |r.table| <= |ColumnDomains(cells).value|
    ensures r.Crashed? ==> |r.table| < |ColumnDomains(cells).value|
  {
    if |s| > 0 then Skipped
    else if header.None? then Fatal("CSV file appears empty.")
    else if DomainColumn(header.value).None? then Fatal("Could not find a 'domain' column in your CSV!")
    else
      match ColumnDomains(cells)
      case None => Fatal("Failed to read CSV")
      case Some(domains) => Seed(s, domains)
  }

  /** The insertion step of `load_csv_if_empty`, once the domains are read. */
  function Seed(s: Table, domains: seq<string>): (r: Seeded)
    ensures r.Crashed? || r.Loaded?
    ensures |s| <= |r.table| <= |s| + |domains|
    ensures r.Crashed? ==> |r.table| < |s| + |domains|
  {
    if |domains| == 0 then Loaded(s)
    else
      var ins := InsertMany(s, domains);
      if ins.1 > 0 then Crashed(ins.0, "BulkWriteError") else Loaded(ins.0)
  }

  predicate HasDuplicate(ds: seq<string>)
  {
    exists i, j :: 0 <= i < j < |ds| && ds[i] == ds[j]
  }

  function Domains(s: Table): set<string>
  {
    set i | 0 <= i < |s| :: s[i].domain
  }

  lemma FindIffIn(s: Table, d: string)
    ensures Find(s, d).Some? <==> d in Domains(s)
  {
    if d in Domains(s) {
      var i :| 0 <= i < |s| && s[i].domain == d;
    }
  }

  lemma DomainsAppend(s: Table, t: Task)
    ensures Domains(s + [t]) == Domains(s) + {t.domain}
  {
    var r := s + [t];
    assert r[|s|] == t;
    forall x | x in Domains(r)
      ensures x in Domains(s) + {t.domain}
    {
      var i :| 0 <= i < |r| && r[i].domain == x;
      if i < |s| {
        assert s[i].domain == x;
      }
    }
    forall x | x in Domains(s)
      ensures x in Domains(r)
    {
      var i :| 0 <= i < |s| && s[i].domain == x;
      assert r[i].domain == x;
    }
  }

  /** `r` keeps `s` as its prefix and adds only fresh pending tasks. */
  predicate Grows(s: Table, r: Table)
  {
    |s| <= |r| && r[..|s|] == s && forall i :: |s| <= i < |r| ==> r[i] == NewTask(r[i].domain)
  }

  lemma GrowsTrans(s: Table, s1: Table, r: Table)
    requires Grows(s, s1) && Grows(s1, r)
    ensures Grows(s, r)
  {
    assert r[..|s|] == r[..|s1|][..|s|];
    forall i | |s| <= i < |r|
      ensures r[i] == NewTask(r[i].domain)
    {
      if i < |s1| {
        assert r[i] == r[..|s1|][i] == s1[i];
      }
    }
  }

  /** What `insert_many` of `domains` into `s` promises of the resulting table `r`. */
  predicate Inserted(s: Table, domains: seq<string>, r: Table)
  {
    UniqueDomains(r) && Grows(s, r) && Domains(r) == Domains(s) + (set x | x in domains)
  }

  /** One document inserted or skipped, then the rest. */
  lemma InsertedCons(s: Table, s1: Table, d: string, rest: seq<string>, r: Table)
    requires Grows(s, s1) && Domains(s1) == Domains(s) + {d}
    requires Inserted(s1, rest, r)
    ensures Inserted(s, [d] + rest, r)
  {
    GrowsTrans(s, s1, r);
    assert (set x | x in [d] + rest) == {d} + (set x | x in rest);
  }

  /** One document: a domain already there is rejected, a new one appended. */
  lemma InsertOne(s: Table, d: string)
    requires UniqueDomains(s)
    ensures var s1 := if Find(s, d).Some? then s else s + [NewTask(d)];
      UniqueDomains(s1) && Grows(s, s1) && Domains(s1) == Domains(s) + {d}
  {
    FindIffIn(s, d);
    if Find(s, d).None? {
      DomainsAppend(s, NewTask(d));
      var s1 := s + [NewTask(d)];
      assert s1[..|s|] == s;
    } else {
      assert s[..|s|] == s;
    }
  }

  /** `insert_many` keeps what was there and adds each missing domain once. */
  lemma {:induction false} InsertManyTable(s: Table, domains: seq<string>)
    requires UniqueDomains(s)
    ensures Inserted(s, domains, InsertMany(s, domains).0)
    decreases |domains|
  {
    if |domains| > 0 {
      var d := domains[0];
      var s1 := if Find(s, d).Some? then s else s + [NewTask(d)];
      InsertOne(s, d);
      InsertManyTable(s1, domains[1..]);
      InsertedCons(s, s1, d, domains[1..], InsertMany(s1, domains[1..]).0);
      assert domains == [d] + domains[1..];
    } else {
      assert s[..|s|] == s;
    }
  }

  /** Some domain already there or named twice. */
  predicate Clash(s: Table, domains: seq<string>)
  {
    HasDuplicate(domains) || exists i :: 0 <= i < |domains| && domains[i] in Domains(s)
  }

  /** `insert_many` rejects something exactly when a domain clashes. */
  lemma {:induction false} InsertManyRejects(s: Table, domains: seq<string>)
    ensures InsertMany(s, domains).1 > 0 <==> Clash(s, domains)
    decreases |domains|
  {
    if |domains| > 0 {
      var d := domains[0];
      FindIffIn(s, d);
      DuplicateSplit(domains);
      if Find(s, d).Some? {
        InsertManyRejects(s, domains[1..]);
        assert domains[0] in Domains(s);
      } else {
        var s1 := s + [NewTask(d)];
        DomainsAppend(s, NewTask(d));
        InsertManyRejects(s1, domains[1..]);
        if Clash(s1, domains[1..]) && !HasDuplicate(domains[1..]) {
          var i :| 0 <= i < |domains[1..]| && domains[1..][i] in Domains(s1);
          if domains[1..][i] == d {
            assert d in domains[1..];
          } else {
            assert domains[i + 1] in Domains(s);
          }
        }
        if Clash(s, domains) && !HasDuplicate(domains) {
          var i :| 0 <= i < |domains| && domains[i] in Domains(s);
          assert i != 0;
          assert domains[1..][i - 1] in Domains(s1);
        }
      }
    }
  }

  /** A list has a repeat exactly when its head reappears or its tail has one. */
  lemma DuplicateSplit(ds: seq<string>)
    requires |ds| > 0
    ensures HasDuplicate(ds) <==> ds[0] in ds[1..] || HasDuplicate(ds[1..])
  {
    if HasDuplicate(ds) {
      var i, j :| 0 <= i < j < |ds| && ds[i] == ds[j];
      if i == 0 {
        assert ds[1..][j - 1] == ds[0];
      } else {
        assert ds[1..][i - 1] == ds[1..][j - 1];
      }
    }
    if ds[0] in ds[1..] {
      var j :| 0 <= j < |ds[1..]| && ds[1..][j] == ds[0];
      assert ds[0] == ds[j + 1];
    }
    if HasDuplicate(ds[1..]) {
      var i, j :| 0 <= i < j < |ds[1..]| && ds[1..][i] == ds[1..][j];
      assert ds[i + 1] == ds[j + 1];
    }
  }

  /** Seeding an empty collection stops start-up with a crash exactly when
      the file names some domain twice, although every domain is in by then. */
  lemma DuplicateDomainCrashesStartup(header: seq<string>, cells: seq<Option<string>>)
    requires DomainColumn(header).Some?
    requires ColumnDomains(cells).Some?
    ensures var ds := ColumnDomains(cells).value;
      var r := LoadCsvIfEmpty([], Some(header), cells);
      && (r.Crashed? <==> HasDuplicate(ds))
      && (r.Crashed? || r.Loaded?)
      && Domains(r.table) == (set x | x in ds)
  {
    SeedEmpty(ColumnDomains(cells).value);
  }

  /** Seeding an empty collection with a list of domains. */
  lemma SeedEmpty(ds: seq<string>)
    ensures var r := Seed([], ds);
      && (r.Crashed? <==> HasDuplicate(ds))
      && Domains(r.table) == (set x | x in ds)
  {
    var empty: Table := [];
    assert Domains(empty) == {};
    InsertManyTable(empty, ds);
    InsertManyRejects(empty, ds);
    if |ds| == 0 {
      assert !HasDuplicate(ds);
      assert (set x | x in ds) == {};
    }
  }

  /** A file whose recognised column names the same domain on two rows
      (for instance a header `Domain` and two rows `a.pk`) crashes start-up. */
  lemma TwoRowsSameDomainCrash(h: string, d: string)
    requires IsDomainColumn(h)
    requires d != "" && Stripped(d)
    ensures LoadCsvIfEmpty([], Some([h]), [Some(d), Some(d)]).Crashed?
  {
    assert DomainColumn([h]).Some? by {
      assert Marks([h])[0];
    }
    TwoCellsRead(d);
    assert HasDuplicate([d, d]) by {
      var ds := [d, d];
      assert ds[0] == ds[1];
    }
    SeedEmpty([d, d]);
  }

  /** Two rows holding the same stripped domain read as that domain twice. */
  lemma TwoCellsRead(d: string)
    requires d != "" && Stripped(d)
    ensures ColumnDomains([Some(d), Some(d)]) == Some([d, d])
  {
    var cells := [Some(d), Some(d)];
    StripOfStripped(d);
    assert NamesDomain(Some(d)) && CellDomain(Some(d)) == d;
    var tail := cells[1..];
    assert tail == [Some(d)] && tail[1..] == [];
    assert ColumnDomains(tail[1..]) == Some([]);
    ColumnDomainsCons(tail);
    assert [d] + [] == [d];
    assert ColumnDomains(tail) == Some([d]);
    ColumnDomainsCons(cells);
    assert [d] + [d] == [d, d];
  }

  /** The header `Domain` is recognised. */
  lemma CapitalisedHeaderRecognised()
    ensures IsDomainColumn("Domain")
  {
    var h := "Domain";
    StripOfStripped(h);
    assert Lower(h) == "domain";
  }

  /** Seeding as evidently intended: duplicate domains are skipped and start-up goes on. */
  function LoadCsvIfEmptyFixed(s: Table, header: Option<seq<string>>, cells: seq<Option<string>>): (r: Seeded)
    requires UniqueDomains(s)
    ensures r.Loaded? ==> UniqueDomains(r.table)
    ensures |s| == 0 && header.Some? && DomainColumn(header.value).Some? && ColumnDomains(cells).Some? ==>
      r.Loaded? && Domains(r.table) == (set x | x in ColumnDomains(cells).value)
    ensures r.Loaded? ==> forall i :: 0 <= i < |r.table| ==> r.table[i].status == Pending && r.table[i].attemptCount == 0
  {
    if |s| > 0 then Skipped
    else if header.None? then Fatal("CSV file appears empty.")
    else if DomainColumn(header.value).None? then Fatal("Could not find a 'domain' column in your CSV!")
    else
      match ColumnDomains(cells)
      case None => Fatal("Failed to read CSV")
      case Some(domains) => Loaded(SeedFixed(s, domains))
  }

  /** Inserting with duplicates skipped: only fresh pending tasks are added. */
  function SeedFixed(s: Table, domains: seq<string>): (r: Table)
    requires UniqueDomains(s)
    ensures UniqueDomains(r)
    ensures Domains(r) == Domains(s) + (set x | x in domains)
    ensures forall i :: |s| <= i < |r| ==> r[i].status == Pending && r[i].attemptCount == 0
    ensures |s| <= |r| && r[..|s|] == s
  {
    InsertManyTable(s, domains);
    InsertMany(s, domains).0
  }

  // ---------------------------------------------------------------- runs

  /** What every reachable state satisfies: unique domains, fewer than
      `MAX_RETRIES` attempts on a pending or processing task, never more than
      `MAX_RETRIES` on any task. */
  predicate Inv(s: Table)
  {
    && UniqueDomains(s)
    && forall i :: 0 <= i < |s| ==>
      && s[i].attemptCount <= MAX_RETRIES
      && (s[i].status == Pending || s[i].status == Processing ==> s[i].attemptCount < MAX_RETRIES)
  }

  /** A worker's failure report carries the count its claim returned; every
      claim returns a task with fewer than `MAX_RETRIES` attempts. */
  datatype Step =
    | ClaimStep(worker: string, now: int)
    | HeartbeatStep(domain: string, now: int)
    | FinishStep(domain: string, outcome: Outcome, claimedCount: nat, now: int)
    | DoctorStep(now: int)

  predicate Reported(step: Step)
  {
    step.FinishStep? ==> step.claimedCount < MAX_RETRIES
  }

  function Apply(s: Table, step: Step): (r: Table)
    requires UniqueDomains(s)
    ensures |r| == |s|
  {
    match step
    case ClaimStep(w, now) => Claim(s, w, now).table
    case HeartbeatStep(d, now) => Heartbeat(s, d, now)
    case FinishStep(d, o, c, now) => Finish(s, d, o, c, now)
    case DoctorStep(now) => Doctor(s, now)
  }

  /** Every claim hands out a task with a retry left, which makes `Reported` the worker's real behaviour. */
  lemma ClaimedCountBelowMax(s: Table, worker: string, now: int)
    requires Inv(s)
    ensures var r := Claim(s, worker, now);
      r.task.Some? ==> r.task.value.attemptCount < MAX_RETRIES
  {
    var r := Claim(s, worker, now);
    if r.task.Some? {
      var i :| 0 <= i < |s| && ClaimedAt(s, r, i, worker, now);
    }
  }

  lemma StepKeepsInv(s: Table, step: Step)
    requires Inv(s) && Reported(step)
    ensures Inv(Apply(s, step))
  {
    match step
    case ClaimStep(w, now) =>
      var c := Claim(s, w, now);
      if c.task.Some? {
        var i :| 0 <= i < |s| && ClaimedAt(s, c, i, w, now);
      }
    case HeartbeatStep(d, now) =>
    case FinishStep(d, o, c, now) =>
    case DoctorStep(now) =>
  }

  /** Any interleaving of claims, heartbeats, reported outcomes and watchdog
      passes keeps the invariant: no task ever counts more than `MAX_RETRIES`
      attempts, and the watchdog never resets one into a state the claim
      would hand out with none left. */
  function Run(s: Table, steps: seq<Step>): (r: Table)
    requires Inv(s)
    requires forall k :: 0 <= k < |steps| ==> Reported(steps[k])
    ensures Inv(r) && |r| == |s|
    decreases |steps|
  {
    if |steps| == 0 then s
    else
      StepKeepsInv(s, steps[0]);
      Run(Apply(s, steps[0]), steps[1..])
  }

  /** Only a worker's report counts an attempt: over any run of claims,
      heartbeats and watchdog passes every task keeps its attempt count, so
      a task that freezes its worker every time is reset every time and
      never reaches `MAX_RETRIES`. */
  lemma {:induction false} DoctorKeepsCount(s: Table, steps: seq<Step>)
    requires Inv(s)
    requires forall k :: 0 <= k < |steps| ==> !steps[k].FinishStep?
    ensures forall i :: 0 <= i < |s| ==> Run(s, steps)[i].attemptCount == s[i].attemptCount
    decreases |steps|
  {
    if |steps| > 0 {
      StepKeepsInv(s, steps[0]);
      var s1 := Apply(s, steps[0]);
      StepKeepsCounts(s, steps[0]);
      DoctorKeepsCount(s1, steps[1..]);
      assert Run(s, steps) == Run(s1, steps[1..]);
    }
  }

  /** A claim, a heartbeat or a watchdog pass leaves every attempt count alone. */
  lemma StepKeepsCounts(s: Table, step: Step)
    requires UniqueDomains(s)
    requires !step.FinishStep?
    ensures forall i :: 0 <= i < |s| ==> Apply(s, step)[i].attemptCount == s[i].attemptCount
  {
    if step.ClaimStep? {
      var r := Claim(s, step.worker, step.now);
      if r.task.Some? {
        var i :| 0 <= i < |s| && ClaimedAt(s, r, i, step.worker, step.now);
      }
    }
  }
}

=== FILE: date_helper.dfy ===
/** The date helper of the overview dashboard: the `YYYY-MM` label of a
    month and the first instant of the following month, which closes the
    half-open window of a month in the trend queries. Datetimes are UTC. */
module DateHelper {

  import opened Wrappers
  import opened PyStr
  import opened Calendar

  /** A timezone-aware `datetime` in UTC. */
  datatype DateTime = DateTime(year: int, month: int, day: int, hour: int, minute: int, second: int, micro: int)

  /** What a `datetime` object guarantees about its fields. */
  predicate Valid(d: DateTime)
  {
    MIN_YEAR <= d.year <= MAX_YEAR && ValidMonth(d.month) && 1 <= d.day <= DaysIn(d.year, d.month)
    && 0 <= d.hour < 24 && 0 <= d.minute < 60 && 0 <= d.second < 60 && 0 <= d.micro < 1000000
  }

  /** `a < b` on datetimes: the fields compared from the year down. */
  predicate Before(a: DateTime, b: DateTime)
  {
    if a.year != b.year then a.year < b.year
    else if a.month != b.month then a.month < b.month
    else if a.day != b.day then a.day < b.day
    else if a.hour != b.hour then a.hour < b.hour
    else if a.minute != b.minute then a.minute < b.minute
    else if a.second != b.second then a.second < b.second
    else a.micro < b.micro
  }

  /** Midnight of the first day of the month of `d`. */
  function MonthStart(d: DateTime): DateTime
  {
    DateTime(d.year, d.month, 1, 0, 0, 0, 0)
  }

  /** `month_key`: `strftime("%Y-%m")`, the year to four digits and the month to two. */
  function MonthKey(d: DateTime): (r: string)
    requires Valid(d)
    ensures |r| == 7 && r[4] == '-'
    ensures forall i :: 0 <= i < 7 && i != 4 ==> IsDigit(r[i])
  {
    var y := ZeroPad(d.year, 4);
    var m := ZeroPad(d.month, 2);
    NatToStringBound(d.year, 9999);
    NatToStringBound(d.month, 99);
    y + "-" + m
  }

  /** A number below `bound` has no more digits than `bound`. */
  lemma {:induction false} NatToStringBound(n: nat, bound: nat)
    requires n <= bound
    ensures |NatToString(n)| <= |NatToString(bound)|
    decreases bound
  {
    if n >= 10 {
      NatToStringBound(n / 10, bound / 10);
    }
  }

  /** Reads a label `YYYY-MM` back into its year and month. */
  function ParseMonthKey(s: string): (r: Option<(int, int)>)
    ensures r.Some? ==> 0 <= r.value.0 <= 9999 && 0 <= r.value.1 <= 99
  {
    if |s| == 7 && s[4] == '-' && (forall i :: 0 <= i < 7 && i != 4 ==> IsDigit(s[i])) then
      DigitsBound(s[..4]);
      DigitsBound(s[5..]);
      Some((DigitsValue(s[..4]), DigitsValue(s[5..])))
    else None
  }

  /** A string of `k` digits denotes a number below `10^k`. */
  lemma {:induction false} DigitsBound(s: string)
    requires forall i :: 0 <= i < |s| ==> IsDigit(s[i])
    ensures DigitsValue(s) < Pow10(|s|)
    decreases |s|
  {
    if |s| > 0 {
      DigitsBound(s[..|s| - 1]);
    }
  }

  function Pow10(k: nat): (r: nat)
    ensures r >= 1
  {
    if k == 0 then 1 else 10 * Pow10(k - 1)
  }

  /** The label names its month: reading it back gives the year and the month. */
  lemma MonthKeyRoundTrip(d: DateTime)
    requires Valid(d)
    ensures ParseMonthKey(MonthKey(d)) == Some((d.year, d.month))
  {
    var y := ZeroPad(d.year, 4);
    var m := ZeroPad(d.month, 2);
    var r := MonthKey(d);
    assert r[..4] == y;
    assert r[5..] == m;
  }

  /** `_end_of_month`: midnight of the first day of the next month. Python's
      `datetime` cannot hold year 10000, so December 9999 is an error. */
  function EndOfMonth(d: DateTime): (r: Option<DateTime>)
    requires Valid(d)
    ensures r.None? <==> d.year == MAX_YEAR && d.month == 12
    ensures r.Some? ==> Valid(r.value) && r.value == MonthStart(r.value)
    ensures r.Some? ==> MonthIndex(r.value.year, r.value.month) == MonthIndex(d.year, d.month) + 1
  {
    if d.month < 12 then Some(DateTime(d.year, d.month + 1, 1, 0, 0, 0, 0))
    else if d.year + 1 <= MAX_YEAR then Some(DateTime(d.year + 1, 1, 1, 0, 0, 0, 0))
    else None
  }

  /** The month of `d` is the half-open window from its first instant to
      `_end_of_month(d)`: a valid datetime lies in it exactly when it has
      the same year and month. */
  lemma MonthWindow(d: DateTime, x: DateTime)
    requires Valid(d) && Valid(x)
    requires EndOfMonth(d).Some?
    ensures (!Before(x, MonthStart(d)) && Before(x, EndOfMonth(d).value)) <==> (x.year == d.year && x.month == d.month)
  {
  }

  /** The window is never empty: the end comes strictly after the start. */
  lemma EndAfterStart(d: DateTime)
    requires Valid(d)
    requires EndOfMonth(d).Some?
    ensures Before(MonthStart(d), EndOfMonth(d).value)
  {
  }
}

=== FILE: extract_cn.dfy ===
/** The common-name extractor for a raw certificate dump: each CSV line holds
    a fingerprint and a PEM body; certificates are sent in batches to the
    zcertificate tool, whose JSON output lines are paired with the batch,
    and every non-empty common name is written with a running index.
    The tool itself and `json.loads` are not modelled: a batch run arrives
    as its outcome and the JSON parser as a function parameter. */
module ExtractCn {

  import opened Wrappers
  import opened PyStr
  import opened JsonTree
  import opened Counting

  // ---------------------------------------------------------------- PEM

  const Begin := "-----BEGIN CERTIFICATE-----"
  const End := "-----END CERTIFICATE-----"

  /** The wrapped form of a bare base64 body. */
  function Wrap(body: string): (r: string)
    ensures StartsWith(r, Begin)
  {
    Begin + "\n" + body + "\n" + End
  }

  /** `format_pem`: strip, and add the BEGIN and END lines when the text has no BEGIN line. */
  function FormatPem(pem: string): (r: string)
    ensures Contains(r, Begin)
    ensures Contains(Strip(pem), Begin) ==> r == Strip(pem)
    ensures !Contains(Strip(pem), Begin) ==> r == Wrap(Strip(pem))
  {
    var p := Strip(pem);
    if Contains(p, Begin) then p
    else
      ContainsPrefix(Wrap(p), Begin);
      Wrap(p)
  }

  lemma WrapStripped(body: string)
    ensures Stripped(Wrap(body))
  {
    var w := Wrap(body);
    assert w[0] == Begin[0];
    assert w[|w| - 1] == End[|End| - 1];
  }

  /** Formatting an already formatted certificate changes nothing. */
  lemma FormatPemIdempotent(pem: string)
    ensures FormatPem(FormatPem(pem)) == FormatPem(pem)
  {
    var p := Strip(pem);
    var r := FormatPem(pem);
    if Contains(p, Begin) {
      StripIdempotent(pem);
    } else {
      WrapStripped(p);
      StripOfStripped(r);
    }
  }

  // ---------------------------------------------------------------- common name

  /** Why extraction raised: `json.loads` failed, or a lookup raised. */
  datatype ExtractError = ParseError | ExtractionError

  /** Python's `key in value` for a string key: dict keys, list elements and
      substrings; `None` where Python raises `TypeError`. */
  function PyIn(key: string, j: Json): (r: Option<bool>)
    ensures r.None? <==> !(j.Obj? || j.Arr? || j.Str?)
    ensures j.Obj? ==> r == Some(key in j.fields)
  {
    match j
    case Obj(m) => Some(key in m)
    case Arr(xs) => Some(Str(key) in xs)
    case Str(s) => Some(Contains(s, key))
    case _ => None
  }

  /** Python's `value[key]` for a string key; `None` where Python raises
      (a missing key, or indexing a list or a string with a string). */
  function PyIndex(j: Json, key: string): (r: Option<Json>)
    ensures r.Some? <==> j.Obj? && key in j.fields
    ensures r.Some? ==> r.value == j.fields[key]
  {
    if j.Obj? && key in j.fields then Some(j.fields[key]) else None
  }

  /** The value at `parsed.subject.common_name`, reached through dicts only. */
  predicate NamePath(doc: Json, cn: Json)
  {
    && doc.Obj? && "parsed" in doc.fields
    && doc.fields["parsed"].Obj? && "subject" in doc.fields["parsed"].fields
    && doc.fields["parsed"].fields["subject"].Obj?
    && "common_name" in doc.fields["parsed"].fields["subject"].fields
    && doc.fields["parsed"].fields["subject"].fields["common_name"] == cn
  }

  /** The name a `common_name` value gives: the first element of a non-empty
      list, a string itself, and otherwise the empty string. */
  function NameOf(cn: Json): (r: Json)
    ensures cn.Arr? && |cn.items| > 0 ==> r == cn.items[0]
    ensures cn.Str? ==> r == cn
    ensures !(cn.Arr? && |cn.items| > 0) && !cn.Str? ==> r == Str("")
  {
    if cn.Arr? && |cn.items| > 0 then cn.items[0]
    else if cn.Str? then cn
    else Str("")
  }

  /** Continue the lookup into `key` of `j` with `next`, or stop: a missing
      key gives the empty string, a value that cannot be searched or
      indexed raises. */
  function Step(j: Json, key: string, next: Json -> Result<Json, ExtractError>): (r: Result<Json, ExtractError>)
  {
    match PyIn(key, j)
    case None => Failure(ExtractionError)
    case Some(false) => Success(Str(""))
    case Some(true) =>
      match PyIndex(j, key)
      case None => Failure(ExtractionError)
      case Some(v) => next(v)
  }

  /** `extract_common_name_from_json`, on the value `json.loads` produced
      (`None` when the text is not JSON). */
  function ExtractCommonName(doc: Option<Json>): (r: Result<Json, ExtractError>)
    ensures r == Failure(ParseError) <==> doc.None?
    ensures doc.Some? && (doc.value.Null? || doc.value.Bool? || doc.value.Num?) ==> r == Failure(ExtractionError)
    ensures r.Success? && r.value != Str("") ==> exists cn :: NamePath(doc.value, cn) && r.value == NameOf(cn)
  {
    match doc
    case None => Failure(ParseError)
    case Some(d) =>
      Step(d, "parsed", p =>
        Step(p, "subject", s =>
          Step(s, "common_name", cn => Success(NameOf(cn)))))
  }

  /** Along a path of dicts the extractor returns exactly the name the
      `common_name` value gives. */
  lemma CommonNameOfDicts(doc: Json, cn: Json)
    requires NamePath(doc, cn)
    ensures ExtractCommonName(Some(doc)) == Success(NameOf(cn))
  {
  }

  /** A document with no `parsed` key yields the empty name. */
  lemma NoParsedGivesEmpty(fields: map<string, Json>)
    requires "parsed" !in fields
    ensures ExtractCommonName(Some(Obj(fields))) == Success(Str(""))
  {
  }

  /** A `parsed` value that is a list holding the string `subject` cannot be
      indexed by it, and the lookup raises. */
  lemma ListSubjectRaises(items: seq<Json>)
    requires Str("subject") in items
    ensures ExtractCommonName(Some(Obj(map["parsed" := Arr(items)]))) == Failure(ExtractionError)
  {
  }

  /** The document zcertificate prints for a certificate with one common name. */
  function CertDoc(name: string): (r: Json)
    ensures NamePath(r, Arr([Str(name)]))
  {
    Obj(map["parsed" := Obj(map["subject" := Obj(map["common_name" := Arr([Str(name)])])])])
  }

  /** The name put into a certificate document comes back out. */
  lemma CertDocRoundTrip(name: string)
    ensures ExtractCommonName(Some(CertDoc(name))) == Success(Str(name))
  {
    CommonNameOfDicts(CertDoc(name), Arr([Str(name)]));
  }

  // ---------------------------------------------------------------- one batch

  /** One certificate of a batch: its line number, fingerprint and PEM text. */
  datatype Cert = Cert(line: nat, fingerprint: string, pem: string)

  /** One result: a truthy `cn` is a success; otherwise `error` says why. */
  datatype Outcome = Outcome(line: nat, fingerprint: string, cn: Json, error: Option<string>)

  /** How the zcertificate call ended: an exit code with its output, the
      60-second timeout, or an exception starting or talking to it. */
  datatype ToolRun = Exited(code: int, stdout: string, stderr: string) | TimedOut | Crashed(message: string)

  /** The first 100 characters of an exception's text. */
  function ErrorText(e: ExtractError): (r: string)
    ensures |r| > 0
  {
    match e
    case ParseError => "JSON parse error"
    case ExtractionError => "Certificate extraction error"
  }

  /** One error result per certificate, in order. */
  function AllFail(batch: seq<Cert>, msg: string): (r: seq<Outcome>)
    ensures Aligned(batch, r)
    ensures forall i :: 0 <= i < |r| ==> r[i].cn == Str("") && r[i].error == Some(msg)
  {
    seq(|batch|, i requires 0 <= i < |batch| => Outcome(batch[i].line, batch[i].fingerprint, Str(""), Some(msg)))
  }

  /** Exactly one result per certificate, in the batch's order. */
  predicate Aligned(batch: seq<Cert>, r: seq<Outcome>)
  {
    |r| == |batch| &&
    forall i :: 0 <= i < |r| ==> r[i].line == batch[i].line && r[i].fingerprint == batch[i].fingerprint
  }

  /** `stdout.strip().split('\n')` */
  function OutputLines(stdout: string): (r: seq<string>)
    ensures |r| >= 1
  {
    Split(Strip(stdout), '\n')
  }

  /** The result for one certificate and its output line, or the exception
      the extraction raised. */
  function PairOutcome(c: Cert, line: string, parse: string -> Option<Json>): (r: Result<Outcome, ExtractError>)
    ensures r.Success? ==> r.value.line == c.line && r.value.fingerprint == c.fingerprint
    ensures r.Success? ==> (Truthy(r.value.cn) <==> r.value.error.None?)
    ensures Strip(line) == "" ==> r == Success(Outcome(c.line, c.fingerprint, Str(""), Some("Empty JSON output")))
  {
    if Strip(line) == "" then Success(Outcome(c.line, c.fingerprint, Str(""), Some("Empty JSON output")))
    else Named(c, ExtractCommonName(parse(line)))
  }

  /** The result for a certificate from what the extractor returned. */
  function Named(c: Cert, extracted: Result<Json, ExtractError>): (r: Result<Outcome, ExtractError>)
    ensures r.Success? ==> r.value.line == c.line && r.value.fingerprint == c.fingerprint
    ensures r.Success? ==> (Truthy(r.value.cn) <==> r.value.error.None?)
    ensures r.Failure? <==> extracted.Failure?
  {
    match extracted
    case Failure(e) => Failure(e)
    case Success(cn) =>
      if Truthy(cn) then Success(Outcome(c.line, c.fingerprint, cn, None))
      else Success(Outcome(c.line, c.fingerprint, Str(""), Some("No common_name in certificate")))
  }

  /** `PairOutcome` for a fixed parser, as a value. */
  function Pairing(parse: string -> Option<Json>): (r: (Cert, string) -> Result<Outcome, ExtractError>)
    ensures forall c, l :: r(c, l) == PairOutcome(c, l, parse)
  {
    (c, l) => PairOutcome(c, l, parse)
  }

  /** The loop over `zip(certificates, output lines)`: the results up to the
      first extraction that raises, and that exception if there is one. */
  function ZipOutcomes(certs: seq<Cert>, lines: seq<string>, pair: (Cert, string) -> Result<Outcome, ExtractError>): (r: (seq<Outcome>, Option<ExtractError>))
    ensures |r.0| <= Min(|certs|, |lines|)
    ensures r.1.None? ==> |r.0| == Min(|certs|, |lines|)
    ensures forall i :: 0 <= i < |r.0| ==> pair(certs[i], lines[i]) == Success(r.0[i])
    ensures r.1.Some? ==> (|r.0| < Min(|certs|, |lines|) &&
      pair(certs[|r.0|], lines[|r.0|]) == Failure(r.1.value))
    decreases |certs|
  {
    if |certs| == 0 || |lines| == 0 then ([], None)
    else
      match pair(certs[0], lines[0])
      case Failure(e) => ([], Some(e))
      case Success(o) =>
        var rest := ZipOutcomes(certs[1..], lines[1..], pair);
        ([o] + rest.0, rest.1)
  }

  /** `process_batch_with_zcertificate`, as written. */
  function ProcessBatch(batch: seq<Cert>, run: ToolRun, parse: string -> Option<Json>): (r: seq<Outcome>)
    ensures run.TimedOut? ==> r == AllFail(batch, "Batch timeout")
    ensures run.Crashed? ==> r == AllFail(batch, "Batch error: " + Take(run.message, 100))
    ensures run.Exited? && run.code != 0 ==> r == AllFail(batch, "Batch failed: " + Take(run.stderr, 100))
    ensures WellFormedRun(batch, run, parse) ==> Aligned(batch, r)
  {
    match run
    case TimedOut => AllFail(batch, "Batch timeout")
    case Crashed(msg) => AllFail(batch, "Batch error: " + Take(msg, 100))
    case Exited(code, stdout, stderr) =>
      if code != 0 then AllFail(batch, "Batch failed: " + Take(stderr, 100))
      else
        var z := ZipOutcomes(batch, OutputLines(stdout), Pairing(parse));
        if z.1.None? then
          ZipAligned(batch, OutputLines(stdout), parse);
          z.0
        else z.0 + AllFail(batch, "Batch error: " + Take(ErrorText(z.1.value), 100))
  }

  /** The tool exited normally, printed a line for every certificate, and
      no extraction raised. */
  predicate WellFormedRun(batch: seq<Cert>, run: ToolRun, parse: string -> Option<Json>)
  {
    run.Exited? && run.code == 0 && |OutputLines(run.stdout)| >= |batch| &&
    ZipOutcomes(batch, OutputLines(run.stdout), Pairing(parse)).1.None?
  }

  lemma ZipAligned(batch: seq<Cert>, lines: seq<string>, parse: string -> Option<Json>)
    ensures |lines| >= |batch| && ZipOutcomes(batch, lines, Pairing(parse)).1.None? ==>
      Aligned(batch, ZipOutcomes(batch, lines, Pairing(parse)).0)
  {
    var z := ZipOutcomes(batch, lines, Pairing(parse));
    if |lines| >= |batch| && z.1.None? {
      forall i | 0 <= i < |z.0|
        ensures z.0[i].line == batch[i].line && z.0[i].fingerprint == batch[i].fingerprint
      {
        assert PairOutcome(batch[i], lines[i], parse) == Success(z.0[i]);
      }
    }
  }

  /** Empty tool output leaves every certificate after the first without any result. */
  lemma EmptyOutputDropsCerts(c1: Cert, c2: Cert, parse: string -> Option<Json>, stderr: string)
    ensures |ProcessBatch([c1, c2], Exited(0, "", stderr), parse)| == 1
  {
    assert Strip("") == "" by {
      StripOfStripped("");
    }
    assert OutputLines("") == [""];
  }

  /** When the first certificate's line names it and the second's does not
      parse, the first certificate is reported twice: once with its name and
      once with the batch error, and the second never on its own. */
  lemma ParseFailureRepeatsCerts(c1: Cert, c2: Cert, stdout: string, l1: string, l2: string,
                                 parse: string -> Option<Json>, name: string)
    requires OutputLines(stdout) == [l1, l2]
    requires Strip(l1) != "" && Strip(l2) != ""
    requires parse(l1) == Some(CertDoc(name)) && name != ""
    requires parse(l2).None?
    ensures var r := ProcessBatch([c1, c2], Exited(0, stdout, ""), parse);
      |r| == 3 && r[0].line == c1.line && r[0].cn == Str(name) && r[1].line == c1.line && r[1].error.Some?
  {
    var o1 := Outcome(c1.line, c1.fingerprint, Str(name), None);
    assert ExtractCommonName(parse(l1)) == Success(Str(name)) by {
      CertDocRoundTrip(name);
    }
    PairOfName(c1, l1, parse, Str(name));
    PairUnparsed(c2, l2, parse);
    ZipTwo(c1, c2, l1, l2, o1, ParseError, Pairing(parse));
    RaiseAfterOne([c1, c2], stdout, "", parse, o1, ParseError);
  }

  /** The smallest such output: two one-character lines, the first naming
      its certificate and the second not parsing. */
  lemma ParseFailureOnSecondLine(c1: Cert, c2: Cert, a: char, b: char, parse: string -> Option<Json>, name: string)
    requires !IsSpace(a) && !IsSpace(b)
    requires parse([a]) == Some(CertDoc(name)) && name != ""
    requires parse([b]).None?
    ensures var r := ProcessBatch([c1, c2], Exited(0, [a, '\n', b], ""), parse);
      |r| == 3 && r[0].cn == Str(name) && r[0].line == c1.line && r[1].line == c1.line && r[1].error.Some?
  {
    SplitTwoLines(a, b);
    ParseFailureRepeatsCerts(c1, c2, [a, '\n', b], [a], [b], parse, name);
  }

  /** One result and then a raise: that result, then a batch error for every certificate. */
  lemma RaiseAfterOne(batch: seq<Cert>, stdout: string, stderr: string, parse: string -> Option<Json>, o: Outcome, e: ExtractError)
    requires ZipOutcomes(batch, OutputLines(stdout), Pairing(parse)) == ([o], Some(e))
    requires |batch| > 0
    ensures var r := ProcessBatch(batch, Exited(0, stdout, stderr), parse);
      |r| == |batch| + 1 && r[0] == o && r[1].line == batch[0].line && r[1].error.Some?
  {
    var msg := "Batch error: " + Take(ErrorText(e), 100);
    assert ProcessBatch(batch, Exited(0, stdout, stderr), parse) == [o] + AllFail(batch, msg) by {
      ProcessBatchOnRaise(batch, stdout, stderr, parse);
    }
    FailuresAfter(batch, msg, o);
  }

  lemma FailuresAfter(batch: seq<Cert>, msg: string, o: Outcome)
    requires |batch| > 0
    ensures var r := [o] + AllFail(batch, msg);
      |r| == |batch| + 1 && r[0] == o && r[1].line == batch[0].line && r[1].error == Some(msg)
  {
  }

  /** A non-blank line from which a truthy name is extracted gives that name. */
  lemma PairOfName(c: Cert, line: string, parse: string -> Option<Json>, cn: Json)
    requires Strip(line) != "" && ExtractCommonName(parse(line)) == Success(cn) && Truthy(cn)
    ensures PairOutcome(c, line, parse) == Success(Outcome(c.line, c.fingerprint, cn, None))
  {
  }

  /** A non-blank line that does not parse raises the parse error. */
  lemma PairUnparsed(c: Cert, line: string, parse: string -> Option<Json>)
    requires Strip(line) != "" && parse(line).None?
    ensures PairOutcome(c, line, parse) == Failure(ParseError)
  {
  }

  /** Two certificates whose first line succeeds and second raises. */
  lemma ZipTwo(c1: Cert, c2: Cert, l1: string, l2: string, o1: Outcome, e: ExtractError,
               pair: (Cert, string) -> Result<Outcome, ExtractError>)
    requires pair(c1, l1) == Success(o1) && pair(c2, l2) == Failure(e)
    ensures ZipOutcomes([c1, c2], [l1, l2], pair) == ([o1], Some(e))
  {
    assert [c1, c2][1..] == [c2];
    assert [l1, l2][1..] == [l2];
    var rest := ZipOutcomes([c2], [l2], pair);
    assert rest == ([], Some(e));
    assert [o1] + rest.0 == [o1];
  }

  /** When an extraction raises, the results so far are followed by a batch
      error for every certificate of the batch. */
  lemma ProcessBatchOnRaise(batch: seq<Cert>, stdout: string, stderr: string, parse: string -> Option<Json>)
    requires ZipOutcomes(batch, OutputLines(stdout), Pairing(parse)).1.Some?
    ensures var z := ZipOutcomes(batch, OutputLines(stdout), Pairing(parse));
      ProcessBatch(batch, Exited(0, stdout, stderr), parse) ==
        z.0 + AllFail(batch, "Batch error: " + Take(ErrorText(z.1.value), 100))
  {
  }

  /** The result for certificate `i`: its output line's result, the raised
      extraction error for it alone, or a missing-output error. */
  function FixedOutcome(c: Cert, i: nat, lines: seq<string>, parse: string -> Option<Json>): (r: Outcome)
    ensures r.line == c.line && r.fingerprint == c.fingerprint
    ensures i < |lines| && PairOutcome(c, lines[i], parse).Success? ==> r == PairOutcome(c, lines[i], parse).value
  {
    if i < |lines| then
      match PairOutcome(c, lines[i], parse)
      case Success(o) => o
      case Failure(e) => Outcome(c.line, c.fingerprint, Str(""), Some(ErrorText(e)))
    else Outcome(c.line, c.fingerprint, Str(""), Some("Missing JSON output"))
  }

  /** The batch step with one result per certificate whatever the tool prints. */
  function ProcessBatchFixed(batch: seq<Cert>, run: ToolRun, parse: string -> Option<Json>): (r: seq<Outcome>)
    ensures Aligned(batch, r)
  {
    match run
    case Exited(0, stdout, _) =>
      var lines := OutputLines(stdout);
      seq(|batch|, i requires 0 <= i < |batch| => FixedOutcome(batch[i], i, lines, parse))
    case _ => ProcessBatch(batch, run, parse)
  }

  /** Wherever the original already gives one result per certificate, the
      fixed batch step gives the same results. */
  lemma FixedAgreesWhenWellFormed(batch: seq<Cert>, run: ToolRun, parse: string -> Option<Json>)
    requires run.Exited? && run.code == 0 ==> WellFormedRun(batch, run, parse)
    ensures ProcessBatchFixed(batch, run, parse) == ProcessBatch(batch, run, parse)
  {
    if run.Exited? && run.code == 0 {
      var lines := OutputLines(run.stdout);
      var z := ZipOutcomes(batch, lines, Pairing(parse));
      var f := ProcessBatchFixed(batch, run, parse);
      forall i | 0 <= i < |batch|
        ensures f[i] == z.0[i]
      {
        assert PairOutcome(batch[i], lines[i], parse) == Success(z.0[i]);
      }
    }
  }

  // ---------------------------------------------------------------- the CSV

  /** The certificate a line gives: stripped, split at its first comma;
      blank lines and lines without a comma give none. */
  function LineCert(raw: string, num: nat): (r: seq<Cert>)
    ensures |r| <= 1
    ensures |r| == 1 <==> Strip(raw) != "" && ',' in Strip(raw)
    ensures |r| == 1 ==> r[0].line == num && r[0].fingerprint + [','] + r[0].pem == Strip(raw)
    ensures |r| == 1 ==> ',' !in r[0].fingerprint
  {
    var l := Strip(raw);
    if l == "" || ',' !in l then []
    else
      var parts := SplitOnce(l, ',');
      [Cert(num, parts[0], parts[1])]
  }

  predicate Malformed(raw: string)
  {
    Strip(raw) != "" && ',' !in Strip(raw)
  }

  /** A line is blank, malformed, or one certificate split at its first comma. */
  lemma LineKinds(raw: string, num: nat)
    ensures Strip(raw) == "" ==> LineCert(raw, num) == [] && !Malformed(raw)
    ensures Strip(raw) != "" && |SplitOnce(Strip(raw), ',')| != 2 ==> LineCert(raw, num) == [] && Malformed(raw)
    ensures Strip(raw) != "" && |SplitOnce(Strip(raw), ',')| == 2 ==>
      var parts := SplitOnce(Strip(raw), ',');
      LineCert(raw, num) == [Cert(num, parts[0], parts[1])] && !Malformed(raw)
  {
  }

  /** The certificates of all lines, in order, numbered from 1 by line. */
  function Certs(lines: seq<string>): (r: seq<Cert>)
    ensures |r| <= |lines|
  {
    if |lines| == 0 then []
    else Certs(lines[..|lines| - 1]) + LineCert(lines[|lines| - 1], |lines|)
  }

  /** How many lines are non-blank but have no comma. */
  function BadLines(lines: seq<string>): (n: nat)
  {
    if |lines| == 0 then 0
    else BadLines(lines[..|lines| - 1]) + (if Malformed(lines[|lines| - 1]) then 1 else 0)
  }

  /** How many lines are non-blank. */
  function NonBlank(lines: seq<string>): (n: nat)
    ensures n <= |lines|
  {
    if |lines| == 0 then 0
    else NonBlank(lines[..|lines| - 1]) + (if Strip(lines[|lines| - 1]) != "" then 1 else 0)
  }

  /** Every non-blank line is either a certificate or a malformed line. */
  lemma {:induction false} EveryLineCounted(lines: seq<string>)
    ensures |Certs(lines)| + BadLines(lines) == NonBlank(lines)
    decreases |lines|
  {
    if |lines| > 0 {
      EveryLineCounted(lines[..|lines| - 1]);
    }
  }

  function Concat(batches: seq<seq<Cert>>): (r: seq<Cert>)
  {
    if |batches| == 0 then [] else Concat(batches[..|batches| - 1]) + batches[|batches| - 1]
  }

  /** All results, batch after batch. */
  function Outcomes(process: seq<Cert> -> seq<Outcome>, batches: seq<seq<Cert>>): (r: seq<Outcome>)
  {
    if |batches| == 0 then []
    else Outcomes(process, batches[..|batches| - 1]) + process(batches[|batches| - 1])
  }

  /** With one result per certificate, there are as many results as certificates. */
  lemma {:induction false} OneResultEach(process: seq<Cert> -> seq<Outcome>, batches: seq<seq<Cert>>)
    requires forall b :: |process(b)| == |b|
    ensures |Outcomes(process, batches)| == |Concat(batches)|
    decreases |batches|
  {
    if |batches| > 0 {
      OneResultEach(process, batches[..|batches| - 1]);
    }
  }

  /** A result whose name is written. */
  predicate HasName(o: Outcome)
  {
    Truthy(o.cn)
  }

  function NameOfOutcome(o: Outcome): Json
  {
    o.cn
  }

  /** The names written, in order: the truthy names of the results, one
      per result that has one. */
  function Written(outs: seq<Outcome>): (r: seq<Json>)
    ensures |r| == |Where(outs, HasName)|
    ensures forall i :: 0 <= i < |r| ==> Truthy(r[i])
  {
    if |outs| == 0 then []
    else
      WhereSnoc(outs, HasName);
      Written(outs[..|outs| - 1]) + (if Truthy(outs[|outs| - 1].cn) then [outs[|outs| - 1].cn] else [])
  }

  /** The names written are the names of the results that have one,
      collected in the order of the results. */
  lemma {:induction false} WrittenIsCollected(outs: seq<Outcome>)
    ensures Written(outs) == Collect(outs, HasName, NameOfOutcome)
  {
    if |outs| > 0 {
      var n := |outs| - 1;
      WrittenIsCollected(outs[..n]);
      assert outs[..n] + [outs[n]] == outs;
      CollectAppend(outs[..n], [outs[n]], HasName, NameOfOutcome);
      CollectCons([outs[n]], outs[n], [], HasName, NameOfOutcome);
    }
  }

  /** A name is written exactly when some result carries it as a truthy name. */
  lemma WrittenMembers(outs: seq<Outcome>, cn: Json)
    ensures cn in Written(outs) <==> exists j :: 0 <= j < |outs| && Truthy(outs[j].cn) && cn == outs[j].cn
  {
    WrittenIsCollected(outs);
    CollectMembers(outs, HasName, NameOfOutcome, cn);
  }

  lemma WrittenAppend(a: seq<Outcome>, b: seq<Outcome>)
    ensures Written(a + b) == Written(a) + Written(b)
  {
    WrittenIsCollected(a + b);
    WrittenIsCollected(a);
    WrittenIsCollected(b);
    CollectAppend(a, b, HasName, NameOfOutcome);
  }

  /** One output row: the running index and the name. */
  datatype CnRow = CnRow(index: nat, cn: Json)

  /** Names numbered consecutively from `start`. */
  function NumberFrom(start: nat, cns: seq<Json>): (r: seq<CnRow>)
    ensures |r| == |cns|
    ensures forall i :: 0 <= i < |r| ==> r[i] == CnRow(start + i, cns[i])
  {
    seq(|cns|, i requires 0 <= i < |cns| => CnRow(start + i, cns[i]))
  }

  lemma NumberFromAppend(start: nat, a: seq<Json>, b: seq<Json>)
    ensures NumberFrom(start, a + b) == NumberFrom(start, a) + NumberFrom(start + |a|, b)
  {
    var l, r := NumberFrom(start, a + b), NumberFrom(start, a) + NumberFrom(start + |a|, b);
    forall i | 0 <= i < |l|
      ensures l[i] == r[i]
    {
      if i >= |a| {
        assert (a + b)[i] == b[i - |a|];
      }
    }
  }

  /** Writing one batch's results: each truthy name is written under the
      next index and counted as a success, every other result as a failure. */
  method Emit(rows: seq<CnRow>, outs: seq<Outcome>) returns (r: seq<CnRow>, ok: nat, bad: nat)
    ensures r == rows + NumberFrom(|rows| + 1, Written(outs))
    ensures ok == |Written(outs)| && ok + bad == |outs|
  {
    r, ok, bad := rows, 0, 0;
    var next := |rows| + 1;
    var j := 0;
    while j < |outs|
      invariant j <= |outs|
      invariant r == rows + NumberFrom(|rows| + 1, Written(outs[..j]))
      invariant next == |r| + 1
      invariant ok == |Written(outs[..j])| && ok + bad == j
    {
      assert outs[..j + 1][..j] == outs[..j];
      var w := Written(outs[..j]);
      if Truthy(outs[j].cn) {
        NumberFromAppend(|rows| + 1, w, [outs[j].cn]);
        r := r + [CnRow(next, outs[j].cn)];
        next := next + 1;
        ok := ok + 1;
      } else {
        bad := bad + 1;
      }
      j := j + 1;
    }
    assert outs[..j] == outs;
  }

  /** The batch size actually used: a size below 1 sends every certificate alone. */
  function Limit(batchSize: int): (r: nat)
    ensures r >= 1
    ensures batchSize >= 1 ==> r == batchSize
  {
    if batchSize < 1 then 1 else batchSize
  }

  lemma CertsSnoc(lines: seq<string>, k: nat)
    requires k < |lines|
    ensures Certs(lines[..k + 1]) == Certs(lines[..k]) + LineCert(lines[k], k + 1)
    ensures BadLines(lines[..k + 1]) == BadLines(lines[..k]) + (if Malformed(lines[k]) then 1 else 0)
  {
    assert lines[..k + 1][..k] == lines[..k];
  }

  lemma FlushStep(process: seq<Cert> -> seq<Outcome>, batches: seq<seq<Cert>>, b: seq<Cert>)
    ensures Concat(batches + [b]) == Concat(batches) + b
    ensures Outcomes(process, batches + [b]) == Outcomes(process, batches) + process(b)
    ensures Written(Outcomes(process, batches + [b])) == Written(Outcomes(process, batches)) + Written(process(b))
  {
    assert (batches + [b])[..|batches|] == batches;
    WrittenAppend(Outcomes(process, batches), process(b));
  }

  /** The rows and counters written so far agree with the batches sent,
      `bad` lines having been counted as failures before any batch. */
  predicate Consistent(process: seq<Cert> -> seq<Outcome>, rows: seq<CnRow>, success: nat, failed: nat,
                       batches: seq<seq<Cert>>, bad: nat)
  {
    && rows == NumberFrom(1, Written(Outcomes(process, batches)))
    && success == |rows|
    && success + failed == bad + |Outcomes(process, batches)|
  }

  /** Sending one batch and writing its results. */
  method Flush(process: seq<Cert> -> seq<Outcome>, rows: seq<CnRow>, success: nat, failed: nat,
               batches: seq<seq<Cert>>, batch: seq<Cert>, ghost bad: nat)
    returns (rows': seq<CnRow>, success': nat, failed': nat, batches': seq<seq<Cert>>)
    requires Consistent(process, rows, success, failed, batches, bad)
    ensures batches' == batches + [batch]
    ensures Consistent(process, rows', success', failed', batches', bad)
  {
    FlushStep(process, batches, batch);
    NumberFromAppend(1, Written(Outcomes(process, batches)), Written(process(batch)));
    var ok, nok;
    rows', ok, nok := Emit(rows, process(batch));
    success', failed' := success + ok, failed + nok;
    batches' := batches + [batch];
  }

  /** What holds after the first `k` lines: the batches sent and the batch
      being filled hold their certificates in order, every batch sent is
      full, and the rows and counters agree with the batches sent. */
  predicate Progress(lines: seq<string>, k: nat, batchSize: int, process: seq<Cert> -> seq<Outcome>,
                     rows: seq<CnRow>, success: nat, failed: nat, batches: seq<seq<Cert>>, batch: seq<Cert>)
    requires k <= |lines|
  {
    && Concat(batches) + batch == Certs(lines[..k])
    && |batch| < Limit(batchSize)
    && (forall i :: 0 <= i < |batches| ==> |batches[i]| == Limit(batchSize))
    && Consistent(process, rows, success, failed, batches, BadLines(lines[..k]))
  }

  /** Full batches followed by one more batch of at most the limit. */
  lemma BatchSizes(batches: seq<seq<Cert>>, batch: seq<Cert>, limit: nat)
    requires forall i :: 0 <= i < |batches| ==> |batches[i]| == limit
    requires 0 < |batch| <= limit
    ensures forall i :: 0 <= i < |batches + [batch]| ==> 0 < |(batches + [batch])[i]| <= limit
    ensures forall i :: 0 <= i < |batches + [batch]| - 1 ==> |(batches + [batch])[i]| == limit
  {
  }

  /** A blank line changes nothing. */
  lemma BlankLine(lines: seq<string>, k: nat, batchSize: int, process: seq<Cert> -> seq<Outcome>,
                  rows: seq<CnRow>, success: nat, failed: nat, batches: seq<seq<Cert>>, batch: seq<Cert>)
    requires k < |lines| && Strip(lines[k]) == ""
    requires Progress(lines, k, batchSize, process, rows, success, failed, batches, batch)
    ensures Progress(lines, k + 1, batchSize, process, rows, success, failed, batches, batch)
  {
    CertsSnoc(lines, k);
    LineKinds(lines[k], k + 1);
  }

  /** A non-blank line without a comma is one more failure. */
  lemma MalformedLine(lines: seq<string>, k: nat, batchSize: int, process: seq<Cert> -> seq<Outcome>,
                      rows: seq<CnRow>, success: nat, failed: nat, batches: seq<seq<Cert>>, batch: seq<Cert>)
    requires k < |lines| && Strip(lines[k]) != "" && |SplitOnce(Strip(lines[k]), ',')| != 2
    requires Progress(lines, k, batchSize, process, rows, success, failed, batches, batch)
    ensures Progress(lines, k + 1, batchSize, process, rows, success, failed + 1, batches, batch)
  {
    CertsSnoc(lines, k);
    LineKinds(lines[k], k + 1);
  }

  /** A line with a comma adds its certificate to the batch being filled. */
  lemma CertLine(lines: seq<string>, k: nat, batches: seq<seq<Cert>>, batch: seq<Cert>)
    requires k < |lines| && Strip(lines[k]) != "" && |SplitOnce(Strip(lines[k]), ',')| == 2
    requires Concat(batches) + batch == Certs(lines[..k])
    ensures var parts := SplitOnce(Strip(lines[k]), ',');
      Concat(batches) + (batch + [Cert(k + 1, parts[0], parts[1])]) == Certs(lines[..k + 1])
    ensures BadLines(lines[..k + 1]) == BadLines(lines[..k])
  {
    var parts := SplitOnce(Strip(lines[k]), ',');
    var c := Cert(k + 1, parts[0], parts[1]);
    assert Certs(lines[..k + 1]) == Certs(lines[..k]) + [c] && BadLines(lines[..k + 1]) == BadLines(lines[..k]) by {
      LineKinds(lines[k], k + 1);
      CertsSnoc(lines, k);
    }
    Snoc(Concat(batches), batch, c);
  }

  lemma Snoc<T>(a: seq<T>, b: seq<T>, c: T)
    ensures a + (b + [c]) == (a + b) + [c]
  {
  }

  /** The loop body for line `k`. */
  method ReadLine(lines: seq<string>, k: nat, batchSize: int, process: seq<Cert> -> seq<Outcome>,
                  rows: seq<CnRow>, success: nat, failed: nat, batches: seq<seq<Cert>>, batch: seq<Cert>)
    returns (rows': seq<CnRow>, success': nat, failed': nat, batches': seq<seq<Cert>>, batch': seq<Cert>)
    requires k < |lines|
    requires Progress(lines, k, batchSize, process, rows, success, failed, batches, batch)
    ensures Progress(lines, k + 1, batchSize, process, rows', success', failed', batches', batch')
  {
    rows', success', failed', batches', batch' := rows, success, failed, batches, batch;
    var line := Strip(lines[k]);
    if line == "" {
      BlankLine(lines, k, batchSize, process, rows, success, failed, batches, batch);
      return;
    }
    var parts := SplitOnce(line, ',');
    if |parts| != 2 {
      MalformedLine(lines, k, batchSize, process, rows, success, failed, batches, batch);
      failed' := failed + 1;
      return;
    }
    CertLine(lines, k, batches, batch);
    rows', success', failed', batches', batch' :=
      ReadCert(lines, k, batchSize, process, rows, success, failed, batches, batch, Cert(k + 1, parts[0], parts[1]));
  }

  /** Line `k` is certificate `c`: it joins the batch, and a full batch is sent. */
  method ReadCert(lines: seq<string>, k: nat, batchSize: int, process: seq<Cert> -> seq<Outcome>,
                  rows: seq<CnRow>, success: nat, failed: nat, batches: seq<seq<Cert>>, batch: seq<Cert>, c: Cert)
    returns (rows': seq<CnRow>, success': nat, failed': nat, batches': seq<seq<Cert>>, batch': seq<Cert>)
    requires k < |lines|
    requires Concat(batches) + (batch + [c]) == Certs(lines[..k + 1])
    requires BadLines(lines[..k + 1]) == BadLines(lines[..k])
    requires Progress(lines, k, batchSize, process, rows, success, failed, batches, batch)
    ensures Progress(lines, k + 1, batchSize, process, rows', success', failed', batches', batch')
  {
    batch' := batch + [c];
    if |batch'| >= batchSize {
      rows', success', failed', batches' := Flush(process, rows, success, failed, batches, batch', BadLines(lines[..k + 1]));
      FlushStep(process, batches, batch');
      BatchSizes(batches, batch', Limit(batchSize));
      batch' := [];
    } else {
      rows', success', failed', batches' := rows, success, failed, batches;
    }
  }

  /** The loop over the lines, up to the last partial batch. */
  method ReadAll(lines: seq<string>, batchSize: int, process: seq<Cert> -> seq<Outcome>)
    returns (rows: seq<CnRow>, success: nat, failed: nat, batches: seq<seq<Cert>>, batch: seq<Cert>)
    ensures Progress(lines, |lines|, batchSize, process, rows, success, failed, batches, batch)
  {
    rows, success, failed, batches, batch := [], 0, 0, [], [];
    var k := 0;
    while k < |lines|
      invariant k <= |lines|
      invariant Progress(lines, k, batchSize, process, rows, success, failed, batches, batch)
    {
      rows, success, failed, batches, batch := ReadLine(lines, k, batchSize, process, rows, success, failed, batches, batch);
      k := k + 1;
    }
  }

  /** `process_csv_extract_cn_optimized`: every line with a comma becomes a
      certificate of the current batch; a full batch, and the last partial
      one, is sent to `process` and its results written. Returns the rows
      written, the two counters and the batches sent. */
  method ProcessCsv(lines: seq<string>, batchSize: int, process: seq<Cert> -> seq<Outcome>)
    returns (rows: seq<CnRow>, success: nat, failed: nat, batches: seq<seq<Cert>>)
    ensures Concat(batches) == Certs(lines)
    ensures forall i :: 0 <= i < |batches| ==> 0 < |batches[i]| <= Limit(batchSize)
    ensures forall i :: 0 <= i < |batches| - 1 ==> |batches[i]| == Limit(batchSize)
    ensures rows == NumberFrom(1, Written(Outcomes(process, batches)))
    ensures success == |rows|
    ensures success + failed == BadLines(lines) + |Outcomes(process, batches)|
    ensures (forall b :: |process(b)| == |b|) ==> success + failed == NonBlank(lines)
  {
    var batch;
    rows, success, failed, batches, batch := ReadAll(lines, batchSize, process);
    assert lines[..|lines|] == lines;
    if |batch| > 0 {
      FlushStep(process, batches, batch);
      BatchSizes(batches, batch, Limit(batchSize));
      rows, success, failed, batches := Flush(process, rows, success, failed, batches, batch, BadLines(lines));
    }
    if forall b :: |process(b)| == |b| {
      OneResultEach(process, batches);
      EveryLineCounted(lines);
    }
  }

  /** With the fixed batch step every non-blank line is counted exactly
      once, as a success or a failure. */
  lemma FixedStepOneResultEach(run: seq<Cert> -> ToolRun, parse: string -> Option<Json>)
    ensures forall b :: |ProcessBatchFixed(b, run(b), parse)| == |b|
  {
  }
}

=== FILE: filter_query.dfy ===
/** The overview dashboard's filter builder: each helper adds one condition
    to a MongoDB filter document (a fresh one when given `None`), and the
    base filter chains the four of them. The current time and the time
    thirty days on are ISO strings passed in. */
module FilterQuery {

  import opened Wrappers
  import opened JsonTree
  import opened Ordering

  const END_KEY := "parsed.validity.end"
  const ISSUER_KEY := "parsed.issuer.organization.0"
  const COUNTRY_KEY := "parsed.subject.country.0"
  const LEVEL_KEY := "parsed.validation_level"

  /** A keyword argument that Python reads as true: given and not empty. */
  predicate Given(a: Option<string>)
  {
    a.Some? && a.value != ""
  }

  /** The accumulator a helper works on: a fresh `{}` in place of `None`. */
  function Acc(acc: Option<Doc>): (r: Doc)
    ensures acc.None? ==> r == map[]
    ensures acc.Some? ==> r == acc.value
  {
    acc.UnwrapOr(map[])
  }

  // ---------------------------------------------------------------- string range conditions

  /** One comparison operator of a condition on a string field, against the
      stored value `v` (MongoDB compares strings code point by code point). */
  predicate OpHolds(op: string, bound: Json, v: string)
  {
    bound.Str? &&
    if op == "$gte" then !Less(v, bound.s)
    else if op == "$gt" then Less(bound.s, v)
    else if op == "$lte" then !Less(bound.s, v)
    else if op == "$lt" then Less(v, bound.s)
    else false
  }

  /** A stored string `v` meets a condition document such as `{"$gte": a, "$lt": b}`
      when every operator in it holds. */
  predicate Holds(cond: Json, v: string)
  {
    cond.Obj? && forall op :: op in cond.fields ==> OpHolds(op, cond.fields[op], v)
  }

  /** The statuses the filter knows. */
  predicate KnownStatus(status: Option<string>)
  {
    status == Some("active") || status == Some("expired") || status == Some("expiring_soon")
  }

  /** The condition `filter_status` writes for a known status. */
  function StatusCondition(status: string, now: string, soon: string): (r: Json)
    ensures r.Obj?
    ensures status == "active" ==> forall v :: Holds(r, v) <==> !Less(v, now)
    ensures status == "expired" ==> forall v :: Holds(r, v) <==> Less(v, now)
    ensures status == "expiring_soon" ==> forall v :: Holds(r, v) <==> !Less(v, now) && !Less(soon, v)
  {
    if status == "active" then
      var c := map["$gte" := Str(now)];
      assert forall v :: Holds(Obj(c), v) <==> OpHolds("$gte", c["$gte"], v);
      Obj(c)
    else if status == "expired" then
      var c := map["$lt" := Str(now)];
      assert forall v :: Holds(Obj(c), v) <==> OpHolds("$lt", c["$lt"], v);
      Obj(c)
    else
      var c := map["$gte" := Str(now), "$lte" := Str(soon)];
      assert forall v :: Holds(Obj(c), v) <==> OpHolds("$gte", c["$gte"], v) && OpHolds("$lte", c["$lte"], v);
      Obj(c)
  }

  /** For any stored end date exactly one of the `active` and `expired`
      conditions holds. */
  lemma ActiveExpiredComplementary(now: string, soon: string, v: string)
    ensures Holds(StatusCondition("active", now, soon), v) != Holds(StatusCondition("expired", now, soon), v)
  {
  }

  /** Expiring soon is a part of active. */
  lemma ExpiringSoonIsActive(now: string, soon: string, v: string)
    requires Holds(StatusCondition("expiring_soon", now, soon), v)
    ensures Holds(StatusCondition("active", now, soon), v)
  {
  }

  // ---------------------------------------------------------------- helpers

  /** Everything but `key` is as in `before`. */
  ghost predicate OthersUnchanged(before: Doc, after: Doc, key: string)
  {
    forall k :: k != key ==> (k in after <==> k in before) && (k in before ==> after[k] == before[k])
  }

  /** `filter_status`: a known status sets the end-date condition, any other
      value leaves the document as it was. */
  function FilterStatus(status: Option<string>, acc: Option<Doc>, now: string, soon: string): (r: Doc)
    ensures OthersUnchanged(Acc(acc), r, END_KEY)
    ensures KnownStatus(status) ==> END_KEY in r && r[END_KEY] == StatusCondition(status.value, now, soon)
    ensures !KnownStatus(status) ==> r == Acc(acc)
  {
    var base := Acc(acc);
    if KnownStatus(status) then base[END_KEY := StatusCondition(status.value, now, soon)] else base
  }

  /** The shape shared by the issuer, country and level helpers: a truthy
      argument sets `key` to it, anything else changes nothing. */
  function SetIfGiven(key: string, arg: Option<string>, acc: Option<Doc>): (r: Doc)
    ensures OthersUnchanged(Acc(acc), r, key)
    ensures Given(arg) ==> key in r && r[key] == Str(arg.value)
    ensures !Given(arg) ==> r == Acc(acc)
  {
    var base := Acc(acc);
    if Given(arg) then base[key := Str(arg.value)] else base
  }

  /** `filter_issuer` */
  function FilterIssuer(issuer: Option<string>, acc: Option<Doc>): (r: Doc)
    ensures OthersUnchanged(Acc(acc), r, ISSUER_KEY)
    ensures Given(issuer) ==> ISSUER_KEY in r && r[ISSUER_KEY] == Str(issuer.value)
    ensures !Given(issuer) ==> r == Acc(acc)
  {
    SetIfGiven(ISSUER_KEY, issuer, acc)
  }

  /** `filter_country` */
  function FilterCountry(country: Option<string>, acc: Option<Doc>): (r: Doc)
    ensures OthersUnchanged(Acc(acc), r, COUNTRY_KEY)
    ensures Given(country) ==> COUNTRY_KEY in r && r[COUNTRY_KEY] == Str(country.value)
    ensures !Given(country) ==> r == Acc(acc)
  {
    SetIfGiven(COUNTRY_KEY, country, acc)
  }

  /** `filter_validation_level` */
  function FilterValidationLevel(level: Option<string>, acc: Option<Doc>): (r: Doc)
    ensures OthersUnchanged(Acc(acc), r, LEVEL_KEY)
    ensures Given(level) ==> LEVEL_KEY in r && r[LEVEL_KEY] == Str(level.value)
    ensures !Given(level) ==> r == Acc(acc)
  {
    SetIfGiven(LEVEL_KEY, level, acc)
  }

  /** `_build_base_filter`: the four helpers chained from `{}`. */
  function BuildBaseFilter(status: Option<string>, issuer: Option<string>, country: Option<string>,
                           level: Option<string>, now: string, soon: string): (r: Doc)
    ensures r.Keys == (if KnownStatus(status) then {END_KEY} else {})
      + (if Given(issuer) then {ISSUER_KEY} else {})
      + (if Given(country) then {COUNTRY_KEY} else {})
      + (if Given(level) then {LEVEL_KEY} else {})
    ensures KnownStatus(status) ==> r[END_KEY] == StatusCondition(status.value, now, soon)
    ensures Given(issuer) ==> r[ISSUER_KEY] == Str(issuer.value)
    ensures Given(country) ==> r[COUNTRY_KEY] == Str(country.value)
    ensures Given(level) ==> r[LEVEL_KEY] == Str(level.value)
  {
    var f1 := FilterStatus(status, Some(map[]), now, soon);
    var f2 := FilterIssuer(issuer, Some(f1));
    var f3 := FilterCountry(country, Some(f2));
    FilterValidationLevel(level, Some(f3))
  }

  /** With no argument the base filter matches everything. */
  lemma NoArgumentsNoFilter(now: string, soon: string)
    ensures BuildBaseFilter(None, None, None, None, now, soon) == map[]
  {
    var r := BuildBaseFilter(None, None, None, None, now, soon);
    assert r.Keys == {};
  }
}

=== FILE: hash_patterns.dfy ===
/** The signature-hash filter of the certificate export: the regular
    expression it matches `parsed.signature_algorithm.name` against. */
module HashPatterns {

  import opened PyStr

  /** The regular expression for a hash name: the known names have their
      own; any other drops its hyphens. */
  function HashPattern(h: string): (r: string)
    ensures |r| >= 1 && r[0] == '^'
    ensures h !in {"SHA-256", "SHA-384", "SHA-512", "SHA-1", "MD5"} ==> r == "^" + RemoveChar(h, '-')
  {
    if h == "SHA-256" then "^SHA256"
    else if h == "SHA-384" then "^SHA384"
    else if h == "SHA-512" then "^SHA512"
    else if h == "SHA-1" then "^SHA1|^SHA-1"
    else if h == "MD5" then "^MD5"
    else "^" + RemoveChar(h, '-')
  }

  /** The table only spells out the default rule for the SHA-2 names... */
  lemma Sha2Pattern(bits: string)
    requires bits == "256" || bits == "384" || bits == "512"
    ensures HashPattern("SHA-" + bits) == "^" + RemoveChar("SHA-" + bits, '-')
  {
    RemoveShaHyphen(bits);
    assert HashPattern("SHA-" + bits) == "^SHA" + bits by {
      if bits == "256" {
        assert "SHA-" + bits == "SHA-256";
      } else if bits == "384" {
        assert "SHA-" + bits == "SHA-384";
      } else {
        assert "SHA-" + bits == "SHA-512";
      }
    }
  }

  /** ...and for MD5... */
  lemma Md5Pattern()
    ensures HashPattern("MD5") == "^" + RemoveChar("MD5", '-')
  {
    RemoveFree("MD5");
  }

  /** ...except SHA-1, whose pattern also matches the name written with its hyphen. */
  lemma Sha1Pattern()
    ensures HashPattern("SHA-1") == "^" + RemoveChar("SHA-1", '-') + "|^SHA-1"
  {
    RemoveShaHyphen("1");
  }

  lemma {:induction false} RemoveFree(s: string)
    requires '-' !in s
    ensures RemoveChar(s, '-') == s
  {
    if |s| > 0 {
      RemoveFree(s[1..]);
      assert [s[0]] + s[1..] == s;
    }
  }

  lemma {:induction false} RemoveConcat(a: string, b: string)
    ensures RemoveChar(a + b, '-') == RemoveChar(a, '-') + RemoveChar(b, '-')
    decreases |a|
  {
    if |a| > 0 {
      RemoveConcat(a[1..], b);
      assert (a + b)[1..] == a[1..] + b;
    } else {
      assert a + b == b;
    }
  }

  lemma RemoveShaHyphen(bits: string)
    requires '-' !in bits
    ensures RemoveChar("SHA-" + bits, '-') == "SHA" + bits
  {
    RemoveFree(bits);
    RemoveFree("SHA");
    RemoveConcat("SHA", "-" + bits);
    assert ("-" + bits)[1..] == bits;
    assert RemoveChar("-" + bits, '-') == RemoveChar(bits, '-');
    assert "SHA" + ("-" + bits) == "SHA-" + bits;
  }
}

=== FILE: json.dfy ===
/** Documents as the Python code sees them after PyMongo or `json.loads`:
    a tree of null, booleans, integers, strings, lists and dicts. */
module JsonTree {

  import opened Wrappers

  datatype Json =
    | Null
    | Bool(b: bool)
    | Num(n: int)
    | Str(s: string)
    | Arr(items: seq<Json>)
    | Obj(fields: map<string, Json>)

  /** A dict: a MongoDB document, a filter, or a sub-document. */
  type Doc = map<string, Json>

  /** Python truthiness: `None`, `False`, `0`, and empty strings, lists and dicts are false. */
  predicate Truthy(j: Json)
  {
    match j
    case Null => false
    case Bool(b) => b
    case Num(n) => n != 0
    case Str(s) => |s| > 0
    case Arr(xs) => |xs| > 0
    case Obj(m) => |m| > 0
  }

  /** The entries of a value read as a dict; anything else reads as `{}`. */
  function Fields(j: Json): (r: Doc)
    ensures j.Obj? ==> r == j.fields
    ensures !j.Obj? ==> r == map[]
  {
    if j.Obj? then j.fields else map[]
  }

  /** `d.get(key, default)` */
  function Get(d: Doc, key: string, default: Json): (r: Json)
    ensures key in d ==> r == d[key]
    ensures key !in d ==> r == default
  {
    if key in d then d[key] else default
  }

  /** `d.get(key, {})`, read as a dict. */
  function Sub(d: Doc, key: string): (r: Doc)
    ensures key in d && d[key].Obj? ==> r == d[key].fields
    ensures key !in d || !d[key].Obj? ==> r == map[]
  {
    Fields(Get(d, key, Obj(map[])))
  }

  /** The string at `key`, if the entry is a string. */
  function GetStr(d: Doc, key: string): (r: Option<string>)
    ensures r.Some? <==> key in d && d[key].Str?
    ensures r.Some? ==> d[key] == Str(r.value)
  {
    if key in d && d[key].Str? then Some(d[key].s) else None
  }
}

=== FILE: mongo_match.dfy ===
/** What a MongoDB filter document selects, for the operators the backends
    write: `$and`, `$or`, the four comparisons, `$in`, `$exists`,
    `$elemMatch` over operators, and equality with a plain value. A stored
    document is given by its fields under their dotted paths; a path that
    is absent is a missing field. Comparisons hold only between values of
    one type: strings code point by code point, integers by value. */
module MongoMatch {

  import opened Wrappers
  import opened JsonTree
  import opened Ordering

  /** A stored document: each field under its dotted path. */
  type Rec = map<string, Json>

  predicate IsComparison(op: string)
  {
    op == "$gt" || op == "$gte" || op == "$lt" || op == "$lte"
  }

  /** `v op bound` for one of the four comparisons. */
  predicate Compare(op: string, v: Json, bound: Json)
  {
    if v.Str? && bound.Str? then
      if op == "$gt" then Less(bound.s, v.s)
      else if op == "$gte" then !Less(v.s, bound.s)
      else if op == "$lt" then Less(v.s, bound.s)
      else op == "$lte" && !Less(bound.s, v.s)
    else if v.Num? && bound.Num? then
      if op == "$gt" then v.n > bound.n
      else if op == "$gte" then v.n >= bound.n
      else if op == "$lt" then v.n < bound.n
      else op == "$lte" && v.n <= bound.n
    else false
  }

  /** `$in`: the value, or an element of an array value, is in the list. */
  predicate InList(v: Json, list: seq<Json>)
  {
    v in list || (v.Arr? && exists x :: x in v.items && x in list)
  }

  /** One operator, other than `$exists` and `$elemMatch`, on a present value. */
  predicate OpOnValue(op: string, arg: Json, v: Json)
  {
    if IsComparison(op) then Compare(op, v, arg)
    else op == "$in" && arg.Arr? && InList(v, arg.items)
  }

  /** One operator on the field's value; `None` is a missing field, which
      only `$exists: false` and a `$in` list holding `null` select. */
  predicate OpHolds(op: string, arg: Json, v: Option<Json>)
  {
    if op == "$exists" then arg.Bool? && v.Some? == arg.b
    else if op == "$elemMatch" then
      && v.Some? && v.value.Arr? && arg.Obj?
      && exists x :: x in v.value.items && forall o :: o in arg.fields ==> OpOnValue(o, arg.fields[o], x)
    else if v.None? then op == "$in" && arg.Arr? && Null in arg.items
    else OpOnValue(op, arg, v.value)
  }

  /** A condition document made of operators only. */
  predicate IsOperators(cond: Json)
  {
    cond.Obj? && |cond.fields| > 0 && forall op :: op in cond.fields ==> |op| > 0 && op[0] == '$'
  }

  /** The value at `path`, if the field is there. */
  function At(rec: Rec, path: string): (r: Option<Json>)
    ensures r.Some? <==> path in rec
    ensures r.Some? ==> r.value == rec[path]
  {
    if path in rec then Some(rec[path]) else None
  }

  /** `{path: cond}`: every operator of an operator document holds, or the
      value equals `cond` (an array value: one of its elements does). */
  predicate FieldHolds(rec: Rec, path: string, cond: Json)
  {
    if IsOperators(cond) then forall op :: op in cond.fields ==> OpHolds(op, cond.fields[op], At(rec, path))
    else if path in rec then rec[path] == cond || (rec[path].Arr? && cond in rec[path].items)
    else cond == Null
  }

  /** The stored document `rec` is selected by the filter `f`. */
  predicate Matches(f: Json, rec: Rec)
    decreases f
  {
    f.Obj? && forall k :: k in f.fields ==>
      if k == "$and" then f.fields[k].Arr? && forall x :: x in f.fields[k].items ==> Matches(x, rec)
      else if k == "$or" then f.fields[k].Arr? && exists x :: x in f.fields[k].items && Matches(x, rec)
      else FieldHolds(rec, k, f.fields[k])
  }

  /** The empty filter selects every document. */
  lemma MatchesEmpty(rec: Rec)
    ensures Matches(Obj(map[]), rec)
  {
  }

  /** `{"$and": clauses}` selects exactly what every clause selects. */
  lemma MatchesAnd(clauses: seq<Json>, rec: Rec)
    ensures Matches(Obj(map["$and" := Arr(clauses)]), rec)
        <==> forall i :: 0 <= i < |clauses| ==> Matches(clauses[i], rec)
  {
    var f := Obj(map["$and" := Arr(clauses)]);
    assert f.fields.Keys == {"$and"};
    if forall i :: 0 <= i < |clauses| ==> Matches(clauses[i], rec) {
      assert forall x :: x in clauses ==> Matches(x, rec);
    }
  }

  /** `{"$or": clauses}` selects exactly what some clause selects. */
  lemma MatchesOr(clauses: seq<Json>, rec: Rec)
    ensures Matches(Obj(map["$or" := Arr(clauses)]), rec)
        <==> exists i :: 0 <= i < |clauses| && Matches(clauses[i], rec)
  {
    var f := Obj(map["$or" := Arr(clauses)]);
    assert f.fields.Keys == {"$or"};
    if Matches(f, rec) {
      var x :| x in clauses && Matches(x, rec);
      var i :| 0 <= i < |clauses| && clauses[i] == x;
    }
  }

  /** `{path: {op: bound}}` for a comparison selects exactly the documents
      whose field is there and compares so. */
  lemma MatchesCompare(path: string, op: string, bound: Json, rec: Rec)
    requires IsComparison(op) && path != "$and" && path != "$or"
    ensures Matches(Obj(map[path := Obj(map[op := bound])]), rec)
        <==> path in rec && Compare(op, rec[path], bound)
  {
    var cond := Obj(map[op := bound]);
    assert cond.fields.Keys == {op};
    assert IsOperators(cond);
    assert Obj(map[path := cond]).fields.Keys == {path};
  }

  /** `{path: {"$exists": b}}` selects exactly the documents that have
      the field (for `true`) or lack it (for `false`). */
  lemma MatchesExists(path: string, b: bool, rec: Rec)
    requires path != "$and" && path != "$or"
    ensures Matches(Obj(map[path := Obj(map["$exists" := Bool(b)])]), rec) <==> (path in rec) == b
  {
    var cond := Obj(map["$exists" := Bool(b)]);
    assert cond.fields.Keys == {"$exists"};
    assert IsOperators(cond);
    assert Obj(map[path := cond]).fields.Keys == {path};
  }

  /** `{path: text}` selects exactly the documents whose field is that text
      or an array holding it. */
  lemma MatchesEquals(path: string, text: string, rec: Rec)
    requires path != "$and" && path != "$or"
    ensures Matches(Obj(map[path := Str(text)]), rec)
        <==> path in rec && (rec[path] == Str(text) || (rec[path].Arr? && Str(text) in rec[path].items))
  {
    assert Obj(map[path := Str(text)]).fields.Keys == {path};
  }

  /** Two conditions on one field under `$and` select exactly the
      documents whose field meets both. */
  lemma MatchesBoth(path: string, op1: string, b1: Json, op2: string, b2: Json, rec: Rec)
    requires IsComparison(op1) && IsComparison(op2) && path != "$and" && path != "$or"
    ensures Matches(Obj(map["$and" := Arr([Obj(map[path := Obj(map[op1 := b1])]), Obj(map[path := Obj(map[op2 := b2])])])]), rec)
        <==> path in rec && Compare(op1, rec[path], b1) && Compare(op2, rec[path], b2)
  {
    var c1 := Obj(map[path := Obj(map[op1 := b1])]);
    var c2 := Obj(map[path := Obj(map[op2 := b2])]);
    MatchesAnd([c1, c2], rec);
    assert Matches(Obj(map["$and" := Arr([c1, c2])]), rec) <==> Matches(c1, rec) && Matches(c2, rec) by {
      assert [c1, c2][0] == c1 && [c1, c2][1] == c2;
    }
    MatchesCompare(path, op1, b1, rec);
    MatchesCompare(path, op2, b2, rec);
  }

  /** A text equality on one field and a comparison on another under
      `$and` select exactly the documents meeting both. */
  lemma MatchesEqualsAndCompare(p1: string, text: string, p2: string, op: string, b: Json, rec: Rec)
    requires IsComparison(op) && p1 != "$and" && p1 != "$or" && p2 != "$and" && p2 != "$or"
    ensures Matches(Obj(map["$and" := Arr([Obj(map[p1 := Str(text)]), Obj(map[p2 := Obj(map[op := b])])])]), rec)
        <==> && p1 in rec && (rec[p1] == Str(text) || (rec[p1].Arr? && Str(text) in rec[p1].items))
             && p2 in rec && Compare(op, rec[p2], b)
  {
    var c1 := Obj(map[p1 := Str(text)]);
    var c2 := Obj(map[p2 := Obj(map[op := b])]);
    MatchesAnd([c1, c2], rec);
    assert Matches(Obj(map["$and" := Arr([c1, c2])]), rec) <==> Matches(c1, rec) && Matches(c2, rec) by {
      assert [c1, c2][0] == c1 && [c1, c2][1] == c2;
    }
    MatchesEquals(p1, text, rec);
    MatchesCompare(p2, op, b, rec);
  }

  /** `{path: {"$in": list}}` selects the documents whose field, or one of
      its array elements, is in the list; a missing field only when the
      list holds `null`. */
  lemma MatchesIn(path: string, list: seq<Json>, rec: Rec)
    requires path != "$and" && path != "$or"
    ensures Matches(Obj(map[path := Obj(map["$in" := Arr(list)])]), rec)
        <==> if path in rec then InList(rec[path], list) else Null in list
  {
    var cond := Obj(map["$in" := Arr(list)]);
    assert cond.fields.Keys == {"$in"};
    assert "$in"[1] == 'i';
    assert !IsComparison("$in");
    assert IsOperators(cond);
    assert Obj(map[path := cond]).fields.Keys == {path};
  }

  /** `{path: {"$elemMatch": {"$in": list}}}` selects the documents whose
      field is an array with an element that `$in` accepts. */
  lemma MatchesElemIn(path: string, list: seq<Json>, rec: Rec)
    requires path != "$and" && path != "$or"
    ensures Matches(Obj(map[path := Obj(map["$elemMatch" := Obj(map["$in" := Arr(list)])])]), rec)
        <==> path in rec && rec[path].Arr? && exists x :: x in rec[path].items && InList(x, list)
  {
    var inner := Obj(map["$in" := Arr(list)]);
    var cond := Obj(map["$elemMatch" := inner]);
    assert inner.fields.Keys == {"$in"};
    assert "$in"[1] == 'i';
    assert !IsComparison("$in");
    assert "$elemMatch"[1] == 'e';
    assert cond.fields.Keys == {"$elemMatch"};
    assert IsOperators(cond);
    assert Obj(map[path := cond]).fields.Keys == {path};
    if path in rec && rec[path].Arr? {
      assert (exists x :: x in rec[path].items && forall o :: o in inner.fields ==> OpOnValue(o, inner.fields[o], x))
        <==> exists x :: x in rec[path].items && InList(x, list);
    }
  }
}

=== FILE: ordering.dfy ===
/** Python's ordering of `str` values (code point by code point, a proper
    prefix first) and `sorted(...)` of a set of strings, shared by the
    dataset scripts that write their domains out sorted and numbered. */
module Ordering {

  /** `a < b` on Python strings. */
  predicate Less(a: string, b: string)
  {
    if |a| == 0 then |b| > 0
    else if |b| == 0 then false
    else a[0] < b[0] || (a[0] == b[0] && Less(a[1..], b[1..]))
  }

  lemma {:induction false} LessIrreflexive(a: string)
    ensures !Less(a, a)
  {
    if |a| > 0 {
      LessIrreflexive(a[1..]);
    }
  }

  lemma {:induction false} LessTransitive(a: string, b: string, c: string)
    requires Less(a, b) && Less(b, c)
    ensures Less(a, c)
  {
    if |a| > 0 && |b| > 0 && |c| > 0 && a[0] == b[0] && b[0] == c[0] {
      LessTransitive(a[1..], b[1..], c[1..]);
    }
  }

  /** Any two different strings are ordered one way or the other. */
  lemma {:induction false} LessTotal(a: string, b: string)
    ensures a == b || Less(a, b) || Less(b, a)
  {
    if |a| > 0 && |b| > 0 && a[0] == b[0] {
      LessTotal(a[1..], b[1..]);
      if a[1..] == b[1..] {
        assert a == [a[0]] + a[1..] && b == [b[0]] + b[1..];
      }
    }
  }

  lemma LessAsymmetric(a: string, b: string)
    requires Less(a, b)
    ensures !Less(b, a)
  {
    if Less(b, a) {
      LessTransitive(a, b, a);
      LessIrreflexive(a);
    }
  }

  predicate StrictlySorted(s: seq<string>)
  {
    forall i, j :: 0 <= i < j < |s| ==> Less(s[i], s[j])
  }

  predicate IsLeast(m: string, s: set<string>)
  {
    m in s && forall x :: x in s && x != m ==> Less(m, x)
  }

  /** Every non-empty set of strings has a least element. */
  lemma {:induction false} HasLeast(s: set<string>)
    requires s != {}
    ensures exists m :: IsLeast(m, s)
    decreases |s|
  {
    var y :| y in s;
    var rest := s - {y};
    if rest == {} {
      assert forall x :: x in s && x != y ==> x in rest;
      assert IsLeast(y, s);
    } else {
      HasLeast(rest);
      var m :| IsLeast(m, rest);
      LessTotal(m, y);
      if Less(m, y) {
        assert IsLeast(m, s);
      } else {
        forall x | x in s && x != y
          ensures Less(y, x)
        {
          if x != m {
            LessTransitive(y, m, x);
          }
        }
        assert IsLeast(y, s);
      }
    }
  }

  /** `sorted(s)` for a set of strings: every element once, in increasing order. */
  method SortSet(s: set<string>) returns (r: seq<string>)
    ensures StrictlySorted(r)
    ensures |r| == |s|
    ensures forall x :: x in r <==> x in s
  {
    var rest := s;
    r := [];
    while rest != {}
      invariant rest <= s
      invariant forall x :: x in r <==> x in s && x !in rest
      invariant StrictlySorted(r)
      invariant forall i, y :: 0 <= i < |r| && y in rest ==> Less(r[i], y)
      invariant |r| + |rest| == |s|
      decreases |rest|
    {
      HasLeast(rest);
      var m :| IsLeast(m, rest);
      r := r + [m];
      rest := rest - {m};
    }
  }

  /** Two strictly sorted sequences with the same elements are the same sequence,
      so the output of `SortSet` is determined by its input. */
  lemma {:induction false} SortedUnique(a: seq<string>, b: seq<string>)
    requires StrictlySorted(a) && StrictlySorted(b)
    requires forall x :: x in a <==> x in b
    ensures a == b
    decreases |a|
  {
    if |a| > 0 {
      assert a[0] in b;
    }
    if |b| > 0 {
      assert b[0] in a;
    }
    if |a| > 0 && |b| > 0 {
      if a[0] != b[0] {
        assert a[0] in a && b[0] in b;
        var i :| 0 <= i < |b| && b[i] == a[0];
        var j :| 0 <= j < |a| && a[j] == b[0];
        assert Less(a[0], a[j]);
        assert Less(b[0], b[i]);
        LessAsymmetric(a[0], b[0]);
        assert false;
      }
      forall x
        ensures x in a[1..] <==> x in b[1..]
      {
        if x in a[1..] {
          var k :| 0 <= k < |a| - 1 && a[1..][k] == x;
          assert Less(a[0], a[k + 1]);
          LessIrreflexive(x);
          assert x in b;
          var m :| 0 <= m < |b| && b[m] == x;
          assert m != 0;
          assert b[1..][m - 1] == x;
        }
        if x in b[1..] {
          var k :| 0 <= k < |b| - 1 && b[1..][k] == x;
          assert Less(b[0], b[k + 1]);
          LessIrreflexive(x);
          assert x in a;
          var m :| 0 <= m < |a| && a[m] == x;
          assert m != 0;
          assert a[1..][m - 1] == x;
        }
      }
      SortedUnique(a[1..], b[1..]);
      assert a == [a[0]] + a[1..] && b == [b[0]] + b[1..];
    }
  }

  /** One line of an output file written with `enumerate(..., start=1)`. */
  datatype Row = Row(index: nat, domain: string)

  /** `list(enumerate(names, start=1))` */
  function Numbered(names: seq<string>): (r: seq<Row>)
    ensures |r| == |names|
    ensures forall i :: 0 <= i < |r| ==> r[i] == Row(i + 1, names[i])
  {
    seq(|names|, i requires 0 <= i < |names| => Row(i + 1, names[i]))
  }

  /** `x` is the domain of some row. */
  predicate Listed(rows: seq<Row>, x: string)
  {
    exists i :: 0 <= i < |rows| && rows[i].domain == x
  }

  /** `enumerate(sorted(s), start=1)`: the elements of `s` once each, in
      increasing order, numbered from 1. */
  method SortedNumbered(s: set<string>) returns (r: seq<Row>)
    ensures |r| == |s|
    ensures forall i :: 0 <= i < |r| ==> r[i].index == i + 1
    ensures forall i, j :: 0 <= i < j < |r| ==> Less(r[i].domain, r[j].domain)
    ensures forall x :: x in s <==> Listed(r, x)
  {
    var names := SortSet(s);
    r := Numbered(names);
    forall x | x in s
      ensures Listed(r, x)
    {
      var i :| 0 <= i < |names| && names[i] == x;
      assert r[i].domain == x;
    }
  }
}

=== FILE: overview.dfy ===
/** The overview dashboard's data services: the summary counts, the
    certificate status, the clamped pagination of the certificate list and
    the certificates-with-warnings listing. Database counts come from a
    `count` function over filter documents; the clock is passed in, both as
    ISO text for filters and as integer seconds for parsed dates. */
module Overview {

  import opened Wrappers
  import opened JsonTree
  import opened FilterQuery
  import opened Counting

  const DAY: int := 86400
  const SOON_DAYS: int := 30
  const MAX_PAGE_SIZE: int := 200

  const WARNINGS_KEY := "zlint.warnings_present"
  const ERRORS_KEY := "zlint.errors_present"
  const FATALS_KEY := "zlint.fatals_present"

  // ---------------------------------------------------------------- copy-then-modify filters

  /** The filter of `get_active_certificates` (and its expired and
      expiring-soon siblings): a copy of the caller's filter without its
      end-date condition, then the status condition. */
  function StatusFilter(status: string, fq: Doc, now: string, soon: string): (r: Doc)
    requires status == "active" || status == "expired" || status == "expiring_soon"
    ensures OthersUnchanged(fq, r, END_KEY)
    ensures END_KEY in r && r[END_KEY] == StatusCondition(status, now, soon)
  {
    FilterStatus(Some(status), Some(fq - {END_KEY}), now, soon)
  }

  /** The filter of `get_total_warnings` (errors, fatals): a copy with one flag set. */
  function FlagFilter(flag: string, fq: Doc): (r: Doc)
    ensures OthersUnchanged(fq, r, flag)
    ensures flag in r && r[flag] == Bool(true)
  {
    fq[flag := Bool(true)]
  }

  /** Narrowing a filter to a status it already carries changes nothing. */
  lemma StatusFilterOfSameStatus(status: string, fq: Doc, now: string, soon: string)
    requires status == "active" || status == "expired" || status == "expiring_soon"
    requires END_KEY in fq && fq[END_KEY] == StatusCondition(status, now, soon)
    ensures StatusFilter(status, fq, now, soon) == fq
  {
    var r := StatusFilter(status, fq, now, soon);
    assert r.Keys == fq.Keys;
  }

  // ---------------------------------------------------------------- summary

  datatype Summary = Summary(
    total: nat, active: nat, expired: nat, expiringSoon: nat,
    warnings: nat, errors: nat, fatals: nat)

  /** `get_summary`: a status argument counts only its own column and zeroes
      the other two; any other status counts all three. */
  function GetSummary(status: Option<string>, issuer: Option<string>, country: Option<string>,
                      level: Option<string>, now: string, soon: string, count: Doc -> nat): (r: Summary)
    ensures var fq := BuildBaseFilter(status, issuer, country, level, now, soon);
      && r.total == count(fq)
      && r.warnings == count(FlagFilter(WARNINGS_KEY, fq))
      && r.errors == count(FlagFilter(ERRORS_KEY, fq))
      && r.fatals == count(FlagFilter(FATALS_KEY, fq))
      && (status == Some("expired") ==> r.active == 0 && r.expiringSoon == 0 && r.expired == count(StatusFilter("expired", fq, now, soon)))
      && (status == Some("active") ==> r.expired == 0 && r.expiringSoon == 0 && r.active == count(StatusFilter("active", fq, now, soon)))
      && (status == Some("expiring_soon") ==> r.active == 0 && r.expired == 0 && r.expiringSoon == count(StatusFilter("expiring_soon", fq, now, soon)))
      && (!KnownStatus(status) ==>
            r.active == count(StatusFilter("active", fq, now, soon))
            && r.expired == count(StatusFilter("expired", fq, now, soon))
            && r.expiringSoon == count(StatusFilter("expiring_soon", fq, now, soon)))
  {
    var fq := BuildBaseFilter(status, issuer, country, level, now, soon);
    var active := if status == Some("expired") || status == Some("expiring_soon") then 0
                  else count(StatusFilter("active", fq, now, soon));
    var expired := if status == Some("active") || status == Some("expiring_soon") then 0
                   else count(StatusFilter("expired", fq, now, soon));
    var soonCount := if status == Some("expired") || status == Some("active") then 0
                     else count(StatusFilter("expiring_soon", fq, now, soon));
    Summary(count(fq), active, expired, soonCount,
            count(FlagFilter(WARNINGS_KEY, fq)), count(FlagFilter(ERRORS_KEY, fq)), count(FlagFilter(FATALS_KEY, fq)))
  }

  /** Under a status filter the one column counted is the whole total: the
      base filter already narrows to that status. */
  lemma SummaryStatusColumnIsTotal(status: Option<string>, issuer: Option<string>, country: Option<string>,
                                   level: Option<string>, now: string, soon: string, count: Doc -> nat)
    requires KnownStatus(status)
    ensures var r := GetSummary(status, issuer, country, level, now, soon, count);
      r.active + r.expired + r.expiringSoon == r.total
  {
    var fq := BuildBaseFilter(status, issuer, country, level, now, soon);
    StatusFilterOfSameStatus(status.value, fq, now, soon);
  }

  // ---------------------------------------------------------------- certificate status

  datatype CertStatus = Active | Expired | ExpiringSoon | Unknown

  /** The status in `_extract_certificate_fields`. `validTo` is the stored
      `parsed.validity.end`; `parse` is `datetime.fromisoformat` to seconds
      (`None` when it raises, which the code reports as `unknown`; a time
      without an offset must also give `None`, since comparing it with the
      aware clock raises). A value that is not text makes `.replace` raise,
      also `unknown`. */
  function ExtractStatus(validTo: Json, parse: string -> Option<int>, now: int): (r: CertStatus)
    ensures !Truthy(validTo) ==> r == Active
    ensures r == Unknown <==> Truthy(validTo) && (!validTo.Str? || parse(validTo.s).None?)
    ensures r == Expired <==> validTo.Str? && validTo.s != "" && parse(validTo.s).Some? && parse(validTo.s).value < now
  {
    if !Truthy(validTo) then Active
    else if !validTo.Str? then Unknown
    else match parse(validTo.s)
      case None => Unknown
      case Some(expiry) =>
        if expiry < now then Expired
        else if (expiry - now) / DAY <= SOON_DAYS then ExpiringSoon
        else Active
  }

  /** Expiring soon means within the next 31 days: `timedelta.days` rounds
      down, so 30 whole days and any part of the 31st still count. */
  lemma ExpiringSoonWindow(validTo: Json, parse: string -> Option<int>, now: int)
    ensures ExtractStatus(validTo, parse, now) == ExpiringSoon <==>
      validTo.Str? && validTo.s != "" && parse(validTo.s).Some?
      && now <= parse(validTo.s).value < now + (SOON_DAYS + 1) * DAY
  {
  }

  // ---------------------------------------------------------------- pagination

  /** `page = max(page, 1)` */
  function ClampPage(page: int): (r: int)
    ensures r >= 1
    ensures page >= 1 ==> r == page
  {
    if page < 1 then 1 else page
  }

  /** `page_size = max(min(page_size, 200), 1)` */
  function ClampPageSize(size: int): (r: int)
    ensures 1 <= r <= MAX_PAGE_SIZE
    ensures 1 <= size <= MAX_PAGE_SIZE ==> r == size
  {
    if size > MAX_PAGE_SIZE then MAX_PAGE_SIZE else if size < 1 then 1 else size
  }

  /** `(total + page_size - 1) // page_size` for a positive page size. */
  function PageCount(total: nat, size: int): (r: nat)
    requires size >= 1
    ensures r == 0 <==> total == 0
    ensures total > 0 ==> (r - 1) * size < total <= r * size
  {
    (total + size - 1) / size
  }

  /** `seq[start:end]` for `0 <= start <= end`: bounds past the end are cut back. */
  function Slice<T>(s: seq<T>, start: nat, end: nat): (r: seq<T>)
    requires start <= end
    ensures |r| <= end - start
    ensures start <= |s| ==> |r| == (if end <= |s| then end else |s|) - start
    ensures forall i :: 0 <= i < |r| ==> start + i < |s| && r[i] == s[start + i]
  {
    if start >= |s| then [] else if end >= |s| then s[start..] else s[start..end]
  }

  datatype Page<T> = Page(page: int, pageSize: int, totalRecords: nat, totalPages: nat, results: seq<T>)

  /** `get_certificates`: the clamped page of the filtered list. `total` is
      the filter's count and `rows` what the cursor returned for the skip of
      `(page - 1) * page_size`; each row becomes its domain and status. */
  function GetCertificates(page: int, size: int, total: nat, rows: seq<Doc>,
                           parse: string -> Option<int>, now: int): (r: Page<(Json, CertStatus)>)
    ensures r.page >= 1 && 1 <= r.pageSize <= MAX_PAGE_SIZE
    ensures r.totalRecords == total && r.totalPages == PageCount(total, r.pageSize)
    ensures |r.results| == |rows|
    ensures forall i :: 0 <= i < |rows| ==>
      r.results[i] == (Get(rows[i], "domain", Obj(map[])), ExtractStatus(Get(Sub(Sub(rows[i], "parsed"), "validity"), "end", Null), parse, now))
  {
    var p := ClampPage(page);
    var ps := ClampPageSize(size);
    Page(p, ps, total, PageCount(total, ps),
         seq(|rows|, i requires 0 <= i < |rows| =>
           (Get(rows[i], "domain", Obj(map[])), ExtractStatus(Get(Sub(Sub(rows[i], "parsed"), "validity"), "end", Null), parse, now))))
  }

  /** The number of rows skipped for a clamped page. */
  function Skip(page: int, size: int): (r: nat)
    requires page >= 1 && size >= 1
    ensures r == (page - 1) * size
  {
    (page - 1) * size
  }

  // ---------------------------------------------------------------- warnings

  /** A lint entry whose `result` is `warn`. An entry that is not a dict
      would make `.get` raise; it is read as `{}` here. */
  predicate IsWarn(info: Json)
  {
    "result" in Fields(info) && Fields(info)["result"] == Str("warn")
  }

  /** `_extract_certificate_warnings`: every `warn` lint, by name, with its
      entry minus the `result` key. A `lints` value that is not a dict gives none. */
  function ExtractWarnings(cert: Doc): (r: map<string, Doc>)
    ensures var lints := Get(Sub(cert, "zlint"), "lints", Obj(map[]));
      forall name :: name in r <==> lints.Obj? && name in lints.fields && IsWarn(lints.fields[name])
    ensures forall name :: name in r ==> "result" !in r[name]
    ensures var lints := Get(Sub(cert, "zlint"), "lints", Obj(map[]));
      forall name, k :: name in r && k in r[name] ==> k in Fields(lints.fields[name]) && r[name][k] == Fields(lints.fields[name])[k]
  {
    var lints := Get(Sub(cert, "zlint"), "lints", Obj(map[]));
    if !lints.Obj? then map[]
    else map name | name in lints.fields && IsWarn(lints.fields[name]) :: Fields(lints.fields[name]) - {"result"}
  }

  /** A certificate with at least one `warn` lint. */
  predicate HasWarnings(cert: Doc)
  {
    |ExtractWarnings(cert)| > 0
  }

  /** The warnings of the certificates that have at least one, in cursor
      order: one entry per position holding such a certificate. */
  function WithWarnings(certs: seq<Doc>): (r: seq<map<string, Doc>>)
    ensures |r| == |Where(certs, HasWarnings)|
  {
    Collect(certs, HasWarnings, ExtractWarnings)
  }

  /** The listing holds exactly the warnings of the certificates that have some. */
  lemma WithWarningsMembers(certs: seq<Doc>, w: map<string, Doc>)
    ensures w in WithWarnings(certs) <==> exists j :: 0 <= j < |certs| && HasWarnings(certs[j]) && w == ExtractWarnings(certs[j])
  {
    CollectMembers(certs, HasWarnings, ExtractWarnings, w);
  }

  /** The listing keeps cursor order: the warnings of a concatenation are
      those of its first part followed by those of its second. */
  lemma WithWarningsAppend(a: seq<Doc>, b: seq<Doc>)
    ensures WithWarnings(a + b) == WithWarnings(a) + WithWarnings(b)
  {
    CollectAppend(a, b, HasWarnings, ExtractWarnings);
  }

  /** `get_certificate_warnings`: the certificates with warnings are counted
      first and paginated afterwards. */
  function GetCertificateWarnings(certs: seq<Doc>, page: int, size: int): (r: Page<map<string, Doc>>)
    ensures r.page == ClampPage(page) && r.pageSize == ClampPageSize(size)
    ensures r.page >= 1 && 1 <= r.pageSize <= MAX_PAGE_SIZE
    ensures r.totalRecords == |WithWarnings(certs)|
    ensures r.totalPages == PageCount(r.totalRecords, r.pageSize)
    ensures r.results == Slice(WithWarnings(certs), Skip(r.page, r.pageSize), Skip(r.page, r.pageSize) + r.pageSize)
  {
    Paginate(WithWarnings(certs), page, size)
  }

  /** The clamped page of a whole list, as the warnings endpoint cuts it. */
  function Paginate<T>(all: seq<T>, page: int, size: int): (r: Page<T>)
    ensures r.page == ClampPage(page) && r.pageSize == ClampPageSize(size)
    ensures r.totalRecords == |all| && r.totalPages == PageCount(|all|, r.pageSize)
    ensures r.results == Slice(all, Skip(r.page, r.pageSize), Skip(r.page, r.pageSize) + r.pageSize)
  {
    var p := ClampPage(page);
    var ps := ClampPageSize(size);
    var start := Skip(p, ps);
    Page(p, ps, |all|, PageCount(|all|, ps), Slice(all, start, start + ps))
  }

  /** Every certificate with warnings is shown on exactly one page within
      the reported page count, at its place in the filtered list. */
  lemma {:induction false} WarningOnItsPage(certs: seq<Doc>, size: int, j: nat)
    requires 1 <= size <= MAX_PAGE_SIZE
    requires j < |WithWarnings(certs)|
    ensures var p := j / size + 1;
      var r := GetCertificateWarnings(certs, p, size);
      && 1 <= p <= r.totalPages
      && 0 <= j - (p - 1) * size < |r.results|
      && r.results[j - (p - 1) * size] == WithWarnings(certs)[j]
  {
    ItemOnPaginated(WithWarnings(certs), size, j);
  }

  /** In the clamped pagination of any list, item `j` is shown on page
      `j / size + 1`, within the page count. */
  lemma ItemOnPaginated<T>(all: seq<T>, size: int, j: nat)
    requires 1 <= size <= MAX_PAGE_SIZE
    requires j < |all|
    ensures var p := j / size + 1;
      var r := Paginate(all, p, size);
      && 1 <= p <= r.totalPages
      && 0 <= j - (p - 1) * size < |r.results|
      && r.results[j - (p - 1) * size] == all[j]
  {
    ItemOnItsPage(all, size, j);
  }

  /** Pagination of any list: item `j` sits on page `j / size + 1`, which
      is within the page count. */
  lemma ItemOnItsPage<T>(all: seq<T>, size: int, j: nat)
    requires size >= 1
    requires j < |all|
    ensures var p := j / size + 1;
      var page := Slice(all, Skip(p, size), Skip(p, size) + size);
      && 1 <= p <= PageCount(|all|, size)
      && 0 <= j - (p - 1) * size < |page|
      && page[j - (p - 1) * size] == all[j]
  {
    var p := j / size + 1;
    var n := PageCount(|all|, size);
    DivBounds(j, size);
    if p > n {
      MulMonotone(n, p - 1, size);
    }
  }

  /** `j` lies in the block of its quotient. */
  lemma DivBounds(j: nat, size: int)
    requires size >= 1
    ensures (j / size) * size <= j < (j / size + 1) * size
  {
  }

  lemma MulMonotone(a: nat, b: nat, size: int)
    requires a <= b && size >= 1
    ensures a * size <= b * size
  {
  }
}

=== FILE: pk_analysis.dfy ===
/** The `.pk` collector for certificate common-name lists: it reads one
    column of several CSV files, keeps the values that end in `.pk`, strips a
    leading wildcard, and keeps each domain the first time it is seen.
    pandas and the CSV sniffer are not modelled: a file arrives as the table
    pandas would read from it and the sniffer's verdict. */
module PkAnalysis {

  import opened Wrappers
  import opened PyStr
  import opened Ordering
  import Tranco

  const PK := ".pk"

  // ---------------------------------------------------------------- one value

  /** One cell of the domain column: a string, another value pandas parsed
      (a number, say), or a missing value (`NaN`). */
  datatype Cell = Text(s: string) | NonText | Missing

  /** `is_valid_pk_domain`: a non-string is rejected; a string is accepted
      when its stripped, lower-cased form ends with `.pk`. */
  predicate IsValid(c: Cell)
  {
    c.Text? && EndsWith(Lower(Strip(c.s)), PK)
  }

  /** Every domain the stricter Tranco validator accepts is accepted here. */
  lemma LaxerThanTranco(s: string)
    ensures Tranco.IsValidPkDomain(s) ==> IsValid(Text(s))
  {
  }

  /** ... but not the other way round: a leading hyphen passes this check. */
  lemma HyphenAccepted()
    ensures IsValid(Text("-a.pk")) && !Tranco.IsValidPkDomain("-a.pk")
  {
    ValidOfNormal("-a.pk");
    Tranco.RejectedShapes();
  }

  /** `clean_pk_domain`: strip and lower-case; after a leading `*`, drop that
      one star, then every leading dot, then surrounding blanks. */
  function Clean(domain: string): (r: string)
    ensures Stripped(r)
    ensures |r| <= |domain|
    ensures !StartsWith(Lower(Strip(domain)), "*") ==> r == Lower(Strip(domain))
  {
    var d := Lower(Strip(domain));
    if StartsWith(d, "*") then
      Strip(LStripChar(d[1..], '.'))
    else
      LowerKeepsStripped(Strip(domain));
      d
  }

  /** `n` dots. */
  function Dots(n: nat): (r: string)
    ensures |r| == n
    ensures forall i :: 0 <= i < n ==> r[i] == '.'
  {
    seq(n, _ => '.')
  }

  lemma {:induction false} LStripDots(n: nat, d: string)
    requires |d| > 0 ==> d[0] != '.'
    ensures LStripChar(Dots(n) + d, '.') == d
    decreases n
  {
    if n > 0 {
      assert (Dots(n) + d)[1..] == Dots(n - 1) + d;
      LStripDots(n - 1, d);
    } else {
      assert Dots(n) + d == d;
    }
  }

  /** A wildcard and any number of dots in front of a normalised domain are
      removed, and nothing else is: `*.srb.gos.pk` becomes `srb.gos.pk`. */
  lemma CleanWildcard(n: nat, d: string)
    requires Stripped(d) && NoCapitals(d)
    requires |d| > 0 ==> d[0] != '.'
    ensures Clean("*" + Dots(n) + d) == d
  {
    var w := "*" + Dots(n) + d;
    assert Stripped(w) by {
      if |d| > 0 {
        assert w[|w| - 1] == d[|d| - 1];
      } else if n > 0 {
        assert w[|w| - 1] == '.';
      }
    }
    assert NoCapitals(w) by {
      forall i | 0 <= i < |w|
        ensures !('A' <= w[i] <= 'Z')
      {
        if i > n {
          assert w[i] == d[i - n - 1];
        }
      }
    }
    assert w[1..] == Dots(n) + d;
    CleanStarred(w);
    LStripDots(n, d);
    StripOfStripped(d);
  }

  /** On normalised text with a leading star, cleaning drops the star and the dots after it. */
  lemma CleanStarred(w: string)
    requires Stripped(w) && NoCapitals(w) && |w| > 0 && w[0] == '*'
    ensures Clean(w) == Strip(LStripChar(w[1..], '.'))
  {
    StripOfStripped(w);
    LowerOfNoCapitals(w);
    assert StartsWith(w, "*");
  }

  /** The cleaned domain a cell contributes, as the loop computes it. */
  function Candidate(c: Cell): (r: Option<string>)
    ensures r.Some? <==> IsValid(c)
    ensures r.Some? ==> Stripped(r.value)
  {
    if IsValid(c) then Some(Clean(c.s)) else None
  }

  /** The bare wildcard `*.pk` (with one dot or more) passes the check, and
      cleaning leaves `pk`, which is not a `.pk` domain at all. */
  lemma BareWildcardKept(n: nat)
    requires n >= 1
    ensures Candidate(Text("*" + Dots(n) + "pk")) == Some("pk")
    ensures !EndsWith("pk", PK)
  {
    BareWildcardValid(n);
    CandidateOfValid(Text("*" + Dots(n) + "pk"));
    BareStem();
    CleanWildcard(n, "pk");
  }

  lemma BareStem()
    ensures Stripped("pk") && NoCapitals("pk") && !EndsWith("pk", PK)
  {
  }

  lemma CandidateOfValid(c: Cell)
    requires IsValid(c)
    ensures Candidate(c) == Some(Clean(c.s))
  {
  }

  lemma BareWildcardValid(n: nat)
    requires n >= 1
    ensures IsValid(Text("*" + Dots(n) + "pk"))
  {
    var w := "*" + Dots(n) + "pk";
    assert NoCapitals(w) by {
      forall i | 0 <= i < |w|
        ensures !('A' <= w[i] <= 'Z')
      {
        if i > n {
          assert w[i] == "pk"[i - n - 1];
        }
      }
    }
    assert EndsWith(w, PK) by {
      var tail := w[|w| - 3..];
      assert tail[0] == '.' && tail[1] == 'p' && tail[2] == 'k';
      assert tail == PK;
    }
    ValidOfNormal(w);
  }

  /** Normalised text is valid exactly when it ends with `.pk`. */
  lemma ValidOfNormal(s: string)
    requires Stripped(s) && NoCapitals(s)
    ensures IsValid(Text(s)) <==> EndsWith(s, PK)
  {
    NormalUnchanged(s);
  }

  /** The candidate with the check repeated after cleaning, so that only
      values still ending in `.pk` are kept. */
  function CandidateFixed(c: Cell): (r: Option<string>)
    ensures r.Some? ==> EndsWith(r.value, PK) && Stripped(r.value)
    ensures r == (if Candidate(c).Some? && EndsWith(Candidate(c).value, PK) then Candidate(c) else None)
  {
    if IsValid(c) then
      var d := Clean(c.s);
      if EndsWith(d, PK) then Some(d) else None
    else None
  }

  /** The candidate the pipeline takes from a cell: as the script computes
      it, or, with `recheck`, with the `.pk` check repeated after cleaning. */
  function Pick(c: Cell, recheck: bool): (r: Option<string>)
    ensures r.Some? ==> IsValid(c) && Stripped(r.value)
    ensures recheck ==> r == CandidateFixed(c)
    ensures !recheck ==> r == Candidate(c)
  {
    if recheck then CandidateFixed(c) else Candidate(c)
  }

  // ---------------------------------------------------------------- format

  /** The column argument: a header name, a position, or anything else. */
  datatype ColumnArg = ByName(name: string) | ByIndex(index: int) | Other

  /** `detect_csv_format`: the sniffer's verdict (`None` when the file
      cannot be read) and the column to use; a headed file needs a name and
      defaults to `domain`, a headerless one needs a position and defaults
      to 1. */
  function DetectFormat(sniffed: Option<bool>, column: ColumnArg): (r: (bool, ColumnArg))
    ensures r.0 <==> sniffed == Some(true)
    ensures r.0 ==> r.1.ByName? && (column.ByName? ==> r.1 == column)
    ensures !r.0 ==> r.1.ByIndex? && (column.ByIndex? ==> r.1 == column)
    ensures r.1 == column || r.1 == ByName("domain") || r.1 == ByIndex(1)
  {
    if sniffed == Some(true) then
      (true, if column.ByName? then column else ByName("domain"))
    else
      (false, if column.ByIndex? then column else ByIndex(1))
  }

  /** Detecting again with the chosen column changes nothing. */
  lemma DetectFormatStable(sniffed: Option<bool>, column: ColumnArg)
    ensures DetectFormat(sniffed, DetectFormat(sniffed, column).1) == DetectFormat(sniffed, column)
  {
  }

  // ---------------------------------------------------------------- one file

  /** A table as pandas reads it: the column labels (header names, or the
      positions 0, 1, ... of a headerless file) and the rows; a short row
      reads as missing values in its absent columns. */
  datatype Frame = Frame(labels: seq<ColumnArg>, rows: seq<seq<Cell>>)

  /** The position of the first label equal to `key`. */
  function LabelIndex(labels: seq<ColumnArg>, key: ColumnArg): (r: Option<nat>)
    ensures r.Some? ==> r.value < |labels| && labels[r.value] == key
    ensures r.Some? ==> forall j :: 0 <= j < r.value ==> labels[j] != key
    ensures r.None? ==> forall j :: 0 <= j < |labels| ==> labels[j] != key
  {
    if |labels| == 0 then None
    else if labels[0] == key then Some(0)
    else
      match LabelIndex(labels[1..], key)
      case Some(j) => Some(j + 1)
      case None => None
  }

  /** `chunk[column]`: the column's cells, or `None` when the label is absent. */
  function ColumnCells(frame: Frame, key: ColumnArg): (r: Option<seq<Cell>>)
    ensures r.None? <==> forall j :: 0 <= j < |frame.labels| ==> frame.labels[j] != key
    ensures r.Some? ==> |r.value| == |frame.rows|
  {
    match LabelIndex(frame.labels, key)
    case None => None
    case Some(j) =>
      Some(seq(|frame.rows|, i requires 0 <= i < |frame.rows| =>
        if j < |frame.rows[i]| then frame.rows[i][j] else Missing))
  }

  /** One input file: whether it exists, the sniffer's verdict, the table
      pandas reads with the detected header setting (`None` when reading
      raises), and the column argument. */
  datatype Source = Source(present: bool, sniffed: Option<bool>, frame: Option<Frame>, column: ColumnArg)

  /** The column the source is read from, when it exists and has it. */
  function SourceColumn(src: Source): (r: Option<seq<Cell>>)
    ensures r.Some? ==> src.present && src.frame.Some?
  {
    if !src.present || src.frame.None? then None
    else ColumnCells(src.frame.value, DetectFormat(src.sniffed, src.column).1)
  }

  /** The candidate each cell offers, in order. */
  function Candidates(cells: seq<Cell>, recheck: bool): (r: seq<Option<string>>)
    ensures |r| == |cells|
    ensures forall i {:trigger r[i]} :: 0 <= i < |cells| ==> r[i] == Pick(cells[i], recheck)
  {
    if |cells| == 0 then [] else [Pick(cells[0], recheck)] + Candidates(cells[1..], recheck)
  }

  /** The candidates a source offers: none when it is absent, unreadable or
      lacks the column. */
  function Offers(src: Source, recheck: bool): (r: seq<Option<string>>)
    ensures SourceColumn(src).None? ==> r == []
    ensures SourceColumn(src).Some? ==> |r| == |SourceColumn(src).value|
  {
    match SourceColumn(src)
    case None => []
    case Some(cells) => Candidates(cells, recheck)
  }

  /** One of the first `n` candidates is `x`. */
  predicate OfferedBefore(picks: seq<Option<string>>, n: nat, x: string)
    requires n <= |picks|
  {
    exists i :: 0 <= i < n && picks[i] == Some(x)
  }

  predicate Offered(picks: seq<Option<string>>, x: string)
  {
    OfferedBefore(picks, |picks|, x)
  }

  /** How many cells offer a candidate at all. */
  function CountSome(picks: seq<Option<string>>): (n: nat)
    ensures n <= |picks|
  {
    if |picks| == 0 then 0
    else CountSome(picks[..|picks| - 1]) + (if picks[|picks| - 1].Some? then 1 else 0)
  }

  /** The inner loop: each candidate not yet known is added and counted as a
      success, every other candidate counts as a duplicate. */
  method Dedup(picks: seq<Option<string>>, existing: set<string>) returns (found: set<string>, success: nat, failure: nat)
    ensures found !! existing
    ensures success == |found|
    ensures success + failure == CountSome(picks)
    ensures forall x :: x in found <==> x !in existing && Offered(picks, x)
  {
    found, success, failure := {}, 0, 0;
    var k := 0;
    while k < |picks|
      invariant k <= |picks|
      invariant found !! existing
      invariant success == |found|
      invariant success + failure == CountSome(picks[..k])
      invariant forall x :: x in found <==> x !in existing && OfferedBefore(picks, k, x)
    {
      assert picks[..k + 1][..k] == picks[..k];
      if picks[k].Some? {
        var d := picks[k].value;
        if d !in existing && d !in found {
          found := found + {d};
          success := success + 1;
        } else {
          failure := failure + 1;
        }
      }
      k := k + 1;
    }
    assert picks[..k] == picks;
  }

  /** What one file yields: the new domains and the two counters. */
  datatype Extracted = Extracted(found: set<string>, success: nat, failure: nat)

  /** `extract_pk_domains_from_csv`: a missing file yields nothing, an
      unreadable one a single failure, a file without the column one failure
      per row; otherwise the column's cells go through the loop. */
  method ExtractFromCsv(src: Source, existing: set<string>, recheck: bool) returns (r: Extracted)
    ensures !src.present ==> r == Extracted({}, 0, 0)
    ensures src.present && src.frame.None? ==> r == Extracted({}, 0, 1)
    ensures src.present && src.frame.Some? && SourceColumn(src).None? ==>
      r == Extracted({}, 0, |src.frame.value.rows|)
    ensures SourceColumn(src).Some? ==> r.success + r.failure == CountSome(Offers(src, recheck))
    ensures r.found !! existing
    ensures r.success == |r.found|
    ensures forall x :: x in r.found <==> x !in existing && Offered(Offers(src, recheck), x)
  {
    if !src.present {
      return Extracted({}, 0, 0);
    }
    if src.frame.None? {
      return Extracted({}, 0, 1);
    }
    var column := SourceColumn(src);
    if column.None? {
      return Extracted({}, 0, |src.frame.value.rows|);
    }
    var found, success, failure := Dedup(Candidates(column.value, recheck), existing);
    r := Extracted(found, success, failure);
  }

  /** Every candidate the corrected pipeline offers is a stripped `.pk` domain. */
  lemma OfferedIsPk(src: Source, x: string)
    requires Offered(Offers(src, true), x)
    ensures EndsWith(x, PK) && Stripped(x)
  {
    var picks := Offers(src, true);
    var i :| 0 <= i < |picks| && picks[i] == Some(x);
    var cells := SourceColumn(src).value;
    assert picks[i] == Pick(cells[i], true);
    assert CandidateFixed(cells[i]) == Some(x);
  }

  /** A cell yields `x` in the corrected pipeline exactly when it yields
      `x` as written and `x` ends with `.pk`. */
  lemma PickFixed(c: Cell, x: string)
    ensures Pick(c, true) == Some(x) <==> Pick(c, false) == Some(x) && EndsWith(x, PK)
  {
  }

  /** The corrected pipeline offers exactly the candidates of the script as
      written that end with `.pk`. */
  lemma OfferedFixed(src: Source, x: string)
    ensures Offered(Offers(src, true), x) <==> Offered(Offers(src, false), x) && EndsWith(x, PK)
  {
    var fixed, written := Offers(src, true), Offers(src, false);
    if SourceColumn(src).Some? {
      var cells := SourceColumn(src).value;
      assert |fixed| == |written| == |cells|;
      if OfferedBefore(fixed, |fixed|, x) {
        var i :| 0 <= i < |fixed| && fixed[i] == Some(x);
        PickFixed(cells[i], x);
        assert written[i] == Some(x);
      }
      if OfferedBefore(written, |written|, x) && EndsWith(x, PK) {
        var i :| 0 <= i < |written| && written[i] == Some(x);
        PickFixed(cells[i], x);
        assert fixed[i] == Some(x);
      }
    }
  }

  /** A headed file whose domain column holds the one cell `*.pk`. */
  function BareWildcardFile(): Source
  {
    Source(true, Some(true), Some(Frame([ByName("domain")], [[Text("*.pk")]])), Other)
  }

  lemma BareWildcardColumn()
    ensures SourceColumn(BareWildcardFile()) == Some([Text("*.pk")])
  {
    var src := BareWildcardFile();
    assert DetectFormat(src.sniffed, src.column).1 == ByName("domain");
    assert LabelIndex(src.frame.value.labels, ByName("domain")) == Some(0);
    var cells := SourceColumn(src).value;
    assert |cells| == 1 && cells[0] == Text("*.pk");
    assert cells == [Text("*.pk")];
  }

  /** As written, that file offers `pk`, so `main` collects and saves it;
      the corrected pipeline offers nothing from it. */
  lemma BareWildcardOffered()
    ensures Offered(Offers(BareWildcardFile(), false), "pk")
    ensures !Offered(Offers(BareWildcardFile(), true), "pk")
  {
    BareWildcardColumn();
    var c := Text("*.pk");
    assert "*" + Dots(1) + "pk" == "*.pk";
    BareWildcardKept(1);
    assert Candidate(c) == Some("pk");
    var written := Offers(BareWildcardFile(), false);
    assert |written| == 1 && written[0] == Pick(c, false);
    assert OfferedBefore(written, 1, "pk");
    OfferedFixed(BareWildcardFile(), "pk");
  }

  // ---------------------------------------------------------------- all files

  /** One of the first `n` sources offers `x`. */
  predicate FromFirst(sources: seq<Source>, n: nat, x: string, recheck: bool)
    requires n <= |sources|
  {
    exists f :: 0 <= f < n && Offered(Offers(sources[f], recheck), x)
  }

  lemma FromFirstGrows(sources: seq<Source>, k: nat, x: string, recheck: bool)
    requires k < |sources|
    ensures FromFirst(sources, k, x, recheck) || Offered(Offers(sources[k], recheck), x) ==> FromFirst(sources, k + 1, x, recheck)
  {
  }

  lemma FromFirstSplits(sources: seq<Source>, k: nat, x: string, recheck: bool)
    requires k < |sources|
    ensures FromFirst(sources, k + 1, x, recheck) ==> FromFirst(sources, k, x, recheck) || Offered(Offers(sources[k], recheck), x)
  {
  }

  /** Every domain the corrected pipeline collects is a stripped `.pk` domain. */
  lemma FromSomeIsPk(sources: seq<Source>, x: string)
    requires FromFirst(sources, |sources|, x, true)
    ensures EndsWith(x, PK) && Stripped(x)
  {
    var f :| 0 <= f < |sources| && Offered(Offers(sources[f], true), x);
    OfferedIsPk(sources[f], x);
  }

  /** Every collected domain is stripped. */
  lemma FromSomeStripped(sources: seq<Source>, x: string, recheck: bool)
    requires FromFirst(sources, |sources|, x, recheck)
    ensures Stripped(x)
  {
    var f :| 0 <= f < |sources| && Offered(Offers(sources[f], recheck), x);
    var picks := Offers(sources[f], recheck);
    var i :| 0 <= i < |picks| && picks[i] == Some(x);
  }

  /** The corrected pipeline collects exactly the domains of the script as
      written that end with `.pk`. */
  lemma FromFirstFixed(sources: seq<Source>, x: string)
    ensures FromFirst(sources, |sources|, x, true) <==> FromFirst(sources, |sources|, x, false) && EndsWith(x, PK)
  {
    if FromFirst(sources, |sources|, x, true) {
      var f :| 0 <= f < |sources| && Offered(Offers(sources[f], true), x);
      OfferedFixed(sources[f], x);
    }
    if FromFirst(sources, |sources|, x, false) && EndsWith(x, PK) {
      var f :| 0 <= f < |sources| && Offered(Offers(sources[f], false), x);
      OfferedFixed(sources[f], x);
    }
  }

  /** The outcome of `main`: every domain, the two totals, and the saved
      rows (`None` when nothing was found and nothing is written). */
  datatype Summary = Summary(all: set<string>, success: nat, failure: nat, saved: Option<seq<Row>>)

  /** `main`: every file is read against the domains found so far, the
      totals are summed, and a non-empty result is saved sorted and
      numbered from 1 by `save_pk_domains_to_csv`. As written (`recheck`
      false) a cleaned value that no longer ends with `.pk` is saved too;
      with `recheck` only `.pk` domains are. */
  method Run(sources: seq<Source>, recheck: bool) returns (s: Summary)
    ensures s.success == |s.all|
    ensures forall x :: x in s.all <==> FromFirst(sources, |sources|, x, recheck)
    ensures forall x :: x in s.all ==> Stripped(x)
    ensures recheck ==> forall x :: x in s.all ==> EndsWith(x, PK)
    ensures s.saved.None? <==> s.all == {}
    ensures s.saved.Some? ==> |s.saved.value| == |s.all|
    ensures s.saved.Some? ==> forall i :: 0 <= i < |s.saved.value| ==> s.saved.value[i].index == i + 1
    ensures s.saved.Some? ==> forall i, j :: 0 <= i < j < |s.saved.value| ==>
      Less(s.saved.value[i].domain, s.saved.value[j].domain)
    ensures s.saved.Some? ==> forall x :: Listed(s.saved.value, x) <==> x in s.all
  {
    var all, success, failure := Gather(sources, recheck);
    if all == {} {
      return Summary(all, success, failure, None);
    }
    var rows := SortedNumbered(all);
    s := Summary(all, success, failure, Some(rows));
  }

  /** The loop of `main`: each file is read against the domains found so
      far and its counters are added to the totals. */
  method Gather(sources: seq<Source>, recheck: bool) returns (all: set<string>, success: nat, failure: nat)
    ensures success == |all|
    ensures forall x :: x in all <==> FromFirst(sources, |sources|, x, recheck)
    ensures forall x :: x in all ==> Stripped(x)
    ensures recheck ==> forall x :: x in all ==> EndsWith(x, PK)
  {
    all, success, failure := {}, 0, 0;
    var k := 0;
    while k < |sources|
      invariant k <= |sources|
      invariant success == |all|
      invariant forall x :: x in all <==> FromFirst(sources, k, x, recheck)
    {
      var r := ExtractFromCsv(sources[k], all, recheck);
      forall x
        ensures x in all + r.found <==> FromFirst(sources, k + 1, x, recheck)
      {
        FromFirstGrows(sources, k, x, recheck);
        FromFirstSplits(sources, k, x, recheck);
      }
      all := all + r.found;
      success := success + r.success;
      failure := failure + r.failure;
      k := k + 1;
    }
    forall x | x in all
      ensures Stripped(x) && (recheck ==> EndsWith(x, PK))
    {
      FromSomeStripped(sources, x, recheck);
      if recheck {
        FromSomeIsPk(sources, x);
      }
    }
  }
}

=== FILE: pystr.dfy ===
/** The handful of Python `str` operations the modelled scripts rely on,
    written out over `seq<char>`: `strip`, `lower`/`upper` (ASCII letters),
    `startswith`/`endswith`, `in`, `split`, `replace` of one character,
    `str(int)` and zero padding. */
module PyStr {

  import opened Wrappers

  /** The characters `str.isspace()` accepts; `strip()` with no argument removes exactly these. */
  predicate IsSpace(c: char)
  {
    c == ' ' || ('\t' <= c <= '\r') || ('\U{1c}' <= c <= '\U{1f}') || c == '\U{85}' || c == '\U{a0}'
    || c == '\U{1680}' || ('\U{2000}' <= c <= '\U{200a}') || c == '\U{2028}' || c == '\U{2029}'
    || c == '\U{202f}' || c == '\U{205f}' || c == '\U{3000}'
  }

  /** Neither end of `s` is whitespace. */
  predicate Stripped(s: string)
  {
    |s| == 0 || (!IsSpace(s[0]) && !IsSpace(s[|s| - 1]))
  }

  predicate AllSpace(s: string)
  {
    forall i :: 0 <= i < |s| ==> IsSpace(s[i])
  }

  /** `s.lstrip()` */
  function TrimStart(s: string): (r: string)
    ensures |r| <= |s| && r == s[|s| - |r|..]
    ensures |r| > 0 ==> !IsSpace(r[0])
  {
    if |s| > 0 && IsSpace(s[0]) then TrimStart(s[1..]) else s
  }

  /** `s.rstrip()` */
  function TrimEnd(s: string): (r: string)
    ensures |r| <= |s| && r == s[..|r|]
    ensures |r| > 0 ==> !IsSpace(r[|r| - 1])
  {
    if |s| > 0 && IsSpace(s[|s| - 1]) then TrimEnd(s[..|s| - 1]) else s
  }

  /** `s.strip()` */
  function Strip(s: string): (r: string)
    ensures Stripped(r)
    ensures |r| <= |s|
  {
    var t := TrimStart(s);
    var r := TrimEnd(t);
    assert |r| > 0 ==> r[0] == t[0];
    r
  }

  lemma {:induction false} TrimStartOfNonSpace(s: string)
    requires |s| == 0 || !IsSpace(s[0])
    ensures TrimStart(s) == s
  {
  }

  lemma {:induction false} TrimEndOfNonSpace(s: string)
    requires |s| == 0 || !IsSpace(s[|s| - 1])
    ensures TrimEnd(s) == s
  {
  }

  /** Stripping leaves an already stripped string alone. */
  lemma StripOfStripped(s: string)
    requires Stripped(s)
    ensures Strip(s) == s
  {
    TrimStartOfNonSpace(s);
    TrimEndOfNonSpace(s);
  }

  /** `strip()` is idempotent. */
  lemma StripIdempotent(s: string)
    ensures Strip(Strip(s)) == Strip(s)
  {
    StripOfStripped(Strip(s));
  }

  /** `lstrip` removes only whitespace. */
  lemma {:induction false} TrimStartRemovesSpace(s: string)
    ensures AllSpace(s[..|s| - |TrimStart(s)|])
  {
    if |s| > 0 && IsSpace(s[0]) {
      TrimStartRemovesSpace(s[1..]);
      assert s[..|s| - |TrimStart(s)|] == [s[0]] + s[1..][..|s[1..]| - |TrimStart(s[1..])|];
    }
  }

  /** `rstrip` removes only whitespace. */
  lemma {:induction false} TrimEndRemovesSpace(s: string)
    ensures AllSpace(s[|TrimEnd(s)|..])
  {
    if |s| > 0 && IsSpace(s[|s| - 1]) {
      var t := s[..|s| - 1];
      TrimEndRemovesSpace(t);
      assert s[|TrimEnd(s)|..] == t[|TrimEnd(t)|..] + [s[|s| - 1]];
    }
  }

  /** A string strips to nothing exactly when it is all whitespace. */
  lemma {:induction false} StripEmptyIffAllSpace(s: string)
    ensures Strip(s) == "" <==> AllSpace(s)
  {
    var t := TrimStart(s);
    TrimStartRemovesSpace(s);
    TrimEndRemovesSpace(t);
    assert s == s[..|s| - |t|] + t;
    if Strip(s) == "" {
      assert t[|TrimEnd(t)|..] == t;
    }
  }

  function LowerChar(c: char): (r: char)
    ensures IsSpace(r) <==> IsSpace(c)
    ensures !('A' <= r <= 'Z')
  {
    if 'A' <= c <= 'Z' then (c as int + 32) as char else c
  }

  function UpperChar(c: char): (r: char)
    ensures !('a' <= r <= 'z')
  {
    if 'a' <= c <= 'z' then (c as int - 32) as char else c
  }

  /** `s.lower()`, restricted to the ASCII letters: other characters are kept. */
  function Lower(s: string): (r: string)
    ensures |r| == |s|
    ensures forall i :: 0 <= i < |s| ==> r[i] == LowerChar(s[i])
  {
    seq(|s|, i requires 0 <= i < |s| => LowerChar(s[i]))
  }

  /** `s.upper()`, restricted to the ASCII letters. */
  function Upper(s: string): (r: string)
    ensures |r| == |s|
    ensures forall i :: 0 <= i < |s| ==> r[i] == UpperChar(s[i])
  {
    seq(|s|, i requires 0 <= i < |s| => UpperChar(s[i]))
  }

  lemma LowerIdempotent(s: string)
    ensures Lower(Lower(s)) == Lower(s)
  {
  }

  /** Lowering keeps a stripped string stripped, so `strip` and `lower` commute on it. */
  lemma LowerKeepsStripped(s: string)
    requires Stripped(s)
    ensures Stripped(Lower(s))
    ensures Strip(Lower(s)) == Lower(s)
  {
    StripOfStripped(Lower(s));
  }

  /** No ASCII capital letter occurs. */
  predicate NoCapitals(s: string)
  {
    forall i :: 0 <= i < |s| ==> !('A' <= s[i] <= 'Z')
  }

  lemma LowerOfNoCapitals(s: string)
    requires NoCapitals(s)
    ensures Lower(s) == s
  {
    var l := Lower(s);
    forall i | 0 <= i < |s|
      ensures l[i] == s[i]
    {
      assert l[i] == LowerChar(s[i]);
    }
  }

  /** Text that is stripped and has no capital letters is its own normal form. */
  lemma NormalUnchanged(s: string)
    requires Stripped(s) && NoCapitals(s)
    ensures Lower(Strip(s)) == s
  {
    StripOfStripped(s);
    LowerOfNoCapitals(s);
  }

  predicate StartsWith(s: string, prefix: string)
  {
    |prefix| <= |s| && s[..|prefix|] == prefix
  }

  predicate EndsWith(s: string, suffix: string)
  {
    |suffix| <= |s| && s[|s| - |suffix|..] == suffix
  }

  /** `sub in s` */
  predicate Contains(s: string, sub: string)
    decreases |s|
  {
    StartsWith(s, sub) || (|s| > 0 && Contains(s[1..], sub))
  }

  lemma {:induction false} ContainsPrefix(s: string, sub: string)
    requires StartsWith(s, sub)
    ensures Contains(s, sub)
  {
  }

  /** A string that occurs at some position of `s` is contained in it. */
  lemma {:induction false} ContainsAt(s: string, sub: string, i: nat)
    requires i + |sub| <= |s| && s[i..i + |sub|] == sub
    ensures Contains(s, sub)
    decreases i
  {
    if i > 0 {
      assert s[1..][i - 1..i - 1 + |sub|] == sub;
      ContainsAt(s[1..], sub, i - 1);
    }
  }

  /** The first position of `c` in `s`, if any. */
  function IndexOf(s: string, c: char): (r: Option<nat>)
    ensures r.None? <==> c !in s
    ensures r.Some? ==> r.value < |s| && s[r.value] == c && c !in s[..r.value]
  {
    if |s| == 0 then None
    else if s[0] == c then Some(0)
    else
      var k := IndexOf(s[1..], c);
      if k.None? then None else Some(k.value + 1)
  }

  function Min(a: nat, b: nat): nat
  {
    if a <= b then a else b
  }

  /** `s[:n]` */
  function Take(s: string, n: nat): (r: string)
    ensures |r| <= n && |r| <= |s|
    ensures r == s[..|r|]
    ensures |r| == n || r == s
  {
    if |s| <= n then s else s[..n]
  }

  /** `s.split(sep)` for a one-character separator. */
  function Split(s: string, sep: char): (r: seq<string>)
    ensures |r| >= 1
    ensures forall i :: 0 <= i < |r| ==> sep !in r[i]
    decreases |s|
  {
    match IndexOf(s, sep)
    case None => [s]
    case Some(k) => [s[..k]] + Split(s[k + 1..], sep)
  }

  /** `sep.join(pieces)` */
  function Join(pieces: seq<string>, sep: char): (r: string)
  {
    if |pieces| == 0 then ""
    else if |pieces| == 1 then pieces[0]
    else pieces[0] + [sep] + Join(pieces[1..], sep)
  }

  /** Joining the pieces of a split gives the original string back. */
  lemma {:induction false} JoinSplit(s: string, sep: char)
    ensures Join(Split(s, sep), sep) == s
    decreases |s|
  {
    match IndexOf(s, sep)
    case None =>
    case Some(k) =>
      var rest := Split(s[k + 1..], sep);
      JoinSplit(s[k + 1..], sep);
      assert Split(s, sep) == [s[..k]] + rest;
      assert (Split(s, sep))[1..] == rest;
      assert s == s[..k] + [sep] + s[k + 1..];
  }

  /** Splitting a join of separator-free pieces gives the pieces back. */
  lemma {:induction false} SplitJoin(pieces: seq<string>, sep: char)
    requires |pieces| >= 1
    requires forall i :: 0 <= i < |pieces| ==> sep !in pieces[i]
    ensures Split(Join(pieces, sep), sep) == pieces
    decreases |pieces|
  {
    if |pieces| > 1 {
      var rest := pieces[1..];
      assert forall i :: 0 <= i < |rest| ==> rest[i] == pieces[i + 1];
      SplitJoin(rest, sep);
      SplitCons(pieces[0], sep, Join(rest, sep));
      assert [pieces[0]] + rest == pieces;
    }
  }

  /** A split at the first separator. */
  lemma SplitCons(a: string, sep: char, b: string)
    requires sep !in a
    ensures Split(a + [sep] + b, sep) == [a] + Split(b, sep)
  {
    var s := a + [sep] + b;
    IndexOfAfterFree(a, sep, b);
    assert s[..|a|] == a;
    assert s[|a| + 1..] == b;
  }

  /** Splitting text, a separator and a separator-free piece gives that piece last. */
  lemma {:induction false} SplitLast(p: string, sep: char, t: string)
    requires sep !in t
    ensures var r := Split(p + [sep] + t, sep); |r| >= 2 && r[|r| - 1] == t
    decreases |p|
  {
    var once := SplitOnce(p, sep);
    if |once| == 1 {
      SplitCons(p, sep, t);
    } else {
      var a, b := once[0], once[1];
      SplitLast(b, sep, t);
      SplitShift(a, b, sep, t);
    }
  }

  /** Moving the first piece out of a split. */
  lemma SplitShift(a: string, b: string, sep: char, t: string)
    requires sep !in a
    ensures var r := Split(b + [sep] + t, sep);
      Split(a + [sep] + b + [sep] + t, sep) == [a] + r
  {
    assert a + [sep] + b + [sep] + t == a + [sep] + (b + [sep] + t);
    SplitCons(a, sep, b + [sep] + t);
  }

  lemma {:induction false} IndexOfAfterFree(a: string, sep: char, b: string)
    requires sep !in a
    ensures IndexOf(a + [sep] + b, sep) == Some(|a|)
    decreases |a|
  {
    if |a| > 0 {
      assert (a + [sep] + b)[1..] == a[1..] + [sep] + b;
      IndexOfAfterFree(a[1..], sep, b);
    }
  }

  /** `s.split(sep, 1)`: the text before and after the first separator, or `[s]`. */
  function SplitOnce(s: string, sep: char): (r: seq<string>)
    ensures |r| == 1 <==> sep !in s
    ensures |r| == 1 || |r| == 2
    ensures |r| == 1 ==> r[0] == s
    ensures |r| == 2 ==> r[0] + [sep] + r[1] == s && sep !in r[0]
  {
    match IndexOf(s, sep)
    case None => [s]
    case Some(k) =>
      assert s == s[..k] + [sep] + s[k + 1..];
      [s[..k], s[k + 1..]]
  }

  /** `s.replace(c, "")` */
  function RemoveChar(s: string, c: char): (r: string)
    ensures c !in r
    ensures |r| <= |s|
    ensures forall x :: x in r ==> x in s
  {
    if |s| == 0 then ""
    else if s[0] == c then RemoveChar(s[1..], c)
    else [s[0]] + RemoveChar(s[1..], c)
  }

  /** `s.lstrip(c)` */
  function LStripChar(s: string, c: char): (r: string)
    ensures |r| <= |s| && r == s[|s| - |r|..]
    ensures |r| > 0 ==> r[0] != c
    ensures forall i :: 0 <= i < |s| - |r| ==> s[i] == c
  {
    if |s| > 0 && s[0] == c then LStripChar(s[1..], c) else s
  }

  function DigitChar(d: nat): (r: char)
    requires d < 10
    ensures '0' <= r <= '9'
  {
    ('0' as int + d) as char
  }

  predicate IsDigit(c: char)
  {
    '0' <= c <= '9'
  }

  function DigitValue(c: char): (r: nat)
    requires IsDigit(c)
    ensures r < 10 && DigitChar(r) == c
  {
    c as int - '0' as int
  }

  /** `str(n)` for a natural number: its decimal digits, no leading zero. */
  function NatToString(n: nat): (r: string)
    ensures |r| >= 1
    ensures forall i :: 0 <= i < |r| ==> IsDigit(r[i])
    ensures |r| > 1 ==> r[0] != '0'
    decreases n
  {
    if n < 10 then [DigitChar(n)] else NatToString(n / 10) + [DigitChar(n % 10)]
  }

  /** `str(i)` for any integer. */
  function IntToString(i: int): (r: string)
    ensures |r| >= 1
  {
    if i < 0 then "-" + NatToString(-i) else NatToString(i)
  }

  /** The value of a string of decimal digits. */
  function DigitsValue(s: string): (r: nat)
    requires forall i :: 0 <= i < |s| ==> IsDigit(s[i])
  {
    if |s| == 0 then 0 else DigitsValue(s[..|s| - 1]) * 10 + DigitValue(s[|s| - 1])
  }

  /** Reading the decimal text of `n` gives `n` back. */
  lemma {:induction false} NatToStringRoundTrip(n: nat)
    ensures DigitsValue(NatToString(n)) == n
    decreases n
  {
    if n >= 10 {
      NatToStringRoundTrip(n / 10);
      var s := NatToString(n);
      assert s[..|s| - 1] == NatToString(n / 10);
    }
  }

  /** Python's `f"{n:0{width}d}"` for a natural number: left-padded with zeros to `width`. */
  function ZeroPad(n: nat, width: nat): (r: string)
    ensures |r| == if |NatToString(n)| < width then width else |NatToString(n)|
    ensures forall i :: 0 <= i < |r| ==> IsDigit(r[i])
    ensures DigitsValue(r) == n
  {
    var digits := NatToString(n);
    NatToStringRoundTrip(n);
    var pad := if |digits| < width then width - |digits| else 0;
    var zeros := seq(pad, _ => '0');
    LeadingZeros(zeros, digits);
    zeros + digits
  }

  lemma {:induction false} LeadingZeros(zeros: string, digits: string)
    requires forall i :: 0 <= i < |zeros| ==> zeros[i] == '0'
    requires forall i :: 0 <= i < |digits| ==> IsDigit(digits[i])
    ensures forall i :: 0 <= i < |zeros + digits| ==> IsDigit((zeros + digits)[i])
    ensures DigitsValue(zeros + digits) == DigitsValue(digits)
    decreases |digits|
  {
    if |digits| == 0 {
      AllZeros(zeros);
      assert zeros + digits == zeros;
    } else {
      var s := zeros + digits;
      assert s[..|s| - 1] == zeros + digits[..|digits| - 1];
      LeadingZeros(zeros, digits[..|digits| - 1]);
    }
  }

  lemma {:induction false} AllZeros(zeros: string)
    requires forall i :: 0 <= i < |zeros| ==> zeros[i] == '0'
    ensures forall i :: 0 <= i < |zeros| ==> IsDigit(zeros[i])
    ensures DigitsValue(zeros) == 0
    decreases |zeros|
  {
    if |zeros| > 0 {
      AllZeros(zeros[..|zeros| - 1]);
    }
  }
  /** Digits with single underscores between them, as Python's `int()` reads them. */
  predicate DigitGroups(s: string)
  {
    |s| > 0 && IsDigit(s[0]) && IsDigit(s[|s| - 1])
    && (forall i :: 0 <= i < |s| ==> IsDigit(s[i]) || s[i] == '_')
    && (forall i :: 0 <= i < |s| - 1 ==> !(s[i] == '_' && s[i + 1] == '_'))
  }

  /** `int(s)` succeeds: surrounding whitespace, an optional sign, then decimal digit groups. */
  predicate IsIntText(s: string)
  {
    var t := Strip(s);
    if |t| > 0 && (t[0] == '+' || t[0] == '-') then DigitGroups(t[1..]) else DigitGroups(t)
  }

  /** The length of the run of non-whitespace characters `s` starts with. */
  function WordEnd(s: string): (r: nat)
    ensures r <= |s|
    ensures r < |s| ==> IsSpace(s[r])
    ensures r > 0 <==> |s| > 0 && !IsSpace(s[0])
  {
    if |s| == 0 || IsSpace(s[0]) then 0 else 1 + WordEnd(s[1..])
  }

  /** A word of `split()`: non-empty, all of it one run of non-whitespace. */
  predicate IsWord(w: string)
  {
    |w| > 0 && WordEnd(w) == |w|
  }

  /** A word holds no whitespace. */
  lemma {:induction false} WordHasNoSpace(w: string, i: nat)
    requires WordEnd(w) == |w| && i < |w|
    ensures !IsSpace(w[i])
    decreases |w|
  {
    if i > 0 {
      WordHasNoSpace(w[1..], i - 1);
    }
  }

  /** `s.split()` with no separator: the maximal runs of non-whitespace
      characters, in order. */
  function Words(s: string): (r: seq<string>)
    decreases |s|
  {
    var t := TrimStart(s);
    if |t| == 0 then []
    else
      var k := WordEnd(t);
      [t[..k]] + Words(t[k..])
  }

  lemma {:induction false} WordEndOfWord(w: string, rest: string)
    requires WordEnd(w) == |w|
    requires rest == "" || IsSpace(rest[0])
    ensures WordEnd(w + rest) == |w|
    decreases |w|
  {
    if |w| > 0 {
      assert (w + rest)[0] == w[0];
      assert (w + rest)[1..] == w[1..] + rest;
      WordEndOfWord(w[1..], rest);
    } else {
      assert w + rest == rest;
    }
  }

  /** Every element is a word. */
  predicate AllWords(ws: seq<string>)
  {
    |ws| == 0 || (IsWord(ws[0]) && AllWords(ws[1..]))
  }

  /** Words joined by single spaces split back into the same words. */
  lemma {:induction false} WordsOfJoin(ws: seq<string>)
    requires AllWords(ws)
    ensures Words(Join(ws, ' ')) == ws
    decreases |ws|
  {
    if |ws| == 1 {
      OneWord(ws[0]);
    } else if |ws| > 1 {
      var j := Join(ws[1..], ' ');
      assert Words(Join(ws, ' ')) == [ws[0]] + Words(j) by {
        JoinStartsWithWord(ws[1..]);
        WordThenRest(Join(ws, ' '), ws[0], j);
      }
      assert Words(j) == ws[1..] by {
        WordsOfJoin(ws[1..]);
      }
      assert [ws[0]] + ws[1..] == ws;
    }
  }

  lemma OneWord(w: string)
    requires IsWord(w)
    ensures Words(w) == [w]
  {
    TrimStartOfNonSpace(w);
    assert w[..|w|] == w && w[|w|..] == "";
  }

  lemma WordThenRest(s: string, w: string, j: string)
    requires s == w + [' '] + j && IsWord(w) && |j| > 0 && !IsSpace(j[0])
    ensures Words(s) == [w] + Words(j)
  {
    var rest := [' '] + j;
    assert s == w + rest;
    WordSplit(s, w, rest);
    SpaceThenWord(j);
  }

  lemma WordSplit(s: string, w: string, rest: string)
    requires s == w + rest && IsWord(w) && |rest| > 0 && IsSpace(rest[0])
    ensures Words(s) == [w] + Words(rest)
  {
    assert s[0] == w[0];
    TrimStartOfNonSpace(s);
    WordEndOfWord(w, rest);
    assert s[..|w|] == w && s[|w|..] == rest;
  }

  lemma SpaceThenWord(j: string)
    requires |j| > 0 && !IsSpace(j[0])
    ensures Words([' '] + j) == Words(j)
  {
    TrimStartOfNonSpace(j);
    assert ([' '] + j)[1..] == j;
    assert TrimStart([' '] + j) == j;
  }

  lemma JoinStartsWithWord(ws: seq<string>)
    requires |ws| > 0 && IsWord(ws[0])
    ensures |Join(ws, ' ')| > 0 && !IsSpace(Join(ws, ' ')[0])
  {
    if |ws| > 1 {
      assert Join(ws, ' ') == ws[0] + [' '] + Join(ws[1..], ' ');
    }
  }

  /** Removing `_` from digit groups leaves only digits. */
  lemma DigitsOnly(g: string)
    requires DigitGroups(g)
    ensures forall i :: 0 <= i < |RemoveChar(g, '_')| ==> IsDigit(RemoveChar(g, '_')[i])
  {
    var d := RemoveChar(g, '_');
    forall i | 0 <= i < |d|
      ensures IsDigit(d[i])
    {
      assert d[i] in d;
      var j :| 0 <= j < |g| && g[j] == d[i];
    }
  }

  /** `int(s)` where it succeeds: surrounding whitespace dropped, then
      the sign and the value of the digits with the underscores dropped. */
  function IntValue(s: string): (r: Option<int>)
    ensures r.Some? <==> IsIntText(s)
  {
    SignedValue(Strip(s))
  }

  /** The value of stripped text: an optional sign, then digit groups. */
  function SignedValue(t: string): (r: Option<int>)
    ensures r.Some? <==> if |t| > 0 && (t[0] == '+' || t[0] == '-') then DigitGroups(t[1..]) else DigitGroups(t)
  {
    if |t| > 0 && (t[0] == '+' || t[0] == '-') then
      if !DigitGroups(t[1..]) then None
      else if t[0] == '-' then Some(-(GroupsValue(t[1..]) as int))
      else Some(GroupsValue(t[1..]) as int)
    else if DigitGroups(t) then Some(GroupsValue(t) as int)
    else None
  }

  /** The value of digit groups, the underscores dropped. */
  function GroupsValue(g: string): (r: nat)
    requires DigitGroups(g)
  {
    DigitsOnly(g);
    DigitsValue(RemoveChar(g, '_'))
  }

  lemma {:induction false} RemoveAbsent(s: string, c: char)
    requires c !in s
    ensures RemoveChar(s, c) == s
  {
    if |s| > 0 {
      assert c !in s[1..] by {
        assert forall i :: 0 <= i < |s| - 1 ==> s[1..][i] == s[i + 1];
      }
      RemoveAbsent(s[1..], c);
      assert [s[0]] + s[1..] == s;
    }
  }

  /** `int(str(n)) == n`. */
  lemma IntValueRoundTrip(n: int)
    ensures IntValue(IntToString(n)) == Some(n)
  {
    var m: nat := if n < 0 then -n else n;
    var d := NatToString(m);
    assert DigitsValue(d) == m by {
      NatToStringRoundTrip(m);
    }
    assert DigitGroups(d) && '_' !in d by {
      assert forall i :: 0 <= i < |d| ==> IsDigit(d[i]);
    }
    if n < 0 {
      var t := IntToString(n);
      assert t == "-" + d;
      assert t[1..] == d;
      NegativeValue(t, d);
    } else {
      assert IntToString(n) == d;
      DigitsText(d);
    }
  }

  lemma DigitsText(d: string)
    requires DigitGroups(d) && '_' !in d
    ensures IntValue(d) == Some(DigitsValue(d))
  {
    StrippedDigits(d);
    SignedDigits(d);
    GroupsOfDigits(d);
  }

  lemma NegativeValue(t: string, d: string)
    requires |t| > 0 && t[0] == '-' && t[1..] == d && DigitGroups(d) && '_' !in d
    ensures IntValue(t) == Some(-(DigitsValue(d) as int))
  {
    NegativeText(t, d);
    SignedNegative(t, d);
    GroupsOfDigits(d);
  }

  lemma GroupsOfDigits(d: string)
    requires DigitGroups(d) && '_' !in d
    ensures GroupsValue(d) == DigitsValue(d)
  {
    RemoveAbsent(d, '_');
  }

  lemma SignedDigits(d: string)
    requires DigitGroups(d)
    ensures SignedValue(d) == Some(GroupsValue(d) as int)
  {
    assert d[0] != '+' && d[0] != '-';
  }

  lemma StrippedDigits(d: string)
    requires DigitGroups(d)
    ensures Strip(d) == d
  {
    assert !IsSpace(d[0]) && !IsSpace(d[|d| - 1]);
    StripOfStripped(d);
  }

  lemma SignedNegative(t: string, d: string)
    requires |t| > 0 && t[0] == '-' && t[1..] == d && DigitGroups(d)
    ensures SignedValue(t) == Some(-(GroupsValue(d) as int))
  {
  }

  lemma NegativeText(t: string, d: string)
    requires |t| > 0 && t[0] == '-' && t[1..] == d && DigitGroups(d)
    ensures Strip(t) == t
  {
    assert t[|t| - 1] == d[|d| - 1];
    assert !IsSpace(t[0]) && !IsSpace(t[|t| - 1]);
    StripOfStripped(t);
  }

  /** Two non-blank characters separated by a newline: stripping changes
      nothing and splitting gives the two one-character lines. */
  lemma SplitTwoLines(a: char, b: char)
    requires !IsSpace(a) && !IsSpace(b)
    ensures Split(Strip([a, '\n', b]), '\n') == [[a], [b]]
    ensures Strip([a]) == [a] && Strip([b]) == [b]
  {
    assert Split(Strip([a, '\n', b]), '\n') == [[a], [b]] by {
      StripOfStripped([a, '\n', b]);
      SplitTwo(a, b);
    }
    assert Strip([a]) == [a] by {
      StripOfStripped([a]);
    }
    assert Strip([b]) == [b] by {
      StripOfStripped([b]);
    }
  }

  lemma SplitTwo(a: char, b: char)
    requires a != '\n' && b != '\n'
    ensures Split([a, '\n', b], '\n') == [[a], [b]]
  {
    assert Join([[a], [b]], '\n') == [a, '\n', b];
    SplitJoin([[a], [b]], '\n');
  }
}

=== FILE: tranco.dfy ===
/** The Tranco extractor: the `.pk` domains of several ranking files (rank
    in the first column, domain in the second), collected into one set and
    written out sorted and numbered from 1. Files are given as their rows;
    a file that cannot be opened or read is `None` and contributes nothing. */
module Tranco {

  import opened Wrappers
  import opened PyStr
  import opened Ordering

  const PK := ".pk"

  /** The characters allowed before `.pk`. */
  predicate Allowed(c: char)
  {
    'a' <= c <= 'z' || '0' <= c <= '9' || c == '.' || c == '-'
  }

  /** A well-formed part before `.pk`: not empty, only allowed characters,
      neither a dot nor a hyphen at either end. */
  predicate ValidStem(b: string)
  {
    && |b| > 0
    && b[0] != '.' && b[0] != '-'
    && b[|b| - 1] != '.' && b[|b| - 1] != '-'
    && forall i :: 0 <= i < |b| ==> Allowed(b[i])
  }

  /** `is_valid_pk_domain`: the checks run on the stripped, lower-cased text. */
  function IsValidPkDomain(domain: string): (r: bool)
  {
    ValidName(Lower(Strip(domain)))
  }

  /** The checks of `is_valid_pk_domain`, in order, on normalised text. */
  function ValidName(d: string): (r: bool)
    ensures r ==> |d| > |PK|
  {
    if !EndsWith(d, PK) then false
    else if |d| <= 3 then false
    else
      var stem := d[..|d| - 3];
      if stem[0] == '.' || stem[0] == '-' || stem[|stem| - 1] == '.' || stem[|stem| - 1] == '-' then false
      else if !(forall i :: 0 <= i < |stem| ==> Allowed(stem[i])) then false
      else true
  }

  /** Normalised text is valid exactly when it is a well-formed stem followed by `.pk`. */
  lemma ValidIffStem(d: string)
    ensures ValidName(d) ==> ValidStem(d[..|d| - 3]) && d == d[..|d| - 3] + PK
    ensures forall stem :: ValidStem(stem) && d == stem + PK ==> ValidName(d)
  {
    if ValidName(d) {
      assert d == d[..|d| - 3] + d[|d| - 3..];
    }
    forall stem | ValidStem(stem) && d == stem + PK
      ensures ValidName(d)
    {
      assert d[|d| - 3..] == PK;
      assert d[..|d| - 3] == stem;
    }
  }

  /** Text whose every character is unchanged by lower-casing. */
  predicate LowerFixed(d: string)
  {
    forall i :: 0 <= i < |d| ==> LowerChar(d[i]) == d[i]
  }

  lemma LowerOfLowerFixed(d: string)
    requires LowerFixed(d)
    ensures Lower(d) == d
  {
  }

  /** A well-formed stem followed by `.pk` is already in normal form and valid. */
  lemma StemMakesValidDomain(stem: string)
    requires ValidStem(stem)
    ensures Lower(Strip(stem + PK)) == stem + PK
    ensures IsValidPkDomain(stem + PK)
  {
    var d := stem + PK;
    assert Stripped(d) by {
      assert d[0] == stem[0] && d[|d| - 1] == 'k';
    }
    StripOfStripped(d);
    assert LowerFixed(d) by {
      forall i | 0 <= i < |d|
        ensures LowerChar(d[i]) == d[i]
      {
        if i < |stem| {
          assert d[i] == stem[i] && Allowed(stem[i]);
        }
      }
    }
    LowerOfLowerFixed(d);
    ValidIffStem(d);
  }

  /** `.pk` alone, a leading hyphen, and an underscore are all rejected. */
  lemma RejectedShapes()
    ensures !ValidName(".pk")
    ensures !ValidName("-a.pk")
    ensures !ValidName("a_b.pk")
  {
    var u := "a_b.pk";
    assert !Allowed(u[..|u| - 3][1]);
  }

  // ---------------------------------------------------------------- one file

  /** What the extractor stores: a valid domain in normal form. */
  predicate Normal(x: string)
  {
    IsValidPkDomain(x) && Lower(Strip(x)) == x
  }

  /** The domain a row contributes: the second column stripped, kept
      lower-cased if valid; rows with fewer than two columns give nothing. */
  function Picked(row: seq<string>): (r: Option<string>)
    ensures r.Some? ==> |row| >= 2
  {
    if |row| < 2 then None
    else
      var d := Strip(row[1]);
      if IsValidPkDomain(d) then Some(Lower(d)) else None
  }

  /** Every domain a row contributes is valid and in normal form. */
  lemma PickedNormal(row: seq<string>, x: string)
    requires Picked(row) == Some(x)
    ensures Normal(x)
  {
    var d := Strip(row[1]);
    assert x == Lower(d) && IsValidPkDomain(d);
    PickedIsNormal(d);
  }

  /** Lower-casing a stripped valid domain keeps it valid and in normal form. */
  lemma PickedIsNormal(d: string)
    requires Stripped(d) && IsValidPkDomain(d)
    ensures Normal(Lower(d))
  {
    LowerKeepsStripped(d);
    LowerIdempotent(d);
    StripOfStripped(d);
    assert Lower(Strip(Lower(d))) == Lower(d);
  }

  /** A row whose second column is a well-formed `.pk` domain contributes it unchanged. */
  lemma WellFormedRowKept(rank: string, stem: string)
    requires ValidStem(stem)
    ensures Picked([rank, stem + PK]) == Some(stem + PK)
  {
    var d := stem + PK;
    StemMakesValidDomain(stem);
    assert Lower(Strip(d)) == d;
    StripOfStripped(d);
    assert Strip(d) == d;
  }

  predicate InFile(file: Option<seq<seq<string>>>, x: string)
  {
    file.Some? && exists i :: 0 <= i < |file.value| && Picked(file.value[i]) == Some(x)
  }

  /** `extract_pk_domains_from_file`: the set of domains its rows contribute. */
  method ExtractFromFile(file: Option<seq<seq<string>>>) returns (domains: set<string>)
    ensures forall x :: x in domains <==> InFile(file, x)
  {
    domains := {};
    if file.None? {
      return;
    }
    var rows := file.value;
    var picks := PickAll(rows);
    domains := Values(picks);
    forall x
      ensures x in domains <==> InFile(file, x)
    {
      PickedFromFile(rows, picks, x);
      FileFromPicked(rows, picks, x);
    }
  }

  lemma PickedFromFile(rows: seq<seq<string>>, picks: seq<Option<string>>, x: string)
    requires |picks| == |rows|
    requires forall i {:trigger picks[i]} :: 0 <= i < |rows| ==> picks[i] == Picked(rows[i])
    ensures InFile(Some(rows), x) ==> exists i :: 0 <= i < |picks| && picks[i] == Some(x)
  {
    if InFile(Some(rows), x) {
      var i :| 0 <= i < |rows| && Picked(rows[i]) == Some(x);
      assert picks[i] == Some(x);
    }
  }

  lemma FileFromPicked(rows: seq<seq<string>>, picks: seq<Option<string>>, x: string)
    requires |picks| == |rows|
    requires forall i {:trigger picks[i]} :: 0 <= i < |rows| ==> picks[i] == Picked(rows[i])
    ensures (exists i :: 0 <= i < |picks| && picks[i] == Some(x)) ==> InFile(Some(rows), x)
  {
  }

  /** The contribution of each row, in order. */
  function PickAll(rows: seq<seq<string>>): (r: seq<Option<string>>)
    ensures |r| == |rows|
    ensures forall i {:trigger r[i]} :: 0 <= i < |rows| ==> r[i] == Picked(rows[i])
  {
    if |rows| == 0 then [] else [Picked(rows[0])] + PickAll(rows[1..])
  }

  // ---------------------------------------------------------------- all files

  /** One of the first `n` files contributes `x`. */
  predicate InFirst(files: seq<Option<seq<seq<string>>>>, n: nat, x: string)
    requires n <= |files|
  {
    exists f :: 0 <= f < n && InFile(files[f], x)
  }

  /** Some file contributes `x`. */
  predicate InSome(files: seq<Option<seq<seq<string>>>>, x: string)
  {
    InFirst(files, |files|, x)
  }

  lemma InFirstGrows(files: seq<Option<seq<seq<string>>>>, k: nat, x: string)
    requires k < |files|
    ensures InFirst(files, k, x) || InFile(files[k], x) ==> InFirst(files, k + 1, x)
  {
  }

  lemma InFirstSplits(files: seq<Option<seq<seq<string>>>>, k: nat, x: string)
    requires k < |files|
    ensures InFirst(files, k + 1, x) ==> InFirst(files, k, x) || InFile(files[k], x)
  {
  }

  /** Every domain some file contributes is valid and in normal form. */
  lemma InSomeNormal(files: seq<Option<seq<seq<string>>>>, x: string)
    requires InSome(files, x)
    ensures Normal(x)
  {
    var f :| 0 <= f < |files| && InFile(files[f], x);
    var rows := files[f].value;
    var i :| 0 <= i < |rows| && Picked(rows[i]) == Some(x);
    PickedNormal(rows[i], x);
  }

  /** `main`: the union of every file's domains, sorted, numbered from 1. */
  method Combine(files: seq<Option<seq<seq<string>>>>) returns (rows: seq<Row>)
    ensures forall i :: 0 <= i < |rows| ==> rows[i].index == i + 1
    ensures forall i, j :: 0 <= i < j < |rows| ==> Less(rows[i].domain, rows[j].domain)
    ensures forall x :: Listed(rows, x) <==> InSome(files, x)
  {
    var all: set<string> := {};
    var k := 0;
    while k < |files|
      invariant 0 <= k <= |files|
      invariant forall x :: x in all <==> InFirst(files, k, x)
    {
      var domains := ExtractFromFile(files[k]);
      all := all + domains;
      forall x
        ensures x in all <==> InFirst(files, k + 1, x)
      {
        InFirstGrows(files, k, x);
        InFirstSplits(files, k, x);
      }
      k := k + 1;
    }
    rows := SortedNumbered(all);
  }
}

=== FILE: views.dfy ===
/** The HTTP views of the dashboard backend, where they hold logic of their
    own. This covers query-string flags and multi-select lists, and the global
    filters the list view hands to the controller. It also covers the
    vulnerability view's summary, the download's file name, and the CSV
    export: its MongoDB query, its rows and the records `csv.writer` writes.
    Requests and responses are left out. The clock, the top issuers, the
    database cursor and `str()` of a non-text value are parameters. */
module Views {

  import opened Wrappers
  import opened PyStr
  import opened JsonTree
  import opened CertModels
  import Controllers
  import Calendar
  import opened HashPatterns
  import opened Counting

  // ---------------------------------------------------------------- query-string parsing

  /** `request.GET.get(name, '').lower() == 'true'` */
  function Flag(p: Option<string>): (r: bool)
    ensures r <==> p.Some? && |p.value| == 4 && forall i :: 0 <= i < 4 ==> LowerChar(p.value[i]) == "true"[i]
  {
    var l := Lower(p.UnwrapOr(""));
    assert |l| == 4 && (forall i :: 0 <= i < 4 ==> l[i] == "true"[i]) ==> l == "true";
    l == "true"
  }

  /** A flag ignores the capitalisation of its value. */
  lemma FlagIgnoresCase(s: string)
    ensures Flag(Some(Upper(s))) == Flag(Some(s))
    ensures Flag(Some(Lower(s))) == Flag(Some(s))
  {
    forall i | 0 <= i < |s|
      ensures LowerChar(UpperChar(s[i])) == LowerChar(s[i])
      ensures LowerChar(LowerChar(s[i])) == LowerChar(s[i])
    {
    }
  }

  /** An item of a multi-select list: non-blank, with no surrounding whitespace. */
  predicate Item(s: string)
  {
    s != "" && Stripped(s)
  }

  /** The stripped, non-blank pieces, in order. */
  function KeepStripped(pieces: seq<string>): (r: seq<string>)
    ensures |r| <= |pieces|
    ensures forall i :: 0 <= i < |r| ==> Item(r[i])
  {
    if |pieces| == 0 then []
    else
      var t := Strip(pieces[0]);
      var rest := KeepStripped(pieces[1..]);
      if t != "" then
        AllCons(t, rest, Item);
        [t] + rest
      else rest
  }

  /** A comma-separated multi-select list: `None` when the parameter is
      missing or empty, otherwise the stripped non-blank items. */
  function MultiSelect(p: Option<string>): (r: Option<seq<string>>)
    ensures r.Some? <==> Present(p)
    ensures r.Some? ==> forall i :: 0 <= i < |r.value| ==> Item(r.value[i])
  {
    if Present(p) then Some(KeepStripped(Split(p.value, ','))) else None
  }

  lemma KeepHead(items: seq<string>)
    requires |items| > 0 && Item(items[0])
    ensures KeepStripped(items) == [items[0]] + KeepStripped(items[1..])
  {
    StripOfStripped(items[0]);
  }

  lemma {:induction false} KeepStrippedKeeps(items: seq<string>)
    requires forall i :: 0 <= i < |items| ==> Item(items[i])
    ensures KeepStripped(items) == items
  {
    if |items| > 0 {
      KeepHead(items);
      KeepStrippedKeeps(items[1..]);
      Cons(items);
    }
  }

  /** Sending a selection joined with commas reads back the same selection. */
  lemma MultiSelectRoundTrip(items: seq<string>)
    requires |items| >= 1
    requires forall i :: 0 <= i < |items| ==> Item(items[i]) && ',' !in items[i]
    ensures MultiSelect(Some(Join(items, ','))) == Some(items)
  {
    SplitJoin(items, ',');
    KeepStrippedKeeps(items);
    var s := Join(items, ',');
    assert |items| > 1 ==> s == items[0] + [','] + Join(items[1..], ',');
    assert |s| >= |items[0]|;
  }

  /** The global filter parameters as the list views build them, grades
      never read; the request parameters are read unparsed. */
  function Params(start: Option<string>, end: Option<string>, countries: Option<string>,
                  issuers: Option<string>, statuses: Option<string>, levels: Option<string>)
    : Controllers.GlobalFilterParams
  {
    Controllers.GlobalFilterParams(start, end, MultiSelect(countries), MultiSelect(issuers), None,
                                   MultiSelect(statuses), MultiSelect(levels))
  }

  /** The global filters of the list views: passed on only when a date is
      given or a selection is non-empty. */
  function GlobalFilters(start: Option<string>, end: Option<string>, countries: Option<string>,
                         issuers: Option<string>, statuses: Option<string>, levels: Option<string>)
    : (r: Option<Controllers.GlobalFilterParams>)
    ensures r.Some? ==> r.value == Params(start, end, countries, issuers, statuses, levels)
    ensures r.Some? ==> r.value.grades.None?
  {
    var g := Params(start, end, countries, issuers, statuses, levels);
    if Present(start) || Present(end) || NonEmpty(g.countries) || NonEmpty(g.issuers)
       || NonEmpty(g.statuses) || NonEmpty(g.validationLevels)
    then Some(g) else None
  }

  /** The view's gate and the controller's agree: the view passes the
      filters on exactly when the controller counts one of them as active,
      and then the controller builds a base filter. A selection that is
      only commas reads as `[]` and so activates nothing. */
  lemma GlobalFiltersAgree(start: Option<string>, end: Option<string>, countries: Option<string>,
                           issuers: Option<string>, statuses: Option<string>, levels: Option<string>,
                           ctx: Controllers.FilterContext)
    ensures var g := Params(start, end, countries, issuers, statuses, levels);
      GlobalFilters(start, end, countries, issuers, statuses, levels).Some? <==> Controllers.HasFilters(g)
    ensures var r := GlobalFilters(start, end, countries, issuers, statuses, levels);
      r.Some? <==> Controllers.BaseFilter(r, ctx).Some?
  {
  }

  // ---------------------------------------------------------------- the vulnerabilities view

  predicate Vulnerable(c: Counts)
  {
    c.errors > 0 || c.warnings > 0
  }

  predicate IsVulnerable(x: Serialized)
  {
    Vulnerable(x.counts)
  }

  predicate IsCritical(x: Serialized)
  {
    x.counts.errors > 0
  }

  predicate IsWarningOnly(x: Serialized)
  {
    x.counts.warnings > 0 && x.counts.errors == 0
  }

  /** The certificates of the page with a lint error or warning, in page
      order: as many as there are positions holding one. */
  function VulnerableCerts(page: seq<Serialized>): (r: seq<Serialized>)
    ensures |r| == |Where(page, IsVulnerable)|
    ensures forall x :: x in r <==> x in page && Vulnerable(x.counts)
  {
    if |page| == 0 then []
    else
      WhereCons(page, IsVulnerable);
      (if Vulnerable(page[0].counts) then [page[0]] else []) + VulnerableCerts(page[1..])
  }

  /** The filter keeps page order: the vulnerable certificates of a
      concatenation are those of its first part followed by those of its second. */
  lemma {:induction false} VulnerableCertsAppend(a: seq<Serialized>, b: seq<Serialized>)
    ensures VulnerableCerts(a + b) == VulnerableCerts(a) + VulnerableCerts(b)
  {
    if |a| > 0 {
      var head: seq<Serialized> := if Vulnerable(a[0].counts) then [a[0]] else [];
      assert a == [a[0]] + a[1..];
      assert a + b == [a[0]] + (a[1..] + b);
      VulnerableCertsAppend(a[1..], b);
      VulnerableCertsCons(a + b, a[0], a[1..] + b);
      VulnerableCertsCons(a, a[0], a[1..]);
      AppendAssoc(head, VulnerableCerts(a[1..]), VulnerableCerts(b));
    } else {
      assert a + b == b;
    }
  }

  /** The filter decides the first certificate, then the rest. */
  lemma VulnerableCertsCons(s: seq<Serialized>, x: Serialized, rest: seq<Serialized>)
    requires s == [x] + rest
    ensures VulnerableCerts(s) == (if Vulnerable(x.counts) then [x] else []) + VulnerableCerts(rest)
  {
    assert s[0] == x && s[1..] == rest;
  }

  /** The number of certificates with a lint error. */
  function Critical(certs: seq<Serialized>): (r: nat)
    ensures r == |Where(certs, IsCritical)|
  {
    if |certs| == 0 then 0
    else
      WhereCons(certs, IsCritical);
      (if certs[0].counts.errors > 0 then 1 else 0) + Critical(certs[1..])
  }

  /** The number of certificates with warnings and no error. */
  function WarningOnly(certs: seq<Serialized>): (r: nat)
    ensures r == |Where(certs, IsWarningOnly)|
  {
    if |certs| == 0 then 0
    else
      WhereCons(certs, IsWarningOnly);
      (if certs[0].counts.warnings > 0 && certs[0].counts.errors == 0 then 1 else 0) + WarningOnly(certs[1..])
  }

  datatype Summary = Summary(critical: nat, warning: nat, total: nat)

  /** The summary of the vulnerabilities view, over the certificates of
      the one page the controller returned. */
  function VulnSummary(page: seq<Serialized>): (r: Summary)
    ensures r.total == |VulnerableCerts(page)|
    ensures r.critical + r.warning == r.total
  {
    var v := VulnerableCerts(page);
    SummaryPartition(v);
    Summary(Critical(v), WarningOnly(v), |v|)
  }

  /** Every vulnerable certificate is critical or warning-only, never both. */
  lemma {:induction false} SummaryPartition(certs: seq<Serialized>)
    requires forall i :: 0 <= i < |certs| ==> Vulnerable(certs[i].counts)
    ensures Critical(certs) + WarningOnly(certs) == |certs|
  {
    if |certs| > 0 {
      SummaryPartition(certs[1..]);
    }
  }

  // ---------------------------------------------------------------- the download file name

  /** `s.replace(a, b)` for single characters. */
  function ReplaceChar(s: string, a: char, b: char): (r: string)
    ensures |r| == |s|
    ensures forall i :: 0 <= i < |s| ==> r[i] == (if s[i] == a then b else s[i])
  {
    seq(|s|, i requires 0 <= i < |s| => if s[i] == a then b else s[i])
  }

  const SUFFIX := "_certificates"

  /** The stem of the download's file name, from the first filter given:
      status, weak hash, self-signed, signature algorithm, issuer, country. */
  function FileName(status: Option<string>, weak: bool, selfSigned: bool, algorithm: Option<string>,
                    issuer: Option<string>, country: Option<string>): (r: string)
    ensures Present(status) ==> r == Lower(status.value) + SUFFIX
    ensures !Present(status) && weak ==> r == "weak_hash" + SUFFIX
    ensures !Present(status) && !weak && selfSigned ==> r == "self_signed" + SUFFIX
    ensures var algoFirst := !Present(status) && !weak && !selfSigned && Present(algorithm);
      algoFirst ==>
        && '-' !in r && EndsWith(r, SUFFIX) && |r| == Min(20, |algorithm.value|) + |SUFFIX|
        && forall i :: 0 <= i < |r| - |SUFFIX| ==>
             r[i] == if algorithm.value[i] == '-' then '_' else algorithm.value[i]
    ensures var issuerFirst := !Present(status) && !weak && !selfSigned && !Present(algorithm) && Present(issuer);
      issuerFirst ==>
        var cleaned := RemoveChar(ReplaceChar(issuer.value, ' ', '_'), '\'');
        && ' ' !in r && '\'' !in r && EndsWith(r, SUFFIX) && |r| == Min(20, |cleaned|) + |SUFFIX|
        && r[..|r| - |SUFFIX|] == cleaned[..Min(20, |cleaned|)]
    ensures var countryFirst := !Present(status) && !weak && !selfSigned && !Present(algorithm) && !Present(issuer);
      countryFirst && Present(country) ==> r == Lower(country.value) + SUFFIX
    ensures r == "certificates" <==> (!Present(status) && !weak && !selfSigned && !Present(algorithm)
                                      && !Present(issuer) && !Present(country))
  {
    if Present(status) then Lower(status.value) + SUFFIX
    else if weak then "weak_hash" + SUFFIX
    else if selfSigned then "self_signed" + SUFFIX
    else if Present(algorithm) then
      var safe := Take(ReplaceChar(algorithm.value, '-', '_'), 20);
      assert '-' !in SUFFIX;
      assert (safe + SUFFIX)[..|safe|] == safe;
      safe + SUFFIX
    else if Present(issuer) then
      var cleaned := RemoveChar(ReplaceChar(issuer.value, ' ', '_'), '\'');
      var safe := Take(cleaned, 20);
      assert ' ' !in SUFFIX && '\'' !in SUFFIX;
      assert ' ' !in cleaned;
      assert (safe + SUFFIX)[..|safe|] == safe;
      safe + SUFFIX
    else if Present(country) then Lower(country.value) + SUFFIX
    else "certificates"
  }

  // ---------------------------------------------------------------- the export's query

  /** The keys the export's query sets. */
  datatype QueryKey = Either | Both | ValidTo | ValidFrom | IssuerOrg | HasErrors | SelfSignedKey
    | SignatureName | ValidityLength | KeyAlgorithm | RsaLength | EcdsaLength
  {
    function Name(): string
    {
      match this
      case Either => "$or"
      case Both => "$and"
      case ValidTo => END
      case ValidFrom => "parsed.validity.start"
      case IssuerOrg => ORG
      case HasErrors => "zlint.errors_present"
      case SelfSignedKey => "parsed.signature.self_signed"
      case SignatureName => SIGNATURE
      case ValidityLength => "parsed.validity.length"
      case KeyAlgorithm => ALGO
      case RsaLength => RSA_LENGTH
      case EcdsaLength => ECDSA_LENGTH
    }
  }

  type Query = map<QueryKey, Json>

  const SIGNATURE := "parsed.signature_algorithm.name"
  const ECDSA_LENGTH := "parsed.subject_key_info.ecdsa_public_key.length"

  /** The download's filters, after the view parsed the integers. */
  datatype ExportFilters = ExportFilters(
    status: Option<string>, country: Option<string>, issuer: Option<string>, search: Option<string>,
    encryptionType: Option<string>, hasVulnerabilities: bool, expiringMonth: Option<int>, expiringYear: Option<int>,
    issuedMonth: Option<int>, issuedYear: Option<int>, weakHash: bool, selfSigned: bool,
    signatureAlgorithm: Option<string>, hashType: Option<string>, validityBucket: Option<string>,
    expiringDays: Option<int>)

  /** The clock: now, thirty days on, and `n` days on, as ISO text; `n`
      days on is `None` where that date leaves years 1..9999, for which
      `datetime` addition raises `OverflowError`. */
  datatype Clock = Clock(now: string, in30: string, after: int -> Option<string>)

  /** A truthy optional integer. */
  predicate Given(n: Option<int>)
  {
    n.Some? && n.value != 0
  }

  /** `q` and `r` agree everywhere but at `k`. */
  predicate SameExcept(q: Query, r: Query, k: QueryKey)
  {
    forall j :: j != k ==> (j in q <==> j in r) && (j in q ==> q[j] == r[j])
  }

  /** `q` and `r` agree at `k`. */
  predicate Agree(q: Query, r: Query, k: QueryKey)
  {
    (k in q <==> k in r) && (k in q ==> q[k] == r[k])
  }

  /** `q` and `r` agree on the key type and size. */
  predicate SameKeyInfo(q: Query, r: Query)
  {
    Agree(q, r, KeyAlgorithm) && Agree(q, r, RsaLength) && Agree(q, r, EcdsaLength)
  }

  /** `q` and `r` agree everywhere but at `k1` and `k2`. */
  predicate SameOutside(q: Query, r: Query, k1: QueryKey, k2: QueryKey)
  {
    forall j :: j != k1 && j != k2 ==> (j in q <==> j in r) && (j in q ==> q[j] == r[j])
  }

  /** A case-insensitive regular-expression condition. */
  function Regex(pattern: string): Json
  {
    Obj(map["$regex" := Str(pattern), "$options" := Str("i")])
  }

  /** The search: the common name or the domain matches the text. */
  function SearchClause(s: string): Json
  {
    Arr([On("parsed.subject.common_name", Regex(s)), On("domain", Regex(s))])
  }

  /** The weak-hash alternatives: a SHA-1 or MD5 signature. */
  const WEAK_CLAUSE: Json := Arr([On(SIGNATURE, Regex("^SHA1|^SHA-1")), On(SIGNATURE, Regex("^MD5"))])

  /** "Others": an issuer organisation outside the top issuers, or none. */
  function OthersClause(topCas: seq<string>): Json
  {
    Obj(map["$or" := Arr([On(ORG, Obj(map["$nin" := Arr(Texts(topCas))])),
                          On(ORG, Obj(map["$exists" := Bool(false)]))])])
  }

  function SearchStep(q: Query, search: Option<string>): (r: Query)
    ensures SameExcept(q, r, Either)
    ensures Present(search) ==> Either in r && r[Either] == SearchClause(search.value)
    ensures !Present(search) ==> r == q
  {
    if Present(search) then q[Either := SearchClause(search.value)] else q
  }

  /** The issuer: "others" (any capitalisation) excludes the top issuers;
      any other text is matched as a pattern. No earlier step sets `$and`,
      so the appended list holds just the one clause. */
  function IssuerStep(q: Query, issuer: Option<string>, topCas: seq<string>): (r: Query)
    ensures SameOutside(q, r, Both, IssuerOrg)
    ensures Present(issuer) && Lower(issuer.value) == "others" ==> Both in r && r[Both] == Arr([OthersClause(topCas)])
    ensures Present(issuer) && Lower(issuer.value) != "others" ==> IssuerOrg in r && r[IssuerOrg] == Regex(issuer.value)
    ensures !Present(issuer) ==> r == q
  {
    if !Present(issuer) then q
    else if Lower(issuer.value) == "others" then q[Both := Arr([OthersClause(topCas)])]
    else q[IssuerOrg := Regex(issuer.value)]
  }

  /** The validity window a status asks for, if it names one. */
  function StatusWindow(status: Option<string>, clock: Clock): (r: Option<Json>)
    ensures r.Some? <==> Present(status) && Upper(status.value) in {"EXPIRED", "EXPIRING_SOON", "VALID"}
  {
    if !Present(status) then None
    else
      var u := Upper(status.value);
      if u == "EXPIRED" then Some(Obj(map["$lt" := Str(clock.now)]))
      else if u == "EXPIRING_SOON" then Some(Obj(map["$gte" := Str(clock.now), "$lte" := Str(clock.in30)]))
      else if u == "VALID" then Some(Obj(map["$gt" := Str(clock.now)]))
      else None
  }

  /** Writes `w` at `k` when there is a window. */
  function Put(q: Query, k: QueryKey, w: Option<Json>): (r: Query)
    ensures SameExcept(q, r, k)
    ensures w.Some? ==> k in r && r[k] == w.value
    ensures w.None? ==> r == q
  {
    if w.Some? then q[k := w.value] else q
  }

  /** The words of `encryption_type` give a key size: a second word that
      `int()` reads. */
  predicate SizeGiven(w: seq<string>)
  {
    |w| >= 2 && IntValue(w[1]).Some?
  }

  predicate RsaSize(w: seq<string>)
  {
    SizeGiven(w) && Upper(w[0]) == "RSA"
  }

  predicate EcdsaSize(w: seq<string>)
  {
    SizeGiven(w) && (Upper(w[0]) == "ECDSA" || Upper(w[0]) == "EC")
  }

  /** No first word asks for both sizes. */
  lemma SizesExclusive(w: seq<string>)
    ensures !(RsaSize(w) && EcdsaSize(w))
  {
    if RsaSize(w) {
      assert Upper(w[0])[0] == 'R';
      assert "ECDSA"[0] == 'E' && "EC"[0] == 'E';
    }
  }

  /** The key size, written at the key the first word names. */
  function SizeStep(q: Query, w: seq<string>): (r: Query)
    ensures SameOutside(q, r, RsaLength, EcdsaLength)
    ensures RsaSize(w) ==> RsaLength in r && r[RsaLength] == Num(IntValue(w[1]).value)
    ensures !RsaSize(w) ==> Agree(q, r, RsaLength)
    ensures EcdsaSize(w) ==> EcdsaLength in r && r[EcdsaLength] == Num(IntValue(w[1]).value)
    ensures !EcdsaSize(w) ==> Agree(q, r, EcdsaLength)
  {
    SizesExclusive(w);
    if RsaSize(w) then q[RsaLength := Num(IntValue(w[1]).value)]
    else if EcdsaSize(w) then q[EcdsaLength := Num(IntValue(w[1]).value)]
    else q
  }

  /** The words `encryption_type.split()` gives, none when it is not given. */
  function EncryptionWords(enc: Option<string>): seq<string>
  {
    if Present(enc) then Words(enc.value) else []
  }

  /** The key filter: the first word of `encryption_type` is the key
      algorithm; a second word that `int()` reads is the RSA length for
      `RSA` and the ECDSA length for `ECDSA` or `EC`, in any capitalisation.
      A second word `int()` rejects leaves just the algorithm. */
  function EncryptionStep(q: Query, enc: Option<string>): (r: Query)
    ensures forall j :: j != KeyAlgorithm && j != RsaLength && j != EcdsaLength ==> Agree(q, r, j)
    ensures var w := EncryptionWords(enc);
      && (|w| == 0 ==> r == q)
      && (|w| >= 1 ==> KeyAlgorithm in r && r[KeyAlgorithm] == Str(w[0]))
      && (RsaSize(w) ==> RsaLength in r && r[RsaLength] == Num(IntValue(w[1]).value))
      && (!RsaSize(w) ==> Agree(q, r, RsaLength))
      && (EcdsaSize(w) ==> EcdsaLength in r && r[EcdsaLength] == Num(IntValue(w[1]).value))
      && (!EcdsaSize(w) ==> Agree(q, r, EcdsaLength))
  {
    var w := EncryptionWords(enc);
    if |w| == 0 then q else KeyStep(q, w)
  }

  /** The key type from the first word, then the size from the second. */
  function KeyStep(q: Query, w: seq<string>): (r: Query)
    requires |w| >= 1
    ensures forall j :: j != KeyAlgorithm && j != RsaLength && j != EcdsaLength ==> Agree(q, r, j)
    ensures KeyAlgorithm in r && r[KeyAlgorithm] == Str(w[0])
    ensures RsaSize(w) ==> RsaLength in r && r[RsaLength] == Num(IntValue(w[1]).value)
    ensures !RsaSize(w) ==> Agree(q, r, RsaLength)
    ensures EcdsaSize(w) ==> EcdsaLength in r && r[EcdsaLength] == Num(IntValue(w[1]).value)
    ensures !EcdsaSize(w) ==> Agree(q, r, EcdsaLength)
  {
    var q1 := q[KeyAlgorithm := Str(w[0])];
    assert Agree(q, q1, RsaLength) && Agree(q, q1, EcdsaLength);
    var r := SizeStep(q1, w);
    assert Agree(q1, r, KeyAlgorithm);
    r
  }

  /** The key filter's entries depend only on the entries it starts from. */
  lemma EncryptionSameKeyInfo(q: Query, q': Query, enc: Option<string>)
    requires SameKeyInfo(q, q')
    ensures SameKeyInfo(EncryptionStep(q, enc), EncryptionStep(q', enc))
  {
  }

  /** `YYYY-MM-DD`, with the year as `str` writes it and the month and day
      zero-padded to two digits. */
  function Day(y: int, m: nat, d: nat): (r: string)
  {
    IntToString(y) + "-" + ZeroPad(m, 2) + "-" + ZeroPad(d, 2)
  }

  /** The window of a calendar month, from its first second to its last;
      `monthrange` rejects a month outside 1..12. */
  function MonthWindow(y: int, m: int): (r: Option<Json>)
    ensures r.Some? <==> Calendar.ValidMonth(m)
    ensures r.Some? ==> r.value == Obj(map["$gte" := Str(Day(y, m, 1) + "T00:00:00Z"),
                                           "$lte" := Str(Day(y, m, Calendar.DaysIn(y, m)) + "T23:59:59Z")])
  {
    match Calendar.MonthRange(y, m)
    case None => None
    case Some(last) =>
      Some(Obj(map["$gte" := Str(Day(y, m, 1) + "T00:00:00Z"), "$lte" := Str(Day(y, m, last) + "T23:59:59Z")]))
  }

  /** A month filter is asked for when both its month and its year are truthy. */
  predicate Asked(month: Option<int>, year: Option<int>)
  {
    Given(month) && Given(year)
  }

  /** The month filter at `k`: an error when the month is out of range. */
  function MonthStep(q: Query, k: QueryKey, month: Option<int>, year: Option<int>): (r: Result<Query, string>)
    ensures r.Failure? <==> Asked(month, year) && !Calendar.ValidMonth(month.value)
    ensures r.Success? ==> SameExcept(q, r.value, k)
    ensures r.Success? && Asked(month, year) ==> k in r.value && r.value[k] == MonthWindow(year.value, month.value).value
    ensures r.Success? && !Asked(month, year) ==> r.value == q
  {
    if !Asked(month, year) then Success(q)
    else
      match MonthWindow(year.value, month.value)
      case None => Failure("bad month number")
      case Some(w) => Success(q[k := w])
  }

  /** The weak-hash alternatives are added only when `$or` is still free. */
  function WeakHashStep(q: Query, weak: bool): (r: Query)
    ensures SameExcept(q, r, Either)
    ensures weak && Either !in q ==> Either in r && r[Either] == WEAK_CLAUSE
    ensures Either in q ==> r == q
  {
    if weak && Either !in q then q[Either := WEAK_CLAUSE] else q
  }

  /** The validity buckets, in days: `[min, max)`. */
  function Bucket(name: string): (r: Option<(nat, nat)>)
    ensures r.Some? <==> name in {"0-90", "90-365", "365-730", "730+"}
  {
    if name == "0-90" then Some((0, 90))
    else if name == "90-365" then Some((90, 365))
    else if name == "365-730" then Some((365, 730))
    else if name == "730+" then Some((730, 9999))
    else None
  }

  const DAY_SECONDS := 86400

  /** A validity length in seconds lies in the named bucket. */
  predicate InBucket(name: string, secs: int)
  {
    var b := Bucket(name);
    b.Some? && b.value.0 * DAY_SECONDS <= secs < b.value.1 * DAY_SECONDS
  }

  /** The buckets split the lengths below 9999 days: each such length lies
      in exactly one bucket, and a longer one lies in none. */
  lemma BucketsPartition(secs: int)
    ensures 0 <= secs < 9999 * DAY_SECONDS ==>
      exists name :: name in {"0-90", "90-365", "365-730", "730+"} && InBucket(name, secs)
    ensures forall a, b :: InBucket(a, secs) && InBucket(b, secs) ==> a == b
    ensures secs >= 9999 * DAY_SECONDS || secs < 0 ==> forall a :: !InBucket(a, secs)
  {
    if 0 <= secs < 9999 * DAY_SECONDS {
      if secs < 90 * DAY_SECONDS { assert InBucket("0-90", secs); }
      else if secs < 365 * DAY_SECONDS { assert InBucket("90-365", secs); }
      else if secs < 730 * DAY_SECONDS { assert InBucket("365-730", secs); }
      else { assert InBucket("730+", secs); }
    }
  }

  function BucketStep(q: Query, bucket: Option<string>): (r: Query)
    ensures SameExcept(q, r, ValidityLength)
    ensures Present(bucket) && Bucket(bucket.value).Some? ==>
      var b := Bucket(bucket.value).value;
      ValidityLength in r && r[ValidityLength] == Obj(map["$gte" := Num(b.0 * DAY_SECONDS), "$lt" := Num(b.1 * DAY_SECONDS)])
    ensures !(Present(bucket) && Bucket(bucket.value).Some?) ==> r == q
  {
    if Present(bucket) && Bucket(bucket.value).Some? then
      var b := Bucket(bucket.value).value;
      q[ValidityLength := Obj(map["$gte" := Num(b.0 * DAY_SECONDS), "$lt" := Num(b.1 * DAY_SECONDS)])]
    else q
  }

  /** A given day count whose target date the clock cannot reach. */
  predicate DaysOverflow(days: Option<int>, clock: Clock)
  {
    Given(days) && clock.after(days.value).None?
  }

  /** The window of the next `days` days: not yet expired, expiring by then;
      a target date out of range raises. */
  function DaysWindow(days: Option<int>, clock: Clock): (r: Result<Option<Json>, string>)
    ensures r.Failure? <==> DaysOverflow(days, clock)
    ensures r.Success? ==> (r.value.Some? <==> Given(days))
  {
    if !Given(days) then Success(None)
    else
      match clock.after(days.value)
      case None => Failure("date value out of range")
      case Some(end) => Success(Some(Obj(map["$gt" := Str(clock.now), "$lte" := Str(end)])))
  }

  /** The first two steps, search and issuer, on the empty query. */
  function SearchAndIssuer(search: Option<string>, issuer: Option<string>, topCas: seq<string>): (r: Query)
    ensures ValidTo !in r && SignatureName !in r
    ensures Either in r <==> Present(search)
    ensures Either in r ==> r[Either] == SearchClause(search.value)
    ensures SameKeyInfo(map[], r)
  {
    var q0 := SearchStep(map[], search);
    var r := IssuerStep(q0, issuer, topCas);
    assert Agree(q0, r, Either) && Agree(q0, r, ValidTo) && Agree(q0, r, SignatureName);
    r
  }

  /** Search, issuer, status and key type: the steps before the first
      month filter. */
  function FirstSteps(f: ExportFilters, clock: Clock, topCas: seq<string>): (r: Query)
    ensures ValidTo in r <==> StatusWindow(f.status, clock).Some?
    ensures ValidTo in r ==> r[ValidTo] == StatusWindow(f.status, clock).value
    ensures Either in r <==> Present(f.search)
    ensures Either in r ==> r[Either] == SearchClause(f.search.value)
    ensures SignatureName !in r
    ensures SameKeyInfo(EncryptionStep(map[], f.encryptionType), r)
  {
    var q := SearchAndIssuer(f.search, f.issuer, topCas);
    var q1 := Put(q, ValidTo, StatusWindow(f.status, clock));
    var r := EncryptionStep(q1, f.encryptionType);
    assert Agree(q, q1, Either) && Agree(q, q1, SignatureName);
    assert Agree(q1, r, ValidTo) && Agree(q1, r, Either) && Agree(q1, r, SignatureName);
    assert SameKeyInfo(map[], q1);
    EncryptionSameKeyInfo(map[], q1, f.encryptionType);
    r
  }

  /** The flag steps after the month filters, up to the signature algorithm. */
  function FlagSteps(q: Query, f: ExportFilters): (r: Query)
    ensures ValidTo in r <==> ValidTo in q
    ensures ValidTo in q ==> r[ValidTo] == q[ValidTo]
    ensures Either in q ==> Either in r && r[Either] == q[Either]
    ensures Either !in q && f.weakHash ==> Either in r && r[Either] == WEAK_CLAUSE
    ensures SignatureName in r <==> SignatureName in q || Present(f.signatureAlgorithm)
    ensures Present(f.signatureAlgorithm) ==> r[SignatureName] == Str(f.signatureAlgorithm.value)
    ensures !Present(f.signatureAlgorithm) && SignatureName in q ==> r[SignatureName] == q[SignatureName]
    ensures SameKeyInfo(q, r)
  {
    var q1 := if f.hasVulnerabilities then q[HasErrors := Bool(true)] else q;
    var q2 := WeakHashStep(q1, f.weakHash);
    var q3 := if f.selfSigned then q2[SelfSignedKey := Bool(true)] else q2;
    if Present(f.signatureAlgorithm) then q3[SignatureName := Str(f.signatureAlgorithm.value)] else q3
  }

  /** The hash type, the validity bucket and the expiry window `window`
      of the day filter: the last steps. */
  function LastSteps(q: Query, f: ExportFilters, window: Option<Json>): (r: Query)
    ensures window.Some? ==> ValidTo in r && r[ValidTo] == window.value
    ensures window.None? ==> (ValidTo in r <==> ValidTo in q)
    ensures window.None? && ValidTo in q ==> r[ValidTo] == q[ValidTo]
    ensures Either in r <==> Either in q
    ensures Either in q ==> r[Either] == q[Either]
    ensures SignatureName in r <==> SignatureName in q || Present(f.hashType)
    ensures Present(f.hashType) ==> r[SignatureName] == Regex(HashPattern(f.hashType.value))
    ensures !Present(f.hashType) && SignatureName in q ==> r[SignatureName] == q[SignatureName]
    ensures SameKeyInfo(q, r)
  {
    var q1 := Put(q, SignatureName, if Present(f.hashType) then Some(Regex(HashPattern(f.hashType.value))) else None);
    var q2 := BucketStep(q1, f.validityBucket);
    var r := Put(q2, ValidTo, window);
    assert Agree(q, q1, Either) && Agree(q1, q2, Either) && Agree(q2, r, Either);
    assert Agree(q1, q2, SignatureName) && Agree(q2, r, SignatureName);
    assert Agree(q, q1, ValidTo) && Agree(q1, q2, ValidTo);
    assert SameKeyInfo(q, q1) && SameKeyInfo(q1, q2) && SameKeyInfo(q2, r);
    r
  }

  /** The query of `_generate_csv`, step by step in the source's order;
      it fails when a month filter names a month outside 1..12, or when the
      day filter's target date leaves years 1..9999. */
  function ExportQuery(f: ExportFilters, clock: Clock, topCas: seq<string>): (r: Result<Query, string>)
    ensures var badExpiry := Asked(f.expiringMonth, f.expiringYear) && !Calendar.ValidMonth(f.expiringMonth.value);
      var badIssued := Asked(f.issuedMonth, f.issuedYear) && !Calendar.ValidMonth(f.issuedMonth.value);
      r.Failure? <==> badExpiry || badIssued || DaysOverflow(f.expiringDays, clock)
  {
    var q := FirstSteps(f, clock, topCas);
    match MonthStep(q, ValidTo, f.expiringMonth, f.expiringYear)
    case Failure(e) => Failure(e)
    case Success(q1) =>
      match MonthStep(q1, ValidFrom, f.issuedMonth, f.issuedYear)
      case Failure(e) => Failure(e)
      case Success(q2) =>
        match DaysWindow(f.expiringDays, clock)
        case Failure(e) => Failure(e)
        case Success(w) => Success(LastSteps(FlagSteps(q2, f), f, w))
  }

  /** The expiry condition, written by four filters, is the last one's: the
      day window over the expiring month over the status. */
  lemma ExpiryPriority(f: ExportFilters, clock: Clock, topCas: seq<string>)
    requires ExportQuery(f, clock, topCas).Success?
    ensures var q := ExportQuery(f, clock, topCas).value;
      ValidTo in q <==> Given(f.expiringDays) || Asked(f.expiringMonth, f.expiringYear) || StatusWindow(f.status, clock).Some?
    ensures var q := ExportQuery(f, clock, topCas).value;
      Given(f.expiringDays) ==> ValidTo in q && q[ValidTo] == DaysWindow(f.expiringDays, clock).value.value
    ensures var q := ExportQuery(f, clock, topCas).value;
      !Given(f.expiringDays) && Asked(f.expiringMonth, f.expiringYear) ==>
        ValidTo in q && q[ValidTo] == MonthWindow(f.expiringYear.value, f.expiringMonth.value).value
    ensures var q := ExportQuery(f, clock, topCas).value;
      !Given(f.expiringDays) && !Asked(f.expiringMonth, f.expiringYear) && StatusWindow(f.status, clock).Some? ==>
        ValidTo in q && q[ValidTo] == StatusWindow(f.status, clock).value
  {
    var q := FirstSteps(f, clock, topCas);
    var q1 := MonthStep(q, ValidTo, f.expiringMonth, f.expiringYear).value;
    var q2 := MonthStep(q1, ValidFrom, f.issuedMonth, f.issuedYear).value;
    var w := DaysWindow(f.expiringDays, clock).value;
    assert ExportQuery(f, clock, topCas).value == LastSteps(FlagSteps(q2, f), f, w);
    assert ValidTo in q2 <==> ValidTo in q1;
    assert ValidTo in q1 ==> q2[ValidTo] == q1[ValidTo];
  }

  /** The signature condition: the hash type overrides the exact algorithm. */
  lemma SignaturePriority(f: ExportFilters, clock: Clock, topCas: seq<string>)
    requires ExportQuery(f, clock, topCas).Success?
    ensures var q := ExportQuery(f, clock, topCas).value;
      SignatureName in q <==> Present(f.hashType) || Present(f.signatureAlgorithm)
    ensures var q := ExportQuery(f, clock, topCas).value;
      Present(f.hashType) ==> SignatureName in q && q[SignatureName] == Regex(HashPattern(f.hashType.value))
    ensures var q := ExportQuery(f, clock, topCas).value;
      !Present(f.hashType) && Present(f.signatureAlgorithm) ==>
        SignatureName in q && q[SignatureName] == Str(f.signatureAlgorithm.value)
  {
    var q := FirstSteps(f, clock, topCas);
    var q1 := MonthStep(q, ValidTo, f.expiringMonth, f.expiringYear).value;
    var q2 := MonthStep(q1, ValidFrom, f.issuedMonth, f.issuedYear).value;
    var w := DaysWindow(f.expiringDays, clock).value;
    assert ExportQuery(f, clock, topCas).value == LastSteps(FlagSteps(q2, f), f, w);
    assert SignatureName !in q1;
    assert SignatureName !in q2;
  }

  /** The key type and size in the finished query are what
      `encryption_type` asked for: no later step writes them. */
  lemma KeyInfoSurvives(f: ExportFilters, clock: Clock, topCas: seq<string>)
    requires ExportQuery(f, clock, topCas).Success?
    ensures SameKeyInfo(EncryptionStep(map[], f.encryptionType), ExportQuery(f, clock, topCas).value)
  {
    var q := FirstSteps(f, clock, topCas);
    var q1 := MonthStep(q, ValidTo, f.expiringMonth, f.expiringYear).value;
    var q2 := MonthStep(q1, ValidFrom, f.issuedMonth, f.issuedYear).value;
    var w := DaysWindow(f.expiringDays, clock).value;
    assert ExportQuery(f, clock, topCas).value == LastSteps(FlagSteps(q2, f), f, w);
    assert SameKeyInfo(q, q2);
  }

  /** A search takes the `$or` slot first, so a weak-hash filter given with
      a search is dropped; without a search it is applied. */
  lemma WeakHashNeedsNoSearch(f: ExportFilters, clock: Clock, topCas: seq<string>)
    requires ExportQuery(f, clock, topCas).Success?
    ensures var q := ExportQuery(f, clock, topCas).value;
      Present(f.search) ==> Either in q && q[Either] == SearchClause(f.search.value)
    ensures var q := ExportQuery(f, clock, topCas).value;
      !Present(f.search) && f.weakHash ==> Either in q && q[Either] == WEAK_CLAUSE
    ensures var q := ExportQuery(f, clock, topCas).value;
      Either in q <==> Present(f.search) || f.weakHash
  {
    var q := FirstSteps(f, clock, topCas);
    var q1 := MonthStep(q, ValidTo, f.expiringMonth, f.expiringYear).value;
    var q2 := MonthStep(q1, ValidFrom, f.issuedMonth, f.issuedYear).value;
    var w := DaysWindow(f.expiringDays, clock).value;
    assert ExportQuery(f, clock, topCas).value == LastSteps(FlagSteps(q2, f), f, w);
    assert Either in q2 <==> Either in q;
    assert Either in q ==> q2[Either] == q[Either];
    EitherAfterFlags(q2, f, w);
  }

  /** What the flag and last steps leave in the `$or` slot. */
  lemma EitherAfterFlags(q: Query, f: ExportFilters, w: Option<Json>)
    ensures var r := LastSteps(FlagSteps(q, f), f, w);
      Either in r <==> Either in q || f.weakHash
    ensures var r := LastSteps(FlagSteps(q, f), f, w);
      Either in q ==> r[Either] == q[Either]
    ensures var r := LastSteps(FlagSteps(q, f), f, w);
      Either !in q && f.weakHash ==> r[Either] == WEAK_CLAUSE
  {
  }

  // ---------------------------------------------------------------- CSV records

  /** `csv.writer` quotes a field holding the delimiter, the quote
      character or a line break. */
  predicate NeedsQuotes(f: string)
  {
    ',' in f || '"' in f || '\r' in f || '\n' in f
  }

  /** Each quote character doubled. */
  function Doubled(f: string): (r: string)
    ensures |r| >= |f|
  {
    if |f| == 0 then ""
    else (if f[0] == '"' then "\"\"" else [f[0]]) + Doubled(f[1..])
  }

  function Encode(f: string): (r: string)
  {
    if NeedsQuotes(f) then "\"" + Doubled(f) + "\"" else f
  }

  function EncodeAll(cells: seq<string>): (r: seq<string>)
    ensures |r| == |cells|
    ensures forall i :: 0 <= i < |cells| ==> r[i] == Encode(cells[i])
  {
    seq(|cells|, i requires 0 <= i < |cells| => Encode(cells[i]))
  }

  /** `writerow(cells)` with the default dialect: fields joined by commas,
      ended by CR LF; a row of one empty field is written as `""`. */
  function CsvLine(cells: seq<string>): (r: string)
    ensures EndsWith(r, "\r\n")
  {
    var body := if cells == [""] then "\"\"" else Join(EncodeAll(cells), ',');
    body + "\r\n"
  }

  /** The rest of a quoted field after its opening quote: the text with
      doubled quotes undone, and what follows the closing quote. */
  function ReadQuoted(s: string): (r: Option<(string, string)>)
    ensures r.Some? ==> |r.value.1| < |s|
    decreases |s|
  {
    if |s| == 0 then None
    else if s[0] == '"' then
      if |s| >= 2 && s[1] == '"' then
        match ReadQuoted(s[2..])
        case None => None
        case Some(p) => Some(("\"" + p.0, p.1))
      else Some(("", s[1..]))
    else
      match ReadQuoted(s[1..])
      case None => None
      case Some(p) => Some(([s[0]] + p.0, p.1))
  }

  /** An unquoted field: the text up to the next comma. */
  function ReadPlain(s: string): (r: (string, string))
    ensures r.0 + r.1 == s
    ensures ',' !in r.0
    ensures r.1 == "" || r.1[0] == ','
  {
    match IndexOf(s, ',')
    case None => (s, "")
    case Some(k) =>
      assert s[..k] + s[k..] == s;
      (s[..k], s[k..])
  }

  function ReadField(s: string): (r: Option<(string, string)>)
    ensures r.Some? ==> |r.value.1| <= |s|
  {
    if |s| > 0 && s[0] == '"' then ReadQuoted(s[1..]) else Some(ReadPlain(s))
  }

  /** A record body read back into its fields. */
  function ReadFields(s: string): (r: Option<seq<string>>)
    ensures r.Some? ==> |r.value| >= 1
    decreases |s|
  {
    match ReadField(s)
    case None => None
    case Some(p) =>
      if p.1 == "" then Some([p.0])
      else if p.1[0] != ',' then None
      else
        match ReadFields(p.1[1..])
        case None => None
        case Some(rest) => Some([p.0] + rest)
  }

  /** A line read back into its fields, as a CSV reader does. */
  function ParseLine(line: string): (r: Option<seq<string>>)
    ensures r.Some? ==> EndsWith(line, "\r\n")
  {
    if EndsWith(line, "\r\n") then ReadFields(line[..|line| - 2]) else None
  }

  lemma {:induction false} ReadDoubled(f: string, tail: string)
    requires tail == "" || tail[0] != '"'
    ensures ReadQuoted(Doubled(f) + "\"" + tail) == Some((f, tail))
    decreases |f|
  {
    if |f| == 0 {
      var s := Doubled(f) + "\"" + tail;
      assert s == "\"" + tail;
      assert s[1..] == tail;
    } else {
      ReadDoubled(f[1..], tail);
      if f[0] == '"' {
        ReadEscapedQuote(f, tail);
      } else {
        ReadOrdinary(f, tail);
      }
    }
  }

  lemma ReadEscapedQuote(f: string, tail: string)
    requires |f| > 0 && f[0] == '"'
    requires ReadQuoted(Doubled(f[1..]) + "\"" + tail) == Some((f[1..], tail))
    ensures ReadQuoted(Doubled(f) + "\"" + tail) == Some((f, tail))
  {
    var s := Doubled(f) + "\"" + tail;
    assert Doubled(f) == "\"\"" + Doubled(f[1..]);
    assert s[0] == '"' && s[1] == '"';
    assert s[2..] == Doubled(f[1..]) + "\"" + tail;
    assert "\"" + f[1..] == f;
  }

  lemma ReadOrdinary(f: string, tail: string)
    requires |f| > 0 && f[0] != '"'
    requires ReadQuoted(Doubled(f[1..]) + "\"" + tail) == Some((f[1..], tail))
    ensures ReadQuoted(Doubled(f) + "\"" + tail) == Some((f, tail))
  {
    var s := Doubled(f) + "\"" + tail;
    assert Doubled(f) == [f[0]] + Doubled(f[1..]);
    assert s[0] == f[0];
    assert s[1..] == Doubled(f[1..]) + "\"" + tail;
    assert [f[0]] + f[1..] == f;
  }

  lemma ReadEncoded(f: string, tail: string)
    requires tail == "" || tail[0] == ','
    ensures ReadField(Encode(f) + tail) == Some((f, tail))
  {
    if NeedsQuotes(f) {
      ReadQuotedField(f, tail);
    } else {
      ReadPlainField(f, tail);
    }
  }

  lemma ReadQuotedField(f: string, tail: string)
    requires tail == "" || tail[0] == ','
    requires NeedsQuotes(f)
    ensures ReadField(Encode(f) + tail) == Some((f, tail))
  {
    var body := Doubled(f) + "\"" + tail;
    ReadDoubled(f, tail);
    QuotedSplits(f, tail);
    OpeningQuote(body);
  }

  lemma QuotedSplits(f: string, tail: string)
    requires NeedsQuotes(f)
    ensures Encode(f) + tail == "\"" + (Doubled(f) + "\"" + tail)
  {
  }

  lemma OpeningQuote(body: string)
    ensures ReadField("\"" + body) == ReadQuoted(body)
  {
    assert ("\"" + body)[1..] == body;
  }

  lemma ReadPlainField(f: string, tail: string)
    requires tail == "" || tail[0] == ','
    requires !NeedsQuotes(f)
    ensures ReadField(Encode(f) + tail) == Some((f, tail))
  {
    var s := f + tail;
    assert Encode(f) + tail == s;
    assert |s| > 0 && s[0] == '"' ==> false by {
      if |f| > 0 { assert s[0] == f[0]; }
    }
    if tail == "" {
      assert s == f;
    } else {
      assert s == f + [','] + tail[1..];
      IndexOfAfterFree(f, ',', tail[1..]);
      assert s[..|f|] == f && s[|f|..] == tail;
    }
  }

  lemma {:induction false} ReadJoined(cells: seq<string>)
    requires |cells| >= 1
    ensures ReadFields(Join(EncodeAll(cells), ',')) == Some(cells)
    decreases |cells|
  {
    if |cells| == 1 {
      var e := EncodeAll(cells);
      ReadEncoded(cells[0], "");
      assert e[0] + "" == e[0];
      assert Join(e, ',') == e[0];
      assert cells == [cells[0]];
    } else {
      ReadJoined(cells[1..]);
      ReadJoinedStep(cells);
    }
  }

  /** One field in front of fields that read back reads back with them. */
  lemma ReadJoinedStep(cells: seq<string>)
    requires |cells| >= 2
    requires ReadFields(Join(EncodeAll(cells[1..]), ',')) == Some(cells[1..])
    ensures ReadFields(Join(EncodeAll(cells), ',')) == Some(cells)
  {
    var e := EncodeAll(cells);
    assert e[1..] == EncodeAll(cells[1..]);
    var tail := Join(e[1..], ',');
    var rest := [','] + tail;
    Counting.AppendAssoc(e[0], [','], tail);
    assert Join(e, ',') == Encode(cells[0]) + rest;
    ReadEncoded(cells[0], rest);
    assert rest[1..] == tail;
    Counting.Cons(cells);
  }

  /** Every line the writer emits reads back as the cells it was given. */
  lemma CsvRoundTrip(cells: seq<string>)
    requires |cells| >= 1
    ensures ParseLine(CsvLine(cells)) == Some(cells)
  {
    var line := CsvLine(cells);
    var body := line[..|line| - 2];
    if cells == [""] {
      assert body == "\"\"";
      assert ReadQuoted(body[1..]) == Some(("", ""));
    } else {
      assert body == Join(EncodeAll(cells), ',');
      ReadJoined(cells);
    }
  }

  // ---------------------------------------------------------------- the export's rows

  const HEADER := ["Domain", "Start Date", "End Date", "SSL Grade", "Encryption", "Issuer", "Country",
                   "Status", "Vulnerabilities"]

  /** The keys of the dict `serialize_certificate` returns. */
  const SERIALIZED_KEYS: set<string> := {"id", "domain", "issuer", "issuerDn", "validFrom", "validTo",
    "status", "grade", "encryptionType", "keyLength", "signatureAlgorithm", "vulnerabilities",
    "vulnerabilityCount", "san", "country", "scanDate", "validationLevel", "zlintDetails"}

  /** A value as `csv.writer` writes it: text as is, `None` as nothing,
      anything else through `str`. */
  function Cell(j: Json, repr: Json -> string): string
  {
    match j
    case Str(s) => s
    case Null => ""
    case _ => repr(j)
  }

  /** The export's cells for a serialised certificate, the grade read from
      `gradeKey`; a missing value is "N/A", a missing count 0. */
  function Cells(cert: Doc, gradeKey: string, repr: Json -> string): (r: seq<string>)
    ensures |r| == |HEADER|
    ensures r[3] == Cell(Get(cert, gradeKey, Str("N/A")), repr)
  {
    var na := Str("N/A");
    [Cell(Get(cert, "domain", na), repr), Cell(Get(cert, "validFrom", na), repr),
     Cell(Get(cert, "validTo", na), repr), Cell(Get(cert, gradeKey, na), repr),
     Cell(Get(cert, "encryptionType", na), repr), Cell(Get(cert, "issuer", na), repr),
     Cell(Get(cert, "country", na), repr), Cell(Get(cert, "status", na), repr),
     Cell(Get(cert, "vulnerabilityCount", Num(0)), repr)]
  }

  /** The row as written: the grade is read from "sslGrade". */
  function RowAsWritten(cert: Doc, repr: Json -> string): (r: seq<string>)
    ensures |r| == |HEADER|
  {
    Cells(cert, "sslGrade", repr)
  }

  /** No serialised certificate has an "sslGrade", so the grade column of
      the export as written is "N/A" on every row. */
  lemma GradeColumnAlwaysMissing(cert: Doc, repr: Json -> string)
    requires cert.Keys <= SERIALIZED_KEYS
    ensures RowAsWritten(cert, repr)[3] == "N/A"
  {
    assert "sslGrade" !in SERIALIZED_KEYS;
  }

  /** The row read from the key the serialiser writes, "grade". */
  function Row(cert: Doc, repr: Json -> string): (r: seq<string>)
    ensures |r| == |HEADER|
  {
    Cells(cert, "grade", repr)
  }

  /** The corrected row shows the certificate's grade. */
  lemma GradeColumnShowsGrade(cert: Doc, repr: Json -> string)
    requires "grade" in cert && cert["grade"].Str?
    ensures Row(cert, repr)[3] == cert["grade"].s
  {
  }

  /** A serialised certificate passes the export's country filter: no
      country is given, or the certificate's country is the one given. */
  predicate Keeps(country: Option<string>, cert: Doc)
  {
    !Present(country) || Get(cert, "country", Null) == Str(country.value)
  }

  /** The certificates the export keeps, in the database's order: as
      many as there are positions holding one that passes. */
  function Kept(certs: seq<Doc>, country: Option<string>): (r: seq<Doc>)
    ensures |r| == |Where(certs, (c: Doc) => Keeps(country, c))|
    ensures forall c :: c in r <==> c in certs && Keeps(country, c)
  {
    if |certs| == 0 then []
    else
      WhereCons(certs, (c: Doc) => Keeps(country, c));
      (if Keeps(country, certs[0]) then [certs[0]] else []) + Kept(certs[1..], country)
  }

  /** The filter decides the first certificate, then the rest. */
  lemma KeptCons(s: seq<Doc>, x: Doc, rest: seq<Doc>, country: Option<string>)
    requires s == [x] + rest
    ensures Kept(s, country) == (if Keeps(country, x) then [x] else []) + Kept(rest, country)
  {
    assert s[0] == x && s[1..] == rest;
  }

  /** The country filter keeps the database's order. */
  lemma {:induction false} KeptAppend(a: seq<Doc>, b: seq<Doc>, country: Option<string>)
    ensures Kept(a + b, country) == Kept(a, country) + Kept(b, country)
  {
    if |a| > 0 {
      var head: seq<Doc> := if Keeps(country, a[0]) then [a[0]] else [];
      assert a == [a[0]] + a[1..];
      assert a + b == [a[0]] + (a[1..] + b);
      KeptAppend(a[1..], b, country);
      KeptCons(a + b, a[0], a[1..] + b, country);
      KeptCons(a, a[0], a[1..], country);
      AppendAssoc(head, Kept(a[1..], country), Kept(b, country));
    } else {
      assert a + b == b;
    }
  }

  /** Each document of the cursor, serialised. */
  function SerializeAll(found: seq<Doc>, ser: Doc -> Doc): (r: seq<Doc>)
    ensures |r| == |found|
    ensures forall i :: 0 <= i < |found| ==> r[i] == ser(found[i])
  {
    seq(|found|, i requires 0 <= i < |found| => ser(found[i]))
  }

  /** The export's output: the header line, then one line per kept
      certificate; a bad month number, or a day count out of the
      calendar's range, stops it after the header. */
  datatype Export = Export(lines: seq<string>, failed: bool)

  /** The cells of each kept certificate, as written: the grade read
      from "sslGrade". */
  function Rows(certs: seq<Doc>, repr: Json -> string): (r: seq<seq<string>>)
    ensures |r| == |certs|
    ensures forall i :: 0 <= i < |certs| ==> r[i] == RowAsWritten(certs[i], repr)
  {
    seq(|certs|, i requires 0 <= i < |certs| => RowAsWritten(certs[i], repr))
  }

  /** The cells of each kept certificate, the grade read from "grade". */
  function RowsFixed(certs: seq<Doc>, repr: Json -> string): (r: seq<seq<string>>)
    ensures |r| == |certs|
    ensures forall i :: 0 <= i < |certs| ==> r[i] == Row(certs[i], repr)
  {
    seq(|certs|, i requires 0 <= i < |certs| => Row(certs[i], repr))
  }

  /** One written line per row. */
  function Lines(rows: seq<seq<string>>): (r: seq<string>)
    ensures |r| == |rows|
    ensures forall i :: 0 <= i < |rows| ==> r[i] == CsvLine(rows[i])
  {
    seq(|rows|, i requires 0 <= i < |rows| => CsvLine(rows[i]))
  }

  /** The certificates the export writes once its query is built. */
  function KeptOf(q: Query, find: Query -> seq<Doc>, country: Option<string>, ser: Doc -> Doc): seq<Doc>
  {
    Kept(SerializeAll(find(q), ser), country)
  }

  /** The export as written once its query is built, or failed to build. */
  function ExportOf(query: Result<Query, string>, find: Query -> seq<Doc>, country: Option<string>,
                    ser: Doc -> Doc, repr: Json -> string): (r: Export)
    ensures |r.lines| >= 1 && r.lines[0] == CsvLine(HEADER)
    ensures r.failed <==> query.Failure?
    ensures r.failed ==> |r.lines| == 1
    ensures query.Success? ==> |r.lines| == 1 + |KeptOf(query.value, find, country, ser)|
  {
    match query
    case Failure(_) => Export([CsvLine(HEADER)], true)
    case Success(q) => Export([CsvLine(HEADER)] + Lines(Rows(KeptOf(q, find, country, ser), repr)), false)
  }

  /** The export with the grade column read from "grade". */
  function ExportOfFixed(query: Result<Query, string>, find: Query -> seq<Doc>, country: Option<string>,
                         ser: Doc -> Doc, repr: Json -> string): (r: Export)
    ensures |r.lines| >= 1 && r.lines[0] == CsvLine(HEADER)
    ensures r.failed <==> query.Failure?
    ensures r.failed ==> |r.lines| == 1
    ensures query.Success? ==> |r.lines| == 1 + |KeptOf(query.value, find, country, ser)|
  {
    match query
    case Failure(_) => Export([CsvLine(HEADER)], true)
    case Success(q) => Export([CsvLine(HEADER)] + Lines(RowsFixed(KeptOf(q, find, country, ser), repr)), false)
  }

  /** `_generate_csv`: `find` is the database's answer to a query, `ser`
      the serialiser as a dict. */
  function GenerateCsv(f: ExportFilters, clock: Clock, topCas: seq<string>, find: Query -> seq<Doc>,
                       ser: Doc -> Doc, repr: Json -> string): (r: Export)
    ensures |r.lines| >= 1 && r.lines[0] == CsvLine(HEADER)
    ensures r.failed <==> ExportQuery(f, clock, topCas).Failure?
    ensures r.failed ==> |r.lines| == 1
  {
    ExportOf(ExportQuery(f, clock, topCas), find, f.country, ser, repr)
  }

  /** A day count whose target date the clock cannot reach stops the
      export after its header, whatever the other filters ask. */
  lemma DaysOverflowStopsExport(f: ExportFilters, clock: Clock, topCas: seq<string>, find: Query -> seq<Doc>,
                                ser: Doc -> Doc, repr: Json -> string)
    requires f.expiringDays.Some? && f.expiringDays.value != 0 && clock.after(f.expiringDays.value).None?
    ensures GenerateCsv(f, clock, topCas, find, ser, repr) == Export([CsvLine(HEADER)], true)
  {
    assert DaysOverflow(f.expiringDays, clock);
  }

  /** Every line of the export as written reads back as nine cells: the
      header first, then each kept certificate's row in the order the
      database gave, its grade read from "sslGrade". */
  lemma ExportReadsBack(query: Result<Query, string>, find: Query -> seq<Doc>, country: Option<string>,
                        ser: Doc -> Doc, repr: Json -> string)
    ensures var r := ExportOf(query, find, country, ser, repr);
      ParseLine(r.lines[0]) == Some(HEADER)
    ensures var r := ExportOf(query, find, country, ser, repr);
      query.Success? ==> var rows := KeptOf(query.value, find, country, ser);
        |r.lines| == 1 + |rows| && forall i :: 0 <= i < |rows| ==> ParseLine(r.lines[i + 1]) == Some(RowAsWritten(rows[i], repr))
  {
    HeaderReadsBack();
    if query.Success? {
      var rows := KeptOf(query.value, find, country, ser);
      RowsReadBack(CsvLine(HEADER), Rows(rows, repr));
    }
  }

  /** When the serialiser writes only its own keys, every data line of the
      export as written reads back with `N/A` in the grade column. */
  lemma ExportGradeAlwaysMissing(query: Result<Query, string>, find: Query -> seq<Doc>, country: Option<string>,
                                 ser: Doc -> Doc, repr: Json -> string)
    requires forall d :: ser(d).Keys <= SERIALIZED_KEYS
    ensures var r := ExportOf(query, find, country, ser, repr);
      forall i :: 1 <= i < |r.lines| ==> ParseLine(r.lines[i]).Some? && |ParseLine(r.lines[i]).value| == |HEADER| && ParseLine(r.lines[i]).value[3] == "N/A"
  {
    if query.Success? {
      var rows := KeptOf(query.value, find, country, ser);
      var r := ExportOf(query, find, country, ser, repr);
      assert r.lines == [CsvLine(HEADER)] + Lines(Rows(rows, repr));
      RowsReadBack(CsvLine(HEADER), Rows(rows, repr));
      forall i | 1 <= i < |r.lines|
        ensures ParseLine(r.lines[i]).Some? && |ParseLine(r.lines[i]).value| == |HEADER| && ParseLine(r.lines[i]).value[3] == "N/A"
      {
        assert ParseLine(r.lines[i]) == Some(RowAsWritten(rows[i - 1], repr));
        KeptAreSerialized(find(query.value), ser, country, rows[i - 1]);
        LineGradeMissing(r.lines[i], rows[i - 1], repr);
      }
    }
  }

  /** A line that reads back as a serialised certificate's row as written
      has `N/A` in the grade column. */
  lemma LineGradeMissing(line: string, cert: Doc, repr: Json -> string)
    requires cert.Keys <= SERIALIZED_KEYS
    requires ParseLine(line) == Some(RowAsWritten(cert, repr))
    ensures ParseLine(line).Some? && |ParseLine(line).value| == |HEADER| && ParseLine(line).value[3] == "N/A"
  {
    GradeColumnAlwaysMissing(cert, repr);
  }

  /** A kept certificate is the serialiser's output for some found document. */
  lemma KeptAreSerialized(found: seq<Doc>, ser: Doc -> Doc, country: Option<string>, c: Doc)
    requires forall d :: ser(d).Keys <= SERIALIZED_KEYS
    requires c in Kept(SerializeAll(found, ser), country)
    ensures c.Keys <= SERIALIZED_KEYS
  {
    var all := SerializeAll(found, ser);
    assert c in all;
    var i :| 0 <= i < |all| && all[i] == c;
  }

  /** The corrected export reads back with each kept certificate's grade. */
  lemma ExportFixedReadsBack(query: Result<Query, string>, find: Query -> seq<Doc>, country: Option<string>,
                             ser: Doc -> Doc, repr: Json -> string)
    ensures var r := ExportOfFixed(query, find, country, ser, repr);
      ParseLine(r.lines[0]) == Some(HEADER)
    ensures var r := ExportOfFixed(query, find, country, ser, repr);
      query.Success? ==> var rows := KeptOf(query.value, find, country, ser);
        && |r.lines| == 1 + |rows|
        && (forall i :: 0 <= i < |rows| ==> ParseLine(r.lines[i + 1]) == Some(Row(rows[i], repr)))
        && (forall i :: 0 <= i < |rows| && "grade" in rows[i] && rows[i]["grade"].Str? ==>
              ParseLine(r.lines[i + 1]).value[3] == rows[i]["grade"].s)
  {
    HeaderReadsBack();
    if query.Success? {
      var rows := KeptOf(query.value, find, country, ser);
      var r := ExportOfFixed(query, find, country, ser, repr);
      assert r.lines == [CsvLine(HEADER)] + Lines(RowsFixed(rows, repr));
      RowsReadBack(CsvLine(HEADER), RowsFixed(rows, repr));
      forall i | 0 <= i < |rows| && "grade" in rows[i] && rows[i]["grade"].Str?
        ensures ParseLine(r.lines[i + 1]).value[3] == rows[i]["grade"].s
      {
        assert ParseLine(r.lines[i + 1]) == Some(Row(rows[i], repr));
        GradeColumnShowsGrade(rows[i], repr);
      }
    }
  }

  lemma HeaderReadsBack()
    ensures ParseLine(CsvLine(HEADER)) == Some(HEADER)
  {
    CsvRoundTrip(HEADER);
  }

  /** The lines after a first line `h` read back as their rows. */
  lemma RowsReadBack(h: string, rows: seq<seq<string>>)
    requires forall i :: 0 <= i < |rows| ==> |rows[i]| >= 1
    ensures var lines := [h] + Lines(rows);
      |lines| == 1 + |rows| && forall i :: 0 <= i < |rows| ==> ParseLine(lines[i + 1]) == Some(rows[i])
  {
    var lines := Lines(rows);
    forall i | 0 <= i < |rows|
      ensures ParseLine(([h] + lines)[i + 1]) == Some(rows[i])
    {
      assert ([h] + lines)[i + 1] == lines[i];
      CsvRoundTrip(rows[i]);
    }
  }

  /** The header of the download: the file name in quotes, with ".csv". */
  function Disposition(name: string): (r: string)
    ensures StartsWith(r, "attachment; filename=\"") && EndsWith(r, ".csv\"")
  {
    "attachment; filename=\"" + name + ".csv\""
  }
}

=== FILE: wrappers.dfy ===
/** Option and Result, the two wrappers every other module uses for absent
    values and for the error paths of the modelled Python code. */
module Wrappers {

  datatype Option<+T> = None | Some(value: T)
  {
    function UnwrapOr(default: T): (r: T)
      ensures Some? ==> r == value
      ensures None? ==> r == default
    {
      match this
      case Some(v) => v
      case None => default
    }
  }

  datatype Result<+R, +E> = Success(value: R) | Failure(error: E)

  /** The values of the present entries, as a set. */
  method Values<T>(xs: seq<Option<T>>) returns (s: set<T>)
    ensures forall x :: x in s <==> exists i :: 0 <= i < |xs| && xs[i] == Some(x)
  {
    s := {};
    var k := 0;
    while k < |xs|
      invariant 0 <= k <= |xs|
      invariant forall x :: x in s <==> exists i :: 0 <= i < k && xs[i] == Some(x)
    {
      if xs[k].Some? {
        s := s + {xs[k].value};
      }
      k := k + 1;
    }
  }
}
